=== FILE: README.md ===
# multiGalaxy tutoring backend: a verified model of its core services

multiGalaxy is an AI tutoring backend. Students work on a shared whiteboard,
speak or type to a tutor, and upload documents. Parents and teachers follow
their progress. This project models the parts of the backend that hold
logic of their own, and proves what they promise.

- **The reliable message queue** (`MessageQueue`) sits on a Redis-style
  store. It has message records, a ready set scored by priority, a delayed
  set scored by due time, a processing hash and a dead-letter set. It covers
  enqueue, promotion of due messages, dequeue, ack, nack with capped
  exponential back-off, dead-lettering and handler dispatch. The store is a
  set of maps owned by the class. A write that fails part-way is a `Fault`
  parameter.
- **The session registry** (`SessionManager`) keeps the sessions' user lists
  and the users' session lists. It also holds the priority given to each
  event type, the state sent to a user who joins, the guards on the
  canvas/chat/cursor/audio handlers, and the audio-stream bookkeeping.
- **Document chunking and search ranking** (`RagClassification`,
  `RagSystem`): paragraph and sentence chunking, keyword classification of
  subjects and chunk types, relevance bands, ranking, and the context-length
  budget.
- **The knowledge base** (`KnowledgeBase`): the subject taxonomy, learning
  paths, search filters, statistics and item add/update/delete.
- **Whiteboard demonstrations** (`Whiteboard`): millisecond timelines of
  drawing actions, the narration synchronised with them, error-correction
  and step-by-step solutions, and the frontend format.
- **Text to speech** (`TextToSpeech`): clamped voice settings, presets, a
  bounded first-in-first-out cache, the fallback audio, and `data:` URLs as
  described in section 3 of RFC 2397.
- **Conversation contexts** (`ReasoningEngine`): creation, the history cap,
  de-duplication of learning objectives, expiry, combining input modalities,
  solution-step extraction, error detection and per-user analytics.
- **Canvas text parsing** (`ComputerVision`): reading an image `data:` URL,
  sectioned parsing of the analysis text, equation lines and object layout.
- **Skill rules** (`SkillAssessment`, `Analytics`): grouping by skill tag,
  proficiency, levels, trend, streak, progress metrics, recommendations,
  reports, parent alerts and the parent dashboard.
- **Audio buffering** (`AudioProcessor`): quality grading, padding frames for
  voice-activity detection, activity levels, buffer gating and transcription
  of a finished utterance.
- **Document bookkeeping** (`DocumentProcessor`): type dispatch, validation
  and the shape of `process_document`'s result, stored file names, per-user
  grouping, and deletion.
- **Account schemas** (`UserSchema`): the password rule and field defaults.

Helper modules: `Wrappers` (Option/Result), `Text` (ASCII case, search,
split/join, strip, decimal rendering), `Ordered` (insertion-ordered
association lists, standing for Python dicts), `Sorting` (stable sort by
key), `Bytes` and `Json`.

## Conventions

Clocks, uuid4 values and other fresh ids are parameters. So are the answers
of outside services: the language model, Google speech and text to speech,
the vector index, embeddings, the voice-activity detector, document text
extraction, and base64 and JSON codecs. An outside call that raises is
passed as `None` or `Err`. Times are integers (seconds, milliseconds or day
numbers, as the source counts them). Scores and rates are exact `real`s:
the thresholds are modelled, not the floating-point arithmetic that feeds
them. Where a service keeps state between calls, a class holds it, and each
method states its whole new state in terms of functions over the old one.
The properties the source promises are then proved about those functions.

## Behaviour of the code as written

The model follows the code where it differs from the documentation or the
tests. Each case below is proved about the model:

- `ack_message` on an id that was never stored still reports success
  (`MessageQueue.MessageQueue.AckMessage`).
- `nack_message` at the retry limit reports success even when moving the
  message to the dead letters fails (`MessageQueue.MessageQueue.NackMessage`).
- Ready-queue ties are broken by the store, not by arrival order
  (`MessageQueue.MessageQueue.PopMax`).
- `_get_session_state` reads the key `queue:{session}` as a list, but the
  queue keeps a sorted set under that key. The read fails, so a joining user
  never receives canvas updates (`SessionManager.ConnectionManager.SessionStateOf`).
- `_calculate_streak` compares each further day with the day `streak` days
  before the previous one. Consecutive study days ending today therefore
  give a streak of two, however many there are
  (`SkillAssessment.ConsecutiveDaysGiveTwo`).
- `create_step_by_step_solution` evaluates a step's `explanation` even when a
  narration is present, so a step without one raises `KeyError`
  (`Whiteboard.MissingKey`).
- `search_knowledge_base` reads `.value` of the subject and grade of every
  item a kept result names. An item updated with a plain string there makes
  that read raise, and the search then returns `[]`
  (`KnowledgeBase.KnowledgeBaseManager.SearchKnowledgeBase`,
  `KnowledgeBase.RaiseReached`).
- `get_context_for_query` builds each source label from the chunk's
  `filename`, which the chunks stored by `add_knowledge_item` do not have.
  A knowledge-base chunk that is taken therefore raises `KeyError`, and the
  empty context is returned with the error `'filename'`
  (`RagSystem.GetContext`, `RagSystem.UnnamedFirstResultFails`).
- `_create_synchronized_text` raises as soon as any action has no text,
  because `tag in action.text or ""` groups as `(tag in action.text) or ""`
  (`Whiteboard.StepMatches`, `Whiteboard.CreateSynchronizedText`).
- In `_generate_demonstration_actions` the clock moves on by each action's
  duration plus its delay. The delay already holds the action's start time,
  so later steps start further apart than the actions last
  (`Whiteboard.GenFoldClock`).
- The open paragraph buffer of `_create_smart_chunks` can grow two characters
  past the chunk size, because the blank line joining two paragraphs is not
  counted (`RagSystem.ParagraphBufferBound`).
- `process_audio_chunk` raises on audio with an odd number of bytes, since
  the bytes cannot be read as 16-bit samples (`AudioProcessor.ProcessChunk`).
- `delete_document` removes files matching `{id}.*`, so the file of a
  document uploaded without an extension is never removed
  (`DocumentProcessor.GlobFindsStoredFile`).
- The id in that pattern is not escaped. The id `*` removes every stored
  file whose name holds a dot (`DocumentProcessor.StarIdDeletesEverySuffixedFile`),
  and an id of `?` characters removes the files of every other document
  whose id has that length (`DocumentProcessor.PatternIdTakesOthers`).
- The queue's Redis client is created with `decode_responses=True`. It
  refuses the payload dict and the `None` fields that `to_dict` writes, so
  `enqueue` always raises and stores nothing
  (`MessageQueue.MessageWriteRaises`, `MessageQueue.EnqueueAsWritten`), and
  the dead-letter write fails the same way
  (`MessageQueue.DeadLetterWriteRaises`). Every value it reads back is text,
  and `from_dict` cannot rebuild `delay_seconds` from text, so no record
  read back decodes: `dequeue` then gives `None` and `nack_message` false
  (`MessageQueue.ReadBackNeverDecodes`). The session manager's
  `_queue_message` therefore always pushes the message onto the store's
  `fallback_queue:{key}` list instead.
- The queue's indexes can disagree with each other. One id enqueued with a
  delay and again without one is both ready and delayed
  (`MessageQueue.DuplicateIdReadyAndDelayed`). A nack of an id that is still
  ready makes it delayed as well (`MessageQueue.NackWhileReady`). A
  dead-letter move whose `delete` fails leaves the id recorded, ready and
  dead-lettered at once (`MessageQueue.DeadLetteredWhileLive`). A `dequeue`
  that fails after its pop leaves a record that no index holds
  (`MessageQueue.LostAfterPop`).
- `update_knowledge_item` applies a request's `subject` or `grade_level` as
  the plain text it arrives as. The later `.value` then raises, so the
  update reports failure after the item has already changed, and the
  statistics fail from then on (`KnowledgeBase.KnowledgeBaseManager.UpdateKnowledgeItem`,
  `KnowledgeBase.PlainSubjectUntyped`, `KnowledgeBase.KnowledgeBaseManager.KnowledgeBaseStats`).
- Every transcription dictionary has entries, so the empty and the failed
  transcriptions are queued and broadcast like real ones
  (`SessionManager.TranscriptionSentWhenPresent`).

## Model

| member | source | states |
|---|---|---|
| MessageQueue.BackoffMonotone | backend/app/services/message_queue.py:229-230 | the retry delay never shrinks as the retry count grows and never exceeds 300 s |
| MessageQueue.BackoffSchedule | backend/app/services/message_queue.py:229-230 | the delay doubles with each retry up to the eighth (at most 256 s), is capped at 300 s from the ninth on, and is at least 2 s after the first retry |
| MessageQueue.NewMessage | backend/app/services/message_queue.py:22-41 | a new message keeps the given id, queue, payload, priority, retry limit and delay; it has not been tried, has no error, and is due `delay_seconds` after its creation |
| MessageQueue.ToDict | backend/app/services/message_queue.py:43-55 | the stored hash has exactly the ten message fields |
| MessageQueue.ToDictFromDict | backend/app/services/message_queue.py:43-71 | `from_dict(to_dict(m))` gives back every field of `m`, including the retry count, due time and last error |
| MessageQueue.RecordRoundTrip | backend/app/services/message_queue.py:43-71 | writing a message over any earlier hash (a merging `hset`) and reading it back gives exactly that message |
| MessageQueue.ExtraFieldIgnored | backend/app/services/message_queue.py:58-71 | fields other than the message's own (the processing stamp, the dead-letter annotations) do not change what a record decodes to |
| MessageQueue.DeadLetterData | backend/app/services/message_queue.py:386-396 | the dead-letter hash holds the message fields plus `moved_to_dlq_at` and `final_error`, and still decodes to the message |
| MessageQueue.MergeOverSameFields | backend/app/services/message_queue.py:128-131 | an `hset` mapping that rewrites every field of the old hash leaves only the new mapping |
| MessageQueue.Encode | backend/app/services/message_queue.py:128-131 | a stored record decodes to its message, is scored by the message's priority, and has a processing stamp exactly when one was set |
| MessageQueue.HsetMessage | backend/app/services/message_queue.py:234-237 | rewriting a record with `to_dict` replaces the message and keeps any processing stamp; over a missing record it writes a fresh one |
| MessageQueue.HsetStamp | backend/app/services/message_queue.py:180-184 | setting `processing_started_at` changes the stamp and nothing else |
| MessageQueue.EncodeDead | backend/app/services/message_queue.py:398 | a stored dead letter decodes to its message |
| MessageQueue.HsetDeadLetter | backend/app/services/message_queue.py:398 | a second dead letter for the same id replaces the first one whole |
| MessageQueue.WireValue | backend/app/services/message_queue.py:128-131 | the store client sends text, integers and timestamps, and refuses a dict or `None` |
| MessageQueue.WireHash | backend/app/services/message_queue.py:128-131 | an `hset` mapping is sent exactly when every value is accepted, and then with the same field names; one refused value fails the whole write |
| MessageQueue.MessageWriteRaises | backend/app/services/message_queue.py:128-131 | the record `to_dict` builds, which holds the payload dict, is never accepted by the store client, so this write always raises |
| MessageQueue.DeadLetterWriteRaises | backend/app/services/message_queue.py:386-398 | the dead-letter record is refused for the same reason, so `_move_to_dlq` fails at its first command |
| MessageQueue.ReadBack | backend/app/services/message_queue.py:84-92 | with `decode_responses=True`, every value `hgetall` returns is text |
| MessageQueue.ReadBackNeverDecodes | backend/app/services/message_queue.py:57-71 | no hash read back from the store decodes to a message, since `delay_seconds` arrives as text and `timedelta` refuses it; so `dequeue` gives `None` and `nack_message` false for any stored record |
| MessageQueue.SetMembers | backend/app/services/message_queue.py:140-143 | replacing the sorted set of one queue leaves every other queue's set unchanged and keeps the index free of empty sets |
| MessageQueue.SetMembersTwice | backend/app/services/message_queue.py:140-143 | replacing one queue's set twice is the same as replacing it once with the second value |
| MessageQueue.TopExists | backend/app/services/message_queue.py:162 | a non-empty sorted set has a member with the highest score, so `BZPOPMAX` always has something to pop |
| MessageQueue.Movable | backend/app/services/message_queue.py:363-381 | the delayed ids that get moved are ones whose record still exists |
| MessageQueue.PromotionMovesDue | backend/app/services/message_queue.py:354-384 | a due delayed message with a record leaves the delayed set and becomes ready, scored by its stored priority; one not yet due, or whose record is gone, stays delayed; other ready entries are unchanged |
| MessageQueue.MovedStep | backend/app/services/message_queue.py:375-381 | moving one more id adds it to the ready set with its stored priority and removes it from the delayed set, so the moves can be done one at a time in any order |
| MessageQueue.Dispose | backend/app/services/message_queue.py:328-352 | a message is acknowledged exactly when a processor is registered and returned a true value; otherwise it is negatively acknowledged, with "No processor registered", "Processor returned False", or "Processing error: " followed by the exception's text |
| MessageQueue.MessageIdFor | backend/app/services/message_queue.py:114 | a given non-empty id is kept; a missing or empty id is replaced by one starting with the queue name and `_` |
| MessageQueue.Retried | backend/app/services/message_queue.py:220-222 | a retried message has one more attempt counted and the error recorded, with the same id, queue and retry limit |
| MessageQueue.MessageQueue.constructor | backend/app/services/message_queue.py:74-79 | a new queue is not connected and has no records, no index entries and no processors |
| MessageQueue.MessageQueue.Initialize | backend/app/services/message_queue.py:81-100 | the client is set even when the connection test fails; the failure is re-raised |
| MessageQueue.MessageQueue.Enqueue | backend/app/services/message_queue.py:102-150 | without a client it raises; otherwise it stores the record and indexes the id in the delayed set (scored by due time) when the delay is positive, or in the ready set (scored by priority) otherwise; a failing store command leaves the writes done before it and raises |
| MessageQueue.MessageQueue.PromoteDelayed | backend/app/services/message_queue.py:354-384 | exactly the due delayed ids that still have a record move to the ready set, scored by their stored priority; nothing else changes |
| MessageQueue.MessageQueue.PopMax | backend/app/services/message_queue.py:162-165 | from a non-empty ready set it removes and returns a member with the highest score; from an empty one it returns nothing and changes nothing |
| MessageQueue.MessageQueue.Dequeue | backend/app/services/message_queue.py:152-190 | without a client nothing changes and the result is `None`; otherwise due messages are promoted, then a highest-priority id is popped and its message returned with the record stamped as processing; an empty ready set, a popped id without a record, or a failing `bzpopmax`, `hgetall` or stamping `hset` gives `None`, and a failure after the pop leaves the id out of the ready set |
| MessageQueue.MessageQueue.MarkProcessing | backend/app/services/message_queue.py:168-190 | a failing `hgetall`, a missing record or a failing stamp gives `None` and changes nothing; otherwise the message is returned and only its processing stamp changes |
| MessageQueue.MessageQueue.AckMessage | backend/app/services/message_queue.py:192-205 | the result is true exactly when there is a client and the delete succeeds, and then the record is gone, even for an id that was never stored |
| MessageQueue.MessageQueue.MoveToDeadLetters | backend/app/services/message_queue.py:386-405 | the dead-letter record, the `dlq` index entry and the deletion of the original each happen exactly when that store command and all earlier ones succeed |
| MessageQueue.MessageQueue.NackMessage | backend/app/services/message_queue.py:207-249 | an unknown id or a missing client gives false and no change; at the retry limit the message is dead-lettered and the nack reports true even if that failed; below it the record is rewritten with the error and a due time `min(2^retries, 300)` s ahead and indexed as delayed |
| MessageQueue.MessageQueue.RegisterProcessor | backend/app/services/message_queue.py:251-254 | a registration replaces any earlier processor for the same queue and leaves the others |
| MessageQueue.MessageQueue.ProcessMessage | backend/app/services/message_queue.py:328-352 | the disposal is the one `Dispose` gives; on acknowledgement the record is deleted exactly when there is a client and the delete succeeds, and nothing else changes; on a negative acknowledgement the state is exactly the one `nack_message` leaves for that reason (`Nacked`) |
| MessageQueue.MessageQueue.QueueStatistics | backend/app/services/message_queue.py:283-302 | empty without a client or when a count fails; otherwise the sizes of the ready, delayed and dead-letter sets, with a total counting ready and delayed messages only |
| MessageQueue.EnqueueAsWritten | backend/app/services/message_queue.py:102-150 | with the store client as configured, `enqueue` always raises and leaves the records and both sets unchanged |
| MessageQueue.DuplicateIdReadyAndDelayed | backend/app/services/message_queue.py:102-150 | enqueuing one explicit id with a delay and again without one leaves it in both the ready and the delayed set |
| MessageQueue.NackWhileReady | backend/app/services/message_queue.py:207-249 | a nack of an id that is still ready indexes it as delayed as well |
| MessageQueue.DeadLetteredWhileLive | backend/app/services/message_queue.py:386-405 | a dead-letter move whose `delete` fails leaves the id recorded, ready and dead-lettered at once |
| MessageQueue.LostAfterPop | backend/app/services/message_queue.py:152-190 | a `dequeue` whose `hgetall` fails after the pop leaves a record whose id is in neither the ready nor the delayed set |
| SessionManager.PriorityFor | backend/app/websocket/manager.py:506-532 | system messages and audio chunks are queued urgent, errors critical, and everything else (a message without a type too) normal; each direction of each case is stated |
| SessionManager.QueuedTypesAreNormal | backend/app/websocket/manager.py:267-295 | canvas updates, chat messages and transcriptions, the only things the manager queues, all get normal priority |
| SessionManager.CanvasUpdates | backend/app/websocket/manager.py:555-561 | the canvas updates among the read entries, in order, skipping unparsable ones; the read fails exactly when a parsed entry is not an object |
| SessionManager.Last | backend/app/websocket/manager.py:569 | `s[-n:]`: at most `n` elements, and exactly the tail of `s` |
| SessionManager.Window | backend/app/websocket/manager.py:552 | `LRANGE 0 50` returns a prefix of at most 51 entries, all of them when the list is shorter |
| SessionManager.StateFor | backend/app/websocket/manager.py:548-574 | the state names the session and holds at most ten canvas updates and nothing else; a successful read is stamped with the clock, and a failed one gives empty lists and no timestamp |
| SessionManager.StateWindow | backend/app/websocket/manager.py:552-570 | of the canvas updates among the first 51 entries exactly the last ten are kept (all of them when there are at most ten), in their order and as a suffix of the updates, alongside the session's users |
| SessionManager.StateIgnoresTail | backend/app/websocket/manager.py:552 | entries after the 51st never reach a joining user |
| SessionManager.FirstIndex | backend/app/websocket/manager.py:245-246 | the position `list.remove` acts on: it holds `x`, and no earlier position does |
| SessionManager.RemoveFirst | backend/app/websocket/manager.py:245-246 | `list.remove(x)` shortens the list by one and removes exactly one occurrence of `x` from its multiset of members |
| SessionManager.RemoveFirstAppended | backend/app/websocket/manager.py:200-201 | removing a user appended to a list that did not hold it gives the list back |
| SessionManager.DistinctOnce | backend/app/websocket/manager.py:200-201 | in a duplicate-free list a member occurs exactly once |
| SessionManager.JoinedMembership | backend/app/websocket/manager.py:197-201 | after a join the user is in the session's list exactly once, lists stay duplicate-free, other sessions are unchanged, and a repeated join changes nothing |
| SessionManager.LeftMembership | backend/app/websocket/manager.py:242-251 | after a leave the user is not in the session; the list is the old one with the user's first occurrence cut out and the others in their order; it is dropped exactly when the user was its last member; a user not in the session, or an unknown session, changes nothing; other sessions are unchanged |
| SessionManager.LeftValid | backend/app/websocket/manager.py:242-251 | leaving keeps every list duplicate-free and non-empty |
| SessionManager.LeftGone | backend/app/websocket/manager.py:242-246 | after a leave the user is no longer in the session |
| SessionManager.LeftMultiset | backend/app/websocket/manager.py:242-246 | a leave removes exactly one occurrence of the user from the session |
| SessionManager.LeftKey | backend/app/websocket/manager.py:248-251 | the session's list remains exactly when it existed and the user was not its only member |
| SessionManager.LeftOthers | backend/app/websocket/manager.py:242-251 | a leave does not touch any other session |
| SessionManager.LeaveUndoesJoin | backend/app/websocket/manager.py:185-251 | leaving a session joined as a new member restores every list as it was |
| SessionManager.LeftAfterAppend | backend/app/websocket/manager.py:242-251 | the user appended last is the one a leave removes, and the list is dropped when it becomes empty |
| SessionManager.UndoExisting | backend/app/websocket/manager.py:185-251 | a join then a leave on a session that had members restores it |
| SessionManager.UndoNew | backend/app/websocket/manager.py:185-251 | a join then a leave on a session that did not exist removes it again |
| SessionManager.Logged | backend/app/websocket/manager.py:534-546 | `HSET session:{s} {u}` sets the user's entry to the record of that user id, action and time, and leaves other users and sessions alone |
| SessionManager.QualityJson | backend/app/websocket/manager.py:386 | the quality dictionary's `quality_level` is "poor" exactly when the grade is poor, which is the test the handler makes |
| SessionManager.TranscriptionJson | backend/app/services/audio_processor.py:334-390 | every transcription dictionary (empty, recognised or failed) has a transcript, a confidence and a word list, and an `error` entry exactly when recognition failed |
| SessionManager.TranscriptionSentWhenPresent | backend/app/websocket/manager.py:393 | `if processing_result['transcription']` is true exactly when a transcription was made, since every transcription dictionary is non-empty: empty and failed transcriptions are broadcast and queued too |
| SessionManager.Suggestions | backend/app/websocket/manager.py:424-437 | each piece of advice is given exactly when its threshold is crossed (volume below -30 dB or above -5 dB, signal-to-noise below 10 dB, clipping above 10 %), and there is none exactly when every measure is within bounds |
| SessionManager.QualitySuggestion | backend/app/websocket/manager.py:424-439 | with no advice the text is "Audio quality is acceptable"; a single piece of advice is the whole text; several are joined with "; " |
| SessionManager.Tagged | backend/app/websocket/manager.py:276-282 | a handler's message carries its type name and its session id |
| SessionManager.ConnectionManager.constructor | backend/app/websocket/manager.py:35-62 | a new manager has no sessions, streams, log entries or sent messages, and uses the given queue |
| SessionManager.ConnectionManager.StateRead | backend/app/websocket/manager.py:552 | the list read of `queue:{session}` never yields an entry, because the message queue keeps a sorted set under that key |
| SessionManager.ConnectionManager.SessionStateOf | backend/app/websocket/manager.py:548-574 | a joining user never receives canvas updates, and gets no active users and no timestamp when the session has ready messages, because the read fails; otherwise the state is stamped with the clock |
| SessionManager.ConnectionManager.StateBody | backend/app/websocket/manager.py:566-574 | the `session_state` payload has a `timestamp` entry exactly when the state has one, holding that time |
| SessionManager.ConnectionManager.JoinSession | backend/app/websocket/manager.py:99-114 | a missing or empty session or user id sends "Missing session_id or user_id" and changes nothing; otherwise the user joins the session, points at it, the join is logged, the others are told and the joining socket receives the state, with the join's time as its timestamp when the state read succeeds |
| SessionManager.ConnectionManager.LeaveSession | backend/app/websocket/manager.py:230-265 | without both ids nothing happens; otherwise the user leaves the list, loses its current session, and the leave is logged and announced to the session |
| SessionManager.ConnectionManager.QueueMessage | backend/app/websocket/manager.py:506-532 | the message is enqueued with the priority its type gives; when enqueueing raises it is pushed onto the front of the store's `fallback_queue:{key}` list instead, unless that push fails too (the list's 24 h expiry is not modelled) |
| SessionManager.ConnectionManager.HandleCanvasUpdate | backend/app/websocket/manager.py:267-295 | outside a session the sender gets "Not in a session" and nothing is queued; inside, the update is queued under the session and sent to everybody else in it |
| SessionManager.ConnectionManager.HandleChatMessage | backend/app/websocket/manager.py:441-468 | like a canvas update, but sent to the whole session including the sender |
| SessionManager.ConnectionManager.HandleCursorUpdate | backend/app/websocket/manager.py:470-493 | dropped silently outside a session, never queued, and sent to everybody else in the session |
| SessionManager.ConnectionManager.StartAudioStream | backend/app/websocket/manager.py:297-334 | outside a session the sender gets an error; inside, the stream is recorded with no chunks (16 kHz mono by default) before the audio set-up is checked, so a stream whose set-up is not ready stays recorded |
| SessionManager.ConnectionManager.StopAudioStream | backend/app/websocket/manager.py:336-352 | the socket's stream is removed; a recorded stream's socket is told how long it ran and how many chunks it processed; an unknown socket gets nothing |
| SessionManager.ConnectionManager.ChunkEmissionsOrder | backend/app/websocket/manager.py:385-418 | quality advice goes first exactly when the grade is poor, the transcription broadcast next exactly when there is a transcription, and the `audio_chunk_processed` acknowledgement with the voice activity and buffer size always comes last |
| SessionManager.ConnectionManager.HandleAudioChunk | backend/app/websocket/manager.py:354-422 | a refused chunk (no session, no stream, no data, or processing raised) only earns an error and changes nothing else; a processed chunk adds exactly one to the stream's count, and a transcription is queued under `{session}:transcription` and sent to the session |
| SessionManager.ConnectionManager.AcceptChunk | backend/app/websocket/manager.py:382-418 | the chunk count rises by one, the emissions are the ones `ChunkEmissions` gives, and only a transcription touches the queue, queued with its whole dictionary under `{session}:transcription` |
| RagClassification.KeywordCount | backend/app/services/rag_system.py:358 | the number of keywords found is at most the number of keywords, and zero exactly when none occurs |
| RagClassification.SubjectScores | backend/app/services/rag_system.py:357-360 | one score per subject, in declaration order |
| RagClassification.FirstMax | backend/app/services/rag_system.py:362-363 | `max` with a key picks an index holding the largest score, and no earlier index holds as much |
| RagClassification.ClassifySubject | backend/app/services/rag_system.py:351-363 | "general" exactly when no keyword of any subject occurs; otherwise a subject with the most matching keywords, the first declared among equals |
| RagClassification.ClassifyChunkType | backend/app/services/rag_system.py:365-379 | a type other than general has one of its indicators in the lower-cased chunk, and no type checked before it does |
| RagClassification.CategorizeRelevance | backend/app/services/rag_system.py:461-472 | a score earns a grade or better exactly when it reaches that grade's threshold (0.6, 0.7, 0.8, 0.9) |
| RagClassification.RelevanceMonotone | backend/app/services/rag_system.py:461-472 | a higher score never earns a lower category |
| RagSystem.SentencePieces | backend/app/services/rag_system.py:430-432 | one piece per sentence |
| RagSystem.PiecesJoin | backend/app/services/rag_system.py:425-432 | putting ". " back on all but the last sentence and concatenating gives the paragraph back |
| RagSystem.SentenceFoldChunks | backend/app/services/rag_system.py:434-439 | the chunks kept are exactly those closed buffers of at least 50 characters, stripped |
| RagSystem.SentenceFoldText | backend/app/services/rag_system.py:434-439 | the closed buffers followed by the open one are the sentences read, in order, with nothing lost |
| RagSystem.SplitLongKeepsText | backend/app/services/rag_system.py:423-444 | a long paragraph is cut into runs of consecutive sentences that together are the paragraph; each run long enough becomes a chunk, in order |
| RagSystem.SentenceFoldStep | backend/app/services/rag_system.py:429-439 | reading one more sentence is one step of the buffer |
| RagSystem.SplitLongParagraph | backend/app/services/rag_system.py:423-444 | the loop computes the chunks the sentence fold defines |
| RagSystem.ParagraphFoldStep | backend/app/services/rag_system.py:395-416 | reading one more paragraph is one step of the buffer |
| RagSystem.ParagraphBufferBound | backend/app/services/rag_system.py:395-416 | the open buffer never has whitespace at its ends and is at most two characters longer than a chunk, because the blank line joining two paragraphs is not counted |
| RagSystem.StepKeepsBuffer | backend/app/services/rag_system.py:395-415 | one paragraph, whichever branch it takes, keeps the open buffer trimmed and within a chunk plus the two-character break |
| RagSystem.ShortParagraphsChunks | backend/app/services/rag_system.py:395-421 | when no paragraph is longer than a chunk, every chunk is a whole buffer of between 50 and 1002 characters |
| RagSystem.FlushBounded | backend/app/services/rag_system.py:401-402 | closing a trimmed buffer within bounds keeps all chunks within bounds |
| RagSystem.SmartChunksBounded | backend/app/services/rag_system.py:381-421 | a text whose paragraphs all fit in a chunk gives chunks of between 50 and 1002 characters |
| RagSystem.CreateSmartChunks | backend/app/services/rag_system.py:381-421 | the loop computes the chunks the paragraph fold defines; a text that fits in one chunk is kept whole when at least 50 characters long and dropped otherwise |
| RagSystem.ChunkIdsDistinct | backend/app/services/rag_system.py:112 | two different chunk indexes give different `{document_id}_chunk_{i}` ids |
| RagSystem.AddDocument | backend/app/services/rag_system.py:78-162 | fails with "No valid chunks could be created from the document" when chunking yields nothing, and with the embedding error when that raises; otherwise one record per chunk, in order, with its id, text and length, the given or classified subject, and the subject's collection used besides `documents` exactly when it exists |
| RagSystem.AddedIdsDistinct | backend/app/services/rag_system.py:112-125 | every chunk of an added document has its own id |
| RagSystem.CollectionsToSearch | backend/app/services/rag_system.py:193-198 | only existing collections are searched |
| RagSystem.Matches | backend/app/services/rag_system.py:220-236 | the hits of one collection are rows it returned whose similarity, one minus the distance, reaches the threshold |
| RagSystem.MatchesComplete | backend/app/services/rag_system.py:220-236 | every row whose similarity reaches the threshold becomes a hit of its collection |
| RagSystem.MatchesFirst | backend/app/services/rag_system.py:220-223 | the first row returned is judged first, and its hit comes before the others |
| RagSystem.MatchesAppend | backend/app/services/rag_system.py:220-236 | the hits keep the order of the rows: those of two runs of rows are the first run's followed by the second's |
| RagSystem.MatchesSnoc | backend/app/services/rag_system.py:220-236 | one more row adds its hit at the end exactly when its similarity reaches the threshold |
| RagSystem.Candidates | backend/app/services/rag_system.py:200-240 | every hit reaches the threshold and comes from a collection searched; a collection whose query raised adds nothing |
| RagSystem.CandidatesComplete | backend/app/services/rag_system.py:200-240 | every qualifying row of every collection that answered is a candidate, with that collection's name |
| RagSystem.ByScore | backend/app/services/rag_system.py:243 | the sort is a permutation of the hits, best score first |
| RagSystem.RankHits | backend/app/services/rag_system.py:243-249 | at most `limit` results, best first, ranked from 1 and categorised by score |
| RagSystem.HitsOf | backend/app/services/rag_system.py:243-249 | the hit of each result, in order |
| RagSystem.RankHitsKeepsBest | backend/app/services/rag_system.py:243-244 | the results and the hits cut off together are the input hits, and no hit cut off scores higher than a result |
| RagSystem.CutSorted | backend/app/services/rag_system.py:243-244 | cutting the best-first hits after the limit splits them into the kept ones and the rest, and no dropped hit outscores a kept one |
| RagSystem.DroppedScoresLower | backend/app/services/rag_system.py:243-244 | a hit the ranking leaves out scores no higher than any result |
| RagSystem.SearchResults | backend/app/services/rag_system.py:164-252 | at most `limit` results, each reaching the threshold and coming from a collection searched; a qualifying row of a collection that answered that is not among the results scores no higher than any of them |
| RagSystem.Parts | backend/app/services/rag_system.py:316 | each result in full becomes its labelled part |
| RagSystem.Sources | backend/app/services/rag_system.py:320-325 | each result taken in full adds its source, in order |
| RagSystem.SubjectsCovered | backend/app/services/rag_system.py:327-328 | a subject is covered exactly when some result taken names it |
| RagSystem.UsedIsPartsLength | backend/app/services/rag_system.py:316-317 | the running length is the length of the labelled parts laid end to end |
| RagSystem.ContentWithinUsed | backend/app/services/rag_system.py:317 | the chunk text alone is never longer than the running length |
| RagSystem.BudgetRespected | backend/app/services/rag_system.py:306-317 | the chunk text of the results taken in full stays within the budget |
| RagSystem.ContextStep | backend/app/services/rag_system.py:316-328 | one more result taken in full adds its chunk and label length, its part, its source and its subject |
| RagSystem.Cut | backend/app/services/rag_system.py:310 | `s[:n]` is the prefix of length `n`, or all of `s` |
| RagSystem.AddTruncated | backend/app/services/rag_system.py:306-313 | after the loop, the overflowing result is added cut down with "..." only when more than 200 characters of budget remain |
| RagSystem.FitsAt | backend/app/services/rag_system.py:301-305 | in a run of results that all fit, each one fitted in the budget left when it was reached |
| RagSystem.StopsAfterFit | backend/app/services/rag_system.py:301-313 | the loop cannot stop inside a run of results that all fit, so it stops in exactly one place |
| RagSystem.FitFrom | backend/app/services/rag_system.py:301-328 | from a prefix that fits, the loop stops at or after it, where the next chunk would overflow the budget |
| RagSystem.FitCount | backend/app/services/rag_system.py:301-328 | the number of results the loop takes in full is the one place where it can stop |
| RagSystem.TakenUnnamedFails | backend/app/services/rag_system.py:311-349 | a result without a `filename` that is taken in full makes the context fail |
| RagSystem.UnnamedFirstResultFails | backend/app/services/rag_system.py:311-349 | a first result that fits and has no `filename`, as every knowledge-base chunk, makes the context fail |
| RagSystem.FinishContext | backend/app/services/rag_system.py:306-349 | after the loop, a cut-down copy is added only when more than 200 characters remain; it fails when that copy's row has no `filename`, and otherwise the parts are joined with blank lines |
| RagSystem.GetContext | backend/app/services/rag_system.py:287-349 | no results give the empty context; a row whose label is built without a `filename` gives the empty context with the error `'filename'`; otherwise results are taken in rank order while their chunk fits, the first that does not is added cut down when room is left, and the context joins the parts with blank lines, with sources and subjects of the full results only |
| KnowledgeBase.MapSubjectToCollection | backend/app/services/knowledge_base.py:292-301 | every subject area maps to a collection of the retrieval system, and only the general area maps to "general" |
| KnowledgeBase.SubjectTaxonomy | backend/app/services/knowledge_base.py:438-444 | college uses the high-school taxonomy; history and the general area have none, so they give an empty one |
| KnowledgeBase.AllTopics | backend/app/services/knowledge_base.py:464-466 | every topic of every category is in the flattened list |
| KnowledgeBase.IndexOf | backend/app/services/knowledge_base.py:471-472 | `list.index` gives the first position holding the value |
| KnowledgeBase.PathAlong | backend/app/services/knowledge_base.py:468-477 | the learning path is never empty and ends at the target; when the current topic comes strictly first it is the slice of the topic list from the current topic to the target's first occurrence; otherwise it is the target alone |
| KnowledgeBase.ClampDifficulty | backend/app/services/knowledge_base.py:251 | the stored difficulty is within 1..10, equal to the given one when that is in range and the nearest bound otherwise |
| KnowledgeBase.ItemIdsDistinct | backend/app/services/knowledge_base.py:242 | items added within the same second at different item counts get different ids |
| KnowledgeBase.Apply | backend/app/services/knowledge_base.py:528-530 | a name the item has no attribute for changes nothing; a known one sets the attribute to the value as given |
| KnowledgeBase.SetAttributes | backend/app/services/knowledge_base.py:527-530 | the `setattr` loop leaves the item with all updates applied in order |
| KnowledgeBase.KnownUpdates | backend/app/services/knowledge_base.py:528-530 | only updates naming an existing attribute are kept |
| KnowledgeBase.UnknownNamesIgnored | backend/app/services/knowledge_base.py:528-530 | applying all updates equals applying just the ones that name an attribute |
| KnowledgeBase.UpdateKeepsLastDifficulty | backend/app/services/knowledge_base.py:528-530 | an update does not clamp: the item ends with the last difficulty given, even outside 1..10 |
| KnowledgeBase.PlainSubjectUntyped | backend/app/services/knowledge_base.py:528-541 | a subject given as a plain value leaves the item without a `.value` to read, so the metadata cannot be built |
| KnowledgeBase.Selected | backend/app/services/knowledge_base.py:340-358 | the filtered results are no more than the input |
| KnowledgeBase.SelectedPass | backend/app/services/knowledge_base.py:343-358 | a result is selected exactly when it is in the input and passes the subject, grade, topic and difficulty filters |
| KnowledgeBase.SelectedPrefix | backend/app/services/knowledge_base.py:340-378 | the selection of a prefix of the results is a prefix of the whole selection, so stopping early keeps the first ones |
| KnowledgeBase.Annotate | backend/app/services/knowledge_base.py:361-373 | annotating raises exactly when the result names a stored item whose subject or grade has no `.value`; otherwise the metadata and score are kept, the named item is attached, and a result naming no stored item is unchanged |
| KnowledgeBase.AnnotateAll | backend/app/services/knowledge_base.py:361-373 | annotating a list raises exactly when one of its results does; otherwise each result is annotated, in order |
| KnowledgeBase.AnnotateAllSnoc | backend/app/services/knowledge_base.py:361-376 | annotating one more result that does not raise appends its annotation |
| KnowledgeBase.RaiseReached | backend/app/services/knowledge_base.py:340-384 | a passing result that raises, met before the limit is reached, is among the results the search annotates, so the search fails |
| KnowledgeBase.RaisesAt | backend/app/services/knowledge_base.py:361-384 | one result that raises makes the annotation of every prefix holding it raise |
| KnowledgeBase.ItemMetadata | backend/app/services/knowledge_base.py:534-544 | the update metadata names the item by its lookup key, even after an update changed the item's own `id`, and carries its title, difficulty and the values of its subject and grade |
| KnowledgeBase.SubjectsOf | backend/app/services/knowledge_base.py:495-497 | the subject of each item, in order |
| KnowledgeBase.GradesOf | backend/app/services/knowledge_base.py:500-502 | the grade level of each item, in order |
| KnowledgeBase.DifficultiesOf | backend/app/services/knowledge_base.py:505-507 | the difficulty of each item, in order |
| KnowledgeBase.KnowledgeBaseManager.constructor | backend/app/services/knowledge_base.py:67-78 | a new manager has no items and has made no calls to the retrieval system |
| KnowledgeBase.KnowledgeBaseManager.AddKnowledgeItem | backend/app/services/knowledge_base.py:222-290 | the item is stored under `kb_{stamp}_{count}` with its difficulty clamped, then indexed in its subject's collection with the unclamped difficulty; when indexing fails the item stays stored and the failure is raised |
| KnowledgeBase.KnowledgeBaseManager.SearchKnowledgeBase | backend/app/services/knowledge_base.py:337-384 | the results that pass the filters are taken in order until `limit` are taken (one when the limit is below one); when one of them names an item whose subject or grade has no `.value` the search gives `[]`, and otherwise each is returned with the item it names |
| KnowledgeBase.FirstRaw | backend/app/services/knowledge_base.py:495-503 | the position of the first plain value, every value before it being an enumeration member, or the end when there is none |
| KnowledgeBase.UntypedHasRaw | backend/app/services/knowledge_base.py:495-503 | an item that is not typed has a plain subject or grade, so one of the two loops meets it |
| KnowledgeBase.StatsErrorSubject | backend/app/services/knowledge_base.py:494-513 | the first plain subject is the value the error names, whatever the grades are |
| KnowledgeBase.StatsErrorGrade | backend/app/services/knowledge_base.py:494-513 | with every subject a member, the first plain grade is the value the error names |
| KnowledgeBase.IntSubjectNamed | backend/app/services/knowledge_base.py:494-513 | a subject updated to a number gives the message naming `int` |
| KnowledgeBase.KnowledgeBaseManager.KnowledgeBaseStats | backend/app/services/knowledge_base.py:483-513 | an item whose subject or grade is not an enumeration member gives the error, whose text names the Python type of the first plain value the loops read (every subject before any grade); otherwise items are counted by subject, grade and difficulty, each tally in first-seen order and adding up to the number of items |
| KnowledgeBase.KnowledgeBaseManager.UpdateKnowledgeItem | backend/app/services/knowledge_base.py:515-558 | an unknown id gives false and no change; otherwise each named attribute the item has is set in order on the stored item and the update time refreshed; the new metadata, which names the item by the key it was looked up under, is sent for indexing and the result is true exactly when the item's subject and grade are still enumeration members, and otherwise the result is false and the item stays changed without being indexed |
| KnowledgeBase.KnowledgeBaseManager.DeleteKnowledgeItem | backend/app/services/knowledge_base.py:560-579 | true exactly when the id is stored; then the item is removed and its document deleted from the retrieval system, otherwise nothing changes |
| Whiteboard.DrawingActionOf | backend/app/services/whiteboard_interaction.py:20-31 | `DrawingAction(value)` gives a member only when its value is the one looked up |
| Whiteboard.AnimationStyleOf | backend/app/services/whiteboard_interaction.py:33-39 | `AnimationStyle(value)` gives a member only when its value is the one looked up |
| Whiteboard.ValuesRoundTrip | backend/app/services/whiteboard_interaction.py:20-39 | looking up a member's value gives that member back, for both enumerations |
| Whiteboard.NewAction | backend/app/services/whiteboard_interaction.py:62-79 | an empty action id is replaced by a generated one and a non-empty one kept; missing metadata becomes `{}`; the other fields are as given |
| Whiteboard.TotalSpanAppend | backend/app/services/whiteboard_interaction.py:199 | the summed duration plus delay of two runs of actions is the sum of their totals |
| Whiteboard.EquationSetup | backend/app/services/whiteboard_interaction.py:254-275 | one heading text, starting at the given time |
| Whiteboard.CoordinateSystem | backend/app/services/whiteboard_interaction.py:277-333 | four actions: two axis lines without text, then the labels "x" and "y" |
| Whiteboard.GeometrySetup | backend/app/services/whiteboard_interaction.py:335-368 | three lines, each from a corner of the triangle to the next so the last closes it, starting 300 ms apart |
| Whiteboard.StepActions | backend/app/services/whiteboard_interaction.py:370-422 | the text "Step {i+1}: step" at y = 150 + 40i, then a highlight exactly when the step has "=", then an arrow exactly when it mentions drawing, plotting or a graph |
| Whiteboard.Setup | backend/app/services/whiteboard_interaction.py:234-243 | an equation setup (clock +1000) when the problem asks to solve, else axes (+2000) for a graph, else a triangle (+1500) for geometry, else nothing |
| Whiteboard.GenFold | backend/app/services/whiteboard_interaction.py:245-250 | every step adds at least one action |
| Whiteboard.GenFoldClock | backend/app/services/whiteboard_interaction.py:245-250 | earlier actions stay as they were, and the clock moves by the summed duration plus delay of the actions the steps added |
| Whiteboard.GenFoldPrefix | backend/app/services/whiteboard_interaction.py:245-250 | the actions of the first steps come first, unchanged |
| Whiteboard.EqualsStepHasUntexted | backend/app/services/whiteboard_interaction.py:395-420 | a step containing "=" puts a highlight, which has no text, among the actions |
| Whiteboard.GenerateDemonstrationActions | backend/app/services/whiteboard_interaction.py:223-252 | the loop produces the setup followed by each step's actions, each step starting where the clock stood after the previous one |
| Whiteboard.MatchingActions | backend/app/services/whiteboard_interaction.py:436 | the actions kept are input actions whose text contains the tag as a substring |
| Whiteboard.MinDelay | backend/app/services/whiteboard_interaction.py:439 | the smallest delay among the actions |
| Whiteboard.MaxEnd | backend/app/services/whiteboard_interaction.py:440 | the latest end (delay plus duration) among the actions |
| Whiteboard.SyncFold | backend/app/services/whiteboard_interaction.py:435-453 | one entry per step |
| Whiteboard.SyncEntryTimes | backend/app/services/whiteboard_interaction.py:435-453 | entry `i` narrates step `i` and spans its labelled actions, or, when none match, the 2000 ms from 500 ms after the previous entry's end (from 0 for the first) |
| Whiteboard.SyncEntryTimesBy | backend/app/services/whiteboard_interaction.py:435-453 | the same timing of every entry whatever text labels a step, so the proof does not depend on how step numbers are written |
| Whiteboard.SyncSnoc | backend/app/services/whiteboard_interaction.py:437-453 | one more step keeps the earlier entries and appends the new step's entry, started from the clock the earlier steps left |
| Whiteboard.SyncLastEnd | backend/app/services/whiteboard_interaction.py:453 | after the steps the clock stands 500 ms past the last entry's end |
| Whiteboard.StepMatches | backend/app/services/whiteboard_interaction.py:436 | `tag in action.text or ""` raises exactly when some action has no text; otherwise the matching actions |
| Whiteboard.CreateSynchronizedText | backend/app/services/whiteboard_interaction.py:424-455 | it raises exactly when there is a step and some action has no text; otherwise the entries of the sync fold |
| Whiteboard.Prefix | backend/app/services/whiteboard_interaction.py:204 | `s[:n]` is the prefix of length `n`, or all of `s` |
| Whiteboard.ErrorCorrectionActions | backend/app/services/whiteboard_interaction.py:485-529 | a highlight, the correction text and an arrow, at delays 0, 400 and 800 ms, all over within 1400 ms |
| Whiteboard.MissingKey | backend/app/services/whiteboard_interaction.py:577-599 | a `KeyError` is raised exactly when some step lacks its equation or its explanation |
| Whiteboard.MissingKeyPrefix | backend/app/services/whiteboard_interaction.py:577-599 | the error names the first missing key of the first incomplete step, the equation before the explanation |
| Whiteboard.WhiteboardService.constructor | backend/app/services/whiteboard_interaction.py:103-109 | a new service stores no demonstrations |
| Whiteboard.WhiteboardService.CreateVisualDemonstration | backend/app/services/whiteboard_interaction.py:160-221 | when building raises, the error demonstration with no actions and duration 0 is returned and nothing stored; otherwise the demonstration, with its total duration the summed span of its actions, is stored under its id |
| Whiteboard.WhiteboardService.GetDemonstration | backend/app/services/whiteboard_interaction.py:620-622 | the stored demonstration with that id, if any |
| Whiteboard.WhiteboardService.ClearDemonstration | backend/app/services/whiteboard_interaction.py:624-629 | true exactly when one was stored, and afterwards none is |
| Whiteboard.ShownStep | backend/app/services/whiteboard_interaction.py:569-605 | one more step adds its equation at 1500 + 2000i, its explanation 400 ms later and its narrated entry from 1500 + 2000i to 2700 + 2000i |
| Whiteboard.WhiteboardService.CreateStepByStepSolution | backend/app/services/whiteboard_interaction.py:531-618 | a step lacking its equation or explanation raises with that key; otherwise the title "Solving: " and the description "Step-by-step solution for " before the equation, 1 + 2n actions and 1 + n entries, the equation at time 0, each step's equation at 1500 + 2000i and its explanation 400 ms later, its entry holding the narration or "Step i+1: " and the explanation, and a total of 1500 + 2000n ms |
| Whiteboard.FrontendRoundTrip | backend/app/services/whiteboard_interaction.py:631-660 | the browser format keeps everything about an action except its dash pattern |
| Whiteboard.ConvertActionsToFrontendFormat | backend/app/services/whiteboard_interaction.py:631-660 | one entry per action, in order, with the same id, type value and coordinates, and each entry converts back |
| TextToSpeech.NewVoiceSettings | backend/app/services/text_to_speech.py:47-62 | the speaking rate ends within [0.25, 4], the pitch within [-20, 20] and the volume gain within [-96, 16]; a value in range is kept and one outside becomes the nearer bound; the other fields are as given |
| TextToSpeech.VoiceSettingsStable | backend/app/services/text_to_speech.py:57-62 | clamping is idempotent: building settings from settings already built changes nothing |
| TextToSpeech.Presets | backend/app/services/text_to_speech.py:96-137 | the five presets have distinct names, among them `tutor_female` |
| TextToSpeech.ChooseSettings | backend/app/services/text_to_speech.py:168-172 | an existing named preset wins over explicit settings; otherwise the explicit settings, and with neither the female tutor voice |
| TextToSpeech.EducationalPreset | backend/app/services/text_to_speech.py:320-331 | the preset picked for any kind of feedback exists, and an unknown kind gets `tutor_female` |
| TextToSpeech.MockAudio | backend/app/services/text_to_speech.py:252 | the stand-in audio is `MOCK_AUDIO_DATA_` followed by the first 100 bytes of the UTF-8 encoded text |
| TextToSpeech.MockAudioShortAscii | backend/app/services/text_to_speech.py:252 | for ASCII text of at most 100 characters the stand-in carries the whole text, one byte per character |
| TextToSpeech.Fallback | backend/app/services/text_to_speech.py:242-265 | the stand-in result counts the text's characters, carries the stand-in audio and uses the settings' format |
| TextToSpeech.Synthesis | backend/app/services/text_to_speech.py:174-194 | the result counts the text's characters and carries the settings used; with no client it is the stand-in; when the cloud call raises it is empty MP3 audio |
| TextToSpeech.CachedValid | backend/app/services/text_to_speech.py:291-301 | caching keeps keys distinct and the size at most 100, and the new result is found under its key |
| TextToSpeech.CachedEvictsOldest | backend/app/services/text_to_speech.py:295-299 | a full cache forgets its first-inserted key and puts the new one last: eviction is first in, first out, whatever was read in between |
| TextToSpeech.SpeechHit | backend/app/services/text_to_speech.py:164-166 | a cache hit returns exactly the stored result and leaves the cache as it was, without synthesis |
| TextToSpeech.SpeechThenHit | backend/app/services/text_to_speech.py:164-182 | after a successful miss with a key, the same request is a hit returning the same result, whatever synthesis would do the second time |
| TextToSpeech.SpeechValid | backend/app/services/text_to_speech.py:143-194 | the cache never holds a key twice nor more than 100 entries |
| TextToSpeech.TextToSpeechService.constructor | backend/app/services/text_to_speech.py:78-141 | a new service has an empty cache |
| TextToSpeech.TextToSpeechService.CacheResult | backend/app/services/text_to_speech.py:291-301 | the cache becomes the one the caching rule defines: the oldest entry evicted when full, then the result stored |
| TextToSpeech.TextToSpeechService.SynthesizeSpeech | backend/app/services/text_to_speech.py:143-194 | the result and the new cache are those the speech rule defines (hit, or chosen settings, synthesis and caching of a keyed miss), so the cache invariant is kept |
| TextToSpeech.TextToSpeechService.SynthesizeEducationalResponse | backend/app/services/text_to_speech.py:303-335 | speech with the feedback's preset and the key `edu_{kind}_{hash}` |
| TextToSpeech.MimeType | backend/app/services/text_to_speech.py:449-455 | a media type never contains the `;` that ends it in the URL |
| TextToSpeech.FormatOfMime | backend/app/services/text_to_speech.py:449-455 | a media type read back names the format it was written for |
| TextToSpeech.AudioUrlRoundTrip | backend/app/services/text_to_speech.py:437-458 | the `data:{mime};base64,{payload}` URL (section 3 of RFC 2397) parses back to the format and the payload unchanged |
| ReasoningEngine.Unexpired | backend/app/services/ai_reasoning_engine.py:870-881 | cleanup keeps a subset of the contexts, in their order |
| ReasoningEngine.UnexpiredAppend | backend/app/services/ai_reasoning_engine.py:875-877 | each context is kept or dropped on its own age alone |
| ReasoningEngine.UnexpiredDistinct | backend/app/services/ai_reasoning_engine.py:870-881 | cleanup never makes a session appear twice |
| ReasoningEngine.UnexpiredKeyed | backend/app/services/ai_reasoning_engine.py:870-881 | cleanup keeps the table well formed: no session twice and every context filed under its own session id |
| ReasoningEngine.GetUnexpired | backend/app/services/ai_reasoning_engine.py:870-881 | after cleanup a session's context is found exactly when it was there and has not expired, unchanged |
| ReasoningEngine.Live | backend/app/services/ai_reasoning_engine.py:876 | a context survives exactly when it has no interaction time or is at most two hours old |
| ReasoningEngine.SummarizeCanvas | backend/app/services/ai_reasoning_engine.py:315-332 | "Empty canvas" exactly when the analysis has no text, equations, handwriting or diagrams |
| ReasoningEngine.DiagramNames | backend/app/services/ai_reasoning_engine.py:329 | one name per diagram |
| ReasoningEngine.JoinFirst | backend/app/services/ai_reasoning_engine.py:313 | a join starts with its first part |
| ReasoningEngine.InputParts | backend/app/services/ai_reasoning_engine.py:293-311 | at most four parts in the order text, speech, canvas, documents; none exactly when there is no input at all |
| ReasoningEngine.CombineInputModalities | backend/app/services/ai_reasoning_engine.py:286-313 | "No input detected" exactly when there is no part; otherwise the parts separated by blank lines |
| ReasoningEngine.PedagogicalStyle | backend/app/services/ai_reasoning_engine.py:411-415 | scaffolding for beginners, otherwise constructivist for science and mathematics, otherwise Socratic |
| ReasoningEngine.RecentHistory | backend/app/services/ai_reasoning_engine.py:431 | the prompt shows the last five history entries, or all when there are fewer |
| ReasoningEngine.StepLines | backend/app/services/ai_reasoning_engine.py:786-791 | every line kept reads as a numbered step or mentions a step |
| ReasoningEngine.Take | backend/app/services/ai_reasoning_engine.py:800 | `xs[:n]` is the prefix of length `n`, or all of `xs` |
| ReasoningEngine.SentenceSteps | backend/app/services/ai_reasoning_engine.py:794-798 | at most five sentence steps |
| ReasoningEngine.ExtractSolutionSteps | backend/app/services/ai_reasoning_engine.py:776-800 | at most five steps: the next steps then the step lines, cut to five; five or more next steps are taken alone; when there are none, the sentences of a text longer than 50 characters, and otherwise nothing |
| ReasoningEngine.DetectCommonErrors | backend/app/services/ai_reasoning_engine.py:616-657 | division by zero is reported, exactly once, when the subject is mathematics and the input mentions dividing by 0 or by zero; nothing else is ever reported |
| ReasoningEngine.EnhanceWithErrorDetection | backend/app/services/ai_reasoning_engine.py:590-614 | detected errors follow the response's own; the feedback becomes a correction exactly when it was one or was a validation with errors found; nothing else changes |
| ReasoningEngine.NewEntries | backend/app/services/ai_reasoning_engine.py:553-571 | a student entry (text preferred over speech) only when there was text or speech, always followed by the tutor's entry |
| ReasoningEngine.Trim | backend/app/services/ai_reasoning_engine.py:585-586 | a history of up to 50 entries is kept; a longer one keeps its last 40 |
| ReasoningEngine.AddObjectivesSpec | backend/app/services/ai_reasoning_engine.py:574-579 | old objectives stay first, every met one is added and nothing else, and no objective is repeated |
| ReasoningEngine.UpdateKeepsHistoryBound | backend/app/services/ai_reasoning_engine.py:544-588 | a history of at most 50 entries stays within 50 after an update and ends with the tutor's entry |
| ReasoningEngine.UserContexts | backend/app/services/ai_reasoning_engine.py:899-902 | only the user's contexts, no more than there are |
| ReasoningEngine.FeedbackTypes | backend/app/services/ai_reasoning_engine.py:921-924 | at most one feedback type per history entry |
| ReasoningEngine.Confidences | backend/app/services/ai_reasoning_engine.py:926-927 | one confidence per tutor entry |
| ReasoningEngine.AllConfidences | backend/app/services/ai_reasoning_engine.py:919-927 | one confidence per tutor entry across the user's contexts |
| ReasoningEngine.GetLearningAnalytics | backend/app/services/ai_reasoning_engine.py:896-937 | the session count is the number of the user's contexts, and a user with none gets zeros and empty lists |
| ReasoningEngine.FeedbackCountsTotal | backend/app/services/ai_reasoning_engine.py:918-937 | every tutor entry is counted once under its feedback type, and there are no more of them than interactions |
| ReasoningEngine.FeedbackWithinInteractions | backend/app/services/ai_reasoning_engine.py:921-936 | tutor entries are no more than all history entries |
| ReasoningEngine.UserContextsComplete | backend/app/services/ai_reasoning_engine.py:899-902 | a context is counted exactly when it is in the table and names the user |
| ReasoningEngine.AiReasoningEngine.constructor | backend/app/services/ai_reasoning_engine.py:123-150 | a new engine has no contexts |
| ReasoningEngine.AiReasoningEngine.CleanupExpiredContexts | backend/app/services/ai_reasoning_engine.py:870-881 | the table becomes exactly its unexpired contexts |
| ReasoningEngine.AiReasoningEngine.GetOrCreateContext | backend/app/services/ai_reasoning_engine.py:256-284 | after cleanup, an existing context is returned (not duplicated) with its interaction time refreshed; otherwise a new general, intermediate context with an empty history is stored under the session |
| ReasoningEngine.AiReasoningEngine.UpdateContext | backend/app/services/ai_reasoning_engine.py:544-588 | the session's stored context is replaced by its updated form |
| ReasoningEngine.AiReasoningEngine.GetSessionContext | backend/app/services/ai_reasoning_engine.py:883-886 | after cleanup, the session's context if any |
| ReasoningEngine.AiReasoningEngine.ClearSessionContext | backend/app/services/ai_reasoning_engine.py:888-894 | true exactly when the session had a context, which is then removed |
| ReasoningEngine.PutKeepsSessionIds | backend/app/services/ai_reasoning_engine.py:282 | storing a context under its own session id keeps every entry filed under its session |
| ReasoningEngine.RemoveKeepsSessionIds | backend/app/services/ai_reasoning_engine.py:890-891 | removing a context keeps every entry filed under its session |
| ComputerVision.CanvasPayload | backend/app/services/computer_vision.py:100-104 | input not starting with `data:image` has no payload; an image URL's payload is the text after its first ',', and one without a ',' raises |
| ComputerVision.ExtractCanvasContent | backend/app/services/computer_vision.py:89-112 | anything but an image URL gives empty bytes |
| ComputerVision.ExtractImageUrl | backend/app/services/computer_vision.py:100-104 | an image URL whose header has no ',' hands its whole payload, later commas included, to the decoder, and its result or error is returned as is |
| ComputerVision.HeaderOf | backend/app/services/computer_vision.py:229-236 | a line opens the text section exactly when it mentions text and content, and otherwise the mathematics, diagram or handwriting section by that precedence; no section exactly when none of the words occurs |
| ComputerVision.ParseLineKeepsContent | backend/app/services/computer_vision.py:227-243 | one line adds at most one entry, and never a header line |
| ComputerVision.ParseKeepsContent | backend/app/services/computer_vision.py:227-243 | header lines are never stored, and there is at most one entry per line |
| ComputerVision.NoHeaderNoContent | backend/app/services/computer_vision.py:226-243 | lines before any header are ignored: text without a header gives the empty analysis with every confidence 0.7 |
| ComputerVision.ParseTextAnalysis | backend/app/services/computer_vision.py:200-245 | the loop computes what the line-by-line parse defines: handwriting keeps the last line, diagram lines become unknown diagrams, other lines are appended in order |
| ComputerVision.SplitLastHasNoSep | backend/app/services/computer_vision.py:287 | the last piece of a split holds no separator |
| ComputerVision.NoMatchInSlice | backend/app/services/computer_vision.py:286-287 | a slice of a text without the arrow does not hold it either |
| ComputerVision.StripIsSlice | backend/app/services/computer_vision.py:283 | stripping takes a slice |
| ComputerVision.EquationOf | backend/app/services/computer_vision.py:282-288 | a kept line has no arrow left: it is the text after the last arrow, or the stripped line when it had none |
| ComputerVision.EquationsOf | backend/app/services/computer_vision.py:281-288 | at most one equation per line, none holding an arrow |
| ComputerVision.RecognizeMathematicalEquations | backend/app/services/computer_vision.py:280-295 | a model error gives no equations; otherwise the equations of the answer's lines, none holding an arrow |
| ComputerVision.DetectObjects | backend/app/services/computer_vision.py:414-464 | an analysis error gives no objects; otherwise the T texts, E equations and D diagrams in that order, T + E + D in all, at y = 30i, 30T + 40i and 35(T + E) + 100i with widths 200, 300 and 400 |
| ComputerVision.AddEquations | backend/app/services/computer_vision.py:443-449 | the earlier objects stay, followed by one object per equation at y = 30T + 40i |
| ComputerVision.AddDiagrams | backend/app/services/computer_vision.py:451-457 | the earlier objects stay, followed by one object per diagram at y = 35(T + E) + 100i |
| SkillAssessment.GroupOfDistinctTags | backend/app/services/skill_assessment.py:94-98 | when no interaction repeats a tag, a skill's group is exactly the interactions tagged with it, in their original order |
| SkillAssessment.OccurrencesIn | backend/app/services/skill_assessment.py:95-98 | an interaction joins a skill's group at least once exactly when the skill is among its tags |
| SkillAssessment.GroupInteractionsBySkill | backend/app/services/skill_assessment.py:87-100 | the groups have distinct skill names, in the order the tags are first seen, one per tag seen, and each holds the interactions carrying that tag, in order, once per occurrence of the tag; missing tags count as none |
| SkillAssessment.AddToGroups | backend/app/services/skill_assessment.py:95-98 | adding one interaction keeps the grouping exact: it joins the group of each of its tags, opening a new last group for a tag not seen before |
| SkillAssessment.AddTagStep | backend/app/services/skill_assessment.py:96-98 | one pass of the inner loop (open the group if missing, then append) keeps the names distinct and in first-seen order, and gives the skill one more copy of the interaction, every other group unchanged |
| SkillAssessment.Clamp01 | backend/app/services/skill_assessment.py:183 | the clamp lands in [0, 1] and leaves a value already there unchanged |
| SkillAssessment.CalculateProficiency | backend/app/services/skill_assessment.py:144-183 | the proficiency lies in [0, 1]; it is 0.0 for an empty list or zero total weight, otherwise the clamped weighted average of the success rates (a missing rate counting 0), which is `ProficiencyOf` |
| SkillAssessment.WeightedScoreBounded | backend/app/services/skill_assessment.py:158-183 | with rates in [0, 1] and positive weights the weighted score never exceeds the total weight, so the clamp never changes the average |
| SkillAssessment.DetermineSkillLevel | backend/app/services/skill_assessment.py:221-240 | each level holds exactly on its band: mastery from 0.9, advanced from 0.75, proficient from 0.6, developing from 0.4, beginner below |
| SkillAssessment.LevelMonotone | backend/app/services/skill_assessment.py:221-240 | a higher proficiency never gives a lower level |
| SkillAssessment.CalculateTrend | backend/app/services/skill_assessment.py:242-275 | the trend is insufficient data exactly when there are fewer than six interactions |
| SkillAssessment.SumOfConstant | backend/app/services/skill_assessment.py:267-268 | a sum of equal scores is their count times the score |
| SkillAssessment.AverageOfConstant | backend/app/services/skill_assessment.py:267-268 | the average of equal scores is that score |
| SkillAssessment.SortedScores | backend/app/services/skill_assessment.py:256-257 | sorting by timestamp keeps every interaction's score |
| SkillAssessment.ConstantScoreIsStable | backend/app/services/skill_assessment.py:242-275 | six or more interactions with the same score give a stable trend |
| SkillAssessment.AssessSingleSkill | backend/app/services/skill_assessment.py:102-142 | no assessment below five interactions; otherwise one for that skill whose evidence count is the number of interactions, whose proficiency is what `_calculate_proficiency` computes, whose level is the one `_determine_skill_level` gives for that proficiency and whose trend is that of the interactions; it is the assessment `Assess` specifies |
| SkillAssessment.AssessUserSkills | backend/app/services/skill_assessment.py:38-85 | the result is a dictionary in insertion order: its skills are the tags in first-seen order that have five or more interactions, and each maps to the assessment of its whole group; a skill is present exactly when its group is large enough |
| SkillAssessment.AssessGroups | backend/app/services/skill_assessment.py:77-85 | the loop collects exactly the assessments `AssessAll` gives, group by group in the groups' order |
| SkillAssessment.AssessAllKeys | backend/app/services/skill_assessment.py:77-83 | the assessed skills are the grouped skills with at least five interactions, in the groups' order |
| SkillAssessment.AssessAllGet | backend/app/services/skill_assessment.py:77-83 | looking a skill up among the assessments gives the assessment of its group, and nothing for a skill that was not grouped |
| SkillAssessment.GetAt | backend/app/services/skill_assessment.py:78 | with distinct keys, looking up the key at a position finds the value at that position |
| SkillAssessment.CalculateProgressMetrics | backend/app/services/skill_assessment.py:360-440 | no interactions give the empty metrics; otherwise between one and as many sessions as interactions, an average duration that is the floor of total time over sessions, at most one solved problem per interaction, and exactly the subjects that occur |
| SkillAssessment.SessionIdsBounds | backend/app/services/skill_assessment.py:401 | a non-empty list has between one and as many distinct sessions as interactions |
| SkillAssessment.ProblemsSolvedBound | backend/app/services/skill_assessment.py:402 | no more problems solved than interactions |
| SkillAssessment.SuccessRateBounded | backend/app/services/skill_assessment.py:404-405 | with rates in [0, 1] the reported success rate is in [0, 1] |
| SkillAssessment.RatesBounded | backend/app/services/skill_assessment.py:404 | the present success rates keep the bounds of the inputs |
| SkillAssessment.SumBounded | backend/app/services/skill_assessment.py:405 | a sum of values in [0, 1] lies between zero and their count |
| SkillAssessment.CalculateStreak | backend/app/services/skill_assessment.py:442-480 | the loop computes the streak function of the study days; never more than the number of days, and zero when there are no days or the newest is not today |
| SkillAssessment.ConsecutiveDaysGiveTwo | backend/app/services/skill_assessment.py:472-478 | as written, any run of two or more consecutive study days ending today gives a streak of exactly two |
| Analytics.SliceTo | backend/app/services/analytics_service.py:231 | a prefix cut follows Python slicing: a non-negative limit keeps at most that many items, a negative one drops that many from the end |
| Analytics.Weak | backend/app/services/analytics_service.py:172-175 | the weak skills are skills of the list, each below 0.6 proficiency, no more of them than there are skills |
| Analytics.WeakAppend | backend/app/services/analytics_service.py:172-175 | the weak skills of a concatenation are those of each part in turn, so the filter keeps the input order |
| Analytics.WeakSnoc | backend/app/services/analytics_service.py:172-175 | one more skill is kept, last, exactly when its proficiency is below 0.6 |
| Analytics.WeakComplete | backend/app/services/analytics_service.py:172-175 | every skill below 0.6 proficiency is among the weak skills |
| Analytics.FocusItems | backend/app/services/analytics_service.py:178-191 | one skill-focus recommendation per weak skill, in order |
| Analytics.Max | backend/app/services/analytics_service.py:195 | the peak hour is one of the preferred hours and no preferred hour is later |
| Analytics.RecommendationsFocus | backend/app/services/analytics_service.py:171-191 | the recommendations open with one skill-focus item for each of the first three weak skills, each targeting its skill, with priority 1 exactly below 0.4; there are never more than five |
| Analytics.RecommendationsStudyTime | backend/app/services/analytics_service.py:193-205 | a study-time recommendation appears exactly when preferred hours are known, and it names the largest of them |
| Analytics.RecommendationsDifficulty | backend/app/services/analytics_service.py:207-229 | a difficulty recommendation appears exactly when the success rate is above 0.9 or below 0.5, with priority 4 exactly in the first case |
| Analytics.GenerateRecommendations | backend/app/services/analytics_service.py:145-231 | no analytics give no recommendations; otherwise the candidates cut to the limit, never more than a non-negative limit |
| Analytics.ReportPeriodDays | backend/app/services/analytics_service.py:252-258 | a monthly report covers 30 days and any other report type 7 |
| Analytics.TopSkillsAreBest | backend/app/services/analytics_service.py:284-288 | the top skills are the best three (or all, when fewer) of the skills, best first, and none of the other skills is better |
| Analytics.WeakestSkillsAreWeakest | backend/app/services/analytics_service.py:295-298 | the areas for improvement are the weakest three (or all) of the skills, weakest first, and none of the others is weaker |
| Analytics.SummarizeReport | backend/app/services/analytics_service.py:270-302 | without analytics no top skills or areas for improvement; with them, each top skill's name and level and each weak skill's name and proficiency, in rank order; subjects covered count the subjects studied and the study time is the total time |
| Analytics.SkillBucketsPartition | backend/app/services/analytics_service.py:380-394 | mastered, developing and needs-attention counts add up to the number of skills |
| Analytics.AlertConditions | backend/app/services/analytics_service.py:539-577 | a performance concern is raised exactly for a success rate below 0.4 over more than three sessions, inactivity exactly for no sessions, an achievement exactly for a streak of seven days or more; each at most once and never more than two alerts |
| Analytics.GetParentDashboardData | backend/app/services/analytics_service.py:330-414 | one entry per child in order; the totals add up the children's time and sessions, the active count counts children with a session, and the average success rate is the mean of the positive rates (0.0 when there are none) |
| Analytics.PositiveRatesBounded | backend/app/services/analytics_service.py:402-403 | the collected rates are positive and at most 1, and there are none exactly when no child has a positive rate |
| Analytics.AverageSuccessBounds | backend/app/services/analytics_service.py:409-412 | the dashboard's average success rate lies in [0, 1], and is 0 exactly when no child has a positive rate |
| Analytics.ActiveChildrenBound | backend/app/services/analytics_service.py:405-406 | no more active children than children, and none exactly when no child completed a session |
| Analytics.HourOf | backend/app/services/analytics_service.py:464 | the hour of a timestamp lies in 0..23 |
| Analytics.Hours | backend/app/services/analytics_service.py:463-465 | one hour per interaction, in order |
| Analytics.Kinds | backend/app/services/analytics_service.py:491-493 | one interaction type per interaction, in order |
| Analytics.Shares | backend/app/services/analytics_service.py:495-499 | each interaction type's share is its count over the number of interactions |
| Analytics.AnalyzeLearningPatterns | backend/app/services/analytics_service.py:431-508 | the loops compute the learning patterns of the interactions: the defaults when there are none, otherwise the counts, durations and shares that define them |
| Analytics.SessionDurations | backend/app/services/analytics_service.py:474-478 | the loop's per-session totals are exactly the session durations of the interactions |
| Analytics.DurationsShape | backend/app/services/analytics_service.py:474-483 | one duration per distinct session, keyed by that session, adding up to the total time spent |
| Analytics.DurationsSum | backend/app/services/analytics_service.py:481 | the per-session durations add up to the total time spent |
| Analytics.DurationsKeys | backend/app/services/analytics_service.py:474-478 | the durations have distinct keys, exactly the sessions that occur |
| Analytics.AttentionSpanIsAverageSessionDuration | backend/app/services/analytics_service.py:480-483 | the attention span equals the average session duration that the progress metrics report for the same interactions |
| Analytics.PreferredTimesAreMostFrequent | backend/app/services/analytics_service.py:461-467 | the preferred hours are three (or all, when fewer) of the hours seen, and no other hour occurs more often than any of them |
| Analytics.MostFrequentFirst | backend/app/services/analytics_service.py:467 | the first three hour counts of the sort by descending count are three (or all) of the counts, and no count left out is larger |
| AudioProcessor.VolumeScore | backend/app/services/audio_processor.py:205-211 | the volume score lies in [0, 1]: full marks from -25 to -5 dB, nothing below -40 or above 0 dB |
| AudioProcessor.SnrScore | backend/app/services/audio_processor.py:213-214 | the signal-to-noise score lies in [0, 1]: nothing at 5 dB or less, full marks from 25 dB |
| AudioProcessor.ClippingScore | backend/app/services/audio_processor.py:216-217 | the clipping score is never negative, at most 1 for a real ratio, and nothing once a tenth of the samples clip |
| AudioProcessor.QualityScore | backend/app/services/audio_processor.py:203-220 | the weighted quality score is never negative and at most 1 for a real clipping ratio |
| AudioProcessor.QualityScoreExtremes | backend/app/services/audio_processor.py:203-220 | comfortable volume, 25 dB of headroom over the noise and no clipping score exactly 1; audio below -40 dB, with no usable signal and a tenth clipped, scores exactly 0 |
| AudioProcessor.QualityLevel | backend/app/services/audio_processor.py:222-231 | each grade holds exactly on its band: excellent from 0.8, good from 0.6, fair from 0.4, poor below |
| AudioProcessor.QualityLevelMonotone | backend/app/services/audio_processor.py:222-231 | a higher score never earns a lower grade |
| AudioProcessor.AssessAudioQuality | backend/app/services/audio_processor.py:149-201 | the grade is that of the score and the audio is acceptable exactly above 0.5; a failed analysis reports -60 dB, a zero score, a poor grade and unacceptable audio |
| AudioProcessor.VadFrame | backend/app/services/audio_processor.py:244-250 | the detector sees exactly one 30 ms frame: the chunk's first bytes, then zero padding |
| AudioProcessor.Sample | backend/app/services/audio_processor.py:256 | a 16-bit sample lies in -32768..32767 |
| AudioProcessor.Samples | backend/app/services/audio_processor.py:256 | one sample per byte pair, read little-endian in order |
| AudioProcessor.SumSquares | backend/app/services/audio_processor.py:257 | a sum of squares is never negative |
| AudioProcessor.Energy | backend/app/services/audio_processor.py:257 | a frame's mean squared amplitude is never negative |
| AudioProcessor.SumSquaresOfZeros | backend/app/services/audio_processor.py:257 | zero samples have no squared sum |
| AudioProcessor.SilenceHasNoEnergy | backend/app/services/audio_processor.py:256-257 | an all-zero frame carries no energy |
| AudioProcessor.ActivityLevel | backend/app/services/audio_processor.py:277-287 | silent exactly without speech; with speech, high above 1000000, medium above 100000 and low otherwise |
| AudioProcessor.ActivityLevelMonotone | backend/app/services/audio_processor.py:277-287 | among speech frames, more energy never gives a lower level |
| AudioProcessor.DetectVoiceActivity | backend/app/services/audio_processor.py:233-275 | speech is reported exactly when the detector accepts the padded frame; a detector error reports silence with no energy and no confidence; otherwise the energy is that of the frame and the confidence 0.8 for speech, 0.2 without |
| AudioProcessor.RunnersUp | backend/app/services/audio_processor.py:376-381 | the alternatives reported are the second and third recognised ones, as many as exist |
| AudioProcessor.Transcribed | backend/app/services/audio_processor.py:342-389 | no results give the empty transcript; a first result without alternatives is an error; otherwise the best alternative's transcript, confidence and words (none when absent) |
| AudioProcessor.ProcessTranscriptionResponse | backend/app/services/audio_processor.py:342-389 | the method computes the transcription of the response |
| AudioProcessor.Combined | backend/app/services/audio_processor.py:301 | the joined audio is non-empty when the first buffered chunk is |
| AudioProcessor.Segment | backend/app/services/audio_processor.py:289-340 | nothing happens without buffered audio or a recogniser; otherwise the buffer is always emptied, a transcription comes only from at least half a second of audio, and a recogniser error is reported as a failed transcription carrying its message |
| AudioProcessor.MinimumSegmentBytes | backend/app/services/audio_processor.py:304-305 | half a second of 16 kHz 16-bit audio is exactly 16000 bytes |
| AudioProcessor.ProcessChunk | backend/app/services/audio_processor.py:90-147 | empty or odd-length audio raises and leaves the buffer alone; a speech chunk is appended with its quality and no transcription; a pause hands the buffer to the segment step; the reported buffer size is the new buffer's |
| AudioProcessor.ProcessChunkKeepsSpeech | backend/app/services/audio_processor.py:121-134 | the buffer only ever holds chunks the detector called speech, and a pause with a recogniser empties it |
| AudioProcessor.AudioProcessorService.constructor | backend/app/services/audio_processor.py:65-88 | a new processor keeps its detector and recogniser and starts with an empty buffer |
| AudioProcessor.AudioProcessorService.ProcessSpeechSegment | backend/app/services/audio_processor.py:289-340 | the transcription and the new buffer are those of the segment step on the old buffer |
| AudioProcessor.AudioProcessorService.ProcessAudioChunk | backend/app/services/audio_processor.py:90-147 | the report and the new buffer are those of chunk processing on the old buffer, and the buffer stays speech-only |
| AudioProcessor.AudioProcessorService.ValidateAudioSetup | backend/app/services/audio_processor.py:391-426 | ready exactly when a recogniser exists and the detector accepts a silent frame, which is exactly when no error is listed; one error per missing part |
| DocumentProcessor.ExtractorFor | backend/app/services/document_processor.py:34-42 | a MIME type has an extractor exactly when it is one of the supported types, and the three image types share the image extractor |
| DocumentProcessor.SevenSupportedTypes | backend/app/services/document_processor.py:34-42 | exactly seven distinct MIME types are accepted |
| DocumentProcessor.LastIndexOf | backend/app/services/document_processor.py:222 | the position found holds the character and none after it does; no position means the character does not occur |
| DocumentProcessor.BaseName | backend/app/services/document_processor.py:222 | a path's name is its tail after the last '/', and holds no '/' |
| DocumentProcessor.Suffix | backend/app/services/document_processor.py:222 | the suffix is a tail of the name that is empty or a dot followed by at least one character, with no further dot or '/' |
| DocumentProcessor.StoredName | backend/app/services/document_processor.py:221-223 | the stored name is the document id followed by the original suffix |
| DocumentProcessor.StoredPath | backend/app/services/document_processor.py:218-230 | the stored path is the stored name under `uploads/` |
| DocumentProcessor.LiteralGlob | backend/app/services/document_processor.py:307 | for an id without `*`, `?` or `[`, the glob `{id}.*` yields exactly the names that start with the id and a dot |
| DocumentProcessor.GlobFindsStoredFile | backend/app/services/document_processor.py:305-308 | for an id without pattern characters, deletion's glob finds the stored file exactly when the original name had a suffix, so a file stored without one is never removed |
| DocumentProcessor.NameWithSuffix | backend/app/services/document_processor.py:305-308 | for an id without pattern characters, the id followed by a suffix is yielded by the deletion glob exactly when the suffix is not empty |
| DocumentProcessor.GlobSparesOtherDocuments | backend/app/services/document_processor.py:305-308 | with ids of one length and an id without pattern characters, deleting one document never matches another document's file |
| DocumentProcessor.StarDotStar | backend/app/services/document_processor.py:307 | the pattern `*.*` matches exactly the names that contain a dot |
| DocumentProcessor.StarIdDeletesEverySuffixedFile | backend/app/services/document_processor.py:305-308 | deleting the id `*` removes every stored file whose name contains a dot, whoever uploaded it |
| DocumentProcessor.PatternIdTakesOthers | backend/app/services/document_processor.py:305-308 | an id made of as many `?` as another id has characters removes that other document's file whenever it has a suffix |
| DocumentProcessor.NamePrefix | backend/app/services/document_processor.py:307 | for an id without pattern characters, a name the glob matches is longer than the id and begins with it |
| DocumentProcessor.WithoutDocument | backend/app/services/document_processor.py:306-308 | removal keeps exactly the files whose names the `{id}.*` pattern does not match (with `*`, `?` and `[...]` read as glob reads them), with their contents unchanged |
| DocumentProcessor.Processed | backend/app/services/document_processor.py:44-109 | success exactly when the type is supported, extraction succeeds with some non-blank text, indexing succeeds and the file is written; every failure is reported with the "Failed to process document: " prefix, naming an unsupported type or the missing text; a result carries the id, the text, the stored path, status "processed" and the index's chunk count, subject and collections, defaulting to 0, "general" and none |
| DocumentProcessor.IndexOfDocument | backend/app/services/document_processor.py:280 | the position found lists the id, and no position means no summary does |
| DocumentProcessor.FirstWith | backend/app/services/document_processor.py:280-287 | the position found is of a result that carries the id |
| DocumentProcessor.CountSnoc | backend/app/services/document_processor.py:277-289 | one more result adds one to its document's count and does not move the first result of a document already seen |
| DocumentProcessor.RecordUnnamed | backend/app/services/document_processor.py:279-288 | a result without a document id changes nothing |
| DocumentProcessor.RecordSeen | backend/app/services/document_processor.py:288-289 | a further result of a listed document adds one to its count and keeps its first metadata |
| DocumentProcessor.RecordNew | backend/app/services/document_processor.py:280-289 | the first result of a new document opens its summary at the end, with a count of one |
| DocumentProcessor.RecordNewCovers | backend/app/services/document_processor.py:280-287 | after a new document is opened, every document id among the results is listed |
| DocumentProcessor.RecordNewDescribed | backend/app/services/document_processor.py:281-287 | after a new document is opened, each summary still carries its first result's metadata, in order of first appearance |
| DocumentProcessor.RecordGrouped | backend/app/services/document_processor.py:277-289 | one step of the loop keeps the grouping exact |
| DocumentProcessor.UserDocumentsGrouped | backend/app/services/document_processor.py:264-291 | one summary per distinct document id, in order of first appearance, carrying the first result's file name, content type and subject (or their defaults) and the number of results with that id |
| DocumentProcessor.DocumentProcessorService.constructor | backend/app/services/document_processor.py:30-42 | a new processor starts with no stored files |
| DocumentProcessor.DocumentProcessorService.ProcessDocument | backend/app/services/document_processor.py:44-109 | the result is that of processing the upload, and the content is stored under its stored path exactly when processing succeeds |
| DocumentProcessor.DocumentProcessorService.GetUserDocuments | backend/app/services/document_processor.py:264-295 | a failed search gives no documents; otherwise the loop builds exactly the grouped summaries of the results |
| DocumentProcessor.DocumentProcessorService.DeleteDocument | backend/app/services/document_processor.py:297-316 | the answer is the index's, whatever happens to the files; every file the `{id}.*` glob matches, pattern characters in the id included and whatever the user, is removed unless removal fails |
| UserSchema.ValidatePassword | backend/app/schemas/user.py:17-28 | a password is accepted, unchanged, exactly when it has at least eight characters, an uppercase letter, a lowercase letter and a digit; otherwise the error names the first failing check in that order |
| UserSchema.ErrorNamesFirstFailure | backend/app/schemas/user.py:20-27 | each error message occurs exactly when its check is the first to fail |
| UserSchema.AcceptedHasThreeKinds | backend/app/schemas/user.py:17-28 | an accepted password holds at least three different characters |
| UserSchema.SingleCaseRefused | backend/app/schemas/user.py:22-23 | a password of lowercase letters and digits only is refused |
| UserSchema.MakeUserBase | backend/app/schemas/user.py:7-11 | the fields are those given and the role defaults to student |
| UserSchema.MakeUserCreate | backend/app/schemas/user.py:14-28 | sign-up is built exactly when the password passes, with that password and the base fields; otherwise the validator's message |
| UserSchema.MakePasswordReset | backend/app/schemas/user.py:69-80 | a reset is built exactly when the new password passes, keeping the token; otherwise the validator's message |
| UserSchema.ResetMatchesSignUp | backend/app/schemas/user.py:69-80 | a reset accepts exactly the passwords sign-up accepts, with the same message when refused |
| UserSchema.MakeUserUpdate | backend/app/schemas/user.py:31-34 | each field is present exactly when the request supplied it, so an empty request leaves them all `None` |

## Left out

- Redis connection handling (`initialize`'s connection test aside), `cleanup`, key expiry (TTL) and the blocking timeout of `bzpopmax`: dequeue is one atomic, non-blocking step.
- The queue's worker tasks (`start_workers`, `stop_workers`, `_worker`) and any interleaving of concurrent callers: this is asyncio scheduling, not logic.
- Socket.IO transport in the session manager (`connect`, `disconnect`, `authenticate`, `send_ai_response`, rooms, `emit` delivery, `save_session`/`get_session`, the ASGI app): users and sessions are parameters, and emissions are recorded as values.
- The language model, Google speech-to-text and text-to-speech, the vector index, sentence embeddings and similarity, PDF/Word/PowerPoint/OCR text extraction, and the base64 and JSON libraries: their answers are parameters.
- The floating-point signal analysis of `_assess_audio_quality` (RMS, FFT, noise floor): the measured volume, signal-to-noise ratio and clipping ratio are inputs, and only the scoring and grading are modelled.
- The time-decay and difficulty weights of `_calculate_proficiency`: the weight of each interaction is a parameter.
- `_calculate_confidence` and `_calculate_improvement_rate`: they are floating-point arithmetic; the improvement rate is passed to the progress metrics.
- `update_skill_assessment` and every database query of the skill and analytics services: the selected interactions, assessments and progress are inputs.
- `get_user_analytics`, `record_interaction` and `_get_recent_activity`: database reads and writes.
- The text-to-speech duration estimate, SSML generation, the list of available voices, `validate_tts_setup`, and Google's gender and encoding enumerations.
- In the knowledge base, `get_curriculum_aligned_content`, the curriculum standards, and the loading and saving of `knowledge_items.json` (`_load_knowledge_items`, `_save_knowledge_items`): the items live in memory, and the calls made to the retrieval system are recorded.
- In the whiteboard, `create_annotation_action`, `distance_to`, and the template and symbol tables.
- In the retrieval system, `delete_document`, the collection statistics and `update_document_metadata`: these are calls into the vector index.
- In the reasoning engine, `process_multimodal_input` and its prompt and response plumbing, `_parse_ai_response`, and the visualization helpers.
- In computer vision, `analyze_canvas_image`, `recognize_handwriting`, `analyze_diagrams` and `process_canvas_update`: these call the vision model; only the parsing of its answers is modelled.
- `search_documents` and `get_document_context` in the document processor: they only forward to the retrieval system.
- In the document processor, path normalisation beyond the last `/` and `.`, and a removal that fails after some files were already removed: a failed removal leaves every file in place.
- `EmailStr` validation in the account schemas.
- UserSchema.ValidatePassword: `isupper`, `islower` and `isdigit` are ASCII-only here, whereas Python also accepts other Unicode letters and digits.
- Text.Lower, Text.Strip and Text.IsSpace: they know ASCII only. Python's `lower` also folds other Unicode letters, and its `strip` also removes `\x1c`-`\x1f`, `\x85`, `\xa0`, U+1680, U+2000-U+200A, U+2028, U+2029, U+202F, U+205F and U+3000.
- RagSystem.ByScore and RagSystem.RankHits: the order among hits of equal score is not stated. Python's sort is stable, so such hits keep their input order; the contracts promise only a descending order that is a permutation of the hits.
- In the document processor, a document id holding `/` (the glob would then look into sub-directories) is not modelled. Neither are the finer points of character classes beyond ranges and a leading `!` (how `-` and `\` are read inside a class has changed between Python versions).
- RecordRoundTrip (`MessageQueue.RecordRoundTrip`): it states the store the queue is written for, one that keeps each field's value as written. With `decode_responses=True` the client refuses the payload dict and `None` values (`MessageQueue.MessageWriteRaises`), and what it reads back is text that never decodes (`MessageQueue.ReadBackNeverDecodes`).
- Encode (`MessageQueue.Encode`): the stored record holds typed values, as the queue intends; the text the configured client would return is not what is encoded (`MessageQueue.ReadBack`).
- HsetMessage (`MessageQueue.HsetMessage`): models a merging `hset` that the store accepts; with the configured client this write raises (`MessageQueue.MessageWriteRaises`).
- EncodeDead (`MessageQueue.EncodeDead`): the dead-letter record is stored with typed values, as intended; the configured client refuses it (`MessageQueue.DeadLetterWriteRaises`).
- HsetDeadLetter (`MessageQueue.HsetDeadLetter`): models a dead-letter write the store accepts; with the configured client it raises (`MessageQueue.DeadLetterWriteRaises`).
- Enqueue (`MessageQueue.MessageQueue.Enqueue`): its contract covers a store that accepts the record, with store failures as the `fault` parameter. With the configured client the first write always raises and nothing changes (`MessageQueue.EnqueueAsWritten`).
- Dequeue (`MessageQueue.MessageQueue.Dequeue`): the popped record is decoded as the intended typed record. Read back through the configured client it never decodes (`MessageQueue.ReadBackNeverDecodes`), so there `dequeue` returns `None` after popping the id.
- PromoteDelayed (`MessageQueue.MessageQueue.PromoteDelayed`): a store command that fails part-way through the loop is not modelled. In the source the moves already made stay, and a failing `zrem` after its `zadd` leaves the id in both sets.
- MoveToDeadLetters (`MessageQueue.MessageQueue.MoveToDeadLetters`): its contract covers a store that accepts the dead-letter record. With the configured client the first write raises, so nothing is moved (`MessageQueue.DeadLetterWriteRaises`).
- NackMessage (`MessageQueue.MessageQueue.NackMessage`): the record is read back as the intended typed record. Through the configured client it never decodes (`MessageQueue.ReadBackNeverDecodes`), so there every nack of a stored id returns false.
- AudioProcessor.Energy: the mean square of the samples is exact here, whereas the source sums their squares in 32-bit floating point, which rounds on long frames; activity levels near a threshold may therefore differ.
- Sorting.SortBy: the order among elements of equal key is not stated. Python's `sorted` is stable, so such elements keep their input order; the contract promises only an ordered permutation.

=== FILE: analytics.dfy ===
/** Learning analytics for learners and their parents
    (backend/app/services/analytics_service.py): recommendations drawn from
    the skill assessments and the learning patterns, progress reports,
    the parent dashboard with its alerts, and the analysis of learning
    patterns.

    The database is replaced by the records a query returns: the
    analytics of a learner, the interactions of the last thirty days, the
    progress metrics of each child. */
module Analytics {
  import opened Wrappers
  import opened Text
  import opened Ordered
  import opened Sorting
  import opened SkillAssessment

  /** `LearningPatterns` */
  datatype LearningPatterns = LearningPatterns(preferredTimes: seq<int>, sessionFrequency: real, attentionSpan: int,
                                               difficultyPreference: real,
                                               interactionPreferences: seq<(InteractionType, real)>,
                                               commonMistakes: seq<string>)

  /** The patterns of a learner without interactions. */
  const DEFAULT_PATTERNS := LearningPatterns([], 0.0, 0, 0.5, [], [])

  /** `LearningAnalyticsResponse`, without the user id and the update time. */
  datatype UserAnalytics = UserAnalytics(subject: string, skills: seq<Assessment>, progress: ProgressMetrics,
                                         patterns: LearningPatterns)

  /** Python's `s[:n]`. */
  function SliceTo<T>(s: seq<T>, n: int): (r: seq<T>)
    ensures |r| <= |s| && r == s[..|r|]
    ensures n >= 0 ==> |r| == if n < |s| then n else |s|
    ensures n < 0 ==> |r| == if -n < |s| then |s| + n else 0
  {
    if n >= 0 then (if n < |s| then s[..n] else s)
    else if -n < |s| then s[..|s| + n] else []
  }

  // ---------------------------------------------------------------------
  // Recommendations
  // ---------------------------------------------------------------------

  /** The varying part of a recommendation's description. */
  datatype Detail = NoDetail | CurrentLevel(level: SkillLevel) | PeakHour(hour: int)

  /** `RecommendationResponse`, without the creation time. */
  datatype Recommendation = Recommendation(kind: string, title: string, detail: Detail, priority: nat,
                                           estimatedTime: nat, skillsTargeted: seq<string>)

  /** The skills below 0.6 proficiency, in order. */
  function Weak(skills: seq<Assessment>): (w: seq<Assessment>)
    ensures |w| <= |skills|
    ensures forall i :: 0 <= i < |w| ==> w[i].proficiency < 0.6 && w[i] in skills
  {
    if skills == [] then []
    else
      var init := skills[..|skills| - 1];
      var s := skills[|skills| - 1];
      var w := Weak(init);
      assert forall i :: 0 <= i < |w| ==> w[i] in skills by {
        forall i | 0 <= i < |w| ensures w[i] in skills {
          assert w[i] in init;
        }
      }
      w + (if s.proficiency < 0.6 then [s] else [])
  }

  /** Filtering a list is filtering its parts: the weak skills keep the
      order of the input. */
  lemma {:induction false} WeakAppend(a: seq<Assessment>, b: seq<Assessment>)
    ensures Weak(a + b) == Weak(a) + Weak(b)
  {
    if b == [] {
      assert a + b == a;
    } else {
      var n := |b| - 1;
      WeakAppend(a, b[..n]);
      assert b == b[..n] + [b[n]];
      assert a + b == (a + b[..n]) + [b[n]];
      WeakSnoc(a + b[..n], b[n]);
      WeakSnoc(b[..n], b[n]);
      var last: seq<Assessment> := if b[n].proficiency < 0.6 then [b[n]] else [];
      AppendAssoc(Weak(a), Weak(b[..n]), last);
    }
  }

  /** One more skill is kept exactly when it is below 0.6. */
  lemma WeakSnoc(s: seq<Assessment>, x: Assessment)
    ensures Weak(s + [x]) == Weak(s) + if x.proficiency < 0.6 then [x] else []
  {
    assert (s + [x])[..|s|] == s;
  }

  /** A weak skill, by its index among the skills, is in the weak list. */
  lemma {:induction false} WeakComplete(skills: seq<Assessment>, k: nat)
    requires k < |skills| && skills[k].proficiency < 0.6
    ensures skills[k] in Weak(skills)
  {
    var n := |skills| - 1;
    if k < n {
      WeakComplete(skills[..n], k);
    }
  }

  function SkillFocus(s: Assessment): Recommendation
  {
    Recommendation("skill_focus", "Practice " + s.skillName, CurrentLevel(s.level),
                   if s.proficiency < 0.4 then 1 else 2, 20, [s.skillName])
  }

  function FocusItems(ws: seq<Assessment>): (r: seq<Recommendation>)
    ensures |r| == |ws| && forall i :: 0 <= i < |ws| ==> r[i] == SkillFocus(ws[i])
  {
    seq(|ws|, i requires 0 <= i < |ws| => SkillFocus(ws[i]))
  }

  /** `max(hours)` */
  function Max(hs: seq<int>): (m: int)
    requires hs != []
    ensures m in hs && forall i :: 0 <= i < |hs| ==> hs[i] <= m
  {
    if |hs| == 1 then hs[0]
    else
      var m := Max(hs[1..]);
      assert forall i :: 1 <= i < |hs| ==> hs[i] == hs[1..][i - 1];
      if hs[0] > m then hs[0] else m
  }

  function StudyTimeItems(p: LearningPatterns): seq<Recommendation>
  {
    if p.preferredTimes == [] then []
    else [Recommendation("practice_suggestion", "Optimize Study Time", PeakHour(Max(p.preferredTimes)), 3, 0, [])]
  }

  function DifficultyItems(successRate: real): seq<Recommendation>
  {
    if successRate > 0.9 then [Recommendation("difficulty_adjustment", "Challenge Yourself", NoDetail, 4, 15, [])]
    else if successRate < 0.5 then [Recommendation("difficulty_adjustment", "Build Foundation", NoDetail, 2, 25, [])]
    else []
  }

  /** All recommendations before the limit is applied. */
  function Candidates(a: UserAnalytics): seq<Recommendation>
  {
    FocusItems(SliceTo(Weak(a.skills), 3)) + StudyTimeItems(a.patterns) + DifficultyItems(a.progress.successRate)
  }

  predicate HasKind(rs: seq<Recommendation>, kind: string)
  {
    exists i :: 0 <= i < |rs| && rs[i].kind == kind
  }

  /** The first recommendations focus on the first (at most three) weak
      skills, in order, with priority 1 below 0.4 proficiency; there are at
      most five recommendations in all. */
  lemma RecommendationsFocus(a: UserAnalytics)
    ensures var c := Candidates(a);
      var focus := if |Weak(a.skills)| < 3 then |Weak(a.skills)| else 3;
      && focus <= |c| <= 5
      && (forall i :: 0 <= i < |c| ==> (c[i].kind == "skill_focus" <==> i < focus))
      && (forall i :: 0 <= i < focus ==>
            && c[i].skillsTargeted == [Weak(a.skills)[i].skillName]
            && (c[i].priority == 1 <==> Weak(a.skills)[i].proficiency < 0.4))
  {
    var f := FocusItems(SliceTo(Weak(a.skills), 3));
    assert Candidates(a) == f + (StudyTimeItems(a.patterns) + DifficultyItems(a.progress.successRate));
  }

  /** A study-time recommendation appears iff preferred times are known,
      and it names the latest of them. */
  lemma RecommendationsStudyTime(a: UserAnalytics)
    ensures var c := Candidates(a);
      && (HasKind(c, "practice_suggestion") <==> a.patterns.preferredTimes != [])
      && (forall i :: 0 <= i < |c| && c[i].kind == "practice_suggestion" ==>
            c[i].detail.PeakHour? && c[i].detail.hour in a.patterns.preferredTimes
            && forall j :: 0 <= j < |a.patterns.preferredTimes| ==> a.patterns.preferredTimes[j] <= c[i].detail.hour)
  {
    var c := Candidates(a);
    var f := FocusItems(SliceTo(Weak(a.skills), 3));
    var st := StudyTimeItems(a.patterns);
    var d := DifficultyItems(a.progress.successRate);
    assert c == f + st + d;
    if a.patterns.preferredTimes != [] {
      assert c[|f|] == st[0];
    }
  }

  /** A difficulty recommendation appears iff the success rate is above 0.9
      (priority 4) or below 0.5 (priority 2). */
  lemma RecommendationsDifficulty(a: UserAnalytics)
    ensures var c := Candidates(a);
      && (HasKind(c, "difficulty_adjustment") <==> a.progress.successRate > 0.9 || a.progress.successRate < 0.5)
      && (forall i :: 0 <= i < |c| && c[i].kind == "difficulty_adjustment" ==>
            (c[i].priority == 4 <==> a.progress.successRate > 0.9))
  {
    var c := Candidates(a);
    var fs := FocusItems(SliceTo(Weak(a.skills), 3)) + StudyTimeItems(a.patterns);
    var d := DifficultyItems(a.progress.successRate);
    assert c == fs + d;
    if d != [] {
      assert c[|fs|] == d[0];
    }
  }

  /** `generate_recommendations`: none without analytics, otherwise the
      candidates cut to the limit. */
  method GenerateRecommendations(analytics: Option<UserAnalytics>, limit: int) returns (recs: seq<Recommendation>)
    ensures analytics.None? ==> recs == []
    ensures analytics.Some? ==> recs == SliceTo(Candidates(analytics.value), limit)
    ensures limit >= 0 ==> |recs| <= limit
  {
    if analytics.None? {
      return [];
    }
    var a := analytics.value;
    var weak := SliceTo(Weak(a.skills), 3);
    recs := [];
    var i := 0;
    while i < |weak|
      invariant 0 <= i <= |weak|
      invariant |recs| == i && forall j :: 0 <= j < i ==> recs[j] == SkillFocus(weak[j])
    {
      recs := recs + [SkillFocus(weak[i])];
      i := i + 1;
    }
    assert recs == FocusItems(weak);
    recs := recs + StudyTimeItems(a.patterns);
    recs := recs + DifficultyItems(a.progress.successRate);
    recs := SliceTo(recs, limit);
  }

  // ---------------------------------------------------------------------
  // Progress report
  // ---------------------------------------------------------------------

  /** The period of a report: a month for "monthly", a week otherwise. */
  function ReportPeriodDays(reportType: string): (days: nat)
    ensures days == 30 <==> reportType == "monthly"
    ensures days == 7 <==> reportType != "monthly"
  {
    if reportType == "weekly" then 7
    else if reportType == "monthly" then 30
    else 7
  }

  function ByProficiency(s: Assessment): real
  {
    s.proficiency
  }

  function ByProficiencyDescending(s: Assessment): real
  {
    -s.proficiency
  }

  /** The three best skills, best first. */
  function TopSkills(skills: seq<Assessment>): seq<Assessment>
  {
    SliceTo(SortBy(skills, ByProficiencyDescending), 3)
  }

  /** The three weakest skills, weakest first. */
  function WeakestSkills(skills: seq<Assessment>): seq<Assessment>
  {
    SliceTo(SortBy(skills, ByProficiency), 3)
  }

  /** The top skills are (up to) three of the skills, best first, and none
      of the others is better than any of them. */
  lemma TopSkillsAreBest(skills: seq<Assessment>) returns (rest: seq<Assessment>)
    ensures var top := TopSkills(skills);
      && |top| == (if |skills| < 3 then |skills| else 3)
      && multiset(top) + multiset(rest) == multiset(skills)
      && (forall i, j :: 0 <= i < j < |top| ==> top[i].proficiency >= top[j].proficiency)
      && (forall i, j :: 0 <= i < |top| && 0 <= j < |rest| ==> top[i].proficiency >= rest[j].proficiency)
  {
    var sorted := SortBy(skills, ByProficiencyDescending);
    var top := TopSkills(skills);
    rest := sorted[|top|..];
    SortedCut(sorted, ByProficiencyDescending, |top|);
    assert top == sorted[..|top|];
    forall i, j | 0 <= i < |top| && 0 <= j < |rest| ensures top[i].proficiency >= rest[j].proficiency {
      assert ByProficiencyDescending(top[i]) <= ByProficiencyDescending(rest[j]);
    }
    forall i, j | 0 <= i < j < |top| ensures top[i].proficiency >= top[j].proficiency {
      assert ByProficiencyDescending(top[i]) <= ByProficiencyDescending(top[j]);
    }
  }

  /** The weakest skills are (up to) three of the skills, weakest first,
      and none of the others is weaker than any of them. */
  lemma WeakestSkillsAreWeakest(skills: seq<Assessment>) returns (rest: seq<Assessment>)
    ensures var low := WeakestSkills(skills);
      && |low| == (if |skills| < 3 then |skills| else 3)
      && multiset(low) + multiset(rest) == multiset(skills)
      && (forall i, j :: 0 <= i < j < |low| ==> low[i].proficiency <= low[j].proficiency)
      && (forall i, j :: 0 <= i < |low| && 0 <= j < |rest| ==> low[i].proficiency <= rest[j].proficiency)
  {
    var sorted := SortBy(skills, ByProficiency);
    var low := WeakestSkills(skills);
    rest := sorted[|low|..];
    SortedCut(sorted, ByProficiency, |low|);
    assert low == sorted[..|low|];
    forall i, j | 0 <= i < |low| && 0 <= j < |rest| ensures low[i].proficiency <= rest[j].proficiency {
      assert ByProficiency(low[i]) <= ByProficiency(rest[j]);
    }
    forall i, j | 0 <= i < j < |low| ensures low[i].proficiency <= low[j].proficiency {
      assert ByProficiency(low[i]) <= ByProficiency(low[j]);
    }
  }

  /** The `summary_data` of a progress report. */
  datatype ReportSummary = ReportSummary(periodType: string, totalStudyTime: int, sessionsCompleted: nat,
                                         successRate: real, improvementRate: real, streakDays: nat,
                                         subjectsCovered: nat, topSkills: seq<(string, SkillLevel)>,
                                         areasForImprovement: seq<(string, real)>)

  function SummarizeReport(reportType: string, progress: ProgressMetrics, analytics: Option<UserAnalytics>): (r: ReportSummary)
    ensures analytics.None? ==> r.topSkills == [] && r.areasForImprovement == []
    ensures analytics.Some? ==>
      && |r.topSkills| == |TopSkills(analytics.value.skills)|
      && (forall i :: 0 <= i < |r.topSkills| ==>
            r.topSkills[i] == (TopSkills(analytics.value.skills)[i].skillName, TopSkills(analytics.value.skills)[i].level))
      && |r.areasForImprovement| == |WeakestSkills(analytics.value.skills)|
      && (forall i :: 0 <= i < |r.areasForImprovement| ==>
            r.areasForImprovement[i] == (WeakestSkills(analytics.value.skills)[i].skillName,
                                         WeakestSkills(analytics.value.skills)[i].proficiency))
    ensures r.subjectsCovered == |progress.subjectsStudied| && r.totalStudyTime == progress.totalTimeSpent
  {
    var top := if analytics.Some? then TopSkills(analytics.value.skills) else [];
    var low := if analytics.Some? then WeakestSkills(analytics.value.skills) else [];
    ReportSummary(reportType, progress.totalTimeSpent, progress.sessionsCompleted, progress.successRate,
                  progress.improvementRate, progress.streakDays, |progress.subjectsStudied|,
                  seq(|top|, i requires 0 <= i < |top| => (top[i].skillName, top[i].level)),
                  seq(|low|, i requires 0 <= i < |low| => (low[i].skillName, low[i].proficiency)))
  }

  // ---------------------------------------------------------------------
  // Parent dashboard
  // ---------------------------------------------------------------------

  datatype SkillSummary = SkillSummary(totalSkills: nat, masteredSkills: nat, developingSkills: nat, needsAttention: nat)

  function CountAtLeast(skills: seq<Assessment>, lo: real): nat
  {
    if skills == [] then 0
    else CountAtLeast(skills[..|skills| - 1], lo) + (if skills[|skills| - 1].proficiency >= lo then 1 else 0)
  }

  function CountBetween(skills: seq<Assessment>, lo: real, hi: real): nat
  {
    if skills == [] then 0
    else
      var p := skills[|skills| - 1].proficiency;
      CountBetween(skills[..|skills| - 1], lo, hi) + (if lo <= p < hi then 1 else 0)
  }

  function CountBelow(skills: seq<Assessment>, hi: real): nat
  {
    if skills == [] then 0
    else CountBelow(skills[..|skills| - 1], hi) + (if skills[|skills| - 1].proficiency < hi then 1 else 0)
  }

  /** `skill_summary` of a child: mastered from 0.9, developing in [0.4, 0.9),
      needing attention below 0.4. */
  function SummarizeSkills(skills: seq<Assessment>): SkillSummary
  {
    SkillSummary(|skills|, CountAtLeast(skills, 0.9), CountBetween(skills, 0.4, 0.9), CountBelow(skills, 0.4))
  }

  /** The three buckets partition the skills. */
  lemma {:induction false} SkillBucketsPartition(skills: seq<Assessment>)
    ensures var s := SummarizeSkills(skills); s.masteredSkills + s.developingSkills + s.needsAttention == s.totalSkills
  {
    if skills != [] {
      SkillBucketsPartition(skills[..|skills| - 1]);
    }
  }

  datatype Alert = Alert(kind: string, message: string, severity: string)

  /** `_generate_parent_alerts` over the child's weekly progress. */
  function ParentAlerts(p: ProgressMetrics): (alerts: seq<Alert>)
  {
    (if p.successRate < 0.4 && p.sessionsCompleted > 3
     then [Alert("performance_concern", "Success rate has been low this week", "medium")] else [])
    + (if p.sessionsCompleted == 0 then [Alert("inactivity", "No study sessions this week", "high")] else [])
    + (if p.streakDays >= 7
       then [Alert("achievement", "Great job! " + NatToString(p.streakDays) + " day learning streak!", "positive")]
       else [])
  }

  predicate HasAlert(alerts: seq<Alert>, kind: string)
  {
    exists i :: 0 <= i < |alerts| && alerts[i].kind == kind
  }

  /** Each alert is raised exactly under its condition, at most once, and a
      performance concern never comes with an inactivity alert. */
  lemma AlertConditions(p: ProgressMetrics)
    ensures var alerts := ParentAlerts(p);
      && |alerts| <= 2
      && (HasAlert(alerts, "performance_concern") <==> p.successRate < 0.4 && p.sessionsCompleted > 3)
      && (HasAlert(alerts, "inactivity") <==> p.sessionsCompleted == 0)
      && (HasAlert(alerts, "achievement") <==> p.streakDays >= 7)
      && (forall i, j :: 0 <= i < j < |alerts| ==> alerts[i].kind != alerts[j].kind)
  {
    var alerts := ParentAlerts(p);
    var concern := p.successRate < 0.4 && p.sessionsCompleted > 3;
    var inactive := p.sessionsCompleted == 0;
    var streak := p.streakDays >= 7;
    assert !(concern && inactive);
    var kinds := (if concern then ["performance_concern"] else []) + (if inactive then ["inactivity"] else [])
                 + (if streak then ["achievement"] else []);
    assert |kinds| == |alerts| && forall i :: 0 <= i < |alerts| ==> alerts[i].kind == kinds[i];
    if concern {
      assert alerts[0].kind == "performance_concern";
    }
    if inactive {
      assert alerts[0].kind == "inactivity";
    }
    if streak {
      assert alerts[|alerts| - 1].kind == "achievement";
    }
  }

  /** What the dashboard receives about a child. */
  datatype ChildInput = ChildInput(userId: string, email: Option<string>, progress: ProgressMetrics,
                                   skills: Option<seq<Assessment>>)

  datatype ChildData = ChildData(userId: string, name: string, weeklyProgress: ProgressMetrics, currentStreak: nat,
                                 subjectsStudied: set<string>, alerts: seq<Alert>, skillSummary: Option<SkillSummary>)

  function ChildDataOf(c: ChildInput): ChildData
  {
    ChildData(c.userId, c.email.GetOr("Unknown"), c.progress, c.progress.streakDays, c.progress.subjectsStudied,
              ParentAlerts(c.progress), if c.skills.Some? then Some(SummarizeSkills(c.skills.value)) else None)
  }

  datatype Dashboard = Dashboard(children: seq<ChildData>, totalStudyTime: int, totalSessions: int,
                                 averageSuccessRate: real, activeChildren: nat)

  function TotalStudyTime(cs: seq<ChildInput>): int
  {
    if cs == [] then 0 else TotalStudyTime(cs[..|cs| - 1]) + cs[|cs| - 1].progress.totalTimeSpent
  }

  function TotalSessions(cs: seq<ChildInput>): int
  {
    if cs == [] then 0 else TotalSessions(cs[..|cs| - 1]) + cs[|cs| - 1].progress.sessionsCompleted
  }

  /** The children's success rates that are positive, in order. */
  function PositiveRates(cs: seq<ChildInput>): seq<real>
  {
    if cs == [] then []
    else
      var r := cs[|cs| - 1].progress.successRate;
      PositiveRates(cs[..|cs| - 1]) + (if r > 0.0 then [r] else [])
  }

  function ActiveChildren(cs: seq<ChildInput>): nat
  {
    if cs == [] then 0
    else ActiveChildren(cs[..|cs| - 1]) + (if cs[|cs| - 1].progress.sessionsCompleted > 0 then 1 else 0)
  }

  function AverageOf(rs: seq<real>): real
  {
    if rs == [] then 0.0 else Sum(rs) / |rs| as real
  }

  /** `get_parent_dashboard_data` */
  method GetParentDashboardData(children: seq<ChildInput>) returns (d: Dashboard)
    ensures |d.children| == |children| && forall i :: 0 <= i < |children| ==> d.children[i] == ChildDataOf(children[i])
    ensures d.totalStudyTime == TotalStudyTime(children) && d.totalSessions == TotalSessions(children)
    ensures d.activeChildren == ActiveChildren(children)
    ensures d.averageSuccessRate == AverageOf(PositiveRates(children))
  {
    var data: seq<ChildData> := [];
    var time, sessions, active := 0, 0, 0;
    var rates: seq<real> := [];
    var i := 0;
    while i < |children|
      invariant 0 <= i <= |children|
      invariant |data| == i && forall j :: 0 <= j < i ==> data[j] == ChildDataOf(children[j])
      invariant time == TotalStudyTime(children[..i]) && sessions == TotalSessions(children[..i])
      invariant active == ActiveChildren(children[..i]) && rates == PositiveRates(children[..i])
    {
      assert children[..i + 1][..i] == children[..i];
      var c := children[i];
      data := data + [ChildDataOf(c)];
      time := time + c.progress.totalTimeSpent;
      sessions := sessions + c.progress.sessionsCompleted;
      if c.progress.successRate > 0.0 {
        rates := rates + [c.progress.successRate];
      }
      if c.progress.sessionsCompleted > 0 {
        active := active + 1;
      }
      i := i + 1;
    }
    assert children[..i] == children;
    var average := 0.0;
    if rates != [] {
      average := Sum(rates) / |rates| as real;
    }
    d := Dashboard(data, time, sessions, average, active);
  }

  lemma {:induction false} PositiveRatesBounded(cs: seq<ChildInput>)
    requires forall i :: 0 <= i < |cs| ==> cs[i].progress.successRate <= 1.0
    ensures forall i :: 0 <= i < |PositiveRates(cs)| ==> 0.0 < PositiveRates(cs)[i] <= 1.0
    ensures PositiveRates(cs) == [] <==> forall i :: 0 <= i < |cs| ==> cs[i].progress.successRate <= 0.0
  {
    if cs != [] {
      var init := cs[..|cs| - 1];
      PositiveRatesBounded(init);
      var r := cs[|cs| - 1].progress.successRate;
      var front, back := PositiveRates(init), if r > 0.0 then [r] else [];
      assert PositiveRates(cs) == front + back;
      forall i | 0 <= i < |front + back| ensures 0.0 < (front + back)[i] <= 1.0 {
        if i >= |front| {
          assert (front + back)[i] == r;
        }
      }
      assert forall i :: 0 <= i < |init| ==> init[i] == cs[i];
      assert front + back == [] <==> front == [] && back == [];
    }
  }

  lemma {:induction false} SumPositive(rs: seq<real>)
    requires forall i :: 0 <= i < |rs| ==> 0.0 < rs[i] <= 1.0
    ensures rs != [] ==> 0.0 < Sum(rs) <= |rs| as real
  {
    if rs != [] {
      SumPositive(rs[..|rs| - 1]);
    }
  }

  /** With success rates of at most 1, the dashboard's average lies in
      (0, 1] when some child has a positive rate, and is 0 otherwise. */
  lemma AverageSuccessBounds(cs: seq<ChildInput>)
    requires forall i :: 0 <= i < |cs| ==> cs[i].progress.successRate <= 1.0
    ensures var avg := AverageOf(PositiveRates(cs));
      && 0.0 <= avg <= 1.0
      && (avg == 0.0 <==> forall i :: 0 <= i < |cs| ==> cs[i].progress.successRate <= 0.0)
  {
    PositiveRatesBounded(cs);
    var rs := PositiveRates(cs);
    if rs != [] {
      SumPositive(rs);
      RatioBounds(Sum(rs), |rs| as real);
    }
  }

  lemma RatioBounds(a: real, n: real)
    requires 0.0 < a <= n
    ensures 0.0 < a / n <= 1.0
  {
  }

  lemma {:induction false} ActiveChildrenBound(cs: seq<ChildInput>)
    ensures ActiveChildren(cs) <= |cs|
    ensures ActiveChildren(cs) == 0 <==> forall i :: 0 <= i < |cs| ==> cs[i].progress.sessionsCompleted == 0
  {
    if cs != [] {
      var init := cs[..|cs| - 1];
      ActiveChildrenBound(init);
      assert forall i :: 0 <= i < |init| ==> init[i] == cs[i];
    }
  }

  // ---------------------------------------------------------------------
  // Learning patterns
  // ---------------------------------------------------------------------

  /** `timestamp.hour` of a UTC time in seconds. */
  function HourOf(timestamp: int): (h: int)
    ensures 0 <= h < 24
  {
    (timestamp % 86400) / 3600
  }

  function Hours(xs: seq<Interaction>): (hs: seq<int>)
    ensures |hs| == |xs| && forall i :: 0 <= i < |xs| ==> hs[i] == HourOf(xs[i].timestamp)
  {
    seq(|xs|, i requires 0 <= i < |xs| => HourOf(xs[i].timestamp))
  }

  function Kinds(xs: seq<Interaction>): (ks: seq<InteractionType>)
    ensures |ks| == |xs| && forall i :: 0 <= i < |xs| ==> ks[i] == xs[i].kind
  {
    seq(|xs|, i requires 0 <= i < |xs| => xs[i].kind)
  }

  /** The time spent per session, in first-seen order. */
  function Durations(xs: seq<Interaction>): seq<(string, int)>
  {
    if xs == [] then []
    else Add(Durations(xs[..|xs| - 1]), xs[|xs| - 1].sessionId, xs[|xs| - 1].timeSpent)
  }

  function Difficulties(xs: seq<Interaction>): seq<real>
  {
    if xs == [] then [] else Difficulties(xs[..|xs| - 1]) + [xs[|xs| - 1].difficulty]
  }

  function ByCountDescending(e: (int, int)): real
  {
    -(e.1 as real)
  }

  /** Each count as a share of the total. */
  function Shares(counts: seq<(InteractionType, int)>, total: nat): (r: seq<(InteractionType, real)>)
    requires total > 0
    ensures |r| == |counts| && forall i :: 0 <= i < |r| ==> r[i] == (counts[i].0, counts[i].1 as real / total as real)
  {
    seq(|counts|, i requires 0 <= i < |counts| => (counts[i].0, counts[i].1 as real / total as real))
  }

  function PreferredTimes(hourCounts: seq<(int, int)>): seq<int>
  {
    Keys(SliceTo(SortBy(hourCounts, ByCountDescending), 3))
  }

  /** The patterns `_analyze_learning_patterns` derives from the
      interactions of the last thirty days. */
  function Patterns(xs: seq<Interaction>): LearningPatterns
  {
    if xs == [] then DEFAULT_PATTERNS
    else
      var durations := Durations(xs);
      DurationsShape(xs);
      var n := |xs|;
      LearningPatterns(PreferredTimes(CountBy(Hours(xs))), |SessionIds(xs)| as real / 4.3,
                       SumValues(durations) / |durations|, Sum(Difficulties(xs)) / n as real,
                       Shares(CountBy(Kinds(xs)), n), [])
  }

  /** `_analyze_learning_patterns` */
  method AnalyzeLearningPatterns(xs: seq<Interaction>) returns (p: LearningPatterns)
    ensures p == Patterns(xs)
  {
    if xs == [] {
      return DEFAULT_PATTERNS;
    }
    var hourCounts := CountKeys(Hours(xs));
    var preferred := Keys(SliceTo(SortBy(hourCounts, ByCountDescending), 3));
    var durations := SessionDurations(xs);
    DurationsShape(xs);
    var attention := SumValues(durations) / |durations|;
    var difficulty := Sum(Difficulties(xs)) / |xs| as real;
    var typeCounts := CountKeys(Kinds(xs));
    p := LearningPatterns(preferred, |SessionIds(xs)| as real / 4.3, attention, difficulty,
                          Shares(typeCounts, |xs|), []);
  }

  /** The loop summing the time spent per session. */
  method SessionDurations(xs: seq<Interaction>) returns (durations: seq<(string, int)>)
    ensures durations == Durations(xs)
  {
    durations := [];
    var i := 0;
    while i < |xs|
      invariant 0 <= i <= |xs| && durations == Durations(xs[..i])
    {
      assert xs[..i + 1][..i] == xs[..i];
      durations := Add(durations, xs[i].sessionId, xs[i].timeSpent);
      i := i + 1;
    }
    assert xs[..i] == xs;
  }

  /** The per-session durations have one distinct key per session and add
      up to the total time spent. */
  lemma DurationsShape(xs: seq<Interaction>)
    ensures DistinctKeys(Durations(xs))
    ensures SumValues(Durations(xs)) == TotalTime(xs)
    ensures forall s :: s in Keys(Durations(xs)) <==> s in SessionIds(xs)
    ensures |Durations(xs)| == |SessionIds(xs)|
  {
    DurationsSum(xs);
    DurationsKeys(xs);
  }

  lemma {:induction false} DurationsSum(xs: seq<Interaction>)
    ensures SumValues(Durations(xs)) == TotalTime(xs)
  {
    if xs != [] {
      var init := xs[..|xs| - 1];
      DurationsSum(init);
      var before := Durations(init);
      var id := xs[|xs| - 1].sessionId;
      SumAfterAdd(before, id, xs[|xs| - 1].timeSpent);
    }
  }

  lemma SessionIdsSnoc(xs: seq<Interaction>)
    requires xs != []
    ensures SessionIds(xs) == SessionIds(xs[..|xs| - 1]) + {xs[|xs| - 1].sessionId}
  {
    var init := xs[..|xs| - 1];
    forall i | 0 <= i < |init| ensures init[i] == xs[i] {
    }
  }

  lemma {:induction false} DurationsKeys(xs: seq<Interaction>)
    ensures DistinctKeys(Durations(xs))
    ensures forall s :: s in Keys(Durations(xs)) <==> s in SessionIds(xs)
    ensures |Durations(xs)| == |SessionIds(xs)|
  {
    if xs == [] {
      assert SessionIds(xs) == {};
    } else {
      var init := xs[..|xs| - 1];
      var id := xs[|xs| - 1].sessionId;
      var before := Durations(init);
      DurationsKeys(init);
      SessionIdsSnoc(xs);
      if id in SessionIds(init) {
        assert SessionIds(xs) == SessionIds(init);
        assert Keys(Durations(xs)) == Keys(before);
      } else {
        assert Keys(Durations(xs)) == Keys(before) + [id];
      }
    }
  }

  /** The attention span of the patterns is the average session duration
      of the progress metrics over the same interactions. */
  lemma AttentionSpanIsAverageSessionDuration(xs: seq<Interaction>, streak: nat, improvement: real)
    requires xs != []
    ensures Patterns(xs).attentionSpan == CalculateProgressMetrics(xs, streak, improvement).averageSessionDuration
  {
    DurationsShape(xs);
  }

  /** The preferred times are the hours of (up to) three hour counts, and
      no other hour occurs more often than any of them. */
  lemma PreferredTimesAreMostFrequent(xs: seq<Interaction>) returns (others: seq<(int, int)>)
    requires xs != []
    ensures var counts := CountBy(Hours(xs));
      var pref := Patterns(xs).preferredTimes;
      var top := SliceTo(SortBy(counts, ByCountDescending), 3);
      && pref == Keys(top)
      && |pref| <= 3 && |pref| == (if |counts| < 3 then |counts| else 3)
      && multiset(top) + multiset(others) == multiset(counts)
      && (forall i, j :: 0 <= i < |top| && 0 <= j < |others| ==> top[i].1 >= others[j].1)
  {
    others := MostFrequentFirst(CountBy(Hours(xs)));
  }

  /** The three largest counts, taken from the front of the sort, are at
      most three of the counts, and no other count is larger than any of
      them. */
  lemma MostFrequentFirst(counts: seq<(int, int)>) returns (others: seq<(int, int)>)
    ensures var top := SliceTo(SortBy(counts, ByCountDescending), 3);
      && |top| == (if |counts| < 3 then |counts| else 3)
      && multiset(top) + multiset(others) == multiset(counts)
      && (forall i, j :: 0 <= i < |top| && 0 <= j < |others| ==> top[i].1 >= others[j].1)
  {
    var sorted := SortBy(counts, ByCountDescending);
    var top := SliceTo(sorted, 3);
    others := sorted[|top|..];
    SortedCut(sorted, ByCountDescending, |top|);
    assert top == sorted[..|top|];
    forall i, j | 0 <= i < |top| && 0 <= j < |others| ensures top[i].1 >= others[j].1 {
      assert ByCountDescending(top[i]) <= ByCountDescending(others[j]);
    }
  }
}

=== FILE: audio_processor.dfy ===
/** The audio pipeline of the tutoring session: quality grading, voice
    activity detection on fixed 30 ms frames, buffering of speech chunks and
    their hand-over to a speech recogniser once the speaker pauses. */
module AudioProcessor {
  import opened Wrappers
  import opened Bytes

  const SAMPLE_RATE: nat := 16000
  const CHUNK_DURATION_MS: nat := 30
  /** Samples per VAD frame: `int(sample_rate * chunk_duration_ms / 1000)`. */
  const CHUNK_SIZE: nat := SAMPLE_RATE * CHUNK_DURATION_MS / 1000
  /** Bytes per VAD frame, two per 16-bit sample. */
  const VAD_FRAME_BYTES: nat := CHUNK_SIZE * 2
  /** Shortest speech segment worth transcribing, in seconds. */
  const MIN_SPEECH_DURATION: real := 0.5
  const LANGUAGE_CODE: string := "en-US"

  datatype AudioQuality = Excellent | Good | Fair | Poor
  datatype VoiceActivityLevel = Silent | Low | Medium | High

  // ---------------------------------------------------------------------
  // Quality grading
  // ---------------------------------------------------------------------

  function Abs(x: real): real
  {
    if x < 0.0 then -x else x
  }

  function MaxReal(a: real, b: real): real
  {
    if a < b then b else a
  }

  /** The volume part of `_calculate_quality_score`: full marks between
      -25 and -5 dB, nothing below -40 or above 0 dB. */
  function VolumeScore(volumeDb: real): (r: real)
    ensures 0.0 <= r <= 1.0
    ensures -25.0 <= volumeDb <= -5.0 ==> r == 1.0
    ensures volumeDb < -40.0 || volumeDb > 0.0 ==> r == 0.0
  {
    if -25.0 <= volumeDb <= -5.0 then 1.0
    else if volumeDb < -40.0 || volumeDb > 0.0 then 0.0
    else MaxReal(0.0, 1.0 - Abs(volumeDb + 15.0) / 25.0)
  }

  /** The signal-to-noise part: linear from 5 dB (nothing) to 25 dB (full). */
  function SnrScore(snrDb: real): (r: real)
    ensures 0.0 <= r <= 1.0
    ensures snrDb <= 5.0 ==> r == 0.0
    ensures snrDb >= 25.0 ==> r == 1.0
  {
    var linear := (snrDb - 5.0) / 20.0;
    if linear < 0.0 then 0.0 else if linear > 1.0 then 1.0 else linear
  }

  /** The clipping penalty: a tenth of the samples clipped costs everything. */
  function ClippingScore(clippingRatio: real): (r: real)
    ensures 0.0 <= r
    ensures 0.0 <= clippingRatio ==> r <= 1.0
    ensures clippingRatio >= 0.1 ==> r == 0.0
  {
    MaxReal(0.0, 1.0 - clippingRatio * 10.0)
  }

  /** `_calculate_quality_score`: weights 0.4, 0.4 and 0.2. */
  function QualityScore(volumeDb: real, snrDb: real, clippingRatio: real): (r: real)
    ensures 0.0 <= r
    ensures 0.0 <= clippingRatio ==> r <= 1.0
  {
    VolumeScore(volumeDb) * 0.4 + SnrScore(snrDb) * 0.4 + ClippingScore(clippingRatio) * 0.2
  }

  /** Audio at a comfortable volume, 25 dB above the noise and unclipped
      scores the maximum; audio below -40 dB with no usable signal and at
      least a tenth clipped scores nothing. */
  lemma QualityScoreExtremes(volumeDb: real, snrDb: real, clippingRatio: real)
    ensures -25.0 <= volumeDb <= -5.0 && snrDb >= 25.0 && clippingRatio == 0.0 ==>
              QualityScore(volumeDb, snrDb, clippingRatio) == 1.0
    ensures volumeDb < -40.0 && snrDb <= 5.0 && clippingRatio >= 0.1 ==>
              QualityScore(volumeDb, snrDb, clippingRatio) == 0.0
  {
  }

  function QualityRank(q: AudioQuality): nat
  {
    match q
    case Poor => 0
    case Fair => 1
    case Good => 2
    case Excellent => 3
  }

  /** `_get_quality_level` */
  function QualityLevel(score: real): (r: AudioQuality)
    ensures r == Excellent <==> score >= 0.8
    ensures r == Good <==> 0.6 <= score < 0.8
    ensures r == Fair <==> 0.4 <= score < 0.6
    ensures r == Poor <==> score < 0.4
  {
    if score >= 0.8 then Excellent
    else if score >= 0.6 then Good
    else if score >= 0.4 then Fair
    else Poor
  }

  /** A higher score never earns a lower grade. */
  lemma QualityLevelMonotone(a: real, b: real)
    requires a <= b
    ensures QualityRank(QualityLevel(a)) <= QualityRank(QualityLevel(b))
  {
  }

  /** What the floating-point analysis of the samples measures (RMS volume
      in dB, spectral signal-to-noise ratio, share of clipped samples). */
  datatype Measurement = Measurement(volumeDb: real, snrDb: real, clippingRatio: real)

  datatype QualityMetrics = QualityMetrics(volumeDb: real, snrDb: real, clippingRatio: real,
                                           score: real, level: AudioQuality, acceptable: bool)

  /** `_assess_audio_quality`; `None` stands for an analysis that raised,
      which reports -60 dB and a score of zero. */
  function AssessAudioQuality(measured: Option<Measurement>): (q: QualityMetrics)
    ensures q.level == QualityLevel(q.score)
    ensures q.acceptable <==> q.score > 0.5
    ensures measured.Some? ==> q.score == QualityScore(measured.value.volumeDb, measured.value.snrDb, measured.value.clippingRatio)
    ensures measured.None? ==> q.volumeDb == -60.0 && q.score == 0.0 && q.level == Poor && !q.acceptable
  {
    match measured
    case None => QualityMetrics(-60.0, 0.0, 0.0, 0.0, Poor, false)
    case Some(m) =>
      var score := QualityScore(m.volumeDb, m.snrDb, m.clippingRatio);
      QualityMetrics(m.volumeDb, m.snrDb, m.clippingRatio, score, QualityLevel(score), score > 0.5)
  }

  // ---------------------------------------------------------------------
  // Voice activity detection
  // ---------------------------------------------------------------------

  /** The chunk cut or zero-padded to exactly one VAD frame. */
  function VadFrame(data: Bytes): (r: Bytes)
    ensures |r| == VAD_FRAME_BYTES
    ensures forall i :: 0 <= i < |data| && i < VAD_FRAME_BYTES ==> r[i] == data[i]
    ensures forall i :: |data| <= i < VAD_FRAME_BYTES ==> r[i] == 0
  {
    if |data| == VAD_FRAME_BYTES then data
    else if |data| < VAD_FRAME_BYTES then data + seq(VAD_FRAME_BYTES - |data|, _ => 0 as byte)
    else data[..VAD_FRAME_BYTES]
  }

  /** A little-endian signed 16-bit sample. */
  function Sample(lo: byte, hi: byte): (s: int)
    ensures -32768 <= s < 32768
  {
    var u := lo as int + 256 * hi as int;
    if u >= 32768 then u - 65536 else u
  }

  /** `np.frombuffer(data, dtype=np.int16)` on an even number of bytes. */
  function Samples(data: Bytes): (r: seq<int>)
    ensures |r| == |data| / 2
    ensures forall i :: 0 <= i < |r| ==> r[i] == Sample(data[2 * i], data[2 * i + 1])
  {
    if |data| < 2 then [] else [Sample(data[0], data[1])] + Samples(data[2..])
  }

  function SumSquares(xs: seq<int>): (r: int)
    ensures r >= 0
  {
    if xs == [] then 0 else SumSquares(xs[..|xs| - 1]) + xs[|xs| - 1] * xs[|xs| - 1]
  }

  /** Mean squared amplitude of a frame. */
  function Energy(frame: Bytes): (r: real)
    requires |frame| == VAD_FRAME_BYTES
    ensures r >= 0.0
  {
    SumSquares(Samples(frame)) as real / CHUNK_SIZE as real
  }

  lemma {:induction false} SumSquaresOfZeros(xs: seq<int>)
    requires forall i :: 0 <= i < |xs| ==> xs[i] == 0
    ensures SumSquares(xs) == 0
  {
    if xs != [] {
      SumSquaresOfZeros(xs[..|xs| - 1]);
    }
  }

  /** A silent (all-zero) frame carries no energy. */
  lemma SilenceHasNoEnergy()
    ensures Energy(seq(VAD_FRAME_BYTES, _ => 0 as byte)) == 0.0
  {
    var frame := seq(VAD_FRAME_BYTES, _ => 0 as byte);
    SumSquaresOfZeros(Samples(frame));
  }

  function ActivityRank(l: VoiceActivityLevel): nat
  {
    match l
    case Silent => 0
    case Low => 1
    case Medium => 2
    case High => 3
  }

  /** `_get_activity_level` */
  function ActivityLevel(energy: real, hasSpeech: bool): (r: VoiceActivityLevel)
    ensures r == Silent <==> !hasSpeech
    ensures r == High <==> hasSpeech && energy > 1000000.0
    ensures r == Medium <==> hasSpeech && 100000.0 < energy <= 1000000.0
    ensures r == Low <==> hasSpeech && energy <= 100000.0
  {
    if !hasSpeech then Silent
    else if energy > 1000000.0 then High
    else if energy > 100000.0 then Medium
    else Low
  }

  /** Among speech frames, more energy never means a lower level. */
  lemma ActivityLevelMonotone(a: real, b: real)
    requires a <= b
    ensures ActivityRank(ActivityLevel(a, true)) <= ActivityRank(ActivityLevel(b, true))
  {
  }

  datatype VadResult = VadResult(hasSpeech: bool, level: VoiceActivityLevel, energy: real, confidence: real)

  /** `_detect_voice_activity`: `vad` is the detector's `is_speech` at 16 kHz,
      `Err` when it raises. */
  function DetectVoiceActivity(data: Bytes, vad: Bytes -> Result<bool>): (r: VadResult)
    ensures r.hasSpeech <==> vad(VadFrame(data)) == Ok(true)
    ensures r.level == Silent <==> !r.hasSpeech
    ensures r.energy >= 0.0
    ensures vad(VadFrame(data)).Err? ==> r == VadResult(false, Silent, 0.0, 0.0)
    ensures vad(VadFrame(data)).Ok? ==> r.energy == Energy(VadFrame(data)) && r.confidence == (if r.hasSpeech then 0.8 else 0.2)
  {
    var frame := VadFrame(data);
    match vad(frame)
    case Err(_) => VadResult(false, Silent, 0.0, 0.0)
    case Ok(speech) =>
      var energy := Energy(frame);
      VadResult(speech, ActivityLevel(energy, speech), energy, if speech then 0.8 else 0.2)
  }

  // ---------------------------------------------------------------------
  // Transcription
  // ---------------------------------------------------------------------

  datatype WordInfo = WordInfo(word: string, confidence: real, startTime: real, endTime: real)

  /** One alternative of a recognition result; `words` is `None` when the
      alternative carries no word timings. */
  datatype Alternative = Alternative(transcript: string, confidence: real, words: Option<seq<WordInfo>>)

  /** The recogniser's answer: its results, each a list of alternatives. */
  type Response = seq<seq<Alternative>>

  datatype Transcription =
    | EmptyTranscript
    | Recognized(transcript: string, confidence: real, words: seq<WordInfo>, alternatives: seq<(string, real)>)
    | Failed(error: string)

  /** The second and third alternatives, `alternatives[1:3]`. */
  function RunnersUp(alts: seq<Alternative>): (r: seq<(string, real)>)
    ensures |r| == if |alts| <= 1 then 0 else if |alts| == 2 then 1 else 2
    ensures forall i :: 0 <= i < |r| ==> r[i] == (alts[i + 1].transcript, alts[i + 1].confidence)
  {
    if |alts| <= 1 then []
    else [(alts[1].transcript, alts[1].confidence)] + (if |alts| == 2 then [] else [(alts[2].transcript, alts[2].confidence)])
  }

  /** What `_process_transcription_response` makes of a response; a first
      result without alternatives raises `IndexError`. */
  function Transcribed(response: Response): (r: Result<Transcription>)
    ensures response == [] ==> r == Ok(EmptyTranscript)
    ensures r.Err? <==> response != [] && response[0] == []
    ensures r.Ok? && response != [] ==>
              && r.value.Recognized?
              && r.value.transcript == response[0][0].transcript
              && r.value.confidence == response[0][0].confidence
              && r.value.words == response[0][0].words.GetOr([])
              && r.value.alternatives == RunnersUp(response[0])
  {
    if response == [] then Ok(EmptyTranscript)
    else if response[0] == [] then Err("list index out of range")
    else
      var best := response[0][0];
      Ok(Recognized(best.transcript, best.confidence, best.words.GetOr([]), RunnersUp(response[0])))
  }

  /** `_process_transcription_response` */
  method ProcessTranscriptionResponse(response: Response) returns (r: Result<Transcription>)
    ensures r == Transcribed(response)
  {
    if response == [] {
      return Ok(EmptyTranscript);
    }
    var result := response[0];
    if result == [] {
      return Err("list index out of range");
    }
    var best := result[0];
    var words: seq<WordInfo> := [];
    if best.words.Some? {
      var given := best.words.value;
      var i := 0;
      while i < |given|
        invariant 0 <= i <= |given|
        invariant words == given[..i]
      {
        words := words + [given[i]];
        i := i + 1;
      }
      assert given[..i] == given;
    }
    var alternatives: seq<(string, real)> := [];
    var j := 1;
    var stop := if |result| < 3 then |result| else 3;
    while j < stop
      invariant 1 <= j <= stop
      invariant |alternatives| == j - 1
      invariant forall k :: 0 <= k < |alternatives| ==> alternatives[k] == (result[k + 1].transcript, result[k + 1].confidence)
    {
      alternatives := alternatives + [(result[j].transcript, result[j].confidence)];
      j := j + 1;
    }
    assert alternatives == RunnersUp(result);
    r := Ok(Recognized(best.transcript, best.confidence, words, alternatives));
  }

  // ---------------------------------------------------------------------
  // The speech buffer
  // ---------------------------------------------------------------------

  /** An entry of `audio_buffer`; `timestamp` is the clock when it arrived. */
  datatype BufferedChunk = BufferedChunk(data: Bytes, timestamp: int, quality: QualityMetrics,
                                         sessionId: string, userId: string)

  /** `b''.join(chunk['data'] for chunk in audio_buffer)` */
  function Combined(buffer: seq<BufferedChunk>): (r: Bytes)
    ensures buffer != [] && buffer[0].data != [] ==> r != []
  {
    if buffer == [] then [] else buffer[0].data + Combined(buffer[1..])
  }

  /** The recogniser: `None` without a client, otherwise its `recognize`
      on the combined audio, `Err` when that raises. */
  type Recognizer = Option<Bytes -> Result<Response>>

  /** `_process_speech_segment`: the transcription and the buffer after it. */
  function Segment(buffer: seq<BufferedChunk>, client: Recognizer): (r: (Option<Transcription>, seq<BufferedChunk>))
    ensures buffer == [] || client.None? ==> r == (None, buffer)
    ensures buffer != [] && client.Some? ==> r.1 == []
    ensures r.0.Some? ==> (|Combined(buffer)| as real) / ((SAMPLE_RATE * 2) as real) >= MIN_SPEECH_DURATION
    ensures r.0.Some? && client.Some? && client.value(Combined(buffer)).Err? ==>
              r.0.value == Failed(client.value(Combined(buffer)).msg)
  {
    if buffer == [] || client.None? then (None, buffer)
    else
      var audio := Combined(buffer);
      if (|audio| as real) / ((SAMPLE_RATE * 2) as real) < MIN_SPEECH_DURATION then (None, [])
      else match client.value(audio)
        case Err(e) => (Some(Failed(e)), [])
        case Ok(response) =>
          match Transcribed(response)
          case Err(e) => (Some(Failed(e)), [])
          case Ok(t) => (Some(t), [])
  }

  /** The half-second minimum is 16000 bytes of 16 kHz 16-bit audio. */
  lemma MinimumSegmentBytes(buffer: seq<BufferedChunk>)
    ensures (|Combined(buffer)| as real) / ((SAMPLE_RATE * 2) as real) >= MIN_SPEECH_DURATION
            <==> |Combined(buffer)| >= 16000
  {
  }

  datatype ChunkReport = ChunkReport(quality: QualityMetrics, voiceActivity: VadResult,
                                     transcription: Option<Transcription>, bufferSize: nat, timestamp: int)

  /** `process_audio_chunk`: the report (or the `AudioProcessingError`
      message) and the buffer afterwards. `measured` is the quality analysis
      of the chunk and `now` the clock. */
  function ProcessChunk(buffer: seq<BufferedChunk>, vad: Bytes -> Result<bool>, client: Recognizer, data: Bytes,
                        sessionId: string, userId: string, measured: Option<Measurement>, now: int)
    : (r: (Result<ChunkReport>, seq<BufferedChunk>))
    ensures r.0.Err? <==> |data| == 0 || |data| % 2 == 1
    ensures r.0.Err? ==> r.1 == buffer
    ensures r.0.Ok? ==> r.0.value.bufferSize == |r.1| && r.0.value.voiceActivity == DetectVoiceActivity(data, vad)
    ensures r.0.Ok? && r.0.value.voiceActivity.hasSpeech ==>
              r.1 == buffer + [BufferedChunk(data, now, AssessAudioQuality(measured), sessionId, userId)]
              && r.0.value.transcription.None?
    ensures r.0.Ok? && !r.0.value.voiceActivity.hasSpeech ==> (r.0.value.transcription, r.1) == Segment(buffer, client)
  {
    if |data| % 2 == 1 then
      (Err("Audio processing failed: buffer size must be a multiple of element size"), buffer)
    else if |data| == 0 then
      (Err("Audio processing failed: Empty audio data received"), buffer)
    else
      var quality := AssessAudioQuality(measured);
      var activity := DetectVoiceActivity(data, vad);
      if activity.hasSpeech then
        var next := buffer + [BufferedChunk(data, now, quality, sessionId, userId)];
        (Ok(ChunkReport(quality, activity, None, |next|, now)), next)
      else
        var (t, next) := Segment(buffer, client);
        (Ok(ChunkReport(quality, activity, t, |next|, now)), next)
  }

  /** Only chunks the detector calls speech are ever buffered. */
  ghost predicate SpeechOnly(buffer: seq<BufferedChunk>, vad: Bytes -> Result<bool>)
  {
    forall i :: 0 <= i < |buffer| ==> buffer[i].data != [] && vad(VadFrame(buffer[i].data)) == Ok(true)
  }

  /** Processing a chunk keeps the buffer to speech; a pause empties it
      whenever a recogniser is configured. */
  lemma ProcessChunkKeepsSpeech(buffer: seq<BufferedChunk>, vad: Bytes -> Result<bool>, client: Recognizer, data: Bytes,
                                sessionId: string, userId: string, measured: Option<Measurement>, now: int)
    requires SpeechOnly(buffer, vad)
    ensures var r := ProcessChunk(buffer, vad, client, data, sessionId, userId, measured, now);
      && SpeechOnly(r.1, vad)
      && (r.0.Ok? && !r.0.value.voiceActivity.hasSpeech && client.Some? ==> r.1 == [])
  {
    var r := ProcessChunk(buffer, vad, client, data, sessionId, userId, measured, now);
    if r.0.Ok? && r.0.value.voiceActivity.hasSpeech {
      var next := r.1;
      forall i | 0 <= i < |next| ensures next[i].data != [] && vad(VadFrame(next[i].data)) == Ok(true) {
        if i < |buffer| {
          assert next[i] == buffer[i];
        }
      }
    }
  }

  datatype SetupReport = SetupReport(speechClient: bool, vadAvailable: bool, sampleRate: nat, chunkSize: nat,
                                     errors: seq<string>, isReady: bool)

  class AudioProcessorService {
    /** `audio_buffer`: the speech chunks waiting for a pause. */
    var buffer: seq<BufferedChunk>
    /** The voice activity detector (aggressiveness 2). */
    const vad: Bytes -> Result<bool>
    /** The speech client, `None` when it could not be created. */
    const client: Recognizer

    ghost predicate Valid()
      reads this
    {
      SpeechOnly(buffer, vad)
    }

    constructor (vad: Bytes -> Result<bool>, client: Recognizer)
      ensures this.vad == vad && this.client == client && buffer == [] && Valid()
    {
      this.vad := vad;
      this.client := client;
      buffer := [];
    }

    /** `_process_speech_segment` */
    method ProcessSpeechSegment() returns (t: Option<Transcription>)
      modifies this`buffer
      ensures (t, buffer) == Segment(old(buffer), client)
    {
      if buffer == [] || client.None? {
        return None;
      }
      var audio := Combined(buffer);
      if (|audio| as real) / ((SAMPLE_RATE * 2) as real) < MIN_SPEECH_DURATION {
        buffer := [];
        return None;
      }
      var answer := client.value(audio);
      if answer.Err? {
        buffer := [];
        return Some(Failed(answer.msg));
      }
      var processed := ProcessTranscriptionResponse(answer.value);
      buffer := [];
      if processed.Err? {
        return Some(Failed(processed.msg));
      }
      t := Some(processed.value);
    }

    /** `process_audio_chunk` */
    method ProcessAudioChunk(data: Bytes, sessionId: string, userId: string, measured: Option<Measurement>, now: int)
      returns (r: Result<ChunkReport>)
      requires Valid()
      modifies this`buffer
      ensures Valid()
      ensures (r, buffer) == ProcessChunk(old(buffer), vad, client, data, sessionId, userId, measured, now)
    {
      ProcessChunkKeepsSpeech(buffer, vad, client, data, sessionId, userId, measured, now);
      if |data| % 2 == 1 {
        return Err("Audio processing failed: buffer size must be a multiple of element size");
      }
      if |data| == 0 {
        return Err("Audio processing failed: Empty audio data received");
      }
      var quality := AssessAudioQuality(measured);
      var activity := DetectVoiceActivity(data, vad);
      var transcription: Option<Transcription> := None;
      if activity.hasSpeech {
        buffer := buffer + [BufferedChunk(data, now, quality, sessionId, userId)];
      } else if |buffer| > 0 {
        transcription := ProcessSpeechSegment();
      }
      r := Ok(ChunkReport(quality, activity, transcription, |buffer|, now));
    }

    /** `validate_audio_setup`: the detector is tried on one silent frame. */
    function ValidateAudioSetup(): (r: SetupReport)
      ensures r.isReady <==> client.Some? && vad(seq(VAD_FRAME_BYTES, _ => 0 as byte)).Ok?
      ensures r.isReady <==> r.errors == []
      ensures r.speechClient <==> client.Some?
      ensures |r.errors| == (if client.None? then 1 else 0) + (if r.vadAvailable then 0 else 1)
    {
      var clientErrors := if client.None? then ["Google Speech-to-Text client not initialized. Check credentials."] else [];
      var probe := vad(seq(VAD_FRAME_BYTES, _ => 0 as byte));
      var errors := if probe.Err? then clientErrors + ["VAD test failed: " + probe.msg] else clientErrors;
      SetupReport(client.Some?, probe.Ok?, SAMPLE_RATE, CHUNK_SIZE, errors, client.Some? && probe.Ok? && |errors| == 0)
    }
  }
}

=== FILE: bytes.dfy ===
/** Byte strings (Python `bytes`) and the UTF-8 encoding of text
    (`str.encode('utf-8')`, RFC 3629). */
module Bytes {
  newtype byte = b: int | 0 <= b < 256

  type Bytes = seq<byte>

  /** The UTF-8 encoding of one Unicode scalar value. */
  function Utf8Char(c: char): (r: Bytes)
    ensures 1 <= |r| <= 4
    ensures |r| == 1 <==> c as int < 0x80
    ensures |r| == 1 ==> r[0] as int == c as int
  {
    var cp := c as int;
    if cp < 0x80 then [cp as byte]
    else if cp < 0x800 then [(0xC0 + cp / 64) as byte, (0x80 + cp % 64) as byte]
    else if cp < 0x1_0000 then
      [(0xE0 + cp / 4096) as byte, (0x80 + (cp / 64) % 64) as byte, (0x80 + cp % 64) as byte]
    else
      [(0xF0 + cp / 262144) as byte, (0x80 + (cp / 4096) % 64) as byte,
       (0x80 + (cp / 64) % 64) as byte, (0x80 + cp % 64) as byte]
  }

  /** `s.encode('utf-8')` */
  function Utf8(s: string): (r: Bytes)
  {
    if s == [] then [] else Utf8(s[..|s| - 1]) + Utf8Char(s[|s| - 1])
  }

  predicate IsAscii(s: string)
  {
    forall i :: 0 <= i < |s| ==> s[i] as int < 0x80
  }

  /** Encoding takes one to four bytes per character, and exactly one per
      character for ASCII text, where each byte is the character's code. */
  lemma {:induction false} Utf8Length(s: string)
    ensures |s| <= |Utf8(s)| <= 4 * |s|
    ensures IsAscii(s) ==> |Utf8(s)| == |s| && forall i :: 0 <= i < |s| ==> Utf8(s)[i] as int == s[i] as int
  {
    if s != [] {
      var p := s[..|s| - 1];
      Utf8Length(p);
      if IsAscii(s) {
        assert IsAscii(p) by {
          forall i | 0 <= i < |p| ensures p[i] as int < 0x80 {
            assert p[i] == s[i];
          }
        }
        forall i | 0 <= i < |s| ensures Utf8(s)[i] as int == s[i] as int {
          if i < |p| {
            assert Utf8(s)[i] == Utf8(p)[i];
            assert p[i] == s[i];
          }
        }
      }
    }
  }

  /** The bytes of an ASCII text literal. */
  function Ascii(s: string): (r: Bytes)
    requires IsAscii(s)
    ensures |r| == |s| && forall i :: 0 <= i < |s| ==> r[i] as int == s[i] as int
  {
    seq(|s|, i requires 0 <= i < |s| => s[i] as int as byte)
  }

  /** Python's `b[:n]` for `n >= 0`. */
  function Take(b: Bytes, n: nat): (r: Bytes)
    ensures |r| == if n < |b| then n else |b|
    ensures r == b[..|r|]
  {
    if n < |b| then b[..n] else b
  }
}

=== FILE: computer_vision.dfy ===
/** The text handling of the canvas analysis
    (backend/app/services/computer_vision.py): taking the image payload
    out of a canvas data URL (RFC 2397, section 3), reading the vision
    model's plain-text answer section by section, cleaning up recognised
    equations and laying out detected objects.

    The vision model and the base64 decoder are parameters: what the model
    answered (or the error it raised) and a decoding function. */
module ComputerVision {
  import opened Wrappers
  import opened Text
  import opened Bytes

  // ---------------------------------------------------------------------
  // Canvas payload
  // ---------------------------------------------------------------------

  /** The text after the first ',' of a canvas image URL, `None` for input
      that is not an image URL, an error when an image URL has no ','. */
  function CanvasPayload(canvasData: string): (r: Result<Option<string>>)
    ensures !StartsWith(canvasData, "data:image") ==> r == Ok(None)
    ensures r.Ok? && r.value.Some? ==> |r.value.value| < |canvasData| && r.value.value == canvasData[|canvasData| - |r.value.value|..]
  {
    if !StartsWith(canvasData, "data:image") then Ok(None)
    else
      match Find(canvasData, ",")
      case None => Err("not enough values to unpack (expected 2, got 1)")
      case Some(i) => Ok(Some(canvasData[i + 1..]))
  }

  /** `extract_canvas_content`: the decoded payload of an image URL, empty
      bytes for anything else; a decoding error is raised again. */
  function ExtractCanvasContent(canvasData: string, decode: string -> Result<Bytes>): (r: Result<Bytes>)
    ensures !StartsWith(canvasData, "data:image") ==> r == Ok([])
  {
    match CanvasPayload(canvasData)
    case Err(e) => Err(e)
    case Ok(None) => Ok([])
    case Ok(Some(encoded)) => decode(encoded)
  }

  /** An image URL whose header has no ',' hands its whole payload, commas
      included, to the decoder. */
  lemma {:induction false} ExtractImageUrl(header: string, encoded: string, decode: string -> Result<Bytes>)
    requires StartsWith(header, "data:image") && forall i :: 0 <= i < |header| ==> header[i] != ','
    ensures ExtractCanvasContent(header + "," + encoded, decode) == decode(encoded)
  {
    var url := header + "," + encoded;
    assert StartsWith(url, "data:image") by {
      assert url[..|"data:image"|] == header[..|"data:image"|];
    }
    assert MatchAt(url, ",", |header|) by {
      assert url[|header|..|header| + 1] == ",";
    }
    forall j | 0 <= j < |header| ensures !MatchAt(url, ",", j) {
      assert url[j] == header[j];
    }
    assert Find(url, ",") == Some(|header|);
    assert url[|header| + 1..] == encoded;
  }

  // ---------------------------------------------------------------------
  // Analysis results
  // ---------------------------------------------------------------------

  datatype Diagram = Diagram(kind: string, description: Option<string>, elements: seq<string>)

  /** `CanvasAnalysisResult`, without the raw answer. */
  datatype CanvasAnalysis = CanvasAnalysis(textContent: seq<string>, equations: seq<string>, diagrams: seq<Diagram>,
                                           handwriting: string, confidence: map<string, real>)

  /** The confidence scores of a parsed answer: 0.7 for each of the four analyses. */
  const DEFAULT_CONFIDENCE: map<string, real> :=
    map["text_detection" := 0.7, "equation_recognition" := 0.7,
        "diagram_analysis" := 0.7, "handwriting_recognition" := 0.7]

  datatype Section = TextContent | Equations | Diagrams | Handwriting

  /** The section a (stripped) line opens, by precedence: text content,
      then mathematics, then diagrams, then handwriting. */
  function HeaderOf(line: string): (s: Option<Section>)
    ensures var low := Lower(line);
      && (Contains(low, "text") && Contains(low, "content") <==> s == Some(TextContent))
      && (s.None? <==> !(Contains(low, "text") && Contains(low, "content")) && !Contains(low, "math")
                       && !Contains(low, "equation") && !Contains(low, "diagram") && !Contains(low, "drawing")
                       && !Contains(low, "handwriting"))
  {
    var low := Lower(line);
    if Contains(low, "text") && Contains(low, "content") then Some(TextContent)
    else if Contains(low, "math") || Contains(low, "equation") then Some(Equations)
    else if Contains(low, "diagram") || Contains(low, "drawing") then Some(Diagrams)
    else if Contains(low, "handwriting") then Some(Handwriting)
    else None
  }

  datatype ParseState = ParseState(section: Option<Section>, result: CanvasAnalysis)

  const EMPTY_ANALYSIS := CanvasAnalysis([], [], [], "", DEFAULT_CONFIDENCE)

  /** One line of `_parse_text_analysis`: a header switches the section;
      another non-empty line goes to the current section, if any. */
  function ParseLine(st: ParseState, raw: string): ParseState
  {
    var line := Strip(raw);
    var header := HeaderOf(line);
    if header.Some? then st.(section := header)
    else if line == [] || st.section.None? then st
    else
      var r := st.result;
      match st.section.value
      case Handwriting => st.(result := r.(handwriting := line))
      case Diagrams => st.(result := r.(diagrams := r.diagrams + [Diagram("unknown", Some(line), [])]))
      case TextContent => st.(result := r.(textContent := r.textContent + [line]))
      case Equations => st.(result := r.(equations := r.equations + [line]))
  }

  function ParseLines(lines: seq<string>): ParseState
  {
    if lines == [] then ParseState(None, EMPTY_ANALYSIS)
    else ParseLine(ParseLines(lines[..|lines| - 1]), lines[|lines| - 1])
  }

  /** A line stored as content: not empty and not a header. */
  predicate IsContent(line: string)
  {
    line != [] && HeaderOf(line).None?
  }

  /** Every stored line is a non-empty, non-header line, the handwriting
      is one or empty, and the confidence scores are the defaults. */
  predicate ContentOnly(r: CanvasAnalysis)
  {
    && (forall i :: 0 <= i < |r.textContent| ==> IsContent(r.textContent[i]))
    && (forall i :: 0 <= i < |r.equations| ==> IsContent(r.equations[i]))
    && (forall i :: 0 <= i < |r.diagrams| ==>
          r.diagrams[i].kind == "unknown" && r.diagrams[i].elements == []
          && r.diagrams[i].description.Some? && IsContent(r.diagrams[i].description.value))
    && (r.handwriting == "" || IsContent(r.handwriting))
    && r.confidence == DEFAULT_CONFIDENCE
  }

  function Stored(r: CanvasAnalysis): nat
  {
    |r.textContent| + |r.equations| + |r.diagrams|
  }

  lemma ParseLineKeepsContent(st: ParseState, raw: string)
    requires ContentOnly(st.result)
    ensures ContentOnly(ParseLine(st, raw).result)
    ensures Stored(ParseLine(st, raw).result) <= Stored(st.result) + 1
  {
    var line := Strip(raw);
    if HeaderOf(line).None? && line != [] && st.section.Some? {
      var r := st.result;
      var r' := ParseLine(st, raw).result;
      assert IsContent(line);
      match st.section.value
      case Handwriting =>
        assert r' == r.(handwriting := line);
      case Diagrams =>
        assert r' == r.(diagrams := r.diagrams + [Diagram("unknown", Some(line), [])]);
      case TextContent =>
        assert r' == r.(textContent := r.textContent + [line]);
      case Equations =>
        assert r' == r.(equations := r.equations + [line]);
    }
  }

  /** What the parse keeps is content only, at most one entry per line. */
  lemma {:induction false} ParseKeepsContent(lines: seq<string>)
    ensures ContentOnly(ParseLines(lines).result)
    ensures Stored(ParseLines(lines).result) <= |lines|
  {
    if lines != [] {
      ParseKeepsContent(lines[..|lines| - 1]);
      ParseLineKeepsContent(ParseLines(lines[..|lines| - 1]), lines[|lines| - 1]);
    }
  }

  /** Lines before the first header are ignored. */
  lemma {:induction false} NoHeaderNoContent(lines: seq<string>)
    requires forall i :: 0 <= i < |lines| ==> HeaderOf(Strip(lines[i])).None?
    ensures ParseLines(lines) == ParseState(None, EMPTY_ANALYSIS)
  {
    if lines != [] {
      NoHeaderNoContent(lines[..|lines| - 1]);
    }
  }

  /** `_parse_text_analysis` */
  method ParseTextAnalysis(text: string) returns (r: CanvasAnalysis)
    ensures r == ParseLines(Split(text, "\n")).result
  {
    var lines := Split(text, "\n");
    var section: Option<Section> := None;
    r := EMPTY_ANALYSIS;
    var i := 0;
    while i < |lines|
      invariant 0 <= i <= |lines|
      invariant ParseState(section, r) == ParseLines(lines[..i])
    {
      assert lines[..i + 1][..i] == lines[..i];
      var line := Strip(lines[i]);
      var header := HeaderOf(line);
      if header.Some? {
        section := header;
      } else if line != [] && section.Some? {
        match section.value
        case Handwriting =>
          r := r.(handwriting := line);
        case Diagrams =>
          r := r.(diagrams := r.diagrams + [Diagram("unknown", Some(line), [])]);
        case TextContent =>
          r := r.(textContent := r.textContent + [line]);
        case Equations =>
          r := r.(equations := r.equations + [line]);
      }
      i := i + 1;
    }
    assert lines[..i] == lines;
  }

  // ---------------------------------------------------------------------
  // Equation clean-up
  // ---------------------------------------------------------------------

  const ARROW := "→"

  /** The last piece of a split holds no separator. */
  lemma {:induction false} SplitLastHasNoSep(s: string, sep: string)
    requires sep != []
    ensures var parts := Split(s, sep); Find(parts[|parts| - 1], sep).None?
    decreases |s|
  {
    match Find(s, sep)
    case None =>
      assert Split(s, sep) == [s];
    case Some(i) =>
      var rest := s[i + |sep|..];
      SplitLastHasNoSep(rest, sep);
      var tail := Split(rest, sep);
      assert Split(s, sep) == [s[..i]] + tail;
      assert Split(s, sep)[|Split(s, sep)| - 1] == tail[|tail| - 1];
  }

  /** A slice of a text without the pattern does not hold it either. */
  lemma NoMatchInSlice(s: string, p: string, a: nat, b: nat)
    requires a <= b <= |s| && Find(s, p).None?
    ensures Find(s[a..b], p).None?
  {
    var t := s[a..b];
    forall j | 0 <= j <= |t| ensures !MatchAt(t, p, j) {
      if j + |p| <= |t| {
        var u, v := t[j..j + |p|], s[a + j..a + j + |p|];
        assert forall k :: 0 <= k < |p| ==> u[k] == v[k];
        assert u == v;
        assert !MatchAt(s, p, a + j);
      }
    }
  }

  /** Stripping takes a slice. */
  lemma StripIsSlice(s: string)
    ensures exists a, b :: 0 <= a <= b <= |s| && Strip(s) == s[a..b]
  {
    var t := StripLeft(s);
    StripLeftSuffix(s);
    StripRightPrefix(t);
    var a := |s| - |t|;
    assert Strip(s) == s[a..a + |StripRight(t)|];
  }

  /** One answer line of `recognize_mathematical_equations`: blank lines
      and lines starting with '#' or '*' are skipped; of a line with an
      arrow, the stripped text after the last arrow is kept. */
  function EquationOf(raw: string): (e: Option<string>)
    ensures e.Some? ==> Find(e.value, ARROW).None? || (Find(Strip(raw), ARROW).None? && e.value == Strip(raw))
  {
    var line := Strip(raw);
    if line == [] || StartsWith(line, "#") || StartsWith(line, "*") then None
    else if Find(line, ARROW).Some? then
      var parts := Split(line, ARROW);
      var last := parts[|parts| - 1];
      SplitLastHasNoSep(line, ARROW);
      StripIsSlice(last);
      var a, b :| 0 <= a <= b <= |last| && Strip(last) == last[a..b];
      NoMatchInSlice(last, ARROW, a, b);
      Some(Strip(last))
    else Some(line)
  }

  function EquationsOf(lines: seq<string>): (es: seq<string>)
    ensures |es| <= |lines|
    ensures forall i :: 0 <= i < |es| ==> Find(es[i], ARROW).None?
  {
    if lines == [] then []
    else
      var e := EquationOf(lines[|lines| - 1]);
      EquationsOf(lines[..|lines| - 1]) + (if e.Some? then [e.value] else [])
  }

  /** The post-processing of `recognize_mathematical_equations`; a model
      error gives no equations. */
  method RecognizeMathematicalEquations(answer: Result<string>) returns (es: seq<string>)
    ensures answer.Err? ==> es == []
    ensures answer.Ok? ==> es == EquationsOf(Split(answer.value, "\n"))
    ensures forall i :: 0 <= i < |es| ==> Find(es[i], ARROW).None?
  {
    if answer.Err? {
      return [];
    }
    var lines := Split(answer.value, "\n");
    es := [];
    var i := 0;
    while i < |lines|
      invariant 0 <= i <= |lines|
      invariant es == EquationsOf(lines[..i])
    {
      assert lines[..i + 1][..i] == lines[..i];
      var e := EquationOf(lines[i]);
      if e.Some? {
        es := es + [e.value];
      }
      i := i + 1;
    }
    assert lines[..i] == lines;
  }

  // ---------------------------------------------------------------------
  // Object layout
  // ---------------------------------------------------------------------

  datatype BoundingBox = BoundingBox(x: int, y: int, width: int, height: int, confidence: real)

  datatype DetectedObject = DetectedObject(kind: string, content: string, box: BoundingBox, confidence: real)

  /** `confidence_scores.get(key, 0.8)` */
  function Score(a: CanvasAnalysis, key: string): real
  {
    if key in a.confidence then a.confidence[key] else 0.8
  }

  /** `detect_objects_with_bounding_boxes`: one object per text, then per
      equation, then per diagram, stacked down the canvas; an analysis
      error gives no objects. */
  method DetectObjects(analysis: Result<CanvasAnalysis>) returns (objs: seq<DetectedObject>)
    ensures analysis.Err? ==> objs == []
    ensures analysis.Ok? ==>
      var a := analysis.value;
      var t, e := |a.textContent|, |a.equations|;
      && |objs| == t + e + |a.diagrams|
      && (forall i :: 0 <= i < t ==>
            objs[i] == DetectedObject("text", a.textContent[i], BoundingBox(0, i * 30, 200, 25, 0.8), Score(a, "text_detection")))
      && (forall i :: 0 <= i < e ==>
            objs[t + i] == DetectedObject("equation", a.equations[i], BoundingBox(0, t * 30 + i * 40, 300, 35, 0.8),
                                          Score(a, "equation_recognition")))
      && (forall i :: 0 <= i < |a.diagrams| ==>
            objs[t + e + i] == DetectedObject("diagram", a.diagrams[i].description.GetOr(""),
                                              BoundingBox(0, (t + e) * 35 + i * 100, 400, 80, 0.8), Score(a, "diagram_analysis")))
  {
    if analysis.Err? {
      return [];
    }
    var a := analysis.value;
    var t, e := |a.textContent|, |a.equations|;
    objs := [];
    var i := 0;
    while i < t
      invariant 0 <= i <= t && |objs| == i
      invariant forall j :: 0 <= j < i ==>
        objs[j] == DetectedObject("text", a.textContent[j], BoundingBox(0, j * 30, 200, 25, 0.8), Score(a, "text_detection"))
    {
      objs := objs + [DetectedObject("text", a.textContent[i], BoundingBox(0, i * 30, 200, 25, 0.8), Score(a, "text_detection"))];
      i := i + 1;
    }
    objs := AddEquations(a, objs);
    objs := AddDiagrams(a, objs);
  }

  method AddEquations(a: CanvasAnalysis, before: seq<DetectedObject>) returns (objs: seq<DetectedObject>)
    requires |before| == |a.textContent|
    ensures |objs| == |before| + |a.equations| && objs[..|before|] == before
    ensures forall i :: 0 <= i < |a.equations| ==>
      objs[|before| + i] == DetectedObject("equation", a.equations[i],
                                           BoundingBox(0, |before| * 30 + i * 40, 300, 35, 0.8), Score(a, "equation_recognition"))
  {
    var t := |before|;
    objs := before;
    var i := 0;
    while i < |a.equations|
      invariant 0 <= i <= |a.equations| && |objs| == t + i && objs[..t] == before
      invariant forall j :: 0 <= j < i ==>
        objs[t + j] == DetectedObject("equation", a.equations[j], BoundingBox(0, t * 30 + j * 40, 300, 35, 0.8),
                                      Score(a, "equation_recognition"))
    {
      objs := objs + [DetectedObject("equation", a.equations[i], BoundingBox(0, t * 30 + i * 40, 300, 35, 0.8),
                                     Score(a, "equation_recognition"))];
      i := i + 1;
    }
  }

  method AddDiagrams(a: CanvasAnalysis, before: seq<DetectedObject>) returns (objs: seq<DetectedObject>)
    requires |before| == |a.textContent| + |a.equations|
    ensures |objs| == |before| + |a.diagrams| && objs[..|before|] == before
    ensures forall i :: 0 <= i < |a.diagrams| ==>
      objs[|before| + i] == DetectedObject("diagram", a.diagrams[i].description.GetOr(""),
                                           BoundingBox(0, |before| * 35 + i * 100, 400, 80, 0.8), Score(a, "diagram_analysis"))
  {
    var n := |before|;
    objs := before;
    var i := 0;
    while i < |a.diagrams|
      invariant 0 <= i <= |a.diagrams| && |objs| == n + i && objs[..n] == before
      invariant forall j :: 0 <= j < i ==>
        objs[n + j] == DetectedObject("diagram", a.diagrams[j].description.GetOr(""),
                                      BoundingBox(0, n * 35 + j * 100, 400, 80, 0.8), Score(a, "diagram_analysis"))
    {
      objs := objs + [DetectedObject("diagram", a.diagrams[i].description.GetOr(""),
                                     BoundingBox(0, n * 35 + i * 100, 400, 80, 0.8), Score(a, "diagram_analysis"))];
      i := i + 1;
    }
  }
}

=== FILE: document_processor.dfy ===
/** Uploaded study documents: dispatch on the MIME type, the checks before
    indexing, the stored file name, the per-document listing built from the
    retrieval index and deletion. */
module DocumentProcessor {
  import opened Wrappers
  import opened Text
  import opened Bytes

  // ---------------------------------------------------------------------
  // Supported types
  // ---------------------------------------------------------------------

  /** The text extractors: PDF (with OCR fallback), Word, PowerPoint, OCR of
      an image, and decoding of plain text. */
  datatype Extractor = PdfText | DocxText | PptxText | ImageText | PlainText

  const SUPPORTED_TYPES: seq<string> := [
    "application/pdf",
    "application/vnd.openxmlformats-officedocument.wordprocessingml.document",
    "application/vnd.openxmlformats-officedocument.presentationml.presentation",
    "image/jpeg",
    "image/png",
    "image/tiff",
    "text/plain"
  ]

  /** `supported_types[content_type]` */
  function ExtractorFor(contentType: string): (r: Option<Extractor>)
    ensures r.Some? <==> contentType in SUPPORTED_TYPES
    ensures r == Some(ImageText) <==> contentType in ["image/jpeg", "image/png", "image/tiff"]
  {
    if contentType == "application/pdf" then Some(PdfText)
    else if contentType == "application/vnd.openxmlformats-officedocument.wordprocessingml.document" then Some(DocxText)
    else if contentType == "application/vnd.openxmlformats-officedocument.presentationml.presentation" then Some(PptxText)
    else if contentType in ["image/jpeg", "image/png", "image/tiff"] then Some(ImageText)
    else if contentType == "text/plain" then Some(PlainText)
    else None
  }

  /** Exactly seven distinct MIME types are accepted. */
  lemma SevenSupportedTypes()
    ensures |SUPPORTED_TYPES| == 7
    ensures forall i, j :: 0 <= i < j < |SUPPORTED_TYPES| ==> SUPPORTED_TYPES[i] != SUPPORTED_TYPES[j]
  {
  }

  // ---------------------------------------------------------------------
  // Stored file names
  // ---------------------------------------------------------------------

  const UPLOAD_DIR: string := "uploads/"

  /** The last position of `c` in `s`. */
  function LastIndexOf(s: string, c: char): (r: Option<nat>)
    ensures r.Some? ==> r.value < |s| && s[r.value] == c && forall j :: r.value < j < |s| ==> s[j] != c
    ensures r.None? ==> forall j :: 0 <= j < |s| ==> s[j] != c
  {
    if s == [] then None
    else if s[|s| - 1] == c then Some(|s| - 1)
    else LastIndexOf(s[..|s| - 1], c)
  }

  /** `Path(filename).name`: what follows the last `/`. */
  function BaseName(path: string): (r: string)
    ensures |r| <= |path| && r == path[|path| - |r|..]
    ensures forall j :: 0 <= j < |r| ==> r[j] != '/'
  {
    match LastIndexOf(path, '/')
    case None => path
    case Some(i) => path[i + 1..]
  }

  /** The suffix of a bare name: from its last dot, unless that dot starts
      or ends the name. */
  function NameSuffix(name: string): (r: string)
    ensures |r| <= |name| && r == name[|name| - |r|..]
    ensures r != [] ==> |r| >= 2 && r[0] == '.'
    ensures forall j :: 1 <= j < |r| ==> r[j] != '.'
  {
    match LastIndexOf(name, '.')
    case None => []
    case Some(i) => if 0 < i < |name| - 1 then name[i..] else []
  }

  /** `Path(filename).suffix`: the suffix of the name after the last `/`. */
  function Suffix(filename: string): (r: string)
    ensures |r| <= |filename| && r == filename[|filename| - |r|..]
    ensures r != [] ==> |r| >= 2 && r[0] == '.'
    ensures forall j :: 0 <= j < |r| ==> r[j] != '/'
    ensures forall j :: 1 <= j < |r| ==> r[j] != '.'
  {
    var name := BaseName(filename);
    var r := NameSuffix(name);
    TailOfTail(filename, name, r);
    r
  }

  /** The tail of a tail is a tail, made of the characters of the middle one. */
  lemma TailOfTail(s: string, t: string, r: string)
    requires |t| <= |s| && t == s[|s| - |t|..]
    requires |r| <= |t| && r == t[|t| - |r|..]
    ensures r == s[|s| - |r|..]
    ensures forall j :: 0 <= j < |r| ==> r[j] == t[|t| - |r| + j]
  {
  }

  /** `_save_file`'s file name: the document id with the original suffix. */
  function StoredName(docId: string, filename: string): (n: string)
    ensures StartsWith(n, docId) && n[|docId|..] == Suffix(filename)
  {
    docId + Suffix(filename)
  }

  function StoredPath(docId: string, filename: string): (p: string)
    ensures StartsWith(p, UPLOAD_DIR) && p[|UPLOAD_DIR|..] == StoredName(docId, filename)
  {
    UPLOAD_DIR + StoredName(docId, filename)
  }

  // ---------------------------------------------------------------------
  // The deletion glob
  // ---------------------------------------------------------------------

  /** The first position at or after `k` holding `c`. */
  function FindCharFrom(s: string, c: char, k: nat): (r: Option<nat>)
    ensures r.Some? ==> k <= r.value < |s| && s[r.value] == c
    ensures r.None? ==> forall j :: k <= j < |s| ==> s[j] != c
    decreases |s| - k
  {
    if k >= |s| then None else if s[k] == c then Some(k) else FindCharFrom(s, c, k + 1)
  }

  /** Where a character class opened by `[` closes, `rest` being what follows
      the `[`: a leading `!`, and then a leading `]`, belong to the class, and
      the first `]` after them closes it. `None` when nothing closes it; the
      `[` then stands for itself. */
  function ClassEnd(rest: string): (r: Option<nat>)
    ensures r.Some? ==> r.value < |rest| && rest[r.value] == ']'
  {
    var j := if rest != [] && rest[0] == '!' then 1 else 0;
    var k := if j < |rest| && rest[j] == ']' then j + 1 else j;
    FindCharFrom(rest, ']', k)
  }

  /** The members of a class body: ranges `a-z` and single characters. */
  predicate InItems(items: string, c: char)
  {
    if items == [] then false
    else if |items| >= 3 && items[1] == '-' then (items[0] <= c <= items[2]) || InItems(items[3..], c)
    else items[0] == c || InItems(items[1..], c)
  }

  /** Membership in the class with body `body`; a leading `!` negates it. */
  predicate InClass(body: string, c: char)
  {
    if body != [] && body[0] == '!' then !InItems(body[1..], c) else InItems(body, c)
  }

  /** Shell-style matching of one path component, as pathlib's `glob` does it
      on POSIX (case-sensitive, and a leading dot is not special): `*` matches
      any run of characters, `?` any one character, `[...]` one character of
      the class, and every other character itself. */
  predicate Fnmatch(pat: string, name: string)
    decreases |pat| + |name|
  {
    if pat == [] then name == []
    else if pat[0] == '*' then Fnmatch(pat[1..], name) || (name != [] && Fnmatch(pat, name[1..]))
    else if name == [] then false
    else if pat[0] == '?' then Fnmatch(pat[1..], name[1..])
    else if pat[0] == '[' && ClassEnd(pat[1..]).Some? then
      var e := ClassEnd(pat[1..]).value;
      InClass(pat[1..e + 1], name[0]) && Fnmatch(pat[e + 2..], name[1..])
    else pat[0] == name[0] && Fnmatch(pat[1..], name[1..])
  }

  /** An id in which glob sees no pattern: no `*`, `?` or `[`. */
  predicate Literal(docId: string)
  {
    forall j :: 0 <= j < |docId| ==> docId[j] != '*' && docId[j] != '?' && docId[j] != '['
  }

  /** A name in the upload directory that `glob(f"{document_id}.*")` yields. */
  predicate NameMatches(name: string, docId: string)
  {
    (forall j :: 0 <= j < |name| ==> name[j] != '/') && Fnmatch(docId + ".*", name)
  }

  predicate GlobMatches(path: string, docId: string)
  {
    StartsWith(path, UPLOAD_DIR) && NameMatches(path[|UPLOAD_DIR|..], docId)
  }

  /** `*` matches every name. */
  lemma {:induction false} StarMatchesAll(name: string)
    ensures Fnmatch("*", name)
    decreases |name|
  {
    if name != [] {
      StarMatchesAll(name[1..]);
    }
  }

  /** `.*` matches exactly the names that start with a dot. */
  lemma DotStar(name: string)
    ensures Fnmatch(".*", name) <==> name != [] && name[0] == '.'
  {
    if name != [] {
      assert ".*"[1..] == "*";
      StarMatchesAll(name[1..]);
    }
  }

  /** For an id without pattern characters the glob is a prefix test: the
      names it yields are the id, a dot, and anything after. */
  lemma {:induction false} LiteralGlob(docId: string, name: string)
    requires Literal(docId)
    ensures Fnmatch(docId + ".*", name) <==> StartsWith(name, docId + ".")
    decreases |docId|
  {
    if docId == [] {
      assert docId + ".*" == ".*";
      DotStar(name);
    } else {
      var pat := docId + ".*";
      assert pat[0] == docId[0] && pat[1..] == docId[1..] + ".*";
      if name != [] {
        LiteralGlob(docId[1..], name[1..]);
        assert docId + "." == [docId[0]] + (docId[1..] + ".");
        if |docId + "."| <= |name| {
          assert name[..|docId + "."|] == [name[0]] + name[1..][..|docId[1..] + "."|];
        }
      }
    }
  }

  /** Deletion finds a document's stored file exactly when the original name
      had a suffix: a file stored without one is left behind. */
  lemma GlobFindsStoredFile(docId: string, filename: string)
    requires Literal(docId)
    requires forall j :: 0 <= j < |docId| ==> docId[j] != '/'
    ensures GlobMatches(StoredPath(docId, filename), docId) <==> Suffix(filename) != []
  {
    var p := StoredPath(docId, filename);
    assert p[|UPLOAD_DIR|..] == docId + Suffix(filename);
    NameWithSuffix(docId, Suffix(filename));
  }

  /** The id followed by a suffix is globbed exactly when the suffix is
      there. */
  lemma NameWithSuffix(docId: string, s: string)
    requires Literal(docId)
    requires forall j :: 0 <= j < |docId| ==> docId[j] != '/'
    requires forall j :: 0 <= j < |s| ==> s[j] != '/'
    requires s != [] ==> s[0] == '.'
    ensures NameMatches(docId + s, docId) <==> s != []
  {
    var n := docId + s;
    LiteralGlob(docId, n);
    if s != [] {
      assert n[..|docId| + 1] == docId + ".";
      forall j | 0 <= j < |n| ensures n[j] != '/' {
        if j < |docId| {
          assert n[j] == docId[j];
        } else {
          assert n[j] == s[j - |docId|];
        }
      }
    } else {
      assert |n| < |docId + "."|;
    }
  }

  /** With ids of one length (uuid4 strings) and no pattern characters,
      deleting one document never touches the file of another. */
  lemma GlobSparesOtherDocuments(docId: string, other: string, filename: string)
    requires Literal(docId)
    requires |docId| == |other| && docId != other
    ensures !GlobMatches(StoredPath(other, filename), docId)
  {
    var n := StoredName(other, filename);
    NamePrefix(n, docId);
    assert n[..|other|] == other;
  }

  lemma NamePrefix(name: string, docId: string)
    requires Literal(docId)
    ensures NameMatches(name, docId) ==> |docId| < |name| && name[..|docId|] == docId
  {
    LiteralGlob(docId, name);
    if NameMatches(name, docId) {
      assert name[..|docId|] == name[..|docId| + 1][..|docId|];
    }
  }

  /** `*.*` matches exactly the names holding a dot. */
  lemma {:induction false} StarDotStar(name: string)
    ensures Fnmatch("*.*", name) <==> '.' in name
    decreases |name|
  {
    assert "*.*"[1..] == ".*";
    DotStar(name);
    if name != [] {
      StarDotStar(name[1..]);
      assert '.' in name <==> name[0] == '.' || '.' in name[1..];
    }
  }

  /** As many `?` as the id has characters, then `.*`, matches the id with
      any suffix. */
  lemma {:induction false} QuestionMarksMatch(other: string, s: string)
    requires s != [] && s[0] == '.'
    ensures Fnmatch(seq(|other|, _ => '?') + ".*", other + s)
    decreases |other|
  {
    var pat := seq(|other|, _ => '?') + ".*";
    if other == [] {
      assert pat == ".*" && other + s == s;
      DotStar(s);
    } else {
      QuestionMarksMatch(other[1..], s);
      assert pat[1..] == seq(|other[1..]|, _ => '?') + ".*";
      assert (other + s)[1..] == other[1..] + s;
    }
  }

  /** The id `*` deletes every stored file whose name has a dot in it, that
      is, every other document's file too (the owner is not looked at). */
  lemma StarIdDeletesEverySuffixedFile(path: string)
    requires StartsWith(path, UPLOAD_DIR)
    requires forall j :: |UPLOAD_DIR| <= j < |path| ==> path[j] != '/'
    ensures GlobMatches(path, "*") <==> '.' in path[|UPLOAD_DIR|..]
  {
    assert "*" + ".*" == "*.*";
    StarDotStar(path[|UPLOAD_DIR|..]);
  }

  /** An id of `?` characters deletes the file of every document whose id
      has that length, so the sparing above needs ids without pattern
      characters. */
  lemma PatternIdTakesOthers(other: string, filename: string)
    requires forall j :: 0 <= j < |other| ==> other[j] != '/'
    requires Suffix(filename) != []
    ensures GlobMatches(StoredPath(other, filename), seq(|other|, _ => '?'))
  {
    var s := Suffix(filename);
    var p := StoredPath(other, filename);
    var n := p[|UPLOAD_DIR|..];
    assert n == other + s;
    QuestionMarksMatch(other, s);
    forall j | 0 <= j < |n| ensures n[j] != '/' {
      if j < |other| {
        assert n[j] == other[j];
      } else {
        assert n[j] == s[j - |other|];
      }
    }
  }

  /** The upload directory without the files the deletion glob yields. */
  function WithoutDocument(uploads: map<string, Bytes>, docId: string): (r: map<string, Bytes>)
    ensures forall p :: p in r <==> p in uploads && !GlobMatches(p, docId)
    ensures forall p :: p in r ==> r[p] == uploads[p]
  {
    map p | p in uploads && !GlobMatches(p, docId) :: uploads[p]
  }

  // ---------------------------------------------------------------------
  // Processing an upload
  // ---------------------------------------------------------------------

  const FAILED: string := "Failed to process document: "
  const NO_TEXT: string := "No text content could be extracted from the document"

  /** What the retrieval index reported for `add_document`; a field it left
      out is `None`. */
  datatype RagReply = RagReply(chunksCreated: Option<int>, subject: Option<string>, collections: Option<seq<string>>)

  datatype ProcessedDocument = ProcessedDocument(documentId: string, filename: string, contentType: string,
                                                 textContent: string, chunkCount: int, subject: string,
                                                 filePath: string, status: string, ragCollections: seq<string>)

  /** `process_document`. `docId` is the fresh uuid4, `extracted` what the
      type's extractor returned (`Err` with its message when it raised),
      `rag` what indexing returned, and `writeError` the failure, if any, of
      writing the file. */
  function Processed(filename: string, contentType: string, docId: string, extracted: Result<string>,
                     rag: Result<RagReply>, writeError: Option<string>): (r: Result<ProcessedDocument>)
    ensures r.Err? ==> StartsWith(r.msg, FAILED)
    ensures r.Ok? <==> && ExtractorFor(contentType).Some? && extracted.Ok? && Strip(extracted.value) != []
                       && rag.Ok? && writeError.None?
    ensures ExtractorFor(contentType).None? ==> r == Err(FAILED + "Unsupported file type: " + contentType)
    ensures ExtractorFor(contentType).Some? && extracted.Ok? && Strip(extracted.value) == [] ==> r == Err(FAILED + NO_TEXT)
    ensures r.Ok? ==>
              && r.value.documentId == docId && r.value.textContent == extracted.value
              && r.value.filePath == StoredPath(docId, filename) && r.value.status == "processed"
              && r.value.chunkCount == rag.value.chunksCreated.GetOr(0)
              && r.value.subject == rag.value.subject.GetOr("general")
              && r.value.ragCollections == rag.value.collections.GetOr([])
  {
    if ExtractorFor(contentType).None? then Err(FAILED + "Unsupported file type: " + contentType)
    else if extracted.Err? then Err(FAILED + extracted.msg)
    else if Strip(extracted.value) == [] then Err(FAILED + NO_TEXT)
    else if rag.Err? then Err(FAILED + rag.msg)
    else if writeError.Some? then Err(FAILED + writeError.value)
    else
      var reply := rag.value;
      Ok(ProcessedDocument(docId, filename, contentType, extracted.value, reply.chunksCreated.GetOr(0),
                           reply.subject.GetOr("general"), StoredPath(docId, filename), "processed",
                           reply.collections.GetOr([])))
  }

  // ---------------------------------------------------------------------
  // Listing a user's documents
  // ---------------------------------------------------------------------

  /** A search result's metadata, string-valued entries only. */
  type Metadata = map<string, string>

  datatype DocumentSummary = DocumentSummary(documentId: string, filename: string, contentType: string,
                                             subject: string, chunkCount: nat)

  /** `metadata.get('document_id')`, when truthy. */
  function DocId(m: Metadata): Option<string>
  {
    if "document_id" in m && m["document_id"] != "" then Some(m["document_id"]) else None
  }

  function Lookup(m: Metadata, key: string, default: string): string
  {
    if key in m then m[key] else default
  }

  /** The summary a document's first result opens. */
  function Describe(id: string, m: Metadata, count: nat): DocumentSummary
  {
    DocumentSummary(id, Lookup(m, "filename", "Unknown"), Lookup(m, "content_type", "Unknown"),
                    Lookup(m, "subject", "general"), count)
  }

  function IndexOfDocument(docs: seq<DocumentSummary>, id: string): (r: Option<nat>)
    ensures r.Some? ==> r.value < |docs| && docs[r.value].documentId == id
    ensures r.None? ==> forall i :: 0 <= i < |docs| ==> docs[i].documentId != id
  {
    if docs == [] then None
    else if docs[|docs| - 1].documentId == id then Some(|docs| - 1)
    else IndexOfDocument(docs[..|docs| - 1], id)
  }

  /** One result folded into the listing: counted against its document, which
      is opened on first sight. */
  function Record(docs: seq<DocumentSummary>, m: Metadata): (r: seq<DocumentSummary>)
  {
    match DocId(m)
    case None => docs
    case Some(id) =>
      match IndexOfDocument(docs, id)
      case None => docs + [Describe(id, m, 1)]
      case Some(i) => docs[i := docs[i].(chunkCount := docs[i].chunkCount + 1)]
  }

  /** The listing `get_user_documents` builds from the search results. */
  function UserDocuments(results: seq<Metadata>): seq<DocumentSummary>
  {
    if results == [] then [] else Record(UserDocuments(results[..|results| - 1]), results[|results| - 1])
  }

  /** How many results carry the id. */
  function CountOf(results: seq<Metadata>, id: string): nat
  {
    if results == [] then 0
    else CountOf(results[..|results| - 1], id) + (if DocId(results[|results| - 1]) == Some(id) then 1 else 0)
  }

  /** The position of the first result that carries the id. */
  function FirstWith(results: seq<Metadata>, id: string): (k: nat)
    requires CountOf(results, id) > 0
    ensures k < |results| && DocId(results[k]) == Some(id)
  {
    var p := results[..|results| - 1];
    if CountOf(p, id) > 0 then
      var k := FirstWith(p, id);
      assert results[k] == p[k];
      k
    else |results| - 1
  }

  lemma CountSnoc(p: seq<Metadata>, m: Metadata, id: string)
    ensures CountOf(p + [m], id) == CountOf(p, id) + (if DocId(m) == Some(id) then 1 else 0)
    ensures CountOf(p, id) > 0 ==> FirstWith(p + [m], id) == FirstWith(p, id)
    ensures CountOf(p, id) == 0 && DocId(m) == Some(id) ==> FirstWith(p + [m], id) == |p|
  {
    assert (p + [m])[..|p|] == p;
  }

  /** No document is listed twice. */
  predicate DistinctDocuments(docs: seq<DocumentSummary>)
  {
    forall i, j :: 0 <= i < j < |docs| ==> docs[i].documentId != docs[j].documentId
  }

  /** Every id met in the results is listed. */
  ghost predicate Covers(results: seq<Metadata>, docs: seq<DocumentSummary>)
  {
    forall id :: CountOf(results, id) > 0 ==> IndexOfDocument(docs, id).Some?
  }

  /** Each listed document is described by its first result and counts
      every result that carries its id. */
  predicate Described(results: seq<Metadata>, docs: seq<DocumentSummary>)
  {
    forall i :: 0 <= i < |docs| ==>
      && CountOf(results, docs[i].documentId) > 0
      && docs[i] == Describe(docs[i].documentId, results[FirstWith(results, docs[i].documentId)],
                             CountOf(results, docs[i].documentId))
  }

  /** Documents are listed in the order of their first results. */
  predicate FirstSeenOrder(results: seq<Metadata>, docs: seq<DocumentSummary>)
    requires Described(results, docs)
  {
    forall i, j :: 0 <= i < j < |docs| ==>
      FirstWith(results, docs[i].documentId) < FirstWith(results, docs[j].documentId)
  }

  /** The listing holds one summary per document id met, in the order of
      first appearance, each described by its first result and counting every
      result that carries its id. */
  ghost predicate Grouped(results: seq<Metadata>, docs: seq<DocumentSummary>)
  {
    && DistinctDocuments(docs) && Covers(results, docs) && Described(results, docs)
    && FirstSeenOrder(results, docs)
  }

  /** A result without an id changes nothing. */
  lemma RecordUnnamed(p: seq<Metadata>, docs: seq<DocumentSummary>, m: Metadata)
    requires Grouped(p, docs) && DocId(m).None?
    ensures Grouped(p + [m], Record(docs, m))
  {
    forall id ensures CountOf(p + [m], id) == CountOf(p, id) && (CountOf(p, id) > 0 ==> FirstWith(p + [m], id) == FirstWith(p, id)) {
      CountSnoc(p, m, id);
    }
    assert Described(p + [m], docs) by {
      forall i | 0 <= i < |docs| ensures p[FirstWith(p, docs[i].documentId)] == (p + [m])[FirstWith(p, docs[i].documentId)] {
      }
    }
  }

  /** A further result of a document already listed adds one to its count. */
  lemma RecordSeen(p: seq<Metadata>, docs: seq<DocumentSummary>, m: Metadata, k: nat)
    requires Grouped(p, docs) && DocId(m).Some? && IndexOfDocument(docs, DocId(m).value) == Some(k)
    ensures Grouped(p + [m], Record(docs, m))
  {
    var x := DocId(m).value;
    var next := Record(docs, m);
    var q := p + [m];
    assert next == docs[k := docs[k].(chunkCount := docs[k].chunkCount + 1)];
    assert forall i :: 0 <= i < |next| ==> next[i].documentId == docs[i].documentId;
    assert DistinctDocuments(next);
    assert Covers(q, next) by {
      forall id | CountOf(q, id) > 0 ensures IndexOfDocument(next, id).Some? {
        CountSnoc(p, m, id);
        var j := IndexOfDocument(docs, id).value;
        assert next[j].documentId == id;
      }
    }
    assert Described(q, next) && FirstSeenOrder(q, next) by {
      forall i | 0 <= i < |next|
        ensures && CountOf(q, next[i].documentId) > 0
                && FirstWith(q, next[i].documentId) == FirstWith(p, docs[i].documentId)
                && next[i] == Describe(next[i].documentId, q[FirstWith(q, next[i].documentId)],
                                       CountOf(q, next[i].documentId))
      {
        CountSnoc(p, m, docs[i].documentId);
        assert q[FirstWith(p, docs[i].documentId)] == p[FirstWith(p, docs[i].documentId)];
        if i != k {
          assert docs[i].documentId != x;
        }
      }
    }
  }

  /** The first result of a new document opens a summary at the end. */
  lemma RecordNew(p: seq<Metadata>, docs: seq<DocumentSummary>, m: Metadata)
    requires Grouped(p, docs) && DocId(m).Some? && IndexOfDocument(docs, DocId(m).value).None?
    ensures Grouped(p + [m], Record(docs, m))
  {
    var x := DocId(m).value;
    assert Record(docs, m) == docs + [Describe(x, m, 1)];
    assert DistinctDocuments(Record(docs, m));
    RecordNewCovers(p, docs, m);
    RecordNewDescribed(p, docs, m);
  }

  lemma RecordNewCovers(p: seq<Metadata>, docs: seq<DocumentSummary>, m: Metadata)
    requires Covers(p, docs) && DocId(m).Some? && IndexOfDocument(docs, DocId(m).value).None?
    ensures Covers(p + [m], docs + [Describe(DocId(m).value, m, 1)])
  {
    var x := DocId(m).value;
    var next := docs + [Describe(x, m, 1)];
    forall id | CountOf(p + [m], id) > 0 ensures IndexOfDocument(next, id).Some? {
      CountSnoc(p, m, id);
      if id != x {
        var j := IndexOfDocument(docs, id).value;
        assert next[j].documentId == id;
      }
    }
  }

  lemma RecordNewDescribed(p: seq<Metadata>, docs: seq<DocumentSummary>, m: Metadata)
    requires Described(p, docs) && FirstSeenOrder(p, docs) && Covers(p, docs)
    requires DocId(m).Some? && IndexOfDocument(docs, DocId(m).value).None?
    ensures var next := docs + [Describe(DocId(m).value, m, 1)];
      Described(p + [m], next) && FirstSeenOrder(p + [m], next)
  {
    var x := DocId(m).value;
    var next := docs + [Describe(x, m, 1)];
    var q := p + [m];
    assert CountOf(p, x) == 0;
    CountSnoc(p, m, x);
    forall i | 0 <= i < |docs|
      ensures && CountOf(q, next[i].documentId) > 0
              && FirstWith(q, next[i].documentId) == FirstWith(p, docs[i].documentId) < |p|
              && next[i] == Describe(next[i].documentId, q[FirstWith(q, next[i].documentId)],
                                     CountOf(q, next[i].documentId))
    {
      EarlierDocumentKept(p, docs, m, i);
    }
    assert q[|p|] == m;
    assert Described(q, next) by {
      forall i | 0 <= i < |next|
        ensures CountOf(q, next[i].documentId) > 0
        ensures next[i] == Describe(next[i].documentId, q[FirstWith(q, next[i].documentId)], CountOf(q, next[i].documentId))
      {
        if i == |docs| {
          assert next[i] == Describe(x, m, 1);
        }
      }
    }
    forall i, j | 0 <= i < j < |next|
      ensures FirstWith(q, next[i].documentId) < FirstWith(q, next[j].documentId)
    {
      if j < |docs| {
        assert FirstWith(p, docs[i].documentId) < FirstWith(p, docs[j].documentId);
      }
    }
  }

  /** A document listed before a new one keeps its first result and its
      count when the new one's result is appended. */
  lemma EarlierDocumentKept(p: seq<Metadata>, docs: seq<DocumentSummary>, m: Metadata, i: nat)
    requires Described(p, docs) && i < |docs|
    requires DocId(m).Some? && IndexOfDocument(docs, DocId(m).value).None?
    ensures var q, d := p + [m], docs[i];
      && CountOf(q, d.documentId) > 0
      && FirstWith(q, d.documentId) == FirstWith(p, d.documentId) < |p|
      && d == Describe(d.documentId, q[FirstWith(q, d.documentId)], CountOf(q, d.documentId))
  {
    var q, d := p + [m], docs[i];
    CountSnoc(p, m, d.documentId);
    assert d.documentId != DocId(m).value;
    assert q[FirstWith(p, d.documentId)] == p[FirstWith(p, d.documentId)];
  }

  lemma RecordGrouped(p: seq<Metadata>, docs: seq<DocumentSummary>, m: Metadata)
    requires Grouped(p, docs)
    ensures Grouped(p + [m], Record(docs, m))
  {
    match DocId(m)
    case None => RecordUnnamed(p, docs, m);
    case Some(x) =>
      match IndexOfDocument(docs, x)
      case None => RecordNew(p, docs, m);
      case Some(k) => RecordSeen(p, docs, m, k);
  }

  /** `get_user_documents` groups the results by document, in order of first
      appearance, with the first result's metadata and a count of them all. */
  lemma {:induction false} UserDocumentsGrouped(results: seq<Metadata>)
    ensures Grouped(results, UserDocuments(results))
  {
    if results != [] {
      var p := results[..|results| - 1];
      UserDocumentsGrouped(p);
      assert p + [results[|results| - 1]] == results;
      RecordGrouped(p, UserDocuments(p), results[|results| - 1]);
    }
  }

  // ---------------------------------------------------------------------
  // The service
  // ---------------------------------------------------------------------

  class DocumentProcessorService {
    /** The `uploads/` directory: path to content. */
    var uploads: map<string, Bytes>

    constructor ()
      ensures uploads == map[]
    {
      uploads := map[];
    }

    /** `process_document`, with `_save_file` writing into `uploads`. */
    method ProcessDocument(content: Bytes, filename: string, contentType: string, docId: string,
                           extracted: Result<string>, rag: Result<RagReply>, writeError: Option<string>)
      returns (r: Result<ProcessedDocument>)
      modifies this`uploads
      ensures r == Processed(filename, contentType, docId, extracted, rag, writeError)
      ensures uploads == if r.Ok? then old(uploads)[StoredPath(docId, filename) := content] else old(uploads)
    {
      if ExtractorFor(contentType).None? {
        return Err(FAILED + "Unsupported file type: " + contentType);
      }
      if extracted.Err? {
        return Err(FAILED + extracted.msg);
      }
      var text := extracted.value;
      if Strip(text) == [] {
        return Err(FAILED + NO_TEXT);
      }
      if rag.Err? {
        return Err(FAILED + rag.msg);
      }
      if writeError.Some? {
        return Err(FAILED + writeError.value);
      }
      var path := StoredPath(docId, filename);
      uploads := uploads[path := content];
      var reply := rag.value;
      r := Ok(ProcessedDocument(docId, filename, contentType, text, reply.chunksCreated.GetOr(0),
                                reply.subject.GetOr("general"), path, "processed", reply.collections.GetOr([])));
    }

    /** `get_user_documents` over what the index search returned (`Err`
        when it raised). */
    method GetUserDocuments(searched: Result<seq<Metadata>>) returns (docs: seq<DocumentSummary>)
      ensures searched.Err? ==> docs == []
      ensures searched.Ok? ==> docs == UserDocuments(searched.value)
    {
      docs := [];
      if searched.Err? {
        return;
      }
      var results := searched.value;
      var i := 0;
      while i < |results|
        invariant 0 <= i <= |results|
        invariant docs == UserDocuments(results[..i])
      {
        var m := results[i];
        var id := DocId(m);
        if id.Some? {
          var at := IndexOfDocument(docs, id.value);
          if at.None? {
            docs := docs + [Describe(id.value, m, 0)];
            at := Some(|docs| - 1);
          }
          docs := docs[at.value := docs[at.value].(chunkCount := docs[at.value].chunkCount + 1)];
        }
        assert results[..i + 1][..i] == results[..i];
        i := i + 1;
      }
      assert results[..i] == results;
    }

    /** `delete_document`: the index's answer, whatever happens to the files;
        `unlinkFailed` stands for a file removal that raised. */
    method DeleteDocument(docId: string, ragDeleted: bool, unlinkFailed: bool) returns (deleted: bool)
      modifies this`uploads
      ensures deleted == ragDeleted
      ensures uploads == if unlinkFailed then old(uploads) else WithoutDocument(old(uploads), docId)
    {
      if !unlinkFailed {
        uploads := WithoutDocument(uploads, docId);
      }
      deleted := ragDeleted;
    }
  }
}

=== FILE: json.dfy ===
/** The dictionaries the services pass around and serialise: JSON-shaped values
    with string keys. Objects are unordered here; where the order of keys
    matters to a service it keeps a sequence of keys next to the object. */
module Json {
  datatype Json =
    | JNull
    | JBool(b: bool)
    | JInt(i: int)
    | JReal(r: real)
    | JStr(s: string)
    | JList(items: seq<Json>)
    | JObj(fields: map<string, Json>)
  {
    /** `d.get(key)` on an object; `None` on a missing key or on a value that is not an object. */
    function Get(key: string): (r: Json)
      ensures JObj? && key in fields ==> r == fields[key]
      ensures !(JObj? && key in fields) ==> r == JNull
    {
      if JObj? && key in fields then fields[key] else JNull
    }
  }

  /** Python truthiness: `None`, `False`, zero, and the empty text, list and
      dictionary are false; everything else is true. */
  predicate IsTruthy(v: Json)
  {
    match v
    case JNull => false
    case JBool(b) => b
    case JInt(i) => i != 0
    case JReal(r) => r != 0.0
    case JStr(s) => s != []
    case JList(items) => items != []
    case JObj(fields) => fields != map[]
  }
}

=== FILE: knowledge_base.dfy ===
/** The curriculum knowledge base (backend/app/services/knowledge_base.py):
    knowledge items kept in an insertion-ordered dictionary, the subject
    taxonomies and learning paths drawn from them, the filter applied to
    retrieval results, and the statistics over the items.

    The retrieval system the manager writes to is not modelled as a store:
    each call made to it is appended to a log, and its answers are
    parameters. Saving the items to disk is left out. */
module KnowledgeBase {
  import opened Wrappers
  import opened Text
  import opened Json
  import Ordered
  import RagSystem

  datatype SubjectArea = Mathematics | Science | LanguageArts | History | General
  {
    function Value(): string
    {
      match this
      case Mathematics => "mathematics"
      case Science => "science"
      case LanguageArts => "language_arts"
      case History => "history"
      case General => "general"
    }
  }

  datatype GradeLevel = Elementary | Middle | High | College
  {
    function Value(): string
    {
      match this
      case Elementary => "elementary"
      case Middle => "middle"
      case High => "high"
      case College => "college"
    }
  }

  /** `_map_subject_to_collection`: every subject area has a collection of
      the retrieval system, and only the general area goes to "general". */
  function MapSubjectToCollection(subject: SubjectArea): (name: string)
    ensures name in RagSystem.CollectionsToSearch(None)
    ensures name == "general" <==> subject == General
  {
    match subject
    case Mathematics => "math"
    case Science => "science"
    case LanguageArts => "language"
    case History => "history"
    case General => "general"
  }

  // ---------------------------------------------------------------------
  // Taxonomies and learning paths
  // ---------------------------------------------------------------------

  /** A taxonomy: categories in declaration order, each with its topics. */
  type Taxonomy = seq<(string, seq<string>)>

  /** `_load_subject_taxonomies`, looked up by subject and grade key; the
      history and general subjects have none, and neither does any key but
      elementary, middle and high. */
  function Taxonomies(subject: SubjectArea, gradeKey: string): Taxonomy
  {
    match subject
    case Mathematics =>
      if gradeKey == "elementary" then
        [("number_operations", ["counting", "addition", "subtraction", "multiplication", "division"]),
         ("geometry", ["shapes", "measurement", "spatial_reasoning"]),
         ("data_analysis", ["graphs", "charts", "basic_statistics"])]
      else if gradeKey == "middle" then
        [("algebra", ["variables", "equations", "inequalities", "functions"]),
         ("geometry", ["area", "volume", "angles", "coordinate_plane"]),
         ("statistics", ["probability", "data_collection", "analysis"])]
      else if gradeKey == "high" then
        [("algebra", ["polynomials", "rational_functions", "exponential_functions"]),
         ("geometry", ["trigonometry", "proofs", "transformations"]),
         ("calculus", ["limits", "derivatives", "integrals"]),
         ("statistics", ["hypothesis_testing", "regression", "distributions"])]
      else []
    case Science =>
      if gradeKey == "elementary" then
        [("physical_science", ["matter", "energy", "forces", "motion"]),
         ("life_science", ["plants", "animals", "habitats", "life_cycles"]),
         ("earth_science", ["weather", "rocks", "water_cycle", "solar_system"])]
      else if gradeKey == "middle" then
        [("physical_science", ["atoms", "molecules", "chemical_reactions", "waves"]),
         ("life_science", ["cells", "genetics", "evolution", "ecosystems"]),
         ("earth_science", ["plate_tectonics", "climate", "natural_resources"])]
      else if gradeKey == "high" then
        [("physics", ["mechanics", "thermodynamics", "electromagnetism", "quantum"]),
         ("chemistry", ["atomic_structure", "bonding", "stoichiometry", "kinetics"]),
         ("biology", ["molecular_biology", "genetics", "ecology", "evolution"])]
      else []
    case LanguageArts =>
      if gradeKey == "elementary" then
        [("reading", ["phonics", "fluency", "comprehension", "vocabulary"]),
         ("writing", ["sentence_structure", "paragraphs", "narrative", "descriptive"]),
         ("speaking", ["presentation", "discussion", "listening"])]
      else if gradeKey == "middle" then
        [("reading", ["literary_analysis", "informational_text", "critical_thinking"]),
         ("writing", ["essay_structure", "research", "persuasive", "expository"]),
         ("language", ["grammar", "syntax", "word_choice"])]
      else if gradeKey == "high" then
        [("literature", ["analysis", "interpretation", "literary_devices", "themes"]),
         ("composition", ["argumentative", "analytical", "research_papers"]),
         ("rhetoric", ["persuasion", "audience", "purpose", "style"])]
      else []
    case History => []
    case General => []
  }

  /** `get_subject_taxonomy`: college students get the high-school taxonomy;
      a subject without taxonomies gives an empty one. */
  function SubjectTaxonomy(subject: SubjectArea, grade: GradeLevel): (t: Taxonomy)
    ensures grade == College ==> t == Taxonomies(subject, "high")
    ensures grade != College ==> t == Taxonomies(subject, grade.Value())
    ensures t == [] <==> subject == History || subject == General
  {
    var key := if grade == College then "high" else grade.Value();
    Taxonomies(subject, key)
  }

  /** The topics of a taxonomy, category by category. */
  function AllTopics(t: Taxonomy): (topics: seq<string>)
    ensures forall i :: 0 <= i < |t| ==> forall x :: x in t[i].1 ==> x in topics
  {
    if t == [] then [] else t[0].1 + AllTopics(t[1..])
  }

  /** `list.index`: the first position of `x`. */
  function IndexOf<T(==)>(s: seq<T>, x: T): (i: nat)
    requires x in s
    ensures i < |s| && s[i] == x && x !in s[..i]
  {
    if s[0] == x then 0
    else
      var j := IndexOf(s[1..], x);
      assert s[..j + 1] == [s[0]] + s[1..][..j];
      j + 1
  }

  /** Both topics are in the taxonomy and the first occurrence of `current`
      comes before the first occurrence of `target`. */
  predicate Precedes(all: seq<string>, current: string, target: string)
  {
    current in all && target in all && IndexOf(all, current) < IndexOf(all, target)
  }

  /** Every topic of the taxonomy of a subject at a grade, in order. */
  function TopicsFor(subject: SubjectArea, grade: GradeLevel): seq<string>
  {
    AllTopics(SubjectTaxonomy(subject, grade))
  }

  /** The path `get_learning_path` takes through a topic list: never empty
      and always ending at the target. When the current topic comes first it
      runs through the list from the current topic to the first occurrence
      of the target; otherwise it is the target alone. */
  function PathAlong(all: seq<string>, current: string, target: string): (path: seq<string>)
    ensures |path| >= 1 && path[|path| - 1] == target
    ensures Precedes(all, current, target) ==>
        && path[0] == current
        && target !in path[..|path| - 1]
        && |path| == IndexOf(all, target) - IndexOf(all, current) + 1
        && forall i :: 0 <= i < |path| ==> path[i] == all[IndexOf(all, current) + i]
    ensures !Precedes(all, current, target) ==> path == [target]
  {
    if current !in all || target !in all then [target]
    else
      var c, t := IndexOf(all, current), IndexOf(all, target);
      if c < t then
        assert all[c..t + 1][..t - c] == all[..t][c..];
        all[c..t + 1]
      else [target]
  }

  /** `get_learning_path`: the path along the topics of the subject's
      taxonomy at that grade (its properties are those of `PathAlong`). */
  function LearningPath(subject: SubjectArea, grade: GradeLevel, current: string, target: string): seq<string>
  {
    PathAlong(TopicsFor(subject, grade), current, target)
  }

  // ---------------------------------------------------------------------
  // Knowledge items
  // ---------------------------------------------------------------------

  /** The value an enumeration-typed attribute holds: a member of the
      enumeration, or, after an update, whatever plain value was given (a
      request body gives plain strings), which has no `.value`. */
  datatype AsGiven<T> = Enum(member: T) | Raw(json: Json)

  datatype KnowledgeItem = KnowledgeItem(
    id: string, title: string, content: string, subject: AsGiven<SubjectArea>, gradeLevel: AsGiven<GradeLevel>,
    topics: seq<string>, difficulty: int, prerequisites: seq<string>, objectives: seq<string>,
    createdAt: int, updatedAt: int, source: string, metadata: map<string, Json>)

  /** `max(1, min(10, d))` */
  function ClampDifficulty(d: int): (r: int)
    ensures 1 <= r <= 10
    ensures 1 <= d <= 10 ==> r == d
    ensures d < 1 ==> r == 1
    ensures d > 10 ==> r == 10
  {
    if d < 1 then 1 else if d > 10 then 10 else d
  }

  /** `f"kb_{stamp}_{count}"`, `stamp` being the `%Y%m%d_%H%M%S` rendering of the clock. */
  function ItemId(stamp: string, count: nat): string
  {
    "kb_" + stamp + "_" + NatToString(count)
  }

  /** Within one second, items added at different item counts get different ids. */
  lemma ItemIdsDistinct(stamp: string, a: nat, b: nat)
    requires a != b
    ensures ItemId(stamp, a) != ItemId(stamp, b)
  {
    if ItemId(stamp, a) == ItemId(stamp, b) {
      PrefixedNumberInjective("kb_" + stamp + "_", a, b);
    }
  }

  /** The metadata sent with an item to the retrieval system; the difficulty
      is the caller's, before clamping. */
  function RagMetadata(id: string, title: string, subject: SubjectArea, grade: GradeLevel,
                       topics: seq<string>, difficulty: int, source: string): map<string, Json>
  {
    map["knowledge_item_id" := JStr(id), "title" := JStr(title), "subject" := JStr(subject.Value()),
        "grade_level" := JStr(grade.Value()),
        "topics" := JList(seq(|topics|, i requires 0 <= i < |topics| => JStr(topics[i]))),
        "difficulty_level" := JInt(difficulty), "source" := JStr(source),
        "content_type" := JStr("knowledge_base")]
  }

  /** Whether `item.subject.value` and `item.grade_level.value` can be read. */
  predicate Typed(item: KnowledgeItem)
  {
    item.subject.Enum? && item.gradeLevel.Enum?
  }

  /** The metadata `update_knowledge_item` sends for the item stored under
      `key`. The id it names is that key, even when an update has changed
      the item's own `id` attribute. */
  function ItemMetadata(key: string, item: KnowledgeItem): (m: map<string, Json>)
    requires Typed(item)
    ensures "knowledge_item_id" in m && m["knowledge_item_id"] == JStr(key)
    ensures "subject" in m && m["subject"] == JStr(item.subject.member.Value())
    ensures "grade_level" in m && m["grade_level"] == JStr(item.gradeLevel.member.Value())
    ensures "title" in m && m["title"] == JStr(item.title)
    ensures "difficulty_level" in m && m["difficulty_level"] == JInt(item.difficulty)
  {
    RagMetadata(key, item.title, item.subject.member, item.gradeLevel.member, item.topics,
                item.difficulty, item.source)
  }

  /** A call made to the retrieval system. */
  datatype RagCall =
    | AddCall(documentId: string, content: string, metadata: map<string, Json>, collection: string)
    | UpdateCall(documentId: string, metadata: map<string, Json>)
    | DeleteCall(documentId: string)

  const ADD_ITEM_FAILED: string := "Failed to add knowledge item: "

  /** Python's name for the type of a plain value. */
  function TypeName(j: Json): string
  {
    match j
    case JNull => "NoneType"
    case JBool(_) => "bool"
    case JInt(_) => "int"
    case JReal(_) => "float"
    case JStr(_) => "str"
    case JList(_) => "list"
    case JObj(_) => "dict"
  }

  /** The text of the `AttributeError` raised by reading `.value` of a plain value. */
  function NoValueMessage(j: Json): string
  {
    "'" + TypeName(j) + "' object has no attribute 'value'"
  }

  /** The document text an item is indexed under. */
  function IndexedText(title: string, content: string): string
  {
    "Title: " + title + "\n\nContent: " + content
  }

  // ---------------------------------------------------------------------
  // Updates
  // ---------------------------------------------------------------------

  /** One entry of the `updates` dictionary: an attribute of the item and
      its new value, or a name the item has no attribute for. */
  datatype Update =
    | SetId(id: string) | SetTitle(title: string) | SetContent(content: string)
    | SetSubject(subject: AsGiven<SubjectArea>) | SetGradeLevel(grade: AsGiven<GradeLevel>) | SetTopics(topics: seq<string>)
    | SetDifficulty(difficulty: int) | SetPrerequisites(prerequisites: seq<string>)
    | SetObjectives(objectives: seq<string>) | SetCreatedAt(createdAt: int) | SetUpdatedAt(updatedAt: int)
    | SetSource(source: string) | SetMetadata(metadata: map<string, Json>)
    | Unknown(name: string)

  /** `setattr` when `hasattr`: the named attribute takes the value as given. */
  function Apply(item: KnowledgeItem, u: Update): (r: KnowledgeItem)
    ensures u.Unknown? ==> r == item
    ensures u.SetDifficulty? ==> r.difficulty == u.difficulty
  {
    match u
    case SetId(v) => item.(id := v)
    case SetTitle(v) => item.(title := v)
    case SetContent(v) => item.(content := v)
    case SetSubject(v) => item.(subject := v)
    case SetGradeLevel(v) => item.(gradeLevel := v)
    case SetTopics(v) => item.(topics := v)
    case SetDifficulty(v) => item.(difficulty := v)
    case SetPrerequisites(v) => item.(prerequisites := v)
    case SetObjectives(v) => item.(objectives := v)
    case SetCreatedAt(v) => item.(createdAt := v)
    case SetUpdatedAt(v) => item.(updatedAt := v)
    case SetSource(v) => item.(source := v)
    case SetMetadata(v) => item.(metadata := v)
    case Unknown(_) => item
  }

  /** The updates applied in order. */
  function ApplyAll(item: KnowledgeItem, us: seq<Update>): KnowledgeItem
  {
    if us == [] then item else Apply(ApplyAll(item, us[..|us| - 1]), us[|us| - 1])
  }

  function KnownUpdates(us: seq<Update>): (known: seq<Update>)
    ensures forall i :: 0 <= i < |known| ==> !known[i].Unknown?
  {
    if us == [] then []
    else KnownUpdates(us[..|us| - 1]) + (if us[|us| - 1].Unknown? then [] else [us[|us| - 1]])
  }

  /** The `setattr` loop of `update_knowledge_item`, one update at a time. */
  method SetAttributes(item: KnowledgeItem, updates: seq<Update>) returns (r: KnowledgeItem)
    ensures r == ApplyAll(item, updates)
  {
    r := item;
    var i := 0;
    while i < |updates|
      invariant 0 <= i <= |updates|
      invariant r == ApplyAll(item, updates[..i])
    {
      assert updates[..i + 1][..i] == updates[..i];
      r := Apply(r, updates[i]);
      i := i + 1;
    }
    assert updates[..i] == updates;
  }

  /** Names the item has no attribute for change nothing. */
  lemma {:induction false} UnknownNamesIgnored(item: KnowledgeItem, us: seq<Update>)
    ensures ApplyAll(item, us) == ApplyAll(item, KnownUpdates(us))
  {
    if us != [] {
      var p := us[..|us| - 1];
      UnknownNamesIgnored(item, p);
      var known := KnownUpdates(p);
      var u := us[|us| - 1];
      if !u.Unknown? {
        var extended := known + [u];
        assert KnownUpdates(us) == extended;
        assert extended[..|extended| - 1] == known;
        assert ApplyAll(item, extended) == Apply(ApplyAll(item, known), u);
      } else {
        assert KnownUpdates(us) == known;
      }
    }
  }

  /** An update does not clamp: the item takes whatever difficulty it is given. */
  lemma {:induction false} UpdateKeepsLastDifficulty(item: KnowledgeItem, us: seq<Update>, d: int)
    requires us != [] && us[|us| - 1] == SetDifficulty(d)
    ensures ApplyAll(item, us).difficulty == d
  {
  }

  /** A subject given as a plain value, as a request body gives it, leaves
      the item without an enumeration member to read `.value` from. */
  lemma PlainSubjectUntyped(item: KnowledgeItem, us: seq<Update>, v: Json)
    requires us != [] && us[|us| - 1] == SetSubject(Raw(v))
    ensures !Typed(ApplyAll(item, us))
  {
  }

  // ---------------------------------------------------------------------
  // Searching
  // ---------------------------------------------------------------------

  /** The metadata of a retrieval result that the filter looks at. */
  datatype ResultMeta = ResultMeta(subject: Option<string>, gradeLevel: Option<string>,
                                   topics: Option<seq<string>>, difficulty: Option<int>,
                                   itemId: Option<string>)

  /** A retrieval result and, once matched, the knowledge item it belongs to. */
  datatype KbResult = KbResult(meta: ResultMeta, score: real, item: Option<KnowledgeItem>)

  /** The filters of `search_knowledge_base`; an empty topic list is no filter. */
  datatype Filters = Filters(subject: Option<SubjectArea>, grade: Option<GradeLevel>,
                             topics: seq<string>, difficulty: Option<(int, int)>)

  /** Some wanted topic is among the result's topics (none when it has no list). */
  predicate SharesTopic(wanted: seq<string>, has: Option<seq<string>>)
  {
    exists i :: 0 <= i < |wanted| && wanted[i] in has.GetOr([])
  }

  /** A result is kept when it has the subject, the grade, one of the topics
      and a difficulty in the range asked for; a result without a difficulty
      counts as 5. */
  predicate Passes(m: ResultMeta, f: Filters)
  {
    && (f.subject.Some? ==> m.subject == Some(f.subject.value.Value()))
    && (f.grade.Some? ==> m.gradeLevel == Some(f.grade.value.Value()))
    && (f.topics != [] ==> SharesTopic(f.topics, m.topics))
    && (f.difficulty.Some? ==> f.difficulty.value.0 <= m.difficulty.GetOr(5) <= f.difficulty.value.1)
  }

  /** The results that pass the filters, in order. */
  function Selected(rs: seq<KbResult>, f: Filters): (kept: seq<KbResult>)
    ensures |kept| <= |rs|
  {
    if rs == [] then []
    else Selected(rs[..|rs| - 1], f) + (if Passes(rs[|rs| - 1].meta, f) then [rs[|rs| - 1]] else [])
  }

  /** Exactly the results that pass are selected. */
  lemma {:induction false} SelectedPass(rs: seq<KbResult>, f: Filters, r: KbResult)
    ensures r in Selected(rs, f) <==> r in rs && Passes(r.meta, f)
  {
    if rs != [] {
      var p := rs[..|rs| - 1];
      SelectedPass(p, f, r);
      assert rs == p + [rs[|rs| - 1]];
    }
  }

  /** The selection of a prefix is a prefix of the selection. */
  lemma {:induction false} SelectedPrefix(rs: seq<KbResult>, f: Filters, i: nat)
    requires i <= |rs|
    ensures |Selected(rs[..i], f)| <= |Selected(rs, f)|
    ensures Selected(rs, f)[..|Selected(rs[..i], f)|] == Selected(rs[..i], f)
    decreases |rs| - i
  {
    if i < |rs| {
      SelectedPrefix(rs, f, i + 1);
      assert rs[..i + 1][..i] == rs[..i];
      var whole, next, here := Selected(rs, f), Selected(rs[..i + 1], f), Selected(rs[..i], f);
      assert next[..|here|] == here;
      assert whole[..|next|][..|here|] == whole[..|here|];
    } else {
      assert rs[..i] == rs;
    }
  }

  /** Whether the result's id is a non-empty key of `items`. */
  predicate Names(r: KbResult, items: seq<(string, KnowledgeItem)>)
  {
    Truthy(r.meta.itemId) && Ordered.Get(items, r.meta.itemId.value).Some?
  }

  /** Whether annotating the result raises: the item it names has a subject
      or grade without a `.value`. */
  predicate AnnotateRaises(r: KbResult, items: seq<(string, KnowledgeItem)>)
  {
    Names(r, items) && !Typed(Ordered.Get(items, r.meta.itemId.value).value)
  }

  /** The result with the item it names attached; `None` when reading that
      item's subject or grade raises. */
  function Annotate(r: KbResult, items: seq<(string, KnowledgeItem)>): (a: Option<KbResult>)
    ensures a.None? <==> AnnotateRaises(r, items)
    ensures a.Some? ==> a.value.meta == r.meta && a.value.score == r.score
    ensures a.Some? && Names(r, items) ==> a.value.item == Ordered.Get(items, r.meta.itemId.value)
    ensures a.Some? && !Names(r, items) ==> a.value == r
  {
    if !Names(r, items) then Some(r)
    else
      var item := Ordered.Get(items, r.meta.itemId.value);
      if Typed(item.value) then Some(r.(item := item)) else None
  }

  /** Every result annotated, in order; `None` when any of them raises. */
  function AnnotateAll(rs: seq<KbResult>, items: seq<(string, KnowledgeItem)>): (out: Option<seq<KbResult>>)
    ensures out.None? <==> exists i :: 0 <= i < |rs| && AnnotateRaises(rs[i], items)
    ensures out.Some? ==>
      |out.value| == |rs| && forall i :: 0 <= i < |rs| ==> Annotate(rs[i], items) == Some(out.value[i])
  {
    if exists i :: 0 <= i < |rs| && AnnotateRaises(rs[i], items) then None
    else Some(seq(|rs|, i requires 0 <= i < |rs| => Annotate(rs[i], items).value))
  }

  /** Annotating one more result extends the annotation, or raises. */
  lemma AnnotateAllSnoc(rs: seq<KbResult>, r: KbResult, items: seq<(string, KnowledgeItem)>)
    requires AnnotateAll(rs, items).Some? && Annotate(r, items).Some?
    ensures AnnotateAll(rs + [r], items) == Some(AnnotateAll(rs, items).value + [Annotate(r, items).value])
  {
    var ext := rs + [r];
    forall i | 0 <= i < |ext| ensures !AnnotateRaises(ext[i], items) {
      if i < |rs| {
        assert ext[i] == rs[i];
      }
    }
    var out := AnnotateAll(ext, items).value;
    var want := AnnotateAll(rs, items).value + [Annotate(r, items).value];
    assert |out| == |want|;
    forall i | 0 <= i < |out| ensures out[i] == want[i] {
      assert Annotate(ext[i], items) == Some(out[i]);
      if i < |rs| {
        assert ext[i] == rs[i];
      } else {
        assert ext[i] == r;
      }
    }
    assert out == want;
  }

  /** The loop keeps at least one passing result, whatever the limit. */
  function Cap(limit: int): nat
  {
    if limit < 1 then 1 else limit
  }

  /** A passing result that raises, reached before the limit, is among the
      results the search annotates. */
  lemma RaiseReached(results: seq<KbResult>, f: Filters, limit: int, i: nat, items: seq<(string, KnowledgeItem)>)
    requires i < |results| && Passes(results[i].meta, f) && AnnotateRaises(results[i], items)
    requires |Selected(results[..i], f)| < Cap(limit)
    ensures var selected := Selected(results, f);
      var n := if |selected| < Cap(limit) then |selected| else Cap(limit);
      AnnotateAll(selected[..n], items).None?
  {
    var selected := Selected(results, f);
    var n := if |selected| < Cap(limit) then |selected| else Cap(limit);
    var before := Selected(results[..i], f);
    var upTo := Selected(results[..i + 1], f);
    assert upTo == before + [results[i]] by {
      assert results[..i + 1][..i] == results[..i];
    }
    SelectedPrefix(results, f, i + 1);
    var k := |before|;
    assert upTo[k] == results[i];
    assert selected[..|upTo|][k] == selected[k];
    RaisesAt(selected, n, k, items);
  }

  /** One result that raises makes the annotation of any prefix holding it raise. */
  lemma RaisesAt(rs: seq<KbResult>, n: nat, k: nat, items: seq<(string, KnowledgeItem)>)
    requires k < n <= |rs| && AnnotateRaises(rs[k], items)
    ensures AnnotateAll(rs[..n], items).None?
  {
    assert rs[..n][k] == rs[k];
  }

  // ---------------------------------------------------------------------
  // The manager
  // ---------------------------------------------------------------------

  datatype KbStats = KbStats(total: nat, bySubject: seq<(string, int)>, byGrade: seq<(string, int)>,
                             byDifficulty: seq<(int, int)>)

  /** Whether every stored item has enumeration members for its subject and grade. */
  predicate AllTyped(items: seq<(string, KnowledgeItem)>)
  {
    forall i :: 0 <= i < |items| ==> Typed(items[i].1)
  }

  function SubjectsOf(items: seq<(string, KnowledgeItem)>): (s: seq<string>)
    requires AllTyped(items)
    ensures |s| == |items| && forall i :: 0 <= i < |items| ==> s[i] == items[i].1.subject.member.Value()
  {
    seq(|items|, i requires 0 <= i < |items| => items[i].1.subject.member.Value())
  }

  function GradesOf(items: seq<(string, KnowledgeItem)>): (s: seq<string>)
    requires AllTyped(items)
    ensures |s| == |items| && forall i :: 0 <= i < |items| ==> s[i] == items[i].1.gradeLevel.member.Value()
  {
    seq(|items|, i requires 0 <= i < |items| => items[i].1.gradeLevel.member.Value())
  }

  function SubjectValues(items: seq<(string, KnowledgeItem)>): (s: seq<AsGiven<SubjectArea>>)
    ensures |s| == |items| && forall i :: 0 <= i < |items| ==> s[i] == items[i].1.subject
  {
    seq(|items|, i requires 0 <= i < |items| => items[i].1.subject)
  }

  function GradeValues(items: seq<(string, KnowledgeItem)>): (s: seq<AsGiven<GradeLevel>>)
    ensures |s| == |items| && forall i :: 0 <= i < |items| ==> s[i] == items[i].1.gradeLevel
  {
    seq(|items|, i requires 0 <= i < |items| => items[i].1.gradeLevel)
  }

  /** The position of the first plain value in `vals`, or `|vals|` when every
      value is an enumeration member. */
  function FirstRaw<T>(vals: seq<AsGiven<T>>): (i: nat)
    ensures i <= |vals|
    ensures forall k :: 0 <= k < i ==> vals[k].Enum?
    ensures i < |vals| ==> vals[i].Raw?
  {
    if vals == [] || vals[0].Raw? then 0
    else
      var i := FirstRaw(vals[1..]);
      assert forall k :: 1 <= k < i + 1 ==> vals[k] == vals[1..][k - 1];
      i + 1
  }

  /** The text `get_knowledge_base_stats` returns when a subject or grade is
      plain: the subject loop reads every item before the grade loop starts,
      so the first plain subject is named, and else the first plain grade. */
  function StatsError(items: seq<(string, KnowledgeItem)>): (msg: string)
    requires !AllTyped(items)
  {
    UntypedHasRaw(items);
    var s := FirstRaw(SubjectValues(items));
    if s < |items| then NoValueMessage(items[s].1.subject.json)
    else NoValueMessage(items[FirstRaw(GradeValues(items))].1.gradeLevel.json)
  }

  /** The first plain subject is the one named, whatever the grades are. */
  lemma StatsErrorSubject(items: seq<(string, KnowledgeItem)>, i: nat)
    requires i < |items| && items[i].1.subject.Raw?
    requires forall k :: 0 <= k < i ==> items[k].1.subject.Enum?
    ensures !AllTyped(items)
    ensures StatsError(items) == NoValueMessage(items[i].1.subject.json)
  {
    assert !Typed(items[i].1);
    var s := FirstRaw(SubjectValues(items));
    assert SubjectValues(items)[i].Raw?;
    assert s == i;
  }

  /** With every subject a member, the first plain grade is the one named. */
  lemma StatsErrorGrade(items: seq<(string, KnowledgeItem)>, i: nat)
    requires forall k :: 0 <= k < |items| ==> items[k].1.subject.Enum?
    requires i < |items| && items[i].1.gradeLevel.Raw?
    requires forall k :: 0 <= k < i ==> items[k].1.gradeLevel.Enum?
    ensures !AllTyped(items)
    ensures StatsError(items) == NoValueMessage(items[i].1.gradeLevel.json)
  {
    assert !Typed(items[i].1);
    assert FirstRaw(SubjectValues(items)) == |items|;
    var g := FirstRaw(GradeValues(items));
    assert GradeValues(items)[i].Raw?;
    assert g == i;
  }

  /** A subject updated to a number: the error names `int`. */
  lemma IntSubjectNamed(items: seq<(string, KnowledgeItem)>, n: int)
    requires items != [] && items[0].1.subject == Raw(JInt(n))
    ensures !AllTyped(items)
    ensures StatsError(items) == NoValueMessage(JInt(n)) && TypeName(JInt(n)) == "int"
  {
    StatsErrorSubject(items, 0);
  }

  /** An item that is not typed has a plain subject or a plain grade, so one
      of the two loops meets a plain value. */
  lemma UntypedHasRaw(items: seq<(string, KnowledgeItem)>)
    requires !AllTyped(items)
    ensures FirstRaw(SubjectValues(items)) < |items| || FirstRaw(GradeValues(items)) < |items|
  {
    var i :| 0 <= i < |items| && !Typed(items[i].1);
    assert SubjectValues(items)[i].Raw? || GradeValues(items)[i].Raw?;
  }

  function DifficultiesOf(items: seq<(string, KnowledgeItem)>): (s: seq<int>)
    ensures |s| == |items| && forall i :: 0 <= i < |items| ==> s[i] == items[i].1.difficulty
  {
    seq(|items|, i requires 0 <= i < |items| => items[i].1.difficulty)
  }

  class KnowledgeBaseManager {
    /** `knowledge_items`, in insertion order. */
    var items: seq<(string, KnowledgeItem)>
    /** The calls made to the retrieval system, in order. */
    var ragCalls: seq<RagCall>

    ghost predicate Valid()
      reads this
    {
      Ordered.DistinctKeys(items)
    }

    /** A manager with no stored items (the items file is not modelled). */
    constructor ()
      ensures Valid() && items == [] && ragCalls == []
    {
      items := [];
      ragCalls := [];
    }

    /** `add_knowledge_item`: the item is stored under
        `kb_{stamp}_{number of items}` with its difficulty clamped to 1..10,
        then indexed in the subject's collection. The item stays stored when
        indexing fails, and the failure is raised. */
    method AddKnowledgeItem(title: string, content: string, subject: SubjectArea, grade: GradeLevel,
                            topics: seq<string>, difficulty: int, prerequisites: seq<string>,
                            objectives: seq<string>, source: string, metadata: map<string, Json>,
                            stamp: string, now: int, embeddingError: Option<string>)
      returns (r: Result<string>)
      requires Valid()
      modifies this
      ensures Valid()
      ensures var id := ItemId(stamp, |old(items)|);
        && items == Ordered.Put(old(items), id,
             KnowledgeItem(id, title, content, Enum(subject), Enum(grade), topics, ClampDifficulty(difficulty),
                           prerequisites, objectives, now, now, source, metadata))
        && ragCalls == old(ragCalls) + [AddCall(id, IndexedText(title, content),
             RagMetadata(id, title, subject, grade, topics, difficulty, source), MapSubjectToCollection(subject))]
        && var indexed := RagSystem.AddDocument(id, IndexedText(title, content),
                                                Some(MapSubjectToCollection(subject)), embeddingError);
           r == if indexed.Ok? then Ok(id) else Err(ADD_ITEM_FAILED + indexed.msg)
    {
      var id := ItemId(stamp, |items|);
      var item := KnowledgeItem(id, title, content, Enum(subject), Enum(grade), topics, ClampDifficulty(difficulty),
                                prerequisites, objectives, now, now, source, metadata);
      items := Ordered.Put(items, id, item);
      var collection := MapSubjectToCollection(subject);
      var text := IndexedText(title, content);
      ragCalls := ragCalls + [AddCall(id, text, RagMetadata(id, title, subject, grade, topics, difficulty, source), collection)];
      var indexed := RagSystem.AddDocument(id, text, Some(collection), embeddingError);
      if indexed.Err? {
        return Err(ADD_ITEM_FAILED + indexed.msg);
      }
      r := Ok(id);
    }

    /** The filter loop of `search_knowledge_base` over the retrieval results:
        the results that pass are kept in order, each with the item it names,
        until `limit` of them are kept (one, when the limit is below one).
        When one of the results reached names an item whose subject or grade
        has no `.value`, the search raises and gives `[]`. */
    method SearchKnowledgeBase(results: seq<KbResult>, f: Filters, limit: int) returns (kept: seq<KbResult>)
      ensures var selected := Selected(results, f);
        var n := if |selected| < Cap(limit) then |selected| else Cap(limit);
        var annotated := AnnotateAll(selected[..n], items);
        && (annotated.None? ==> kept == [])
        && (annotated.Some? ==> kept == annotated.value && |kept| == n)
    {
      kept := [];
      var i := 0;
      while i < |results| && |kept| < Cap(limit)
        invariant 0 <= i <= |results|
        invariant |Selected(results[..i], f)| <= Cap(limit)
        invariant AnnotateAll(Selected(results[..i], f), items) == Some(kept)
      {
        assert results[..i + 1][..i] == results[..i];
        var r := results[i];
        if Passes(r.meta, f) {
          var a := Annotate(r, items);
          if a.None? {
            RaiseReached(results, f, limit, i, items);
            return [];
          }
          assert Selected(results[..i + 1], f) == Selected(results[..i], f) + [r];
          AnnotateAllSnoc(Selected(results[..i], f), r, items);
          kept := kept + [a.value];
        } else {
          assert Selected(results[..i + 1], f) == Selected(results[..i], f);
        }
        i := i + 1;
      }
      SelectedPrefix(results, f, i);
      if i == |results| {
        assert results[..i] == results;
      }
      ghost var selected := Selected(results, f);
      ghost var n := if |selected| < Cap(limit) then |selected| else Cap(limit);
      assert selected[..n] == Selected(results[..i], f);
    }

    /** `get_knowledge_base_stats` without the retrieval system's counts:
        items counted by subject, grade level and difficulty, each tally in
        first-seen order and adding up to the number of items. An item whose
        subject or grade is not an enumeration member makes `.value` raise,
        and the error, which names the plain value's type, is returned
        instead. */
    method KnowledgeBaseStats() returns (r: Result<KbStats>)
      ensures r.Err? <==> !AllTyped(items)
      ensures r.Err? ==> r.msg == StatsError(items)
      ensures r.Ok? ==> var s := r.value;
        && s.total == |items|
        && s.bySubject == Ordered.CountBy(SubjectsOf(items)) && Ordered.SumValues(s.bySubject) == s.total
        && s.byGrade == Ordered.CountBy(GradesOf(items)) && Ordered.SumValues(s.byGrade) == s.total
        && s.byDifficulty == Ordered.CountBy(DifficultiesOf(items)) && Ordered.SumValues(s.byDifficulty) == s.total
    {
      var i := 0;
      while i < |items|
        invariant i <= |items|
        invariant forall k :: 0 <= k < i ==> items[k].1.subject.Enum?
      {
        if items[i].1.subject.Raw? {
          assert FirstRaw(SubjectValues(items)) == i;
          return Err(NoValueMessage(items[i].1.subject.json));
        }
        i := i + 1;
      }
      i := 0;
      while i < |items|
        invariant i <= |items|
        invariant forall k :: 0 <= k < i ==> items[k].1.gradeLevel.Enum?
      {
        if items[i].1.gradeLevel.Raw? {
          assert FirstRaw(SubjectValues(items)) == |items|;
          assert FirstRaw(GradeValues(items)) == i;
          return Err(NoValueMessage(items[i].1.gradeLevel.json));
        }
        i := i + 1;
      }
      var bySubject := Ordered.CountKeys(SubjectsOf(items));
      var byGrade := Ordered.CountKeys(GradesOf(items));
      var byDifficulty := Ordered.CountKeys(DifficultiesOf(items));
      r := Ok(KbStats(|items|, bySubject, byGrade, byDifficulty));
    }

    /** `update_knowledge_item`: an unknown id is refused with no change.
        Otherwise every named attribute the item has is set, in order, on the
        stored item itself and the update time is refreshed. The new metadata
        is then sent for indexing, unless the item's subject or grade is not
        an enumeration member (as after an update from a request body): then
        reading `.value` raises, the call gives false, and the item stays
        changed without being indexed. */
    method UpdateKnowledgeItem(id: string, updates: seq<Update>, now: int) returns (ok: bool)
      requires Valid()
      modifies this
      ensures Valid()
      ensures Ordered.Get(old(items), id).None? ==> !ok && items == old(items) && ragCalls == old(ragCalls)
      ensures Ordered.Get(old(items), id).Some? ==>
        var updated := ApplyAll(Ordered.Get(old(items), id).value, updates).(updatedAt := now);
        && ok == Typed(updated)
        && items == Ordered.Put(old(items), id, updated)
        && ragCalls == old(ragCalls) + (if Typed(updated) then [UpdateCall(id, ItemMetadata(id, updated))] else [])
    {
      var found := Ordered.Get(items, id);
      if found.None? {
        return false;
      }
      var item := SetAttributes(found.value, updates);
      item := item.(updatedAt := now);
      items := Ordered.Put(items, id, item);
      if !Typed(item) {
        return false;
      }
      ragCalls := ragCalls + [UpdateCall(id, ItemMetadata(id, item))];
      ok := true;
    }

    /** `delete_knowledge_item`: an unknown id is refused with no change;
        otherwise the item is removed and its chunks are deleted from the
        retrieval system. */
    method DeleteKnowledgeItem(id: string) returns (ok: bool)
      requires Valid()
      modifies this
      ensures Valid()
      ensures ok <==> Ordered.Get(old(items), id).Some?
      ensures !ok ==> items == old(items) && ragCalls == old(ragCalls)
      ensures ok ==> items == Ordered.Remove(old(items), id) && ragCalls == old(ragCalls) + [DeleteCall(id)]
    {
      if Ordered.Get(items, id).None? {
        return false;
      }
      items := Ordered.Remove(items, id);
      ragCalls := ragCalls + [DeleteCall(id)];
      ok := true;
    }
  }
}

=== FILE: message_queue.dfy ===
/** The reliable message queue of the backend (backend/app/services/message_queue.py).

    A message is a record `message:{id}` (a store hash) plus an entry in one of
    three sorted sets per queue name: `queue:{q}` (ready, scored by priority),
    `delayed:{q}` (scored by the time it becomes due) and `dlq:{q}` (dead
    letters, scored by the time they were moved). Dead letters keep their data
    in `dlq_message:{id}`. The store is modelled by the fields of the class
    `MessageQueue`; a store command that raises is chosen by a `Fault`
    parameter. Times are whole seconds. */
module MessageQueue {
  import opened Wrappers
  import opened Text
  import opened Json

  // ---------------------------------------------------------------------
  // Priorities and retry back-off
  // ---------------------------------------------------------------------

  const LOW: int := 1
  const NORMAL: int := 2
  const HIGH: int := 3
  const CRITICAL: int := 4

  /** The longest back-off between two attempts, in seconds. */
  const MAX_BACKOFF: nat := 300

  function Pow2(n: nat): (p: nat)
    ensures p >= 1
  {
    if n == 0 then 1 else 2 * Pow2(n - 1)
  }

  /** `min(2 ** retry_count, 300)`: the wait before the next attempt. */
  function Backoff(retryCount: nat): nat
  {
    if Pow2(retryCount) < MAX_BACKOFF then Pow2(retryCount) else MAX_BACKOFF
  }

  lemma {:induction false} Pow2Monotone(a: nat, b: nat)
    requires a <= b
    ensures Pow2(a) <= Pow2(b)
    decreases b
  {
    if a < b {
      Pow2Monotone(a, b - 1);
    }
  }

  /** The back-off never decreases as the retry count grows and never exceeds five minutes. */
  lemma BackoffMonotone(a: nat, b: nat)
    requires a <= b
    ensures Backoff(a) <= Backoff(b) <= MAX_BACKOFF
  {
    Pow2Monotone(a, b);
  }

  /** It doubles with every retry up to the eighth and is capped at 300 s from the ninth on. */
  lemma BackoffSchedule(n: nat)
    ensures n <= 8 ==> Backoff(n) == Pow2(n) && Backoff(n) <= 256
    ensures n >= 9 ==> Backoff(n) == MAX_BACKOFF
    ensures n >= 1 ==> Backoff(n) >= 2
  {
    assert Pow2(8) == 256 && Pow2(9) == 512;
    if n <= 8 {
      Pow2Monotone(n, 8);
    } else {
      Pow2Monotone(9, n);
    }
    if n >= 1 {
      Pow2Monotone(1, n);
    }
  }

  // ---------------------------------------------------------------------
  // Messages and their stored form
  // ---------------------------------------------------------------------

  /** Payloads are passed through unchanged; their contents are not interpreted here. */
  type Payload = map<string, Json>

  /** A field of a stored hash. `Time` is a timestamp written in ISO form. */
  datatype Field = Str(s: string) | Int(i: int) | Time(t: int) | Data(p: Payload) | Null

  /** The field names of stored records: the ten `to_dict` writes, the stamp
      `dequeue` adds and the two dead-letter annotations. */
  datatype FieldName =
    | Id | QueueName | PayloadField | PriorityField | MaxRetries | RetryCount | DelaySeconds
    | CreatedAt | ScheduledAt | LastError | ProcessingStartedAt | MovedToDlqAt | FinalError

  type Hash = map<FieldName, Field>

  datatype QueuedMessage = QueuedMessage(
    id: string,
    queueName: string,
    payload: Payload,
    priority: int,
    maxRetries: int,
    retryCount: int,
    delaySeconds: int,
    createdAt: int,
    scheduledAt: int,
    lastError: Option<string>)

  /** `QueuedMessage.__init__`: a fresh message has not been tried, carries no
      error and is due `delaySeconds` after its creation. */
  function NewMessage(id: string, queueName: string, payload: Payload, priority: int,
                      maxRetries: int, delaySeconds: int, createdAt: int): (m: QueuedMessage)
    ensures m.id == id && m.queueName == queueName && m.payload == payload
    ensures m.priority == priority && m.maxRetries == maxRetries && m.delaySeconds == delaySeconds
    ensures m.retryCount == 0 && m.lastError == None
    ensures m.createdAt == createdAt && m.scheduledAt - m.createdAt == delaySeconds
  {
    QueuedMessage(id, queueName, payload, priority, maxRetries, 0, delaySeconds,
                  createdAt, createdAt + delaySeconds, None)
  }

  /** The field names `to_dict` writes. */
  const MESSAGE_FIELDS: set<FieldName> := {Id, QueueName, PayloadField, PriorityField, MaxRetries,
    RetryCount, DelaySeconds, CreatedAt, ScheduledAt, LastError}

  /** `QueuedMessage.to_dict` */
  function ToDict(m: QueuedMessage): (h: Hash)
    ensures h.Keys == MESSAGE_FIELDS
  {
    map[Id := Str(m.id), QueueName := Str(m.queueName), PayloadField := Data(m.payload),
        PriorityField := Int(m.priority), MaxRetries := Int(m.maxRetries),
        RetryCount := Int(m.retryCount), DelaySeconds := Int(m.delaySeconds),
        CreatedAt := Time(m.createdAt), ScheduledAt := Time(m.scheduledAt),
        LastError := if m.lastError.Some? then Str(m.lastError.value) else Null]
  }

  /** `QueuedMessage.from_dict`; `None` when a required field is missing or of the
      wrong shape (the `KeyError` the source would raise). `last_error` is optional. */
  function FromDict(h: Hash): Option<QueuedMessage>
  {
    if Id in h && h[Id].Str? && QueueName in h && h[QueueName].Str?
       && PayloadField in h && h[PayloadField].Data? && PriorityField in h && h[PriorityField].Int?
       && MaxRetries in h && h[MaxRetries].Int? && RetryCount in h && h[RetryCount].Int?
       && DelaySeconds in h && h[DelaySeconds].Int? && CreatedAt in h && h[CreatedAt].Time?
       && ScheduledAt in h && h[ScheduledAt].Time?
    then
      Some(QueuedMessage(h[Id].s, h[QueueName].s, h[PayloadField].p, h[PriorityField].i,
        h[MaxRetries].i, h[RetryCount].i, h[DelaySeconds].i,
        h[CreatedAt].t, h[ScheduledAt].t,
        if LastError in h && h[LastError].Str? then Some(h[LastError].s) else None))
    else None
  }

  /** Writing a message over any stored hash (`hset` with a mapping merges) and
      reading it back gives exactly that message: every field `to_dict` writes
      replaces the stale one, and extra fields are ignored. */
  lemma RecordRoundTrip(stale: Hash, m: QueuedMessage)
    ensures FromDict(stale + ToDict(m)) == Some(m)
  {
    var h := stale + ToDict(m);
    assert forall k :: k in MESSAGE_FIELDS ==> h[k] == ToDict(m)[k];
  }

  /** `from_dict(to_dict(m))` preserves every field. */
  lemma ToDictFromDict(m: QueuedMessage)
    ensures FromDict(ToDict(m)) == Some(m)
  {
    RecordRoundTrip(map[], m);
    assert map[] + ToDict(m) == ToDict(m);
  }

  /** Fields outside the message's own (the processing stamp, the dead-letter
      annotations) do not change what a record decodes to. */
  lemma ExtraFieldIgnored(h: Hash, k: FieldName, v: Field)
    requires k !in MESSAGE_FIELDS
    ensures FromDict(h[k := v]) == FromDict(h)
  {
  }

  /** The field names of a dead-letter record. */
  const DEAD_LETTER_FIELDS: set<FieldName> := MESSAGE_FIELDS + {MovedToDlqAt, FinalError}

  /** The record `_move_to_dlq` writes: the message plus when and why it was moved. */
  function DeadLetterData(m: QueuedMessage, error: string, now: int): (h: Hash)
    ensures h.Keys == DEAD_LETTER_FIELDS
    ensures FromDict(h) == Some(m)
    ensures h[FinalError] == Str(error) && h[MovedToDlqAt] == Time(now)
  {
    ToDictFromDict(m);
    ExtraFieldIgnored(ToDict(m), MovedToDlqAt, Time(now));
    ExtraFieldIgnored(ToDict(m)[MovedToDlqAt := Time(now)], FinalError, Str(error));
    ToDict(m)[MovedToDlqAt := Time(now)][FinalError := Str(error)]
  }

  /** `hset` with a mapping over a hash whose fields it all rewrites leaves just the mapping. */
  lemma MergeOverSameFields(stale: Hash, h: Hash)
    requires stale.Keys <= h.Keys
    ensures stale + h == h
  {
  }

  /** The `priority` field read with a default (`int(data.get('priority', NORMAL))`). */
  function PriorityScore(h: Hash): int
  {
    if PriorityField in h && h[PriorityField].Int? then h[PriorityField].i else NORMAL
  }

  /** A `message:{id}` record as the queue leaves it: the fields of a message,
      plus the time `dequeue` stamped on it once it was handed out. The store
      holds its encoding; the lemmas below show that every write of the queue
      keeps the encoding and the decoded record in step. */
  datatype StoredMessage = StoredMessage(message: QueuedMessage, processingStartedAt: Option<int>)

  function Encode(r: StoredMessage): (h: Hash)
    ensures FromDict(h) == Some(r.message)
    ensures PriorityScore(h) == r.message.priority
    ensures ProcessingStartedAt in h <==> r.processingStartedAt.Some?
  {
    ToDictFromDict(r.message);
    match r.processingStartedAt
    case None => ToDict(r.message)
    case Some(t) =>
      ExtraFieldIgnored(ToDict(r.message), ProcessingStartedAt, Time(t));
      ToDict(r.message)[ProcessingStartedAt := Time(t)]
  }

  /** `hset(key, mapping=m.to_dict())` over a stored record replaces the message
      and keeps the processing stamp; over a missing record it writes a fresh one. */
  lemma HsetMessage(stale: Option<StoredMessage>, m: QueuedMessage)
    ensures var before := if stale.Some? then Encode(stale.value) else map[];
      var stamp := if stale.Some? then stale.value.processingStartedAt else None;
      before + ToDict(m) == Encode(StoredMessage(m, stamp))
  {
  }

  /** `hset(key, "processing_started_at", now)` sets the stamp and nothing else. */
  lemma HsetStamp(r: StoredMessage, now: int)
    ensures Encode(r)[ProcessingStartedAt := Time(now)] == Encode(r.(processingStartedAt := Some(now)))
  {
  }

  /** A `dlq_message:{id}` record: the message, when it was moved and why. */
  datatype DeadLetter = DeadLetter(message: QueuedMessage, movedAt: int, finalError: string)

  function EncodeDead(d: DeadLetter): (h: Hash)
    ensures FromDict(h) == Some(d.message)
  {
    DeadLetterData(d.message, d.finalError, d.movedAt)
  }

  /** Writing a dead letter over an earlier one for the same id replaces it whole. */
  lemma HsetDeadLetter(stale: Option<DeadLetter>, d: DeadLetter)
    ensures (if stale.Some? then EncodeDead(stale.value) else map[]) + EncodeDead(d) == EncodeDead(d)
  {
    if stale.Some? {
      MergeOverSameFields(EncodeDead(stale.value), EncodeDead(d));
    }
  }

  // ---------------------------------------------------------------------
  // What the store client makes of these values
  // ---------------------------------------------------------------------

  /** How redis-py encodes one value of an `hset` mapping: text as it is,
      integers in decimal, and the ISO text `to_dict` made of a timestamp
      (its format is not modelled; the decimal seconds stand for it). A dict
      or `None` is refused with `DataError`. */
  function WireValue(f: Field): (r: Option<string>)
    ensures r.None? <==> f.Data? || f.Null?
  {
    match f
    case Str(s) => Some(s)
    case Int(i) => Some(IntToString(i))
    case Time(t) => Some(IntToString(t))
    case Data(_) => None
    case Null => None
  }

  /** `hset(key, mapping=h)` as redis-py sends it: every value is encoded
      before the command goes out, so a single refused value fails the whole
      command and nothing is written. */
  function WireHash(h: Hash): (r: Option<map<FieldName, string>>)
    ensures r.Some? <==> forall k :: k in h ==> WireValue(h[k]).Some?
    ensures r.Some? ==> r.value.Keys == h.Keys
  {
    if forall k :: k in h ==> WireValue(h[k]).Some? then Some(map k | k in h :: WireValue(h[k]).value)
    else None
  }

  /** Every record `enqueue` and `nack_message` write holds the payload dict,
      so as written their `hset` always raises and writes nothing. */
  lemma MessageWriteRaises(m: QueuedMessage)
    ensures WireHash(ToDict(m)).None?
  {
    assert PayloadField in ToDict(m) && WireValue(ToDict(m)[PayloadField]).None?;
  }

  /** The dead-letter record holds the payload dict too, so as written
      `_move_to_dlq` fails at its first command. */
  lemma DeadLetterWriteRaises(m: QueuedMessage, error: string, now: int)
    ensures WireHash(DeadLetterData(m, error, now)).None?
  {
    var h := DeadLetterData(m, error, now);
    assert PayloadField in h && h[PayloadField] == Data(m.payload);
  }

  /** What `hgetall` returns with `decode_responses=True`: every value as text. */
  function ReadBack(w: map<FieldName, string>): (h: Hash)
    ensures h.Keys == w.Keys && forall k :: k in h ==> h[k] == Str(w[k])
  {
    map k | k in w :: Str(w[k])
  }

  /** No hash read back from the store decodes: `delay_seconds` arrives as
      text, and the constructor `from_dict` calls raises on
      `timedelta(seconds=...)` with it (a missing field raises first). So as
      written `dequeue` gives `None` for every popped id and `nack_message`
      gives false for every stored one. */
  lemma ReadBackNeverDecodes(w: map<FieldName, string>)
    ensures FromDict(ReadBack(w)) == None
  {
    var h := ReadBack(w);
    if DelaySeconds in h {
      assert h[DelaySeconds].Str?;
    }
  }

  // ---------------------------------------------------------------------
  // Sorted sets
  // ---------------------------------------------------------------------

  /** The members of one sorted set with their scores. */
  type ZSet = map<string, int>

  /** Sorted sets by queue name (`queue:*`, `delayed:*` or `dlq:*`). The store
      drops a sorted set when its last member goes, so no entry is empty. */
  type Index = map<string, ZSet>

  predicate NoEmptySets(ix: Index)
  {
    forall q :: q in ix ==> ix[q] != map[]
  }

  function Members(ix: Index, q: string): ZSet
  {
    if q in ix then ix[q] else map[]
  }

  /** Replaces the sorted set of `q`, dropping it when it is empty. */
  function SetMembers(ix: Index, q: string, z: ZSet): (r: Index)
    ensures Members(r, q) == z
    ensures forall p :: p != q ==> Members(r, p) == Members(ix, p)
    ensures NoEmptySets(ix) ==> NoEmptySets(r)
    ensures NoEmptySets(ix) && z == Members(ix, q) ==> r == ix
  {
    if z == map[] then ix - {q} else ix[q := z]
  }

  lemma SetMembersTwice(ix: Index, q: string, a: ZSet, b: ZSet)
    ensures SetMembers(SetMembers(ix, q, a), q, b) == SetMembers(ix, q, b)
  {
  }

  /** `ZADD` on a set just replaced adds to the replacement. */
  lemma ZAddOnto(base: Index, q: string, z: ZSet, id: string, score: int)
    ensures ZAdd(SetMembers(base, q, z), q, id, score) == SetMembers(base, q, z[id := score])
  {
    SetMembersTwice(base, q, z, z[id := score]);
  }

  /** `ZREM` on a set just replaced removes from the replacement. */
  lemma ZRemOnto(base: Index, q: string, z: ZSet, id: string)
    ensures ZRem(SetMembers(base, q, z), q, id) == SetMembers(base, q, z - {id})
  {
    SetMembersTwice(base, q, z, z - {id});
  }

  /** `ZADD key {id: score}` */
  function ZAdd(ix: Index, q: string, id: string, score: int): Index
  {
    SetMembers(ix, q, Members(ix, q)[id := score])
  }

  /** `ZREM key id` */
  function ZRem(ix: Index, q: string, id: string): Index
  {
    SetMembers(ix, q, Members(ix, q) - {id})
  }

  /** `id` has the highest score of the set (what `BZPOPMAX` pops). */
  predicate IsTop(z: ZSet, id: string)
  {
    id in z && forall o :: o in z ==> z[o] <= z[id]
  }

  /** A non-empty sorted set has a member with the highest score. */
  lemma {:induction false} TopExists(z: ZSet)
    requires z != map[]
    ensures exists id :: IsTop(z, id)
    decreases |z|
  {
    var k :| k in z;
    var rest := z - {k};
    if rest == map[] {
      forall o | o in z ensures z[o] <= z[k] {
        assert o !in rest;
      }
      assert IsTop(z, k);
    } else {
      assert |rest| < |z| by { assert rest.Keys < z.Keys; }
      TopExists(rest);
      var t :| IsTop(rest, t);
      var top := if z[k] <= z[t] then t else k;
      forall o | o in z ensures z[o] <= z[top] {
        if o != k {
          assert o in rest;
        }
      }
      assert IsTop(z, top);
    }
  }

  // ---------------------------------------------------------------------
  // Promotion of due delayed messages
  // ---------------------------------------------------------------------

  /** The members `ZRANGEBYSCORE delayed:{q} 0 now` returns. */
  function Due(z: ZSet, now: int): set<string>
  {
    set id | id in z && 0 <= z[id] <= now
  }

  /** The ready set after the members in `moved` were added with their stored priorities. */
  function WithMoved(ready: ZSet, records: map<string, StoredMessage>, moved: set<string>): ZSet
    requires moved <= records.Keys
  {
    map id | id in ready.Keys + moved :: if id in moved then records[id].message.priority else ready[id]
  }

  /** The delayed set after the members in `moved` were removed. */
  function WithoutMoved(delayed: ZSet, moved: set<string>): ZSet
  {
    map id | id in delayed && id !in moved :: delayed[id]
  }

  /** The due members whose record still exists: the ones `_process_delayed_messages` moves. */
  function Movable(delayed: ZSet, records: map<string, StoredMessage>, now: int): (moved: set<string>)
    ensures moved <= records.Keys
  {
    set id | id in Due(delayed, now) && id in records
  }

  /** A due delayed message with a record leaves the delayed set and becomes ready
      with the priority stored in its record; a message that is not yet due, or
      whose record is gone, stays delayed; no other ready entry changes. */
  lemma PromotionMovesDue(ready: ZSet, delayed: ZSet, records: map<string, StoredMessage>, now: int, id: string)
    ensures var moved := Movable(delayed, records, now);
      var r := WithMoved(ready, records, moved);
      var d := WithoutMoved(delayed, moved);
      && (id in delayed && 0 <= delayed[id] <= now && id in records ==>
            id !in d && id in r && r[id] == records[id].message.priority)
      && (id in delayed && (delayed[id] < 0 || delayed[id] > now || id !in records) ==>
            id in d && d[id] == delayed[id])
      && (id !in moved ==> (id in r <==> id in ready) && (id in ready ==> r[id] == ready[id]))
      && |d| + |moved| == |delayed|
  {
    var moved := Movable(delayed, records, now);
    var d := WithoutMoved(delayed, moved);
    assert d.Keys == delayed.Keys - moved;
    assert moved <= delayed.Keys;
    assert |delayed.Keys - moved| == |delayed.Keys| - |moved|;
  }

  lemma MovedStep(ready: ZSet, delayed: ZSet, records: map<string, StoredMessage>, moved: set<string>, id: string)
    requires moved <= records.Keys && id in records
    ensures WithMoved(ready, records, moved + {id}) == WithMoved(ready, records, moved)[id := records[id].message.priority]
    ensures WithoutMoved(delayed, moved + {id}) == WithoutMoved(delayed, moved) - {id}
  {
  }

  // ---------------------------------------------------------------------
  // Processing outcomes
  // ---------------------------------------------------------------------

  /** What a registered processor did with a payload. */
  datatype HandlerOutcome = Returned(success: bool) | Raised(error: string)

  /** What `_process_message` does with the message afterwards. */
  datatype Disposal = Ack | Nack(reason: string)

  /** `_process_message`: a message is acknowledged exactly when a processor is
      registered for its queue and returned a true value; otherwise it is
      negatively acknowledged with a reason naming what went wrong. */
  function Dispose(registered: bool, outcome: HandlerOutcome): (d: Disposal)
    ensures d.Ack? <==> registered && outcome == Returned(true)
    ensures !registered ==> d == Nack("No processor registered")
    ensures registered && outcome == Returned(false) ==> d == Nack("Processor returned False")
    ensures registered && outcome.Raised? ==> d.Nack? && StartsWith(d.reason, "Processing error: ")
    ensures registered && outcome.Raised? ==> d == Nack("Processing error: " + outcome.error)
  {
    if !registered then Nack("No processor registered")
    else match outcome
      case Returned(success) => if success then Ack else Nack("Processor returned False")
      case Raised(e) => Nack("Processing error: " + e)
  }

  // ---------------------------------------------------------------------
  // Store faults
  // ---------------------------------------------------------------------

  /** `FailAt(k)`: the k-th store command of the operation (counting from 0) raises. */
  datatype Fault = NoFault | FailAt(step: nat)

  /** Whether the store command numbered `step` took effect. */
  predicate Completes(f: Fault, step: nat)
  {
    !(f.FailAt? && f.step <= step)
  }

  const NOT_INITIALIZED: string := "Message queue not initialized"
  const STORE_ERROR: string := "store command failed"

  /** `message_id or f"{queue_name}_{timestamp}_{id(payload)}"`: a missing or empty id is generated. */
  function MessageIdFor(queueName: string, messageId: Option<string>, now: int, payloadIdentity: nat): (id: string)
    ensures Truthy(messageId) ==> id == messageId.value
    ensures !Truthy(messageId) ==> StartsWith(id, queueName + "_")
  {
    if Truthy(messageId) then messageId.value
    else queueName + "_" + IntToString(now) + "_" + NatToString(payloadIdentity)
  }

  /** A retry limit the record never reaches while it is live: a fresh message has
      not been tried, and one that has been tried is below its limit. */
  predicate RetryBelowLimit(m: QueuedMessage)
  {
    m.retryCount >= 0 && (m.retryCount > 0 ==> m.retryCount < m.maxRetries)
  }

  /** The message `nack_message` rebuilds from a stored record. */
  function Retried(m: QueuedMessage, error: string): (n: QueuedMessage)
    ensures n.retryCount == m.retryCount + 1 && n.lastError == Some(error)
    ensures n.id == m.id && n.queueName == m.queueName && n.maxRetries == m.maxRetries
  {
    m.(retryCount := m.retryCount + 1, lastError := Some(error))
  }

  datatype QueueStats = QueueStats(immediate: nat, delayed: nat, deadLetter: nat, total: nat)

  class MessageQueue {
    /** Whether a store client has been created (`redis_client` is set). */
    var connected: bool
    /** `message:{id}` records. */
    var messages: map<string, StoredMessage>
    /** `queue:{q}`: ready messages scored by priority. */
    var ready: Index
    /** `delayed:{q}`: delayed messages scored by due time. */
    var delayed: Index
    /** `dlq:{q}`: dead letters scored by the time they were moved. */
    var deadLetters: Index
    /** `dlq_message:{id}` records. */
    var deadRecords: map<string, DeadLetter>
    /** The registered processors by queue name (a processor is known by an identity). */
    var processors: map<string, nat>

    ghost predicate Valid()
      reads this
    {
      IndexesNormal() && LiveRecords() && DeadRecords() && DeadLettersRecorded()
    }

    ghost predicate IndexesNormal()
      reads this`ready, this`delayed, this`deadLetters
    {
      NoEmptySets(ready) && NoEmptySets(delayed) && NoEmptySets(deadLetters)
    }

    /** Every live record holds a message with its own id whose retry count is below its limit. */
    ghost predicate LiveRecords()
      reads this`messages
    {
      forall id :: id in messages ==> messages[id].message.id == id && RetryBelowLimit(messages[id].message)
    }

    /** Every dead-letter record holds a message with its own id that has used up its retries. */
    ghost predicate DeadRecords()
      reads this`deadRecords
    {
      forall id :: id in deadRecords ==>
        deadRecords[id].message.id == id && deadRecords[id].message.retryCount >= deadRecords[id].message.maxRetries
    }

    /** Every id in a dead-letter set has its dead-letter record. */
    ghost predicate DeadLettersRecorded()
      reads this`deadLetters, this`deadRecords
    {
      forall q, id :: id in Members(deadLetters, q) ==> id in deadRecords
    }

    constructor ()
      ensures Valid() && !connected
      ensures messages == map[] && ready == map[] && delayed == map[]
      ensures deadLetters == map[] && deadRecords == map[] && processors == map[]
    {
      connected := false;
      messages := map[];
      ready := map[];
      delayed := map[];
      deadLetters := map[];
      deadRecords := map[];
      processors := map[];
    }

    /** `initialize`: the client is created before the connection test, so it is
        set even when the test fails (and the failure is re-raised). */
    method Initialize(pingSucceeds: bool) returns (r: Result<()>)
      requires Valid()
      modifies this`connected
      ensures Valid() && connected
      ensures r == if pingSucceeds then Ok(()) else Err(STORE_ERROR)
    {
      connected := true;
      r := if pingSucceeds then Ok(()) else Err(STORE_ERROR);
    }

    /** The state change and result of `enqueue`. */
    twostate predicate Enqueued(queueName: string, payload: Payload, priority: int, maxRetries: int,
                                delaySeconds: int, messageId: Option<string>, now: int,
                                payloadIdentity: nat, fault: Fault, new r: Result<string>)
      reads this
    {
      && connected == old(connected) && processors == old(processors)
      && deadLetters == old(deadLetters) && deadRecords == old(deadRecords)
      && (!old(connected) ==>
            r == Err(NOT_INITIALIZED) && messages == old(messages) && ready == old(ready) && delayed == old(delayed))
      && (old(connected) ==>
            var id := MessageIdFor(queueName, messageId, now, payloadIdentity);
            var m := NewMessage(id, queueName, payload, priority, maxRetries, delaySeconds, now);
            var stamp := if id in old(messages) then old(messages)[id].processingStartedAt else None;
            && messages == (if Completes(fault, 0) then old(messages)[id := StoredMessage(m, stamp)]
                            else old(messages))
            && r == (if Completes(fault, 2) then Ok(id) else Err(STORE_ERROR))
            && ready == (if Completes(fault, 2) && delaySeconds <= 0 then ZAdd(old(ready), queueName, id, priority)
                         else old(ready))
            && delayed == (if Completes(fault, 2) && delaySeconds > 0 then ZAdd(old(delayed), queueName, id, m.scheduledAt)
                           else old(delayed)))
    }

    /** `enqueue`: stores the record, then indexes the id in the delayed set when
        there is a delay and in the ready set (scored by priority) otherwise.
        The three store commands are `hset`, `expire` and `zadd`. */
    method Enqueue(queueName: string, payload: Payload, priority: int, maxRetries: int,
                   delaySeconds: int, messageId: Option<string>, now: int,
                   payloadIdentity: nat, fault: Fault) returns (r: Result<string>)
      requires Valid()
      modifies this`messages, this`ready, this`delayed
      ensures Valid()
      ensures Enqueued(queueName, payload, priority, maxRetries, delaySeconds, messageId, now, payloadIdentity, fault, r)
    {
      if !connected {
        return Err(NOT_INITIALIZED);
      }
      var id := MessageIdFor(queueName, messageId, now, payloadIdentity);
      var m := NewMessage(id, queueName, payload, priority, maxRetries, delaySeconds, now);
      if !Completes(fault, 0) {
        return Err(STORE_ERROR);
      }
      var stamp := if id in messages then messages[id].processingStartedAt else None;
      messages := messages[id := StoredMessage(m, stamp)];
      if !Completes(fault, 2) {
        return Err(STORE_ERROR);
      }
      if delaySeconds > 0 {
        delayed := ZAdd(delayed, queueName, id, m.scheduledAt);
      } else {
        ready := ZAdd(ready, queueName, id, priority);
      }
      r := Ok(id);
    }

    /** `_process_delayed_messages`: every due member of `delayed:{q}` whose record
        still exists moves to `queue:{q}`, scored by its stored priority. The
        members are independent, so the order the loop visits them in does not
        matter. */
    method PromoteDelayed(q: string, now: int)
      requires Valid()
      modifies this`ready, this`delayed
      ensures Valid()
      ensures var moved := Movable(Members(old(delayed), q), messages, now);
        && ready == SetMembers(old(ready), q, WithMoved(Members(old(ready), q), messages, moved))
        && delayed == SetMembers(old(delayed), q, WithoutMoved(Members(old(delayed), q), moved))
    {
      var r0, d0 := Members(ready, q), Members(delayed, q);
      var due := Due(d0, now);
      var todo := due;
      ghost var moved: set<string> := {};
      assert WithMoved(r0, messages, {}) == r0;
      assert WithoutMoved(d0, {}) == d0;
      while todo != {}
        invariant todo <= due
        invariant moved <= messages.Keys
        invariant forall x :: x in moved <==> x in due && x !in todo && x in messages
        invariant NoEmptySets(ready) && NoEmptySets(delayed)
        invariant ready == SetMembers(old(ready), q, WithMoved(r0, messages, moved))
        invariant delayed == SetMembers(old(delayed), q, WithoutMoved(d0, moved))
        decreases todo
      {
        var id :| id in todo;
        if id in messages {
          MovedStep(r0, d0, messages, moved, id);
          ZAddOnto(old(ready), q, WithMoved(r0, messages, moved), id, messages[id].message.priority);
          ZRemOnto(old(delayed), q, WithoutMoved(d0, moved), id);
          ready := ZAdd(ready, q, id, messages[id].message.priority);
          delayed := ZRem(delayed, q, id);
          moved := moved + {id};
        }
        todo := todo - {id};
      }
      assert moved == Movable(d0, messages, now);
    }

    /** `BZPOPMAX queue:{q}`: removes and returns a member with the highest score
        (ties are resolved by the store); `None` when the set is empty. */
    method PopMax(q: string) returns (id: Option<string>)
      requires NoEmptySets(ready)
      modifies this`ready
      ensures NoEmptySets(ready)
      ensures old(Members(ready, q)) == map[] ==> id == None && ready == old(ready)
      ensures old(Members(ready, q)) != map[] ==>
        && id.Some? && IsTop(old(Members(ready, q)), id.value)
        && ready == ZRem(old(ready), q, id.value)
    {
      var z := Members(ready, q);
      if z == map[] {
        return None;
      }
      TopExists(z);
      var top :| IsTop(z, top);
      ready := ZRem(ready, q, top);
      id := Some(top);
    }

    /** `dequeue`: promotes due messages, pops a member with the highest priority
        from `queue:{q}` and returns its message, stamping the record with the
        time processing started. Nothing to pop, or a popped id whose record is
        gone, gives `None`. The store commands after the promotion are
        `bzpopmax`, `hgetall` and the stamping `hset`; any of them failing gives
        `None`, and once the pop has happened the id is not put back. */
    method Dequeue(q: string, now: int, fault: Fault) returns (r: Option<QueuedMessage>)
      requires Valid()
      modifies this`messages, this`ready, this`delayed
      ensures Valid()
      ensures !old(connected) ==>
        r == None && messages == old(messages) && ready == old(ready) && delayed == old(delayed)
      ensures old(connected) ==>
        var moved := Movable(Members(old(delayed), q), old(messages), now);
        var readyAfter := WithMoved(Members(old(ready), q), old(messages), moved);
        && delayed == SetMembers(old(delayed), q, WithoutMoved(Members(old(delayed), q), moved))
        && (readyAfter == map[] || !Completes(fault, 0) ==>
              r == None && messages == old(messages) && ready == SetMembers(old(ready), q, readyAfter))
        && (readyAfter != map[] && Completes(fault, 0) ==> exists id :: Popped(q, readyAfter, id, now, fault, r))
    {
      if !connected {
        return None;
      }
      PromoteDelayed(q, now);
      ghost var promoted := ready;
      if !Completes(fault, 0) {
        return None;
      }
      var popped := PopMax(q);
      if popped.None? {
        return None;
      }
      var id := popped.value;
      SetMembersTwice(old(ready), q, Members(promoted, q), Members(promoted, q) - {id});
      r := MarkProcessing(id, now, fault);
      assert Popped(q, Members(promoted, q), id, now, fault, r);
    }

    /** The rest of `dequeue` once `id` is popped: `hgetall` the record (store
        command 1; `None` when the record is gone), decode it and stamp
        `processing_started_at` (store command 2). */
    method MarkProcessing(id: string, now: int, fault: Fault) returns (r: Option<QueuedMessage>)
      requires Valid()
      modifies this`messages
      ensures Valid()
      ensures id !in old(messages) || !Completes(fault, 2) ==> r == None && messages == old(messages)
      ensures id in old(messages) && Completes(fault, 2) ==>
        && r == Some(old(messages)[id].message)
        && messages == old(messages)[id := old(messages)[id].(processingStartedAt := Some(now))]
    {
      if !Completes(fault, 1) || id !in messages || !Completes(fault, 2) {
        return None;
      }
      var record := messages[id];
      messages := messages[id := record.(processingStartedAt := Some(now))];
      r := Some(record.message);
    }

    /** The state `dequeue` leaves after popping `id` from the promoted ready set `readyAfter`. */
    twostate predicate Popped(q: string, readyAfter: ZSet, id: string, now: int, fault: Fault,
                              new r: Option<QueuedMessage>)
      reads this
    {
      && IsTop(readyAfter, id)
      && ready == SetMembers(old(ready), q, readyAfter - {id})
      && (id !in old(messages) || !Completes(fault, 2) ==> r == None && messages == old(messages))
      && (id in old(messages) && Completes(fault, 2) ==>
            && r == Some(old(messages)[id].message)
            && messages == old(messages)[id := old(messages)[id].(processingStartedAt := Some(now))])
    }

    /** `ack_message`: deletes the record. The delete succeeds whether or not the
        record exists, so an unknown id is acknowledged too. */
    method AckMessage(id: string, deleteFails: bool) returns (ok: bool)
      requires Valid()
      modifies this`messages
      ensures Valid()
      ensures ok == (connected && !deleteFails)
      ensures messages == if ok then old(messages) - {id} else old(messages)
    {
      if !connected || deleteFails {
        return false;
      }
      messages := messages - {id};
      ok := true;
    }

    /** `_move_to_dlq`: the dead-letter `hset`, the `dlq:{q}` `zadd` and the
        `delete` of the record, in that order. The record is deleted only after
        both dead-letter writes succeeded, so a failed write leaves the original
        in place. Failures are logged and swallowed. */
    method MoveToDeadLetters(m: QueuedMessage, error: string, now: int, fault: Fault)
      requires Valid() && connected
      requires m.retryCount >= m.maxRetries
      modifies this`deadRecords, this`deadLetters, this`messages
      ensures Valid()
      ensures deadRecords == if Completes(fault, 0) then old(deadRecords)[m.id := DeadLetter(m, now, error)]
                             else old(deadRecords)
      ensures deadLetters == if Completes(fault, 1) then ZAdd(old(deadLetters), m.queueName, m.id, now)
                             else old(deadLetters)
      ensures messages == if Completes(fault, 2) then old(messages) - {m.id} else old(messages)
    {
      if !Completes(fault, 0) {
        return;
      }
      deadRecords := deadRecords[m.id := DeadLetter(m, now, error)];
      if !Completes(fault, 1) {
        return;
      }
      deadLetters := ZAdd(deadLetters, m.queueName, m.id, now);
      if !Completes(fault, 2) {
        return;
      }
      messages := messages - {m.id};
    }

    /** `nack_message`: counts one more attempt and records the error. Once the
        retry count reaches the limit the message is dead-lettered (that branch
        swallows its own failures, so the nack still reports success); otherwise
        the record is rewritten (`hset`) and indexed in `delayed:{q}` (`zadd`)
        to be due after `Backoff(retry_count)` seconds. */
    method NackMessage(id: string, error: string, now: int, fault: Fault) returns (ok: bool)
      requires Valid()
      modifies this`messages, this`delayed, this`deadLetters, this`deadRecords
      ensures Valid()
      ensures Nacked(id, error, now, fault, ok)
    {
      if !connected || id !in messages {
        return false;
      }
      var record := messages[id];
      var m := Retried(record.message, error);
      if m.retryCount >= m.maxRetries {
        MoveToDeadLetters(m, error, now, fault);
        return true;
      }
      var retry := m.(scheduledAt := now + Backoff(m.retryCount));
      if !Completes(fault, 0) {
        return false;
      }
      messages := messages[id := record.(message := retry)];
      if !Completes(fault, 1) {
        return false;
      }
      delayed := ZAdd(delayed, m.queueName, id, retry.scheduledAt);
      ok := true;
    }

    /** The state change and result of `nack_message`: nothing without a client
        or a record; the dead-letter move once the retries are used up; otherwise
        (a live record's count is never negative, `LiveRecords`) the rewritten record (store command 0) indexed in `delayed:{q}` (store
        command 1). */
    twostate predicate Nacked(id: string, error: string, now: int, fault: Fault, new ok: bool)
      reads this
    {
      && (!old(connected) || id !in old(messages) ==>
            && !ok && messages == old(messages) && delayed == old(delayed)
            && deadLetters == old(deadLetters) && deadRecords == old(deadRecords))
      && (old(connected) && id in old(messages) ==>
            var m := Retried(old(messages)[id].message, error);
            m.retryCount >= m.maxRetries ==>
              && ok && delayed == old(delayed)
              && deadRecords == (if Completes(fault, 0) then old(deadRecords)[id := DeadLetter(m, now, error)]
                                 else old(deadRecords))
              && deadLetters == (if Completes(fault, 1) then ZAdd(old(deadLetters), m.queueName, id, now)
                                 else old(deadLetters))
              && messages == (if Completes(fault, 2) then old(messages) - {id} else old(messages)))
      && (old(connected) && id in old(messages) ==>
            var m := Retried(old(messages)[id].message, error);
            0 <= m.retryCount < m.maxRetries ==>
              var retry := m.(scheduledAt := now + Backoff(m.retryCount));
              && ok == Completes(fault, 1)
              && messages == (if Completes(fault, 0)
                              then old(messages)[id := old(messages)[id].(message := retry)]
                              else old(messages))
              && delayed == (if Completes(fault, 1) then ZAdd(old(delayed), m.queueName, id, retry.scheduledAt)
                             else old(delayed))
              && deadLetters == old(deadLetters) && deadRecords == old(deadRecords))
    }

    /** `register_processor`: a later registration replaces an earlier one. */
    method RegisterProcessor(q: string, processor: nat)
      requires Valid()
      modifies this`processors
      ensures Valid()
      ensures processors == old(processors)[q := processor]
    {
      processors := processors[q := processor];
    }

    /** `_process_message`: runs the queue's processor on the payload (its outcome
        is a parameter), then acknowledges the message when the processor
        returned a true value and negatively acknowledges it with the reason
        otherwise. The results of the ack and nack are not looked at; the state
        either of them leaves is the state this call leaves. */
    method ProcessMessage(msg: QueuedMessage, outcome: HandlerOutcome, now: int,
                          deleteFails: bool, fault: Fault) returns (d: Disposal)
      requires Valid()
      modifies this`messages, this`delayed, this`deadLetters, this`deadRecords
      ensures Valid()
      ensures d == Dispose(msg.queueName in processors, outcome)
      ensures d.Ack? ==>
        && messages == (if connected && !deleteFails then old(messages) - {msg.id} else old(messages))
        && delayed == old(delayed) && deadLetters == old(deadLetters) && deadRecords == old(deadRecords)
      ensures d.Nack? ==> exists ok :: Nacked(msg.id, d.reason, now, fault, ok)
    {
      d := Dispose(msg.queueName in processors, outcome);
      if d.Ack? {
        var ok := AckMessage(msg.id, deleteFails);
      } else {
        var ok := NackMessage(msg.id, d.reason, now, fault);
        assert Nacked(msg.id, d.reason, now, fault, ok);
      }
    }

    /** `get_queue_stats`: the sizes of the three sorted sets of a queue; the
        total counts ready and delayed messages but not dead letters. Empty
        (`None`) without a client or when a count fails. */
    method QueueStatistics(q: string, storeFails: bool) returns (r: Option<QueueStats>)
      ensures r.None? <==> !connected || storeFails
      ensures r.Some? ==>
        && r.value.immediate == |Members(ready, q)| && r.value.delayed == |Members(delayed, q)|
        && r.value.deadLetter == |Members(deadLetters, q)|
        && r.value.total == r.value.immediate + r.value.delayed
    {
      if !connected || storeFails {
        return None;
      }
      var immediate, later, dead := |Members(ready, q)|, |Members(delayed, q)|, |Members(deadLetters, q)|;
      r := Some(QueueStats(immediate, later, dead, immediate + later));
    }
  }

  /** `enqueue` with the store client as it is configured: the record's `hset`
      is refused (`MessageWriteRaises`), so every call is an `Enqueue` whose
      first store command fails. Nothing is stored or indexed and the error is
      re-raised. */
  method EnqueueAsWritten(mq: MessageQueue, queueName: string, payload: Payload, priority: int,
                          maxRetries: int, delaySeconds: int, messageId: Option<string>, now: int,
                          payloadIdentity: nat) returns (r: Result<string>)
    requires mq.Valid()
    modifies mq`messages, mq`ready, mq`delayed
    ensures mq.Valid() && r.Err?
    ensures mq.messages == old(mq.messages) && mq.ready == old(mq.ready) && mq.delayed == old(mq.delayed)
  {
    var id := MessageIdFor(queueName, messageId, now, payloadIdentity);
    var m := NewMessage(id, queueName, payload, priority, maxRetries, delaySeconds, now);
    MessageWriteRaises(m);
    var fault := if WireHash(ToDict(m)).Some? then NoFault else FailAt(0);
    r := mq.Enqueue(queueName, payload, priority, maxRetries, delaySeconds, messageId, now, payloadIdentity, fault);
  }

  // ---------------------------------------------------------------------
  // An id can be in several places at once
  // ---------------------------------------------------------------------

  /** Nothing keeps an id in one index at a time: enqueuing the same explicit
      id twice, once with a delay and once without, leaves it both ready and
      delayed. */
  method DuplicateIdReadyAndDelayed(mq: MessageQueue, q: string, id: string, payload: Payload,
                                    priority: int, maxRetries: int, now: int)
    requires mq.Valid() && mq.connected && id != []
    modifies mq
    ensures mq.Valid()
    ensures id in Members(mq.ready, q) && id in Members(mq.delayed, q)
  {
    var first := mq.Enqueue(q, payload, priority, maxRetries, 60, Some(id), now, 0, NoFault);
    var second := mq.Enqueue(q, payload, priority, maxRetries, 0, Some(id), now, 0, NoFault);
  }

  /** A nack of a message that is still ready (it was never dequeued) indexes
      it in the delayed set as well. */
  method NackWhileReady(mq: MessageQueue, q: string, id: string, payload: Payload,
                        priority: int, maxRetries: int, now: int, error: string)
    requires mq.Valid() && mq.connected && id != [] && maxRetries >= 2
    modifies mq
    ensures mq.Valid()
    ensures id in Members(mq.ready, q) && id in Members(mq.delayed, q)
  {
    var r := mq.Enqueue(q, payload, priority, maxRetries, 0, Some(id), now, 0, NoFault);
    var ok := mq.NackMessage(id, error, now, NoFault);
  }

  /** A dead-letter move whose final `delete` fails leaves the message both
      live (recorded and ready) and dead-lettered. */
  method DeadLetteredWhileLive(mq: MessageQueue, q: string, id: string, payload: Payload,
                               priority: int, maxRetries: int, now: int, error: string)
    requires mq.Valid() && mq.connected && id != [] && maxRetries <= 1
    modifies mq
    ensures mq.Valid()
    ensures id in mq.messages && id in Members(mq.ready, q)
    ensures id in mq.deadRecords && id in Members(mq.deadLetters, q)
  {
    var r := mq.Enqueue(q, payload, priority, maxRetries, 0, Some(id), now, 0, NoFault);
    var ok := mq.NackMessage(id, error, now, FailAt(2));
  }

  /** A `dequeue` whose `hgetall` fails after the pop loses the id: the record
      stays, but the id is in no index of its queue. */
  method LostAfterPop(mq: MessageQueue, q: string, id: string, payload: Payload,
                      priority: int, maxRetries: int, now: int)
    requires mq.Valid() && mq.connected && id != []
    requires Members(mq.ready, q) == map[] && Members(mq.delayed, q) == map[]
    modifies mq
    ensures mq.Valid()
    ensures id in mq.messages && id !in Members(mq.ready, q) && id !in Members(mq.delayed, q)
  {
    var r := mq.Enqueue(q, payload, priority, maxRetries, 0, Some(id), now, 0, NoFault);
    assert Members(mq.ready, q) == map[id := priority];
    var m := mq.Dequeue(q, now, FailAt(1));
  }
}

=== FILE: ordered.dfy ===
/** Python dictionaries keep their keys in insertion order, and several
    services depend on that order (the first key is the oldest cache entry,
    grouped results come out in first-seen order). Such a dictionary is
    modelled as an association list with distinct keys. */
module Ordered {
  import opened Wrappers

  function Keys<K, V>(m: seq<(K, V)>): (r: seq<K>)
    ensures |r| == |m|
    ensures forall i :: 0 <= i < |m| ==> r[i] == m[i].0
  {
    if m == [] then [] else [m[0].0] + Keys(m[1..])
  }

  predicate DistinctKeys<K(==), V>(m: seq<(K, V)>)
  {
    forall i, j :: 0 <= i < j < |m| ==> m[i].0 != m[j].0
  }

  /** A pair before a list with distinct keys none of which is its own. */
  lemma DistinctCons<K, V>(x: (K, V), rest: seq<(K, V)>)
    requires DistinctKeys(rest) && forall j :: 0 <= j < |rest| ==> rest[j].0 != x.0
    ensures DistinctKeys([x] + rest)
  {
    var m := [x] + rest;
    forall i, j | 0 <= i < j < |m| ensures m[i].0 != m[j].0 {
      assert m[j] == rest[j - 1];
      if i > 0 {
        assert m[i] == rest[i - 1];
      }
    }
  }

  /** The step shared by `Put` and `Add` past a first key other than `k`:
      the first pair is kept before a rest whose keys are the tail's when
      `k` is among them, and the tail's followed by `k` otherwise. */
  lemma KeepFirst<K, V>(m: seq<(K, V)>, rest: seq<(K, V)>, k: K)
    requires m != [] && m[0].0 != k
    requires DistinctKeys(m[1..]) ==> DistinctKeys(rest)
    requires k in Keys(m[1..]) ==> Keys(rest) == Keys(m[1..])
    requires k !in Keys(m[1..]) ==> Keys(rest) == Keys(m[1..]) + [k]
    ensures k in Keys(m) ==> Keys([m[0]] + rest) == Keys(m)
    ensures k !in Keys(m) ==> Keys([m[0]] + rest) == Keys(m) + [k]
    ensures DistinctKeys(m) ==> DistinctKeys([m[0]] + rest)
  {
    KeepFirstKeys(m, rest, k);
    KeepFirstDistinct(m, rest, k);
  }

  lemma KeepFirstKeys<K, V>(m: seq<(K, V)>, rest: seq<(K, V)>, k: K)
    requires m != [] && m[0].0 != k
    requires k in Keys(m[1..]) ==> Keys(rest) == Keys(m[1..])
    requires k !in Keys(m[1..]) ==> Keys(rest) == Keys(m[1..]) + [k]
    ensures k in Keys(m) ==> Keys([m[0]] + rest) == Keys(m)
    ensures k !in Keys(m) ==> Keys([m[0]] + rest) == Keys(m) + [k]
  {
    var tail := m[1..];
    var first := m[0].0;
    var c := [m[0]] + rest;
    assert c[1..] == rest;
    assert Keys(c) == [first] + Keys(rest);
    assert Keys(m) == [first] + Keys(tail);
    if k in Keys(tail) {
      assert k in Keys(m);
    } else {
      assert k !in Keys(m);
      assert [first] + (Keys(tail) + [k]) == [first] + Keys(tail) + [k];
    }
  }

  lemma KeepFirstDistinct<K, V>(m: seq<(K, V)>, rest: seq<(K, V)>, k: K)
    requires m != [] && m[0].0 != k
    requires DistinctKeys(m[1..]) ==> DistinctKeys(rest)
    requires Keys(rest) == Keys(m[1..]) || Keys(rest) == Keys(m[1..]) + [k]
    ensures DistinctKeys(m) ==> DistinctKeys([m[0]] + rest)
  {
    if DistinctKeys(m) {
      var tail := m[1..];
      assert DistinctKeys(tail) by {
        forall i, j | 0 <= i < j < |tail| ensures tail[i].0 != tail[j].0 {
          assert tail[i] == m[i + 1] && tail[j] == m[j + 1];
        }
      }
      forall j | 0 <= j < |rest| ensures rest[j].0 != m[0].0 {
        assert rest[j].0 == Keys(rest)[j];
        if j < |tail| {
          assert Keys(rest)[j] == Keys(tail)[j] == m[j + 1].0;
        } else {
          assert Keys(rest)[j] == k;
        }
      }
      DistinctCons(m[0], rest);
    }
  }

  /** The step of `Remove` past a first key it keeps: the first pair is
      kept before pairs taken from the tail. */
  lemma SubFirstDistinct<K, V>(m: seq<(K, V)>, rest: seq<(K, V)>)
    requires m != [] && (DistinctKeys(m[1..]) ==> DistinctKeys(rest))
    requires forall j :: 0 <= j < |rest| ==> rest[j] in m[1..]
    ensures DistinctKeys(m) ==> DistinctKeys([m[0]] + rest)
  {
    if DistinctKeys(m) {
      var tail := m[1..];
      assert DistinctKeys(tail) by {
        forall i, j | 0 <= i < j < |tail| ensures tail[i].0 != tail[j].0 {
          assert tail[i] == m[i + 1] && tail[j] == m[j + 1];
        }
      }
      forall j | 0 <= j < |rest| ensures rest[j].0 != m[0].0 {
        var i :| 0 <= i < |tail| && tail[i] == rest[j];
        assert m[i + 1] == rest[j];
      }
      DistinctCons(m[0], rest);
    }
  }

  /** `d.get(k)` */
  function Get<K(==), V>(m: seq<(K, V)>, k: K): (r: Option<V>)
    ensures r.Some? <==> k in Keys(m)
    ensures r.Some? ==> exists i :: 0 <= i < |m| && m[i] == (k, r.value)
  {
    if m == [] then None
    else if m[0].0 == k then Some(m[0].1)
    else Get(m[1..], k)
  }

  /** `d[k] = v`: an existing key keeps its place, a new key goes last. */
  function Put<K(==), V>(m: seq<(K, V)>, k: K, v: V): (r: seq<(K, V)>)
    ensures k in Keys(m) ==> Keys(r) == Keys(m)
    ensures k !in Keys(m) ==> Keys(r) == Keys(m) + [k]
    ensures DistinctKeys(m) ==> DistinctKeys(r)
  {
    if m == [] then [(k, v)]
    else if m[0].0 == k then [(k, v)] + m[1..]
    else
      var rest := Put(m[1..], k, v);
      KeepFirst(m, rest, k);
      [m[0]] + rest
  }

  /** After `d[k] = v`, `k` maps to `v` and every other key to what it mapped to before. */
  lemma {:induction false} GetPut<K, V>(m: seq<(K, V)>, k: K, v: V, j: K)
    ensures Get(Put(m, k, v), j) == if j == k then Some(v) else Get(m, j)
  {
    if m != [] && m[0].0 != k {
      GetPut(m[1..], k, v, j);
    }
  }

  /** The sum of the values (the counts of a counting dictionary). */
  function SumValues<K>(m: seq<(K, int)>): int
  {
    if m == [] then 0 else m[0].1 + SumValues(m[1..])
  }

  /** `d[k] = d.get(k, 0) + v`: an existing key keeps its place, a new key
      goes last. */
  function Add<K(==)>(m: seq<(K, int)>, k: K, v: int): (r: seq<(K, int)>)
    ensures k in Keys(m) ==> Keys(r) == Keys(m)
    ensures k !in Keys(m) ==> Keys(r) == Keys(m) + [k]
    ensures DistinctKeys(m) ==> DistinctKeys(r)
  {
    if m == [] then [(k, v)]
    else if m[0].0 == k then Put(m, k, m[0].1 + v)
    else
      var rest := Add(m[1..], k, v);
      KeepFirst(m, rest, k);
      [m[0]] + rest
  }

  /** Adding `v` under any key raises the sum of the values by exactly `v`. */
  lemma {:induction false} SumAfterAdd<K>(m: seq<(K, int)>, k: K, v: int)
    ensures SumValues(Add(m, k, v)) == SumValues(m) + v
  {
    if m == [] {
      assert SumValues([(k, v)]) == v + SumValues([(k, v)][1..]);
    } else if m[0].0 == k {
      assert Add(m, k, v) == [(k, m[0].1 + v)] + m[1..];
      assert Add(m, k, v)[1..] == m[1..];
    } else {
      var rest := Add(m[1..], k, v);
      assert ([m[0]] + rest)[1..] == rest;
      SumAfterAdd(m[1..], k, v);
    }
  }

  /** `d[k] = d.get(k, 0) + 1` */
  function Increment<K(==)>(m: seq<(K, int)>, k: K): seq<(K, int)>
  {
    Add(m, k, 1)
  }

  /** `del d[k]` (when present): the other keys keep their order. */
  function Remove<K(==), V>(m: seq<(K, V)>, k: K): (r: seq<(K, V)>)
    ensures |r| <= |m|
    ensures k !in Keys(r)
    ensures forall i :: 0 <= i < |r| ==> r[i] in m && r[i].0 != k
    ensures DistinctKeys(m) ==> DistinctKeys(r)
  {
    if m == [] then []
    else
      var rest := Remove(m[1..], k);
      assert Keys(m) == [m[0].0] + Keys(m[1..]);
      if m[0].0 == k then rest
      else
        SubFirstDistinct(m, rest);
        assert forall i :: 0 <= i < |rest| ==> rest[i] in m[1..];
        assert Keys([m[0]] + rest) == [m[0].0] + Keys(rest);
        [m[0]] + rest
  }

  /** After `del d[k]`, `k` is absent and every other key maps to what it mapped to before. */
  lemma {:induction false} GetRemove<K, V>(m: seq<(K, V)>, k: K, j: K)
    ensures Get(Remove(m, k), j) == if j == k then None else Get(m, j)
  {
    if m != [] {
      GetRemove(m[1..], k, j);
    }
  }

  /** The counting dictionary `d[k] = d.get(k, 0) + 1` builds over `ks`, in first-seen order. */
  function CountBy<K(==)>(ks: seq<K>): seq<(K, int)>
  {
    if ks == [] then [] else Increment(CountBy(ks[..|ks| - 1]), ks[|ks| - 1])
  }

  /** The counts add up to the number of keys counted. */
  lemma {:induction false} CountBySum<K>(ks: seq<K>)
    ensures SumValues(CountBy(ks)) == |ks|
  {
    if ks != [] {
      var p := ks[..|ks| - 1];
      CountBySum(p);
      SumAfterAdd(CountBy(p), ks[|ks| - 1], 1);
    }
  }

  lemma {:induction false} CountByDistinct<K>(ks: seq<K>)
    ensures DistinctKeys(CountBy(ks))
  {
    if ks != [] {
      CountByDistinct(ks[..|ks| - 1]);
    }
  }

  /** The counting loop `d[k] = d.get(k, 0) + 1` over `ks`: every count is
      stored under its key once, and the counts add up to the keys counted. */
  method CountKeys<K(==)>(ks: seq<K>) returns (counts: seq<(K, int)>)
    ensures counts == CountBy(ks)
    ensures DistinctKeys(counts) && SumValues(counts) == |ks|
  {
    counts := [];
    var i := 0;
    while i < |ks|
      invariant 0 <= i <= |ks|
      invariant counts == CountBy(ks[..i])
    {
      assert ks[..i + 1][..i] == ks[..i];
      counts := Increment(counts, ks[i]);
      i := i + 1;
    }
    assert ks[..i] == ks;
    CountBySum(ks);
    CountByDistinct(ks);
  }
}

=== FILE: rag_system.dfy ===
/** Keyword classification in the RAG system
    (backend/app/services/rag_system.py): the subject of a document, the
    content type of a chunk and the relevance category of a search score. */
module RagClassification {
  import opened Text

  // ---------------------------------------------------------------------
  // Subject classification
  // ---------------------------------------------------------------------

  /** The subjects with keyword lists, in declaration order. */
  const SUBJECTS: seq<string> := ["math", "science", "language", "history"]

  /** The keywords of each subject, in the order they are declared. */
  function SubjectKeywords(k: nat): seq<string>
    requires k < |SUBJECTS|
  {
    if k == 0 then ["mathematics", "algebra", "geometry", "calculus", "statistics", "equation", "formula", "theorem"]
    else if k == 1 then ["physics", "chemistry", "biology", "experiment", "hypothesis", "molecule", "atom", "cell"]
    else if k == 2 then ["grammar", "literature", "writing", "essay", "poetry", "vocabulary", "syntax"]
    else ["historical", "timeline", "civilization", "war", "revolution", "ancient", "medieval"]
  }

  const GENERAL: string := "general"

  /** How many of the keywords occur in `low`. */
  function KeywordCount(low: string, keywords: seq<string>): (n: nat)
    ensures n <= |keywords|
    ensures n == 0 <==> !ContainsAny(low, keywords)
  {
    if keywords == [] then 0
    else
      var rest := KeywordCount(low, keywords[1..]);
      assert forall i :: 1 <= i < |keywords| ==> keywords[i] == keywords[1..][i - 1];
      assert ContainsAny(low, keywords[1..]) ==> ContainsAny(low, keywords);
      (if Contains(low, keywords[0]) then 1 else 0) + rest
  }

  /** The score of each subject for `content`, in declaration order. */
  function SubjectScores(content: string): (scores: seq<nat>)
    ensures |scores| == |SUBJECTS|
  {
    var low := Lower(content);
    seq(|SUBJECTS|, i requires 0 <= i < |SUBJECTS| => KeywordCount(low, SubjectKeywords(i)))
  }

  /** The first index holding the largest score (`max` keeps the first of equal keys). */
  function FirstMax(scores: seq<nat>): (k: nat)
    requires scores != []
    ensures k < |scores|
    ensures forall j :: 0 <= j < |scores| ==> scores[j] <= scores[k]
    ensures forall j :: 0 <= j < k ==> scores[j] < scores[k]
  {
    if |scores| == 1 then 0
    else
      var k := FirstMax(scores[..|scores| - 1]);
      if scores[|scores| - 1] > scores[k] then |scores| - 1 else k
  }

  /** `_classify_subject`: "general" exactly when no keyword of any subject
      occurs; otherwise a subject with the most matching keywords, the first
      declared one among equals. */
  function ClassifySubject(content: string): (r: string)
    ensures var scores := SubjectScores(content);
      && (r == GENERAL <==> forall i :: 0 <= i < |scores| ==> scores[i] == 0)
      && (r != GENERAL ==>
            exists k ::
              && 0 <= k < |scores| && r == SUBJECTS[k] && scores[k] > 0
              && (forall j :: 0 <= j < |scores| ==> scores[j] <= scores[k])
              && (forall j :: 0 <= j < k ==> scores[j] < scores[k]))
  {
    var scores := SubjectScores(content);
    var k := FirstMax(scores);
    if scores[k] == 0 then GENERAL else SUBJECTS[k]
  }

  // ---------------------------------------------------------------------
  // Chunk types and relevance
  // ---------------------------------------------------------------------

  datatype ChunkType = Mathematical | Conceptual | Practical | Procedural | GeneralContent
  {
    function Name(): string
    {
      match this
      case Mathematical => "mathematical"
      case Conceptual => "conceptual"
      case Practical => "practical"
      case Procedural => "procedural"
      case GeneralContent => "general"
    }
  }

  /** The indicator words of each type, in the order the types are tried. */
  function Indicators(t: ChunkType): seq<string>
  {
    match t
    case Mathematical => ["equation", "formula", "=", "+", "-", "*", "/"]
    case Conceptual => ["definition", "concept", "theory"]
    case Practical => ["example", "problem", "exercise"]
    case Procedural => ["step", "procedure", "method"]
    case GeneralContent => []
  }

  /** The position of a type in the order of precedence. */
  function Precedence(t: ChunkType): nat
  {
    match t
    case Mathematical => 0
    case Conceptual => 1
    case Practical => 2
    case Procedural => 3
    case GeneralContent => 4
  }

  /** `_classify_chunk_type`: the first type, in the order mathematical,
      conceptual, practical, procedural, whose indicators occur in the
      lower-cased chunk; "general" when none do. */
  function ClassifyChunkType(chunk: string): (t: ChunkType)
    ensures t != GeneralContent ==> ContainsAny(Lower(chunk), Indicators(t))
    ensures forall u :: Precedence(u) < Precedence(t) ==> !ContainsAny(Lower(chunk), Indicators(u))
  {
    var low := Lower(chunk);
    if ContainsAny(low, Indicators(Mathematical)) then Mathematical
    else if ContainsAny(low, Indicators(Conceptual)) then Conceptual
    else if ContainsAny(low, Indicators(Practical)) then Practical
    else if ContainsAny(low, Indicators(Procedural)) then Procedural
    else GeneralContent
  }

  datatype Relevance = LowRelevance | SomewhatRelevant | Relevant | VeryRelevant | HighlyRelevant
  {
    /** 0 for low relevance up to 4 for high relevance. */
    function Grade(): nat
    {
      match this
      case LowRelevance => 0
      case SomewhatRelevant => 1
      case Relevant => 2
      case VeryRelevant => 3
      case HighlyRelevant => 4
    }

    function Name(): string
    {
      match this
      case LowRelevance => "low_relevance"
      case SomewhatRelevant => "somewhat_relevant"
      case Relevant => "relevant"
      case VeryRelevant => "very_relevant"
      case HighlyRelevant => "highly_relevant"
    }
  }

  /** The score a grade starts at. */
  function GradeThreshold(g: nat): real
    requires 1 <= g <= 4
  {
    if g == 1 then 0.6 else if g == 2 then 0.7 else if g == 3 then 0.8 else 0.9
  }

  /** `_categorize_relevance`: a result earns grade `g` or better exactly when
      its score reaches the grade's threshold. */
  function CategorizeRelevance(score: real): (r: Relevance)
    ensures forall g :: 1 <= g <= 4 ==> (r.Grade() >= g <==> score >= GradeThreshold(g))
  {
    if score >= 0.9 then HighlyRelevant
    else if score >= 0.8 then VeryRelevant
    else if score >= 0.7 then Relevant
    else if score >= 0.6 then SomewhatRelevant
    else LowRelevance
  }

  /** A higher score never earns a lower category. */
  lemma RelevanceMonotone(a: real, b: real)
    requires a <= b
    ensures CategorizeRelevance(a).Grade() <= CategorizeRelevance(b).Grade()
  {
    var ga := CategorizeRelevance(a).Grade();
    if ga >= 1 {
      assert a >= GradeThreshold(ga);
    }
  }
}

/** The retrieval side of the RAG system (backend/app/services/rag_system.py):
    how a document is cut into chunks, how a text is given a subject and a
    chunk a content type, how search hits are ranked and how the context for
    a query is assembled within a length budget.

    The embedding model and the vector store are not modelled: what a store
    query returns is an input (one list of hits per collection searched). */
module RagSystem {
  import opened Wrappers
  import opened Text
  import Sorting
  import opened RagClassification

  /** The target length of a chunk, in characters. */
  const CHUNK_SIZE: nat := 1000
  /** A buffer shorter than this is dropped instead of becoming a chunk. */
  const MIN_CHUNK_SIZE: nat := 50
  /** The separators `_create_smart_chunks` and `_split_long_paragraph` cut at. */
  const PARAGRAPH_BREAK: string := "\n\n"
  const SENTENCE_END: string := ". "

  // ---------------------------------------------------------------------
  // Chunking
  // ---------------------------------------------------------------------

  /** No whitespace at either end (what `str.strip()` leaves). */
  predicate Trimmed(s: string)
  {
    s == [] || (!IsSpace(s[0]) && !IsSpace(s[|s| - 1]))
  }

  /** Closing a buffer: it becomes a (stripped) chunk only when it is
      non-empty and at least `MIN_CHUNK_SIZE` long. */
  function Flush(chunks: seq<string>, buffer: string): seq<string>
  {
    if buffer != "" && |buffer| >= MIN_CHUNK_SIZE then chunks + [Strip(buffer)] else chunks
  }

  /** The chunks a sequence of closed buffers gives, in order. */
  function Emit(buffers: seq<string>): seq<string>
  {
    if buffers == [] then [] else Flush(Emit(buffers[..|buffers| - 1]), buffers[|buffers| - 1])
  }

  /** The sentences of a paragraph with ". " put back on all but the last. */
  function SentencePieces(sentences: seq<string>): (pieces: seq<string>)
    ensures |pieces| == |sentences|
  {
    seq(|sentences|, i requires 0 <= i < |sentences| =>
      if i < |sentences| - 1 then sentences[i] + SENTENCE_END else sentences[i])
  }

  /** Putting the separators back and concatenating is joining. */
  lemma {:induction false} PiecesJoin(sentences: seq<string>)
    ensures Concat(SentencePieces(sentences)) == Join(sentences, SENTENCE_END)
  {
    var pieces := SentencePieces(sentences);
    if |sentences| == 1 {
      assert pieces == [sentences[0]];
      assert Concat(pieces) == sentences[0] + Concat(pieces[1..]);
    } else if |sentences| >= 2 {
      var rest := sentences[1..];
      assert pieces[1..] == SentencePieces(rest);
      PiecesJoin(rest);
    }
  }

  /** The state of `_split_long_paragraph`'s loop: the chunks so far, the
      buffers closed so far (kept or dropped) and the open buffer. */
  datatype SentenceBuffer = SentenceBuffer(chunks: seq<string>, closed: seq<string>, current: string)

  /** One sentence: it closes the buffer when it does not fit, otherwise it joins it. */
  function SentenceStep(st: SentenceBuffer, piece: string): SentenceBuffer
  {
    if |st.current| + |piece| > CHUNK_SIZE then
      SentenceBuffer(Flush(st.chunks, st.current), st.closed + [st.current], piece)
    else SentenceBuffer(st.chunks, st.closed, st.current + piece)
  }

  function SentenceFold(pieces: seq<string>): SentenceBuffer
  {
    if pieces == [] then SentenceBuffer([], [], "")
    else SentenceStep(SentenceFold(pieces[..|pieces| - 1]), pieces[|pieces| - 1])
  }

  /** The chunks kept are exactly those of the closed buffers. */
  lemma {:induction false} SentenceFoldChunks(pieces: seq<string>)
    ensures SentenceFold(pieces).chunks == Emit(SentenceFold(pieces).closed)
  {
    if pieces != [] {
      var front := pieces[..|pieces| - 1];
      var st := SentenceFold(front);
      SentenceFoldChunks(front);
      assert (st.closed + [st.current])[..|st.closed|] == st.closed;
    }
  }

  /** The closed buffers followed by the open one are the sentences read, in order. */
  lemma {:induction false} SentenceFoldText(pieces: seq<string>)
    ensures Concat(SentenceFold(pieces).closed) + SentenceFold(pieces).current == Concat(pieces)
  {
    if pieces != [] {
      var front, last := pieces[..|pieces| - 1], pieces[|pieces| - 1];
      var st := SentenceFold(front);
      SentenceFoldText(front);
      assert pieces == front + [last];
      ConcatAppend(front, [last]);
      assert Concat([last]) == last + Concat([]);
      if |st.current| + |last| > CHUNK_SIZE {
        ConcatAppend(st.closed, [st.current]);
        assert Concat([st.current]) == st.current + Concat([]);
      }
    }
  }

  /** `_split_long_paragraph`, as the chunks its loop produces. */
  function SplitLong(paragraph: string): seq<string>
  {
    var st := SentenceFold(SentencePieces(Split(paragraph, SENTENCE_END)));
    Flush(st.chunks, st.current)
  }

  /** A long paragraph is cut into runs of consecutive sentences that together
      are the paragraph; each run long enough becomes a chunk, in order. */
  lemma SplitLongKeepsText(paragraph: string)
    ensures var st := SentenceFold(SentencePieces(Split(paragraph, SENTENCE_END)));
      var runs := st.closed + [st.current];
      SplitLong(paragraph) == Emit(runs) && Concat(runs) == paragraph
  {
    var pieces := SentencePieces(Split(paragraph, SENTENCE_END));
    var st := SentenceFold(pieces);
    SentenceFoldChunks(pieces);
    SentenceFoldText(pieces);
    PiecesJoin(Split(paragraph, SENTENCE_END));
    JoinSplit(paragraph, SENTENCE_END);
    var runs := st.closed + [st.current];
    assert runs[..|st.closed|] == st.closed;
    ConcatAppend(st.closed, [st.current]);
    assert Concat([st.current]) == st.current + Concat([]);
  }

  lemma SentenceFoldStep(pieces: seq<string>, i: nat)
    requires i < |pieces|
    ensures SentenceFold(pieces[..i + 1]) == SentenceStep(SentenceFold(pieces[..i]), pieces[i])
  {
    assert pieces[..i + 1][..i] == pieces[..i];
  }

  /** `_split_long_paragraph` */
  method SplitLongParagraph(paragraph: string) returns (chunks: seq<string>)
    ensures chunks == SplitLong(paragraph)
  {
    var sentences := Split(paragraph, SENTENCE_END);
    ghost var pieces := SentencePieces(sentences);
    chunks := [];
    var current := "";
    var i := 0;
    while i < |sentences|
      invariant 0 <= i <= |sentences|
      invariant SentenceFold(pieces[..i]) == SentenceBuffer(chunks, SentenceFold(pieces[..i]).closed, current)
    {
      var sentence := sentences[i];
      if i < |sentences| - 1 {
        sentence := sentence + SENTENCE_END;
      }
      SentenceFoldStep(pieces, i);
      if |current| + |sentence| > CHUNK_SIZE {
        if current != "" && |current| >= MIN_CHUNK_SIZE {
          chunks := chunks + [Strip(current)];
        }
        current := sentence;
      } else {
        current := current + sentence;
      }
      i := i + 1;
    }
    assert pieces[..|sentences|] == pieces;
    if current != "" && |current| >= MIN_CHUNK_SIZE {
      chunks := chunks + [Strip(current)];
    }
  }

  /** The state of `_create_smart_chunks`' loop: the chunks so far and the open buffer. */
  datatype ParagraphBuffer = ParagraphBuffer(chunks: seq<string>, current: string)

  /** One paragraph, stripped: a blank one is skipped; one that does not fit
      closes the buffer and, when longer than a chunk, is split on its own;
      otherwise it joins the buffer after a blank line. */
  function ParagraphStep(st: ParagraphBuffer, raw: string): ParagraphBuffer
  {
    var p := Strip(raw);
    if p == "" then st
    else if |st.current| + |p| > CHUNK_SIZE then
      var flushed := Flush(st.chunks, st.current);
      if |p| > CHUNK_SIZE then ParagraphBuffer(flushed + SplitLong(p), "")
      else ParagraphBuffer(flushed, p)
    else ParagraphBuffer(st.chunks, if st.current != "" then st.current + PARAGRAPH_BREAK + p else p)
  }

  function ParagraphFold(raws: seq<string>): ParagraphBuffer
  {
    if raws == [] then ParagraphBuffer([], "")
    else ParagraphStep(ParagraphFold(raws[..|raws| - 1]), raws[|raws| - 1])
  }

  lemma ParagraphFoldStep(raws: seq<string>, i: nat)
    requires i < |raws|
    ensures ParagraphFold(raws[..i + 1]) == ParagraphStep(ParagraphFold(raws[..i]), raws[i])
  {
    assert raws[..i + 1][..i] == raws[..i];
  }

  /** `_create_smart_chunks`, as the chunks it returns. */
  function SmartChunks(text: string): seq<string>
  {
    if |text| <= CHUNK_SIZE then (if |text| >= MIN_CHUNK_SIZE then [text] else [])
    else
      var st := ParagraphFold(Split(text, PARAGRAPH_BREAK));
      Flush(st.chunks, st.current)
  }

  /** The open buffer never has whitespace at its ends and is at most two
      characters longer than a chunk: a paragraph joins only when buffer and
      paragraph fit, and the blank line between them is not counted. */
  lemma {:induction false} ParagraphBufferBound(raws: seq<string>)
    ensures |ParagraphFold(raws).current| <= CHUNK_SIZE + 2
    ensures Trimmed(ParagraphFold(raws).current)
  {
    if raws != [] {
      ParagraphBufferBound(raws[..|raws| - 1]);
      StepKeepsBuffer(ParagraphFold(raws[..|raws| - 1]), raws[|raws| - 1]);
    }
  }

  /** One paragraph keeps the open buffer trimmed and within a chunk plus a
      paragraph break. */
  lemma StepKeepsBuffer(st: ParagraphBuffer, raw: string)
    requires |st.current| <= CHUNK_SIZE + 2 && Trimmed(st.current)
    ensures |ParagraphStep(st, raw).current| <= CHUNK_SIZE + 2
    ensures Trimmed(ParagraphStep(st, raw).current)
  {
    var p := Strip(raw);
    if p != "" && |st.current| + |p| <= CHUNK_SIZE && st.current != "" {
      var joined := st.current + PARAGRAPH_BREAK + p;
      assert joined[0] == st.current[0] && joined[|joined| - 1] == p[|p| - 1];
    }
  }

  /** Every chunk is between 50 and 1002 characters long. */
  predicate Bounded(chunks: seq<string>)
  {
    forall i :: 0 <= i < |chunks| ==> MIN_CHUNK_SIZE <= |chunks[i]| <= CHUNK_SIZE + 2
  }

  /** When no paragraph is longer than a chunk, every chunk is a whole buffer
      of between 50 and 1002 characters. */
  lemma {:induction false} ShortParagraphsChunks(raws: seq<string>)
    requires forall i :: 0 <= i < |raws| ==> |Strip(raws[i])| <= CHUNK_SIZE
    ensures Bounded(ParagraphFold(raws).chunks)
  {
    if raws != [] {
      var front := raws[..|raws| - 1];
      var st := ParagraphFold(front);
      ShortParagraphsChunks(front);
      ParagraphBufferBound(front);
      StripTrimmed(st.current);
    }
  }

  /** Closing a buffer that is trimmed and within bounds keeps chunks within bounds. */
  lemma FlushBounded(st: ParagraphBuffer)
    requires Bounded(st.chunks)
    requires |st.current| <= CHUNK_SIZE + 2 && Trimmed(st.current)
    ensures Bounded(Flush(st.chunks, st.current))
  {
    StripTrimmed(st.current);
  }

  /** Chunks of a text whose paragraphs all fit in a chunk. */
  lemma SmartChunksBounded(text: string)
    requires forall i :: 0 <= i < |Split(text, PARAGRAPH_BREAK)| ==> |Strip(Split(text, PARAGRAPH_BREAK)[i])| <= CHUNK_SIZE
    ensures Bounded(SmartChunks(text))
  {
    if |text| > CHUNK_SIZE {
      var raws := Split(text, PARAGRAPH_BREAK);
      ShortParagraphsChunks(raws);
      ParagraphBufferBound(raws);
      FlushBounded(ParagraphFold(raws));
    }
  }

  /** `_create_smart_chunks`: a text that fits in one chunk is kept whole when
      at least 50 characters long and dropped otherwise. */
  method CreateSmartChunks(text: string) returns (chunks: seq<string>)
    ensures chunks == SmartChunks(text)
    ensures |text| <= CHUNK_SIZE ==> chunks == if |text| >= MIN_CHUNK_SIZE then [text] else []
  {
    if |text| <= CHUNK_SIZE {
      return if |text| >= MIN_CHUNK_SIZE then [text] else [];
    }
    chunks := [];
    var paragraphs := Split(text, PARAGRAPH_BREAK);
    var current := "";
    var i := 0;
    while i < |paragraphs|
      invariant 0 <= i <= |paragraphs|
      invariant ParagraphFold(paragraphs[..i]) == ParagraphBuffer(chunks, current)
    {
      ParagraphFoldStep(paragraphs, i);
      ghost var before := ParagraphBuffer(chunks, current);
      var paragraph := Strip(paragraphs[i]);
      if paragraph != "" {
        if |current| + |paragraph| > CHUNK_SIZE {
          if current != "" && |current| >= MIN_CHUNK_SIZE {
            chunks := chunks + [Strip(current)];
          }
          if |paragraph| > CHUNK_SIZE {
            var pieces := SplitLongParagraph(paragraph);
            chunks := chunks + pieces;
            current := "";
          } else {
            current := paragraph;
          }
        } else {
          if current != "" {
            current := current + PARAGRAPH_BREAK + paragraph;
          } else {
            current := paragraph;
          }
        }
      }
      assert ParagraphBuffer(chunks, current) == ParagraphStep(before, paragraphs[i]);
      i := i + 1;
    }
    assert paragraphs[..|paragraphs|] == paragraphs;
    if current != "" && |current| >= MIN_CHUNK_SIZE {
      chunks := chunks + [Strip(current)];
    }
  }

  // ---------------------------------------------------------------------
  // Adding a document
  // ---------------------------------------------------------------------

  /** The collections of the system. */
  const COLLECTIONS: seq<string> := ["documents", "math", "science", "language", "history", "general"]

  /** `f"{document_id}_chunk_{i}"` */
  function ChunkId(documentId: string, i: nat): string
  {
    documentId + "_chunk_" + NatToString(i)
  }

  /** The chunks of one document have pairwise different ids. */
  lemma ChunkIdsDistinct(documentId: string, i: nat, j: nat)
    requires i != j
    ensures ChunkId(documentId, i) != ChunkId(documentId, j)
  {
    if ChunkId(documentId, i) == ChunkId(documentId, j) {
      PrefixedNumberInjective(documentId + "_chunk_", i, j);
    }
  }

  datatype ChunkRecord = ChunkRecord(id: string, documentId: string, index: nat, text: string,
                                     size: nat, subject: string, chunkType: ChunkType)

  datatype AddedDocument = AddedDocument(documentId: string, chunks: seq<ChunkRecord>,
                                         subject: string, collections: seq<string>)

  const ADD_FAILED: string := "Failed to add document to RAG system: "
  const NO_CHUNKS: string := "No valid chunks could be created from the document"

  /** `add_document`, up to the store writes: `embeddingError` is what the
      embedding model raised, if anything. */
  function AddDocument(documentId: string, content: string, subject: Option<string>,
                       embeddingError: Option<string>): (r: Result<AddedDocument>)
    ensures SmartChunks(content) == [] ==> r == Err(ADD_FAILED + NO_CHUNKS)
    ensures r.Ok? <==> SmartChunks(content) != [] && embeddingError.None?
    ensures r.Ok? ==>
      var added := r.value;
      && added.subject == (if Truthy(subject) then subject.value else ClassifySubject(content))
      && |added.chunks| == |SmartChunks(content)|
      && (forall i :: 0 <= i < |added.chunks| ==>
            && added.chunks[i].id == ChunkId(documentId, i)
            && added.chunks[i].text == SmartChunks(content)[i]
            && added.chunks[i].size == |added.chunks[i].text|)
      && (added.subject in COLLECTIONS <==> added.collections == ["documents", added.subject])
      && (added.subject !in COLLECTIONS <==> added.collections == ["documents"])
  {
    var chosen := if Truthy(subject) then subject.value else ClassifySubject(content);
    var chunks := SmartChunks(content);
    if chunks == [] then Err(ADD_FAILED + NO_CHUNKS)
    else if embeddingError.Some? then Err(ADD_FAILED + embeddingError.value)
    else
      var records := seq(|chunks|, i requires 0 <= i < |chunks| =>
        ChunkRecord(ChunkId(documentId, i), documentId, i, chunks[i], |chunks[i]|, chosen, ClassifyChunkType(chunks[i])));
      Ok(AddedDocument(documentId, records, chosen,
                       ["documents"] + (if chosen in COLLECTIONS then [chosen] else [])))
  }

  /** Every chunk a document adds has its own id. */
  lemma AddedIdsDistinct(documentId: string, content: string, subject: Option<string>, embeddingError: Option<string>)
    requires AddDocument(documentId, content, subject, embeddingError).Ok?
    ensures var chunks := AddDocument(documentId, content, subject, embeddingError).value.chunks;
      forall i, j :: 0 <= i < j < |chunks| ==> chunks[i].id != chunks[j].id
  {
    var chunks := AddDocument(documentId, content, subject, embeddingError).value.chunks;
    forall i, j | 0 <= i < j < |chunks|
      ensures chunks[i].id != chunks[j].id
    {
      ChunkIdsDistinct(documentId, i, j);
    }
  }

  // ---------------------------------------------------------------------
  // Search
  // ---------------------------------------------------------------------

  /** One row a collection query returned: the chunk, its distance and its
      metadata. Chunks of uploaded documents carry a file name; chunks of
      knowledge items are indexed without one. */
  datatype Row = Row(content: string, distance: real, documentId: string, chunkIndex: int,
                     filename: Option<string>, subject: Option<string>)

  /** A row that passed the similarity threshold, with the collection it came from. */
  datatype Hit = Hit(row: Row, score: real, collection: string)

  datatype SearchResult = SearchResult(hit: Hit, rank: nat, relevance: Relevance)

  /** The collections `search` queries: the named subject's when it is a
      collection, otherwise the five subject collections. */
  function CollectionsToSearch(subject: Option<string>): (names: seq<string>)
    ensures forall i :: 0 <= i < |names| ==> names[i] in COLLECTIONS
  {
    if Truthy(subject) && subject.value in COLLECTIONS then [subject.value]
    else ["math", "science", "language", "history", "general"]
  }

  /** The rows of one collection whose similarity (one minus the distance)
      reaches the threshold, in the order returned. */
  function Matches(collection: string, rows: seq<Row>, threshold: real): (hits: seq<Hit>)
    ensures |hits| <= |rows|
    ensures forall i :: 0 <= i < |hits| ==>
      hits[i].score >= threshold && hits[i].collection == collection && hits[i].row in rows
      && hits[i].score == 1.0 - hits[i].row.distance
  {
    if rows == [] then []
    else
      var rest := Matches(collection, rows[1..], threshold);
      var score := 1.0 - rows[0].distance;
      if score >= threshold then [Hit(rows[0], score, collection)] + rest else rest
  }

  /** Every row whose similarity reaches the threshold is a hit. */
  lemma {:induction false} MatchesComplete(collection: string, rows: seq<Row>, threshold: real, r: Row)
    requires r in rows && 1.0 - r.distance >= threshold
    ensures Hit(r, 1.0 - r.distance, collection) in Matches(collection, rows, threshold)
  {
    if r != rows[0] {
      assert r in rows[1..];
      MatchesComplete(collection, rows[1..], threshold, r);
    }
  }

  /** The rows are scanned in order: the hits of two runs of rows are those
      of the first followed by those of the second. */
  lemma {:induction false} MatchesAppend(collection: string, a: seq<Row>, b: seq<Row>, threshold: real)
    ensures Matches(collection, a + b, threshold) == Matches(collection, a, threshold) + Matches(collection, b, threshold)
  {
    if a == [] {
      assert a + b == b;
    } else {
      var ab := a + b;
      assert ab[0] == a[0] && ab[1..] == a[1..] + b;
      MatchesAppend(collection, a[1..], b, threshold);
      MatchesFirst(collection, ab, threshold);
      MatchesFirst(collection, a, threshold);
      var x, y := Matches(collection, a[1..], threshold), Matches(collection, b, threshold);
      var first := if 1.0 - a[0].distance >= threshold then [Hit(a[0], 1.0 - a[0].distance, collection)] else [];
      assert Matches(collection, ab[1..], threshold) == x + y;
      assert Matches(collection, ab, threshold) == first + (x + y);
      assert Matches(collection, a, threshold) == first + x;
      AppendAssoc(first, x, y);
    }
  }

  /** The first row is looked at first. */
  lemma MatchesFirst(collection: string, rows: seq<Row>, threshold: real)
    requires rows != []
    ensures Matches(collection, rows, threshold)
         == (if 1.0 - rows[0].distance >= threshold then [Hit(rows[0], 1.0 - rows[0].distance, collection)] else [])
            + Matches(collection, rows[1..], threshold)
  {
  }

  /** One more row returned adds its hit at the end exactly when its
      similarity reaches the threshold. */
  lemma MatchesSnoc(collection: string, rows: seq<Row>, r: Row, threshold: real)
    ensures Matches(collection, rows + [r], threshold)
         == Matches(collection, rows, threshold)
            + (if 1.0 - r.distance >= threshold then [Hit(r, 1.0 - r.distance, collection)] else [])
  {
    MatchesAppend(collection, rows, [r], threshold);
    var tail := Matches(collection, [r][1..], threshold);
    assert [r][1..] == [] && tail == [];
  }

  /** The hits of every collection queried, in collection order; a
      collection whose query raised (`None`) contributes nothing. */
  function Candidates(names: seq<string>, answers: seq<Option<seq<Row>>>, threshold: real): (hits: seq<Hit>)
    requires |names| == |answers|
    ensures forall i :: 0 <= i < |hits| ==> hits[i].score >= threshold && hits[i].collection in names
  {
    if names == [] then []
    else
      (if answers[0].Some? then Matches(names[0], answers[0].value, threshold) else [])
      + Candidates(names[1..], answers[1..], threshold)
  }

  /** Every row of a collection that answered, whose similarity reaches the
      threshold, is a candidate. */
  lemma {:induction false} CandidatesComplete(names: seq<string>, answers: seq<Option<seq<Row>>>, threshold: real,
                                              k: nat, r: Row)
    requires |names| == |answers| && k < |names|
    requires answers[k].Some? && r in answers[k].value && 1.0 - r.distance >= threshold
    ensures Hit(r, 1.0 - r.distance, names[k]) in Candidates(names, answers, threshold)
  {
    if k == 0 {
      MatchesComplete(names[0], answers[0].value, threshold, r);
    } else {
      CandidatesComplete(names[1..], answers[1..], threshold, k - 1, r);
    }
  }

  function NegatedScore(h: Hit): real
  {
    -h.score
  }

  /** The hits, best score first; equal scores keep their order. */
  function ByScore(hits: seq<Hit>): (sorted: seq<Hit>)
    ensures |sorted| == |hits| && multiset(sorted) == multiset(hits)
    ensures forall i, j :: 0 <= i < j < |sorted| ==> sorted[i].score >= sorted[j].score
  {
    var sorted := Sorting.SortBy(hits, NegatedScore);
    assert forall i, j :: 0 <= i < j < |sorted| ==> NegatedScore(sorted[i]) <= NegatedScore(sorted[j]);
    sorted
  }

  /** The sort/rank step of `search`: best score first, cut to `limit`,
      ranked from 1 and categorised. */
  function RankHits(hits: seq<Hit>, limit: nat): (results: seq<SearchResult>)
    ensures |results| == if |hits| < limit then |hits| else limit
    ensures forall i :: 0 <= i < |results| ==>
      results[i].rank == i + 1 && results[i].relevance == CategorizeRelevance(results[i].hit.score)
    ensures forall i, j :: 0 <= i < j < |results| ==> results[i].hit.score >= results[j].hit.score
  {
    var sorted := ByScore(hits);
    var n := if |hits| < limit then |hits| else limit;
    seq(n, i requires 0 <= i < n => SearchResult(sorted[i], i + 1, CategorizeRelevance(sorted[i].score)))
  }

  function HitsOf(results: seq<SearchResult>): (hits: seq<Hit>)
    ensures |hits| == |results| && forall i :: 0 <= i < |results| ==> hits[i] == results[i].hit
  {
    seq(|results|, i requires 0 <= i < |results| => results[i].hit)
  }

  /** The results are hits of the input, and the hits cut off by the limit
      score no higher than any result. */
  lemma RankHitsKeepsBest(hits: seq<Hit>, limit: nat)
    ensures var results := RankHits(hits, limit);
      var dropped := ByScore(hits)[|results|..];
      && multiset(HitsOf(results)) + multiset(dropped) == multiset(hits)
      && (forall h, i :: h in dropped && 0 <= i < |results| ==> h.score <= results[i].hit.score)
      && (forall i :: 0 <= i < |results| ==> results[i].hit in hits)
  {
    var results := RankHits(hits, limit);
    var sorted := ByScore(hits);
    var kept := HitsOf(results);
    assert kept == sorted[..|results|];
    CutSorted(sorted, hits, |results|);
  }

  /** Cutting a best-first permutation of `hits` after `n` splits `hits`
      into the `n` kept and the rest, none of which beats a kept one. */
  lemma CutSorted(sorted: seq<Hit>, hits: seq<Hit>, n: nat)
    requires n <= |sorted| && multiset(sorted) == multiset(hits)
    requires forall i, j :: 0 <= i < j < |sorted| ==> sorted[i].score >= sorted[j].score
    ensures multiset(sorted[..n]) + multiset(sorted[n..]) == multiset(hits)
    ensures forall h, i :: h in sorted[n..] && 0 <= i < n ==> h.score <= sorted[..n][i].score
    ensures forall i :: 0 <= i < n ==> sorted[..n][i] in hits
  {
    assert sorted == sorted[..n] + sorted[n..];
    forall h, i | h in sorted[n..] && 0 <= i < n ensures h.score <= sorted[..n][i].score {
      var j :| 0 <= j < |sorted[n..]| && sorted[n..][j] == h;
      assert sorted[n + j] == h;
    }
    forall i | 0 <= i < n ensures sorted[..n][i] in hits {
      assert sorted[i] in multiset(sorted);
    }
  }

  /** `search` after the store queries: the hits of the collections searched,
      ranked. `answers` holds one answer per collection searched. */
  function Search(subject: Option<string>, answers: seq<Option<seq<Row>>>, threshold: real, limit: nat): seq<SearchResult>
    requires |answers| == |CollectionsToSearch(subject)|
  {
    RankHits(Candidates(CollectionsToSearch(subject), answers, threshold), limit)
  }

  /** Every search result passed the threshold and came from a collection searched. */
  lemma SearchResults(subject: Option<string>, answers: seq<Option<seq<Row>>>, threshold: real, limit: nat)
    requires |answers| == |CollectionsToSearch(subject)|
    ensures var results := Search(subject, answers, threshold, limit);
      && |results| <= limit
      && forall i :: 0 <= i < |results| ==>
           results[i].hit.score >= threshold && results[i].hit.collection in CollectionsToSearch(subject)
    ensures var names, results := CollectionsToSearch(subject), Search(subject, answers, threshold, limit);
      forall k, r :: 0 <= k < |names| && answers[k].Some? && r in answers[k].value && 1.0 - r.distance >= threshold
                     && Hit(r, 1.0 - r.distance, names[k]) !in HitsOf(results)
        ==> forall i :: 0 <= i < |results| ==> 1.0 - r.distance <= results[i].hit.score
  {
    var names := CollectionsToSearch(subject);
    var hits := Candidates(names, answers, threshold);
    var results := RankHits(hits, limit);
    RankHitsKeepsBest(hits, limit);
    forall k, r | 0 <= k < |names| && answers[k].Some? && r in answers[k].value && 1.0 - r.distance >= threshold
                  && Hit(r, 1.0 - r.distance, names[k]) !in HitsOf(results)
      ensures forall i :: 0 <= i < |results| ==> 1.0 - r.distance <= results[i].hit.score
    {
      CandidatesComplete(names, answers, threshold, k, r);
      DroppedScoresLower(hits, limit, Hit(r, 1.0 - r.distance, names[k]));
    }
  }

  /** A hit the ranking leaves out scores no higher than any result. */
  lemma DroppedScoresLower(hits: seq<Hit>, limit: nat, h: Hit)
    requires h in hits && h !in HitsOf(RankHits(hits, limit))
    ensures forall i :: 0 <= i < |RankHits(hits, limit)| ==> h.score <= RankHits(hits, limit)[i].hit.score
  {
    var results := RankHits(hits, limit);
    RankHitsKeepsBest(hits, limit);
    var dropped := ByScore(hits)[|results|..];
    assert multiset(hits)[h] > 0;
    assert multiset(HitsOf(results))[h] == 0;
    assert h in dropped;
  }

  // ---------------------------------------------------------------------
  // Building the context for a query
  // ---------------------------------------------------------------------

  /** The label put in front of each chunk of the context. It is only built
      for rows that have a file name (see `ReadsUnnamed`). */
  function Header(r: SearchResult): string
  {
    "[Source: " + r.hit.row.filename.GetOr("") + "]\n"
  }

  function Part(r: SearchResult): string
  {
    Header(r) + r.hit.row.content
  }

  /** The length counted for the results taken in full: chunk and label. */
  function Used(rs: seq<SearchResult>): nat
  {
    if rs == [] then 0 else Used(rs[..|rs| - 1]) + |Part(rs[|rs| - 1])|
  }

  /** The chunk text alone of the results taken in full. */
  function ContentLength(rs: seq<SearchResult>): nat
  {
    if rs == [] then 0 else ContentLength(rs[..|rs| - 1]) + |rs[|rs| - 1].hit.row.content|
  }

  /** Each result's chunk fitted in what was left of the budget when it was reached. */
  predicate FitsBudget(rs: seq<SearchResult>, maxLen: int)
  {
    rs == [] || (FitsBudget(rs[..|rs| - 1], maxLen) && Used(rs[..|rs| - 1]) + |rs[|rs| - 1].hit.row.content| <= maxLen)
  }

  function Parts(rs: seq<SearchResult>): (parts: seq<string>)
    ensures |parts| == |rs| && forall i :: 0 <= i < |rs| ==> parts[i] == Part(rs[i])
  {
    seq(|rs|, i requires 0 <= i < |rs| => Part(rs[i]))
  }

  datatype Source = Source(documentId: string, filename: string, score: real, chunkIndex: int)

  function SourceOf(r: SearchResult): Source
  {
    Source(r.hit.row.documentId, r.hit.row.filename.GetOr(""), r.hit.score, r.hit.row.chunkIndex)
  }

  function Sources(rs: seq<SearchResult>): (sources: seq<Source>)
    ensures |sources| == |rs| && forall i :: 0 <= i < |rs| ==> sources[i] == SourceOf(rs[i])
  {
    seq(|rs|, i requires 0 <= i < |rs| => SourceOf(rs[i]))
  }

  /** The subjects named in the metadata of the results. */
  function Subjects(rs: seq<SearchResult>): set<string>
  {
    if rs == [] then {}
    else
      var r := rs[|rs| - 1];
      Subjects(rs[..|rs| - 1]) + (if r.hit.row.subject.Some? then {r.hit.row.subject.value} else {})
  }

  /** A subject is covered exactly when some result names it. */
  lemma {:induction false} SubjectsCovered(rs: seq<SearchResult>, s: string)
    ensures s in Subjects(rs) <==> exists i :: 0 <= i < |rs| && rs[i].hit.row.subject == Some(s)
  {
    if rs != [] {
      var p := rs[..|rs| - 1];
      SubjectsCovered(p, s);
      if exists i :: 0 <= i < |p| && p[i].hit.row.subject == Some(s) {
        var i :| 0 <= i < |p| && p[i].hit.row.subject == Some(s);
        assert rs[i] == p[i];
      }
      if exists i :: 0 <= i < |rs| && rs[i].hit.row.subject == Some(s) {
        var i :| 0 <= i < |rs| && rs[i].hit.row.subject == Some(s);
        if i < |p| {
          assert p[i] == rs[i];
        }
      }
    }
  }

  /** The counted length is the length of the labelled chunks laid end to end. */
  lemma {:induction false} UsedIsPartsLength(rs: seq<SearchResult>)
    ensures Used(rs) == |Concat(Parts(rs))|
  {
    if rs != [] {
      var p := rs[..|rs| - 1];
      UsedIsPartsLength(p);
      assert Parts(rs) == Parts(p) + [Part(rs[|rs| - 1])];
      ConcatAppend(Parts(p), [Part(rs[|rs| - 1])]);
      assert Concat([Part(rs[|rs| - 1])]) == Part(rs[|rs| - 1]) + Concat([]);
    }
  }

  lemma {:induction false} ContentWithinUsed(rs: seq<SearchResult>)
    ensures ContentLength(rs) <= Used(rs)
  {
    if rs != [] {
      ContentWithinUsed(rs[..|rs| - 1]);
    }
  }

  /** The chunk text of the results taken in full stays within the budget;
      the labels are not held to it. */
  lemma BudgetRespected(rs: seq<SearchResult>, maxLen: int)
    requires rs != [] && FitsBudget(rs, maxLen)
    ensures ContentLength(rs) <= maxLen
  {
    ContentWithinUsed(rs[..|rs| - 1]);
  }

  /** What one more result taken in full adds to each running total. */
  lemma ContextStep(rs: seq<SearchResult>, i: nat, maxLen: int)
    requires i < |rs|
    ensures var p := rs[..i]; var r := rs[i];
      && Used(rs[..i + 1]) == Used(p) + |r.hit.row.content| + |Header(r)|
      && Parts(rs[..i + 1]) == Parts(p) + [Part(r)]
      && Sources(rs[..i + 1]) == Sources(p) + [SourceOf(r)]
      && Subjects(rs[..i + 1]) == Subjects(p) + (if r.hit.row.subject.Some? then {r.hit.row.subject.value} else {})
      && (FitsBudget(rs[..i + 1], maxLen) <==> FitsBudget(p, maxLen) && Used(p) + |r.hit.row.content| <= maxLen)
  {
    assert rs[..i + 1][..i] == rs[..i];
  }

  /** The first `k` results fit the budget one after another, and the next
      one, if any, does not: the loop stops after `k` results. */
  predicate Stops(results: seq<SearchResult>, k: nat, maxLen: int)
  {
    && k <= |results|
    && FitsBudget(results[..k], maxLen)
    && (k < |results| ==> Used(results[..k]) + |results[k].hit.row.content| > maxLen)
  }

  /** A chunk that fits in a budget is fitted before the loop stops. */
  lemma {:induction false} FitsAt(rs: seq<SearchResult>, j: nat, maxLen: int)
    requires j < |rs| && FitsBudget(rs, maxLen)
    ensures Used(rs[..j]) + |rs[j].hit.row.content| <= maxLen
  {
    var p := rs[..|rs| - 1];
    if j < |p| {
      FitsAt(p, j, maxLen);
      assert p[..j] == rs[..j];
    }
  }

  /** The loop cannot stop inside a prefix whose results all fit; so it
      stops in exactly one place. */
  lemma StopsAfterFit(results: seq<SearchResult>, k: nat, m: nat, maxLen: int)
    requires Stops(results, k, maxLen) && m <= |results| && FitsBudget(results[..m], maxLen)
    ensures m <= k
  {
    if k < m {
      assert results[..m][..k] == results[..k];
      FitsAt(results[..m], k, maxLen);
    }
  }

  /** Where the loop stops, starting from a prefix that fits. */
  function FitFrom(results: seq<SearchResult>, i: nat, maxLen: int): (k: nat)
    requires i <= |results| && FitsBudget(results[..i], maxLen)
    ensures i <= k && Stops(results, k, maxLen)
    decreases |results| - i
  {
    if i < |results| && Used(results[..i]) + |results[i].hit.row.content| <= maxLen then
      ContextStep(results, i, maxLen);
      FitFrom(results, i + 1, maxLen)
    else i
  }

  /** The number of results the loop of `get_context_for_query` takes in full. */
  function FitCount(results: seq<SearchResult>, maxLen: int): (k: nat)
    ensures Stops(results, k, maxLen)
    ensures forall m :: Stops(results, m, maxLen) ==> m == k
  {
    assert results[..0] == [];
    var k := FitFrom(results, 0, maxLen);
    assert forall m :: Stops(results, m, maxLen) ==> m == k by {
      forall m | Stops(results, m, maxLen) ensures m == k {
        StopsAfterFit(results, m, k, maxLen);
        StopsAfterFit(results, k, m, maxLen);
      }
    }
    k
  }

  /** Whether building the context reads `metadata['filename']` of a row
      that has none: a row taken in full, or the one cut down after the
      loop. That raises `KeyError`. */
  predicate ReadsUnnamed(results: seq<SearchResult>, k: nat, maxLen: int)
  {
    && k <= |results|
    && ((exists j :: 0 <= j < k && results[j].hit.row.filename.None?)
        || (k < |results| && maxLen - Used(results[..k]) > TRUNCATION_MIN && results[k].hit.row.filename.None?))
  }

  /** A result without a file name that is taken in full makes the context fail. */
  lemma TakenUnnamedFails(results: seq<SearchResult>, i: nat, maxLen: int)
    requires i < |results| && FitsBudget(results[..i + 1], maxLen) && results[i].hit.row.filename.None?
    ensures ReadsUnnamed(results, FitCount(results, maxLen), maxLen)
  {
    StopsAfterFit(results, FitCount(results, maxLen), i + 1, maxLen);
  }

  /** A first result that fits and has no file name (a knowledge-base chunk)
      makes the context fail. */
  lemma UnnamedFirstResultFails(results: seq<SearchResult>, maxLen: int)
    requires results != [] && results[0].hit.row.filename.None? && |results[0].hit.row.content| <= maxLen
    ensures ReadsUnnamed(results, FitCount(results, maxLen), maxLen)
  {
    assert results[..0] == [];
    ContextStep(results, 0, maxLen);
    StopsAfterFit(results, FitCount(results, maxLen), 1, maxLen);
  }

  /** The chunks of the context: the results taken in full, then the cut-down
      copy of the first one that did not fit, when enough budget is left. */
  function ContextParts(results: seq<SearchResult>, k: nat, maxLen: int): seq<string>
    requires k <= |results|
  {
    var rem := maxLen - Used(results[..k]);
    if k < |results| && rem > TRUNCATION_MIN
    then Parts(results[..k]) + [Header(results[k]) + Cut(results[k].hit.row.content, rem - 3) + ELLIPSIS]
    else Parts(results[..k])
  }

  /** Python's `s[:n]` for `n >= 0`. */
  function Cut(s: string, n: nat): (r: string)
    ensures |r| == if n < |s| then n else |s|
    ensures r == s[..|r|]
  {
    if n < |s| then s[..n] else s
  }

  /** The result of `get_context_for_query`; `error` holds the message of an
      exception that was caught. */
  datatype QueryContext = QueryContext(context: string, sources: seq<Source>, totalChunks: nat, subjects: set<string>,
                                       error: Option<string>)

  /** `str(KeyError('filename'))` */
  const MISSING_FILENAME: string := "'filename'"

  const TRUNCATION_MIN: int := 200
  const ELLIPSIS: string := "..."

  /** The step after the loop of `get_context_for_query`: a cut-down copy
      of the result that overflowed, when enough budget is left for it. */
  method AddTruncated(results: seq<SearchResult>, i: nat, current: int, parts: seq<string>, maxLen: int)
    returns (all: seq<string>)
    requires i <= |results| && current == Used(results[..i]) && parts == Parts(results[..i])
    requires i < |results| ==> current + |results[i].hit.row.content| > maxLen
    ensures all == ContextParts(results, i, maxLen)
  {
    all := parts;
    if i < |results| {
      var content := results[i].hit.row.content;
      var remaining := maxLen - current;
      if remaining > TRUNCATION_MIN {
        assert Cut(content, remaining - 3) == content[..remaining - 3];
        all := parts + [Header(results[i]) + content[..remaining - 3] + ELLIPSIS];
      }
    }
  }

  /** `get_context_for_query` after the search: the results are taken in
      rank order while their chunk fits in the budget; at the first one that
      does not, a cut-down copy of it ending in "..." is added when more than
      200 characters of budget are left, and the loop stops. A row read for
      its label that has no file name raises, and the empty context is
      returned with the error. */
  method GetContext(results: seq<SearchResult>, maxLen: int) returns (ctx: QueryContext)
    ensures results == [] ==> ctx == QueryContext("", [], 0, {}, None)
    ensures ctx.error.Some? <==> ReadsUnnamed(results, FitCount(results, maxLen), maxLen)
    ensures ctx.error.Some? ==> ctx == QueryContext("", [], 0, {}, Some(MISSING_FILENAME))
    ensures ctx.error.None? ==> var k := |ctx.sources|;
      && k == FitCount(results, maxLen)
      && ctx.sources == Sources(results[..k])
      && ctx.subjects == Subjects(results[..k])
      && FitsBudget(results[..k], maxLen)
      && (k < |results| ==> Used(results[..k]) + |results[k].hit.row.content| > maxLen)
    ensures ctx.error.None? ==> var k := |ctx.sources|;
      var parts := ContextParts(results, k, maxLen);
      && ctx.context == Join(parts, PARAGRAPH_BREAK)
      && ctx.totalChunks == |parts|
  {
    if results == [] {
      return QueryContext("", [], 0, {}, None);
    }
    var parts: seq<string> := [];
    var sources: seq<Source> := [];
    var subjects: set<string> := {};
    var current: int := 0;
    var i := 0;
    // The loop stops at the first chunk that would overflow the budget.
    while i < |results| && current + |results[i].hit.row.content| <= maxLen
      invariant 0 <= i <= |results|
      invariant current == Used(results[..i])
      invariant parts == Parts(results[..i]) && sources == Sources(results[..i])
      invariant subjects == Subjects(results[..i])
      invariant FitsBudget(results[..i], maxLen)
      invariant forall j :: 0 <= j < i ==> results[j].hit.row.filename.Some?
    {
      var r := results[i];
      ContextStep(results, i, maxLen);
      if r.hit.row.filename.None? {
        TakenUnnamedFails(results, i, maxLen);
        return QueryContext("", [], 0, {}, Some(MISSING_FILENAME));
      }
      parts := parts + [Part(r)];
      current := current + |r.hit.row.content| + |Header(r)|;
      sources := sources + [SourceOf(r)];
      if r.hit.row.subject.Some? {
        subjects := subjects + {r.hit.row.subject.value};
      }
      i := i + 1;
    }
    assert Stops(results, i, maxLen);
    ctx := FinishContext(results, i, current, parts, sources, subjects, maxLen);
  }

  /** The end of `get_context_for_query` once the loop has stopped after `i`
      results: the cut-down copy, if any, and the joined context. */
  method FinishContext(results: seq<SearchResult>, i: nat, current: int, parts: seq<string>,
                       sources: seq<Source>, subjects: set<string>, maxLen: int)
    returns (ctx: QueryContext)
    requires Stops(results, i, maxLen) && current == Used(results[..i])
    requires parts == Parts(results[..i]) && sources == Sources(results[..i]) && subjects == Subjects(results[..i])
    requires forall j :: 0 <= j < i ==> results[j].hit.row.filename.Some?
    ensures ctx.error.Some? <==> ReadsUnnamed(results, FitCount(results, maxLen), maxLen)
    ensures ctx.error.Some? ==> ctx == QueryContext("", [], 0, {}, Some(MISSING_FILENAME))
    ensures ctx.error.None? ==>
      && ctx.sources == Sources(results[..i]) && ctx.subjects == Subjects(results[..i])
      && var all := ContextParts(results, i, maxLen);
         ctx.context == Join(all, PARAGRAPH_BREAK) && ctx.totalChunks == |all|
  {
    assert i == FitCount(results, maxLen);
    if i < |results| && maxLen - current > TRUNCATION_MIN && results[i].hit.row.filename.None? {
      return QueryContext("", [], 0, {}, Some(MISSING_FILENAME));
    }
    var all := AddTruncated(results, i, current, parts, maxLen);
    ctx := QueryContext(Join(all, PARAGRAPH_BREAK), sources, |all|, subjects, None);
  }
}

=== FILE: reasoning_engine.dfy ===
/** The tutor's conversation state and the rule-based parts of its
    reasoning (backend/app/services/ai_reasoning_engine.py): one
    conversation context per session, kept for two hours after the last
    interaction, a bounded history, learning objectives without
    repetition, the combination of the input modalities into one text,
    the choice of teaching style, the extraction of solution steps, the
    detection of common errors and per-user analytics.

    Clock readings (`datetime.utcnow()`) are parameters, in seconds. The
    language model and the retrieval, speech and whiteboard services it
    calls are not part of this module. */
module ReasoningEngine {
  import opened Wrappers
  import opened Text
  import opened Ordered

  datatype FeedbackType = Encouragement | Correction | Hint | Explanation | Question | Validation
  {
    function Value(): string
    {
      match this
      case Encouragement => "encouragement"
      case Correction => "correction"
      case Hint => "hint"
      case Explanation => "explanation"
      case Question => "question"
      case Validation => "validation"
    }
  }

  datatype LearningLevel = Beginner | Intermediate | Advanced | Expert

  datatype SubjectArea = Mathematics | Science | LanguageArts | History | General

  /** Which inputs were present, as recorded with a student entry. */
  datatype Modalities = Modalities(text: bool, speech: bool, canvas: bool, documents: bool)

  /** One entry of `conversation_history`. */
  datatype Entry =
    | StudentEntry(content: string, timestamp: int, modalities: Modalities)
    | AiEntry(content: string, timestamp: int, feedbackType: string, confidence: real)

  /** `ConversationContext`, after `__post_init__`. */
  datatype Context = Context(sessionId: string, userId: string, subject: SubjectArea, level: LearningLevel,
                             history: seq<Entry>, currentTopic: Option<string>, objectives: seq<string>,
                             lastInteraction: Option<int>)

  /** The reasoning engine's view of a `CanvasAnalysisResult`: the parts its
      summary uses. A diagram's description is `None` when the diagram has none. */
  datatype CanvasView = CanvasView(textContent: seq<string>, equations: seq<string>,
                                   handwriting: Option<string>, diagrams: seq<Option<string>>)

  /** `MultimodalInput`, after `__post_init__`. */
  datatype MultimodalInput = MultimodalInput(text: Option<string>, speech: Option<string>,
                                             canvas: Option<CanvasView>, documents: seq<string>, timestamp: int)

  /** An error the tutor points out. */
  datatype ErrorCorrection = ErrorCorrection(errorType: string, location: string, correction: string, explanation: string)

  /** The parts of an `AIResponse` this module reads or changes;
      `objectivesMet` is the `learning_objectives_met` list of the learning
      insights, when they have one. */
  datatype AiResponse = AiResponse(text: string, feedback: FeedbackType, confidence: real, nextSteps: seq<string>,
                                   objectivesMet: Option<seq<string>>, corrections: seq<ErrorCorrection>)

  // ---------------------------------------------------------------------
  // Expiry
  // ---------------------------------------------------------------------

  /** `context_timeout`: two hours. */
  const CONTEXT_TIMEOUT := 7200

  predicate Expired(c: Context, now: int)
  {
    c.lastInteraction.Some? && now - c.lastInteraction.value > CONTEXT_TIMEOUT
  }

  /** The contexts that survive a cleanup, in their order. */
  function Unexpired(m: seq<(string, Context)>, now: int): (r: seq<(string, Context)>)
    ensures |r| <= |m|
    ensures forall i :: 0 <= i < |r| ==> r[i] in m
  {
    if m == [] then []
    else (if Expired(m[0].1, now) then [] else [m[0]]) + Unexpired(m[1..], now)
  }

  lemma {:induction false} UnexpiredAppend(m: seq<(string, Context)>, e: (string, Context), now: int)
    ensures Unexpired(m + [e], now) == Unexpired(m, now) + (if Expired(e.1, now) then [] else [e])
  {
    if m == [] {
      assert [e][1..] == [];
    } else {
      assert (m + [e])[1..] == m[1..] + [e];
      UnexpiredAppend(m[1..], e, now);
    }
  }

  /** Cleanup keeps no key twice. */
  lemma {:induction false} UnexpiredDistinct(m: seq<(string, Context)>, now: int)
    requires DistinctKeys(m)
    ensures DistinctKeys(Unexpired(m, now))
  {
    if m != [] {
      UnexpiredDistinct(m[1..], now);
      var rest := Unexpired(m[1..], now);
      forall i | 0 <= i < |rest| ensures rest[i].0 != m[0].0 {
        var j :| 0 <= j < |m[1..]| && m[1..][j] == rest[i];
        assert m[j + 1] == rest[i];
      }
    }
  }

  /** Each context sits under its own session id. */
  predicate KeyedBySession(m: seq<(string, Context)>)
  {
    forall i :: 0 <= i < |m| ==> m[i].1.sessionId == m[i].0
  }

  /** Cleanup keeps the table well formed: no session twice, and every
      context under its own session id. */
  lemma UnexpiredKeyed(m: seq<(string, Context)>, now: int)
    requires DistinctKeys(m) && KeyedBySession(m)
    ensures DistinctKeys(Unexpired(m, now)) && KeyedBySession(Unexpired(m, now))
  {
    UnexpiredDistinct(m, now);
    var kept := Unexpired(m, now);
    forall j | 0 <= j < |kept| ensures kept[j].1.sessionId == kept[j].0 {
      assert kept[j] in m;
    }
  }

  /** Cleanup removes exactly the expired contexts and leaves the others
      as they were. */
  lemma {:induction false} GetUnexpired(m: seq<(string, Context)>, now: int, k: string)
    requires DistinctKeys(m)
    ensures Get(Unexpired(m, now), k) == Live(Get(m, k), now)
  {
    if m != [] {
      var tail := m[1..];
      assert DistinctKeys(tail) by {
        forall i, j | 0 <= i < j < |tail| ensures tail[i].0 != tail[j].0 {
          assert tail[i] == m[i + 1] && tail[j] == m[j + 1];
        }
      }
      GetUnexpired(tail, now, k);
      var rest := Unexpired(tail, now);
      if m[0].0 == k {
        assert k !in Keys(tail) by {
          forall i | 0 <= i < |tail| ensures tail[i].0 != k {
            assert tail[i] == m[i + 1];
          }
        }
        assert Get(tail, k) == None;
        if Expired(m[0].1, now) {
          assert Unexpired(m, now) == rest;
          assert Get(Unexpired(m, now), k) == None;
        } else {
          assert Unexpired(m, now) == [m[0]] + rest;
          assert Get([m[0]] + rest, k) == Some(m[0].1);
        }
      } else {
        assert Get(m, k) == Get(tail, k);
        if !Expired(m[0].1, now) {
          assert Unexpired(m, now) == [m[0]] + rest;
          assert ([m[0]] + rest)[1..] == rest;
          assert Get([m[0]] + rest, k) == Get(rest, k);
        } else {
          assert Unexpired(m, now) == rest;
        }
      }
    }
  }

  /** A context read from the table, unless it has expired. */
  function Live(c: Option<Context>, now: int): (r: Option<Context>)
    ensures r.Some? <==> c.Some? && !Expired(c.value, now)
    ensures r.Some? ==> r == c
  {
    if c.Some? && !Expired(c.value, now) then c else None
  }

  // ---------------------------------------------------------------------
  // Combining the inputs
  // ---------------------------------------------------------------------

  /** `_summarize_canvas_content` */
  function SummarizeCanvas(a: CanvasView): (s: string)
    ensures s == "Empty canvas" <==> a.textContent == [] && a.equations == [] && !Truthy(a.handwriting) && a.diagrams == []
  {
    var parts :=
      (if a.textContent != [] then ["Text: " + Join(a.textContent, ", ")] else [])
      + (if a.equations != [] then ["Math equations: " + Join(a.equations, ", ")] else [])
      + (if Truthy(a.handwriting) then ["Handwritten: " + a.handwriting.value] else [])
      + (if a.diagrams != [] then ["Diagrams: " + Join(DiagramNames(a.diagrams), ", ")] else []);
    if parts == [] then "Empty canvas"
    else
      JoinFirst(parts, "; ");
      assert parts[0][0] != 'E';
      Join(parts, "; ")
  }

  /** `d.get('description', 'diagram')` for each diagram. */
  function DiagramNames(ds: seq<Option<string>>): (r: seq<string>)
    ensures |r| == |ds|
  {
    seq(|ds|, i requires 0 <= i < |ds| => ds[i].GetOr("diagram"))
  }

  /** A join of parts starts with the first part. */
  lemma {:induction false} JoinFirst(parts: seq<string>, sep: string)
    requires parts != []
    ensures |Join(parts, sep)| >= |parts[0]| && Join(parts, sep)[..|parts[0]|] == parts[0]
  {
  }

  /** The labelled parts of an input, in the fixed order text, speech,
      canvas, documents. */
  function InputParts(input: MultimodalInput): (parts: seq<string>)
    ensures parts == [] <==> !Truthy(input.text) && !Truthy(input.speech) && input.canvas.None? && input.documents == []
    ensures Truthy(input.text) ==> parts[0] == "Text input: " + input.text.value
    ensures !Truthy(input.text) && Truthy(input.speech) ==> parts[0] == "Student said: " + input.speech.value
    ensures |parts| <= 4
  {
    (if Truthy(input.text) then ["Text input: " + input.text.value] else [])
    + (if Truthy(input.speech) then ["Student said: " + input.speech.value] else [])
    + (if input.canvas.Some? then ["Canvas content: " + SummarizeCanvas(input.canvas.value)] else [])
    + (if input.documents != [] then ["Referenced documents: " + Join(input.documents, ", ")] else [])
  }

  const NO_INPUT := "No input detected"

  /** `_combine_input_modalities`: the parts separated by a blank line, or
      "No input detected" exactly when there is no input at all. */
  function CombineInputModalities(input: MultimodalInput): (s: string)
    ensures s == NO_INPUT <==> InputParts(input) == []
    ensures InputParts(input) != [] ==> s == Join(InputParts(input), "\n\n")
  {
    var parts := InputParts(input);
    if parts == [] then NO_INPUT
    else
      JoinFirst(parts, "\n\n");
      assert parts[0][0] in "TSCR";
      Join(parts, "\n\n")
  }

  // ---------------------------------------------------------------------
  // Prompt choices
  // ---------------------------------------------------------------------

  /** The teaching style of `_build_educational_prompt`: scaffolding for
      beginners, otherwise constructivist for science and mathematics,
      otherwise Socratic. */
  function PedagogicalStyle(level: LearningLevel, subject: SubjectArea): (style: string)
    ensures level == Beginner ==> style == "scaffolding"
    ensures level != Beginner && subject in {Science, Mathematics} ==> style == "constructivist"
    ensures level != Beginner && subject !in {Science, Mathematics} ==> style == "socratic"
  {
    if level == Beginner then "scaffolding"
    else if subject == Science || subject == Mathematics then "constructivist"
    else "socratic"
  }

  /** `history[-5:]`: the entries the prompt shows. */
  function RecentHistory(h: seq<Entry>): (r: seq<Entry>)
    ensures |r| == if |h| < 5 then |h| else 5
    ensures r == h[|h| - |r|..]
  {
    if |h| > 5 then h[|h| - 5..] else h
  }

  // ---------------------------------------------------------------------
  // Solution steps
  // ---------------------------------------------------------------------

  const NUMBER_MARKS: seq<string> := ["1.", "2.", "3.", "4.", "5."]

  predicate StartsWithAny(s: string, ps: seq<string>)
  {
    exists i :: 0 <= i < |ps| && StartsWith(s, ps[i])
  }

  /** A response line that reads as a step: it is numbered 1. to 5. or
      speaks of a step. */
  predicate IsStepLine(line: string)
  {
    line != [] && (StartsWithAny(line, NUMBER_MARKS) || Contains(Lower(line), "step"))
  }

  /** The stripped lines that read as steps, in order. */
  function StepLines(lines: seq<string>): (r: seq<string>)
    ensures forall i :: 0 <= i < |r| ==> IsStepLine(r[i])
  {
    if lines == [] then []
    else (if IsStepLine(Strip(lines[0])) then [Strip(lines[0])] else []) + StepLines(lines[1..])
  }

  /** Python's `xs[:n]` for `n >= 0`. */
  function Take<T>(xs: seq<T>, n: nat): (r: seq<T>)
    ensures |r| == if n < |xs| then n else |xs|
    ensures r == xs[..|r|]
  {
    if n < |xs| then xs[..n] else xs
  }

  /** The first five sentences of a long response, each with its full stop. */
  function SentenceSteps(text: string): (r: seq<string>)
    ensures |r| <= 5
  {
    var sentences := Split(text, ". ");
    if |sentences| > 1 then
      var first := Take(sentences, 5);
      seq(|first|, i requires 0 <= i < |first| => Strip(first[i]) + ".")
    else []
  }

  /** `_extract_solution_steps`: the next steps, then the step lines of the
      response; only when there are none, the sentences of a response
      longer than 50 characters; at most five in all. */
  function ExtractSolutionSteps(r: AiResponse): (steps: seq<string>)
    ensures |steps| <= 5
    ensures var found := r.nextSteps + StepLines(Split(r.text, "\n"));
      && (found != [] ==> steps == Take(found, 5))
      && (found == [] ==> steps == if |r.text| > 50 then SentenceSteps(r.text) else [])
    ensures |r.nextSteps| >= 5 ==> steps == r.nextSteps[..5]
  {
    var found := r.nextSteps + StepLines(Split(r.text, "\n"));
    if found == [] && |r.text| > 50 then SentenceSteps(r.text)
    else
      assert |r.nextSteps| >= 5 ==> found[..5] == r.nextSteps[..5];
      Take(found, 5)
  }

  // ---------------------------------------------------------------------
  // Error detection
  // ---------------------------------------------------------------------

  const DIVISION_BY_ZERO := ErrorCorrection("division_by_zero", "mathematical expression",
                                            "Division by zero is undefined",
                                            "You cannot divide any number by zero as it results in an undefined value.")

  /** `_detect_common_errors`: only a mathematics input that speaks of
      dividing by 0 or by zero is reported; the other subjects' checks
      report nothing. */
  function DetectCommonErrors(input: string, subject: SubjectArea): (errors: seq<ErrorCorrection>)
    ensures errors == [] || errors == [DIVISION_BY_ZERO]
    ensures errors != [] <==> subject == Mathematics && Contains(Lower(input), "divide")
                              && (Contains(Lower(input), "by 0") || Contains(Lower(input), "by zero"))
  {
    var low := Lower(input);
    if subject == Mathematics && Contains(low, "divide") && (Contains(low, "by 0") || Contains(low, "by zero"))
    then [DIVISION_BY_ZERO]
    else []
  }

  /** `_enhance_with_error_detection`: detected errors are added after the
      response's own, and a validation becomes a correction when any were
      found. */
  function EnhanceWithErrorDetection(r: AiResponse, input: string, subject: SubjectArea): (e: AiResponse)
    ensures e.corrections == r.corrections + DetectCommonErrors(input, subject)
    ensures e.feedback == Correction <==>
      r.feedback == Correction || (r.feedback == Validation && DetectCommonErrors(input, subject) != [])
    ensures e == r.(corrections := e.corrections, feedback := e.feedback)
  {
    var errors := DetectCommonErrors(input, subject);
    if errors == [] then r
    else r.(corrections := r.corrections + errors,
            feedback := if r.feedback == Validation then Correction else r.feedback)
  }

  // ---------------------------------------------------------------------
  // Updating a context
  // ---------------------------------------------------------------------

  /** The entries an interaction adds: the student's, when there was text
      or speech (text preferred), then the tutor's. */
  function NewEntries(input: MultimodalInput, r: AiResponse, now: int): (es: seq<Entry>)
    ensures |es| == if Truthy(input.text) || Truthy(input.speech) then 2 else 1
    ensures es[|es| - 1] == AiEntry(r.text, now, r.feedback.Value(), r.confidence)
    ensures |es| == 2 ==>
      es[0].StudentEntry? && es[0].content == (if Truthy(input.text) then input.text.value else input.speech.value)
  {
    var ai := AiEntry(r.text, now, r.feedback.Value(), r.confidence);
    if Truthy(input.text) || Truthy(input.speech) then
      var content := if Truthy(input.text) then input.text.value else input.speech.value;
      [StudentEntry(content, input.timestamp,
                    Modalities(Truthy(input.text), Truthy(input.speech), input.canvas.Some?, input.documents != [])),
       ai]
    else [ai]
  }

  const HISTORY_LIMIT := 50
  const HISTORY_KEPT := 40

  /** A history over 50 entries keeps only its last 40. */
  function Trim(h: seq<Entry>): (r: seq<Entry>)
    ensures |h| <= HISTORY_LIMIT ==> r == h
    ensures |h| > HISTORY_LIMIT ==> |r| == HISTORY_KEPT && r == h[|h| - HISTORY_KEPT..]
  {
    if |h| > HISTORY_LIMIT then h[|h| - HISTORY_KEPT..] else h
  }

  /** The objectives list after the met ones are appended, skipping any
      already present. */
  function AddObjectives(objectives: seq<string>, met: seq<string>): (r: seq<string>)
  {
    if met == [] then objectives
    else
      var before := AddObjectives(objectives, met[..|met| - 1]);
      if met[|met| - 1] in before then before else before + [met[|met| - 1]]
  }

  predicate NoRepeats(xs: seq<string>)
  {
    forall i, j :: 0 <= i < j < |xs| ==> xs[i] != xs[j]
  }

  /** Appending met objectives keeps the old ones first, adds every met one
      and nothing else, and never repeats an objective. */
  lemma {:induction false} AddObjectivesSpec(objectives: seq<string>, met: seq<string>)
    ensures var r := AddObjectives(objectives, met);
      && |r| >= |objectives| && r[..|objectives|] == objectives
      && (forall x :: x in r <==> x in objectives || x in met)
      && (NoRepeats(objectives) ==> NoRepeats(r))
  {
    if met != [] {
      AddObjectivesSpec(objectives, met[..|met| - 1]);
      var before := AddObjectives(objectives, met[..|met| - 1]);
      assert forall x :: x in met <==> x in met[..|met| - 1] || x == met[|met| - 1];
      if met[|met| - 1] !in before {
        assert (before + [met[|met| - 1]])[..|objectives|] == before[..|objectives|];
      }
    }
  }

  /** `_update_context` on the context's value. */
  function UpdatedContext(c: Context, input: MultimodalInput, r: AiResponse, now: int): Context
  {
    c.(history := Trim(c.history + NewEntries(input, r, now)),
       objectives := if r.objectivesMet.Some? then AddObjectives(c.objectives, r.objectivesMet.value) else c.objectives,
       lastInteraction := Some(now))
  }

  /** A history of at most 50 entries stays within 50 after an update. */
  lemma UpdateKeepsHistoryBound(c: Context, input: MultimodalInput, r: AiResponse, now: int)
    requires |c.history| <= HISTORY_LIMIT
    ensures |UpdatedContext(c, input, r, now).history| <= HISTORY_LIMIT
    ensures UpdatedContext(c, input, r, now).history[|UpdatedContext(c, input, r, now).history| - 1]
            == AiEntry(r.text, now, r.feedback.Value(), r.confidence)
  {
  }

  // ---------------------------------------------------------------------
  // Analytics
  // ---------------------------------------------------------------------

  /** The user's contexts, in the order of the session table. */
  function UserContexts(m: seq<(string, Context)>, userId: string): (cs: seq<Context>)
    ensures |cs| <= |m|
    ensures forall i :: 0 <= i < |cs| ==> cs[i].userId == userId
  {
    if m == [] then []
    else (if m[0].1.userId == userId then [m[0].1] else []) + UserContexts(m[1..], userId)
  }

  /** The feedback types of the tutor's entries. */
  function FeedbackTypes(h: seq<Entry>): (fs: seq<string>)
    ensures |fs| <= |h|
  {
    if h == [] then []
    else (if h[0].AiEntry? then [h[0].feedbackType] else []) + FeedbackTypes(h[1..])
  }

  function Confidences(h: seq<Entry>): (cs: seq<real>)
    ensures |cs| == |FeedbackTypes(h)|
  {
    if h == [] then []
    else (if h[0].AiEntry? then [h[0].confidence] else []) + Confidences(h[1..])
  }

  function AllFeedbackTypes(cs: seq<Context>): seq<string>
  {
    if cs == [] then [] else FeedbackTypes(cs[0].history) + AllFeedbackTypes(cs[1..])
  }

  function AllConfidences(cs: seq<Context>): (r: seq<real>)
    ensures |r| == |AllFeedbackTypes(cs)|
  {
    if cs == [] then [] else Confidences(cs[0].history) + AllConfidences(cs[1..])
  }

  function Interactions(cs: seq<Context>): nat
  {
    if cs == [] then 0 else |cs[0].history| + Interactions(cs[1..])
  }

  function Subjects(cs: seq<Context>): set<SubjectArea>
  {
    if cs == [] then {} else {cs[0].subject} + Subjects(cs[1..])
  }

  function Objectives(cs: seq<Context>): set<string>
  {
    if cs == [] then {} else (set o | o in cs[0].objectives) + Objectives(cs[1..])
  }

  function Sum(xs: seq<real>): real
  {
    if xs == [] then 0.0 else xs[0] + Sum(xs[1..])
  }

  /** `get_learning_analytics`; `totalInteractions` is absent from the
      all-zero answer for a user without contexts. */
  datatype LearningAnalytics = LearningAnalytics(totalSessions: nat, subjects: set<SubjectArea>, objectives: set<string>,
                                                 feedbackCounts: seq<(string, int)>, averageConfidence: real,
                                                 totalInteractions: Option<nat>)

  function GetLearningAnalytics(m: seq<(string, Context)>, userId: string): (a: LearningAnalytics)
    ensures a.totalSessions == |UserContexts(m, userId)|
    ensures a.totalSessions == 0 ==> a == LearningAnalytics(0, {}, {}, [], 0.0, None)
  {
    var cs := UserContexts(m, userId);
    if cs == [] then LearningAnalytics(0, {}, {}, [], 0.0, None)
    else
      var conf := AllConfidences(cs);
      LearningAnalytics(|cs|, Subjects(cs), Objectives(cs), CountBy(AllFeedbackTypes(cs)),
                        if conf == [] then 0.0 else Sum(conf) / |conf| as real,
                        Some(Interactions(cs)))
  }

  /** Every tutor entry is counted once under its feedback type, and there
      are no more of them than interactions. */
  lemma {:induction false} FeedbackCountsTotal(m: seq<(string, Context)>, userId: string)
    requires UserContexts(m, userId) != []
    ensures var a := GetLearningAnalytics(m, userId);
      && DistinctKeys(a.feedbackCounts)
      && SumValues(a.feedbackCounts) == |AllFeedbackTypes(UserContexts(m, userId))|
      && SumValues(a.feedbackCounts) <= a.totalInteractions.value
  {
    var cs := UserContexts(m, userId);
    CountBySum(AllFeedbackTypes(cs));
    CountByDistinct(AllFeedbackTypes(cs));
    FeedbackWithinInteractions(cs);
  }

  lemma {:induction false} FeedbackWithinInteractions(cs: seq<Context>)
    ensures |AllFeedbackTypes(cs)| <= Interactions(cs)
  {
    if cs != [] {
      FeedbackWithinInteractions(cs[1..]);
    }
  }

  /** A user's sessions are the sessions whose context names the user. */
  lemma {:induction false} UserContextsComplete(m: seq<(string, Context)>, userId: string)
    ensures forall c :: c in UserContexts(m, userId) <==> exists i :: 0 <= i < |m| && m[i].1 == c && c.userId == userId
  {
    if m != [] {
      UserContextsComplete(m[1..], userId);
      forall c ensures c in UserContexts(m, userId) <==> exists i :: 0 <= i < |m| && m[i].1 == c && c.userId == userId {
        if c in UserContexts(m[1..], userId) {
          var i :| 0 <= i < |m[1..]| && m[1..][i].1 == c && c.userId == userId;
          assert m[i + 1].1 == c;
        }
        if exists i :: 0 <= i < |m| && m[i].1 == c && c.userId == userId {
          var i :| 0 <= i < |m| && m[i].1 == c && c.userId == userId;
          if i > 0 {
            assert m[1..][i - 1].1 == c;
          }
        }
      }
    }
  }

  // ---------------------------------------------------------------------
  // The engine's session table
  // ---------------------------------------------------------------------

  class AiReasoningEngine {
    /** `active_contexts`, in insertion order. */
    var contexts: seq<(string, Context)>

    predicate Valid()
      reads this
    {
      DistinctKeys(contexts) && KeyedBySession(contexts)
    }

    constructor ()
      ensures contexts == [] && Valid()
    {
      contexts := [];
    }

    /** `_cleanup_expired_contexts` */
    method CleanupExpiredContexts(now: int)
      requires Valid()
      modifies this
      ensures Valid()
      ensures contexts == Unexpired(old(contexts), now)
    {
      var m := contexts;
      var kept: seq<(string, Context)> := [];
      var i := 0;
      while i < |m|
        invariant 0 <= i <= |m|
        invariant kept == Unexpired(m[..i], now)
      {
        UnexpiredAppend(m[..i], m[i], now);
        assert m[..i + 1] == m[..i] + [m[i]];
        if !Expired(m[i].1, now) {
          kept := kept + [m[i]];
        }
        i := i + 1;
      }
      assert m[..i] == m;
      UnexpiredKeyed(m, now);
      contexts := kept;
    }

    /** `_get_or_create_context`: after a cleanup, the session's context
        with its interaction time refreshed, or a new general,
        intermediate context with an empty history. */
    method GetOrCreateContext(sessionId: string, userId: string, subject: Option<SubjectArea>,
                              level: Option<LearningLevel>, now: int)
      returns (c: Context)
      requires Valid()
      modifies this
      ensures Valid()
      ensures var live := Unexpired(old(contexts), now);
        && contexts == Put(live, sessionId, c)
        && (Get(live, sessionId).Some? ==> c == Get(live, sessionId).value.(lastInteraction := Some(now)))
        && (Get(live, sessionId).None? ==>
              c == Context(sessionId, userId, subject.GetOr(General), level.GetOr(Intermediate), [], None, [], Some(now)))
    {
      CleanupExpiredContexts(now);
      var existing := Get(contexts, sessionId);
      if existing.Some? {
        c := existing.value.(lastInteraction := Some(now));
      } else {
        c := Context(sessionId, userId, subject.GetOr(General), level.GetOr(Intermediate), [], None, [], Some(now));
      }
      PutKeepsSessionIds(contexts, sessionId, c);
      contexts := Put(contexts, sessionId, c);
    }

    /** `_update_context` on the session's stored context. */
    method UpdateContext(sessionId: string, input: MultimodalInput, r: AiResponse, now: int)
      requires Valid() && sessionId in Keys(contexts)
      modifies this
      ensures Valid()
      ensures contexts == Put(old(contexts), sessionId, UpdatedContext(Get(old(contexts), sessionId).value, input, r, now))
    {
      var c := Get(contexts, sessionId).value;
      var history := c.history + NewEntries(input, r, now);
      var objectives := c.objectives;
      if r.objectivesMet.Some? {
        var met := r.objectivesMet.value;
        var j := 0;
        while j < |met|
          invariant 0 <= j <= |met|
          invariant objectives == AddObjectives(c.objectives, met[..j])
        {
          assert met[..j + 1][..j] == met[..j];
          if met[j] !in objectives {
            objectives := objectives + [met[j]];
          }
          j := j + 1;
        }
        assert met[..j] == met;
      }
      if |history| > HISTORY_LIMIT {
        history := history[|history| - HISTORY_KEPT..];
      }
      var updated := c.(history := history, objectives := objectives, lastInteraction := Some(now));
      PutKeepsSessionIds(contexts, sessionId, updated);
      contexts := Put(contexts, sessionId, updated);
    }

    /** `get_session_context` */
    method GetSessionContext(sessionId: string, now: int) returns (c: Option<Context>)
      requires Valid()
      modifies this
      ensures Valid()
      ensures contexts == Unexpired(old(contexts), now)
      ensures c == Get(contexts, sessionId)
    {
      CleanupExpiredContexts(now);
      c := Get(contexts, sessionId);
    }

    /** `clear_session_context`: true exactly when there was a context to remove. */
    method ClearSessionContext(sessionId: string) returns (ok: bool)
      requires Valid()
      modifies this
      ensures Valid()
      ensures ok <==> sessionId in Keys(old(contexts))
      ensures contexts == Remove(old(contexts), sessionId)
    {
      ok := sessionId in Keys(contexts);
      RemoveKeepsSessionIds(contexts, sessionId);
      contexts := Remove(contexts, sessionId);
    }
  }

  /** Storing a context under its own session id keeps the table consistent. */
  lemma {:induction false} PutKeepsSessionIds(m: seq<(string, Context)>, k: string, c: Context)
    requires forall i :: 0 <= i < |m| ==> m[i].1.sessionId == m[i].0
    requires c.sessionId == k
    ensures forall i :: 0 <= i < |Put(m, k, c)| ==> Put(m, k, c)[i].1.sessionId == Put(m, k, c)[i].0
  {
    if m != [] && m[0].0 != k {
      PutKeepsSessionIds(m[1..], k, c);
    }
  }

  lemma RemoveKeepsSessionIds(m: seq<(string, Context)>, k: string)
    requires forall i :: 0 <= i < |m| ==> m[i].1.sessionId == m[i].0
    ensures forall i :: 0 <= i < |Remove(m, k)| ==> Remove(m, k)[i].1.sessionId == Remove(m, k)[i].0
  {
    var r := Remove(m, k);
    forall i | 0 <= i < |r| ensures r[i].1.sessionId == r[i].0 {
      assert r[i] in m;
    }
  }
}

=== FILE: session_manager.dfy ===
/** The session registry of the real-time connection manager
    (backend/app/websocket/manager.py): which users are in which learning
    session, the audio streams of connected sockets, the messages it queues
    for reliable delivery and the state it sends to a user who joins.

    The socket transport is not modelled: the session and user a socket is
    bound to are parameters, and what the manager sends is appended to an
    outbox. The store is shared with the message queue, which the manager
    uses for delivery. */
module SessionManager {
  import opened Wrappers
  import opened Json
  import MQ = MessageQueue
  import AP = AudioProcessor
  import Text

  datatype MessageType =
    | CanvasUpdate | AudioChunk | AudioStreamStart | AudioStreamStop | AudioTranscription
    | AudioQualityUpdate | ChatMessage | SessionJoin | SessionLeave | UserCursor | SystemMessage | Error

  /** The event name each message type is sent under. */
  function EventName(t: MessageType): string
  {
    match t
    case CanvasUpdate => "canvas_update"
    case AudioChunk => "audio_chunk"
    case AudioStreamStart => "audio_stream_start"
    case AudioStreamStop => "audio_stream_stop"
    case AudioTranscription => "audio_transcription"
    case AudioQualityUpdate => "audio_quality_update"
    case ChatMessage => "chat_message"
    case SessionJoin => "session_join"
    case SessionLeave => "session_leave"
    case UserCursor => "user_cursor"
    case SystemMessage => "system_message"
    case Error => "error"
  }

  // ---------------------------------------------------------------------
  // Queue priorities
  // ---------------------------------------------------------------------

  /** The `type` field of a message (`message.get('type')`). */
  function TypeField(message: map<string, Json>): Json
  {
    if "type" in message then message["type"] else JNull
  }

  /** `_queue_message`: system messages and audio chunks are urgent, errors are
      critical, everything else (a message without a type too) is normal. */
  function PriorityFor(typeField: Json): (p: int)
    ensures p == MQ.HIGH <==> typeField in {JStr(EventName(SystemMessage)), JStr(EventName(AudioChunk))}
    ensures p == MQ.CRITICAL <==> typeField == JStr(EventName(Error))
    ensures p == MQ.NORMAL <==>
      typeField !in {JStr(EventName(SystemMessage)), JStr(EventName(AudioChunk)), JStr(EventName(Error))}
  {
    if typeField == JStr(EventName(SystemMessage)) then MQ.HIGH
    else if typeField == JStr(EventName(Error)) then MQ.CRITICAL
    else if typeField == JStr(EventName(AudioChunk)) then MQ.HIGH
    else MQ.NORMAL
  }

  /** The manager itself only queues canvas updates, chat messages and
      transcriptions, so everything it queues has normal priority. */
  lemma QueuedTypesAreNormal(t: MessageType)
    requires t == CanvasUpdate || t == ChatMessage || t == AudioTranscription
    ensures PriorityFor(JStr(EventName(t))) == MQ.NORMAL
  {
    if t == CanvasUpdate {
      assert EventName(t)[0] == 'c';
    } else if t == ChatMessage {
      assert EventName(t)[1] == 'h';
    } else {
      assert EventName(t)[6] == 't';
    }
  }

  /** Every message `_queue_message` sends goes with three retries. */
  const QUEUE_MAX_RETRIES: int := 3

  // ---------------------------------------------------------------------
  // State recovery for a joining user
  // ---------------------------------------------------------------------

  /** How many list entries `_get_session_state` reads (`LRANGE key 0 50`, both ends inclusive). */
  const STATE_WINDOW: nat := 51

  /** How many canvas updates a joining user receives. */
  const STATE_UPDATES: nat := 10

  /** A list entry read back: `None` when it is not valid JSON. */
  type Entry = Option<Json>

  predicate IsCanvasUpdate(v: Json)
  {
    v.JObj? && v.Get("type") == JStr(EventName(CanvasUpdate))
  }

  /** The canvas updates among the entries, in order; unparsable entries are
      skipped. `None` when a parsed entry is not an object, on which
      `.get` raises and the whole read fails. */
  function CanvasUpdates(entries: seq<Entry>): (r: Option<seq<Json>>)
    ensures r.None? <==> exists i :: 0 <= i < |entries| && entries[i].Some? && !entries[i].value.JObj?
    ensures r.Some? ==> |r.value| <= |entries|
    ensures r.Some? ==> forall v :: v in r.value ==> IsCanvasUpdate(v) && Some(v) in entries
  {
    if entries == [] then Some([])
    else
      var rest := CanvasUpdates(entries[1..]);
      assert forall i :: 1 <= i < |entries| ==> entries[i] == entries[1..][i - 1];
      match entries[0]
      case None => rest
      case Some(v) =>
        if !v.JObj? then None
        else if rest.None? then None
        else if IsCanvasUpdate(v) then Some([v] + rest.value)
        else rest
  }

  /** The last `n` elements of `s` (`s[-n:]`). */
  function Last<T>(s: seq<T>, n: nat): (r: seq<T>)
    ensures |r| == if |s| < n then |s| else n
    ensures s == s[..|s| - |r|] + r
  {
    if |s| <= n then s else s[|s| - n..]
  }

  /** The entries `LRANGE key 0 50` returns from a list. */
  function Window(list: seq<Entry>): (w: seq<Entry>)
    ensures |w| <= STATE_WINDOW && |w| <= |list| && w == list[..|w|]
    ensures |list| >= STATE_WINDOW ==> |w| == STATE_WINDOW
    ensures |list| <= STATE_WINDOW ==> w == list
  {
    if |list| <= STATE_WINDOW then list else list[..STATE_WINDOW]
  }

  /** The state sent to a joining user; `timestamp` is present only on the
      success path. */
  datatype SessionState = SessionState(sessionId: string, activeUsers: seq<string>, canvasUpdates: seq<Json>,
                                       timestamp: Option<int>)

  /** `_get_session_state` over what `LRANGE queue:{session_id} 0 50` gave:
      `None` when the read raised. Any error gives empty lists and no
      timestamp; a successful read is stamped with the clock `now`. */
  function StateFor(sessionId: string, read: Option<seq<Entry>>, users: seq<string>, now: int): (st: SessionState)
    ensures st.sessionId == sessionId
    ensures |st.canvasUpdates| <= STATE_UPDATES
    ensures forall v :: v in st.canvasUpdates ==> IsCanvasUpdate(v)
    ensures st.timestamp.Some? <==> read.Some? && CanvasUpdates(Window(read.value)).Some?
    ensures st.timestamp.Some? ==> st.timestamp.value == now
    ensures st.timestamp.None? ==> st.activeUsers == [] && st.canvasUpdates == []
  {
    match read
    case None => SessionState(sessionId, [], [], None)
    case Some(list) =>
      match CanvasUpdates(Window(list))
      case None => SessionState(sessionId, [], [], None)
      case Some(updates) => SessionState(sessionId, users, Last(updates, STATE_UPDATES), Some(now))
  }

  /** Only the first 51 entries are looked at, and of their canvas updates the
      last ten are kept in their order. */
  lemma StateWindow(sessionId: string, list: seq<Entry>, users: seq<string>, now: int)
    requires CanvasUpdates(Window(list)).Some?
    ensures var window := Window(list);
      var updates := CanvasUpdates(window).value;
      var st := StateFor(sessionId, Some(list), users, now);
      && st.activeUsers == users
      && updates == updates[..|updates| - |st.canvasUpdates|] + st.canvasUpdates
      && (|updates| <= STATE_UPDATES ==> st.canvasUpdates == updates)
      && (|updates| > STATE_UPDATES ==> st.canvasUpdates == updates[|updates| - STATE_UPDATES..])
      && (forall v :: v in st.canvasUpdates ==> Some(v) in window)
  {
  }

  /** Entries beyond the 51st never reach a joining user. */
  lemma {:induction false} StateIgnoresTail(sessionId: string, list: seq<Entry>, more: seq<Entry>, users: seq<string>, now: int)
    requires |list| >= STATE_WINDOW
    ensures StateFor(sessionId, Some(list + more), users, now) == StateFor(sessionId, Some(list), users, now)
  {
    assert (list + more)[..STATE_WINDOW] == list[..STATE_WINDOW];
  }

  // ---------------------------------------------------------------------
  // Session membership lists
  // ---------------------------------------------------------------------

  /** No user is listed twice. */
  predicate Distinct(s: seq<string>)
  {
    forall x :: x in s ==> multiset(s)[x] <= 1
  }

  /** `list.index(x)`: the position of the first occurrence of `x`. */
  function FirstIndex(s: seq<string>, x: string): (i: nat)
    requires x in s
    ensures i < |s| && s[i] == x && x !in s[..i]
  {
    if s[0] == x then 0
    else
      assert x in s[1..] by { assert s == [s[0]] + s[1..]; }
      var k := FirstIndex(s[1..], x);
      assert s[..k + 1] == [s[0]] + s[1..][..k];
      k + 1
  }

  /** `list.remove(x)` on a list that holds `x`: drops its first occurrence
      and keeps every other element in its order. */
  function RemoveFirst(s: seq<string>, x: string): (r: seq<string>)
    requires x in s
    ensures |r| == |s| - 1
    ensures multiset(r) == multiset(s) - multiset{x}
  {
    var i := FirstIndex(s, x);
    assert s == s[..i] + [x] + s[i + 1..];
    s[..i] + s[i + 1..]
  }

  /** Removing a user appended to a list without it gives the list back. */
  lemma RemoveFirstAppended(s: seq<string>, x: string)
    requires x !in s
    ensures RemoveFirst(s + [x], x) == s
  {
    var i := FirstIndex(s + [x], x);
    assert (s + [x])[..i] == s;
  }

  /** A user's membership in a session list, counted. */
  function Occurrences(s: seq<string>, x: string): nat
  {
    multiset(s)[x]
  }

  lemma DistinctOnce(s: seq<string>, x: string)
    requires Distinct(s) && x in s
    ensures Occurrences(s, x) == 1
  {
    var i :| 0 <= i < |s| && s[i] == x;
    assert s == s[..i] + [x] + s[i + 1..];
    assert x !in s[..i] && x !in s[i + 1..];
    assert multiset(s) == multiset(s[..i]) + multiset{x} + multiset(s[i + 1..]);
  }

  /** session id to the users in it, in joining order (`session_users`). */
  type Rooms = map<string, seq<string>>

  /** Every session list is non-empty and names each user once. */
  predicate RoomsValid(m: Rooms)
  {
    forall s :: s in m ==> m[s] != [] && Distinct(m[s])
  }

  function UsersIn(m: Rooms, s: string): seq<string>
  {
    if s in m then m[s] else []
  }

  /** The session lists after `_join_session(s, u)`: the list is created when
      missing and `u` is appended when absent. */
  function Joined(m: Rooms, s: string, u: string): Rooms
  {
    var users := UsersIn(m, s);
    m[s := if u in users then users else users + [u]]
  }

  /** After a join the user is listed in the session exactly once, every other
      session keeps its list (the user stays in one joined earlier), and a
      repeated join changes nothing. */
  lemma JoinedMembership(m: Rooms, s: string, u: string)
    requires RoomsValid(m)
    ensures RoomsValid(Joined(m, s, u))
    ensures s in Joined(m, s, u) && Occurrences(Joined(m, s, u)[s], u) == 1
    ensures forall p :: p != s ==> UsersIn(Joined(m, s, u), p) == UsersIn(m, p)
    ensures m.Keys <= Joined(m, s, u).Keys
    ensures u in UsersIn(m, s) ==> Joined(m, s, u) == m
  {
    var users := UsersIn(m, s);
    if u !in users {
      assert Distinct(users + [u]);
    }
    DistinctOnce(Joined(m, s, u)[s], u);
  }

  /** The session lists after `_leave_session(s, u)`: `u` leaves the list and
      an emptied list is dropped; a user who is not listed changes nothing. */
  function Left(m: Rooms, s: string, u: string): Rooms
  {
    if s in m && u in m[s] then
      var rest := RemoveFirst(m[s], u);
      if rest == [] then m - {s} else m[s := rest]
    else m
  }

  /** After a leave the user is not in the session, the others in it stay,
      the list is gone exactly when the user was its last member, and every
      other session keeps its list. */
  lemma LeftMembership(m: Rooms, s: string, u: string)
    requires RoomsValid(m)
    ensures RoomsValid(Left(m, s, u))
    ensures u !in UsersIn(Left(m, s, u), s)
    ensures multiset(UsersIn(Left(m, s, u), s)) == multiset(UsersIn(m, s)) - multiset{u}
    ensures s in Left(m, s, u) <==> s in m && m[s] != [u]
    ensures forall p :: p != s ==> UsersIn(Left(m, s, u), p) == UsersIn(m, p) && (p in Left(m, s, u) <==> p in m)
    ensures s in m && u in m[s] ==>
      var i := FirstIndex(m[s], u);
      UsersIn(Left(m, s, u), s) == m[s][..i] + m[s][i + 1..]
    ensures !(s in m && u in m[s]) ==> Left(m, s, u) == m
  {
    LeftValid(m, s, u);
    LeftGone(m, s, u);
    LeftMultiset(m, s, u);
    LeftKey(m, s, u);
    LeftOthers(m, s, u);
  }

  lemma LeftValid(m: Rooms, s: string, u: string)
    requires RoomsValid(m)
    ensures RoomsValid(Left(m, s, u))
  {
  }

  lemma LeftGone(m: Rooms, s: string, u: string)
    requires RoomsValid(m)
    ensures u !in UsersIn(Left(m, s, u), s)
  {
  }

  lemma LeftMultiset(m: Rooms, s: string, u: string)
    ensures multiset(UsersIn(Left(m, s, u), s)) == multiset(UsersIn(m, s)) - multiset{u}
  {
  }

  lemma LeftKey(m: Rooms, s: string, u: string)
    requires RoomsValid(m)
    ensures s in Left(m, s, u) <==> s in m && m[s] != [u]
  {
  }

  lemma LeftOthers(m: Rooms, s: string, u: string)
    ensures forall p :: p != s ==> UsersIn(Left(m, s, u), p) == UsersIn(m, p) && (p in Left(m, s, u) <==> p in m)
  {
  }

  /** Leaving a session joined as a new member restores the lists as they were. */
  lemma LeaveUndoesJoin(m: Rooms, s: string, u: string)
    requires RoomsValid(m) && u !in UsersIn(m, s)
    ensures Left(Joined(m, s, u), s, u) == m
  {
    assert Joined(m, s, u) == m[s := UsersIn(m, s) + [u]];
    if s in m {
      assert m[s] != [];
      UndoExisting(m, Joined(m, s, u), s, u);
    } else {
      assert UsersIn(m, s) + [u] == [u];
      UndoNew(m, Joined(m, s, u), s, u);
    }
  }

  /** The user appended last is the one a leave removes. */
  lemma LeftAfterAppend(j: Rooms, s: string, users: seq<string>, u: string)
    requires s in j && j[s] == users + [u] && u !in users
    ensures Left(j, s, u) == if users == [] then j - {s} else j[s := users]
  {
    RemoveFirstAppended(users, u);
  }

  lemma UndoExisting(m: Rooms, j: Rooms, s: string, u: string)
    requires s in m && m[s] != [] && u !in m[s] && j == m[s := m[s] + [u]]
    ensures Left(j, s, u) == m
  {
    LeftAfterAppend(j, s, m[s], u);
    MapRestore(m, s, m[s] + [u]);
  }

  lemma MapRestore(m: Rooms, s: string, v: seq<string>)
    requires s in m
    ensures m[s := v][s := m[s]] == m
  {
  }

  lemma UndoNew(m: Rooms, j: Rooms, s: string, u: string)
    requires s !in m && j == m[s := [u]]
    ensures Left(j, s, u) == m
  {
    LeftAfterAppend(j, s, [], u);
    assert j - {s} == m;
  }

  /** The record `_store_session_info` serialises for a user: who did what, and when. */
  datatype SessionInfo = SessionInfo(userId: string, action: string, timestamp: int)

  /** `_store_session_info(s, u, action)`: `HSET session:{s} {u} <record>`,
      the record kept as the value it is serialised from. */
  function Logged(log: map<string, map<string, SessionInfo>>, s: string, u: string, action: string, now: int)
    : (r: map<string, map<string, SessionInfo>>)
    ensures s in r && u in r[s]
    ensures r[s][u].userId == u && r[s][u].action == action && r[s][u].timestamp == now
    ensures forall p :: p != s && p in log ==> p in r && r[p] == log[p]
    ensures s in log ==> forall v :: v != u && v in log[s] ==> v in r[s] && r[s][v] == log[s][v]
  {
    log[s := (if s in log then log[s] else map[])[u := SessionInfo(u, action, now)]]
  }

  /** What a join or a leave announces to the session. */
  function Presence(s: string, u: string, now: int): Json
  {
    JObj(map["user_id" := JStr(u), "session_id" := JStr(s), "timestamp" := JInt(now)])
  }

  // ---------------------------------------------------------------------
  // What the manager sends
  // ---------------------------------------------------------------------

  datatype Emission =
    /** `_send_error(sid, message)` */
    | SendError(sid: string, message: string)
    /** An event sent to a room (a session, or a socket's own room), optionally skipping the sender. */
    | Send(event: string, room: string, skipSid: Option<string>, body: Json)

  // ---------------------------------------------------------------------
  // The audio processor's reports, as the dictionaries it returns
  // ---------------------------------------------------------------------

  function QualityName(q: AP.AudioQuality): string
  {
    match q
    case Excellent => "excellent"
    case Good => "good"
    case Fair => "fair"
    case Poor => "poor"
  }

  function ActivityName(l: AP.VoiceActivityLevel): string
  {
    match l
    case Silent => "silent"
    case Low => "low"
    case Medium => "medium"
    case High => "high"
  }

  /** The dictionary `_assess_audio_quality` returns. Its `quality_level` is
      "poor" exactly when the grade is poor. */
  function QualityJson(q: AP.QualityMetrics): (j: Json)
    ensures j.Get("quality_level") == JStr("poor") <==> q.level == AP.Poor
  {
    JObj(map["volume_db" := JReal(q.volumeDb), "snr_db" := JReal(q.snrDb),
             "clipping_ratio" := JReal(q.clippingRatio), "quality_score" := JReal(q.score),
             "quality_level" := JStr(QualityName(q.level)), "is_acceptable" := JBool(q.acceptable)])
  }

  /** The dictionary `detect_voice_activity` returns. */
  function VoiceActivityJson(v: AP.VadResult): Json
  {
    JObj(map["has_speech" := JBool(v.hasSpeech), "activity_level" := JStr(ActivityName(v.level)),
             "energy" := JReal(v.energy), "confidence" := JReal(v.confidence)])
  }

  function WordJson(w: AP.WordInfo): Json
  {
    JObj(map["word" := JStr(w.word), "confidence" := JReal(w.confidence),
             "start_time" := JReal(w.startTime), "end_time" := JReal(w.endTime)])
  }

  /** The transcription dictionary: the empty result, a recognised one (with
      its words, runners-up and language), or the one a failure gives. */
  function TranscriptionJson(t: AP.Transcription): (j: Json)
    ensures j.JObj? && "transcript" in j.fields && "confidence" in j.fields && "words" in j.fields
    ensures j.Get("error") != JNull <==> t.Failed?
  {
    match t
    case EmptyTranscript =>
      JObj(map["transcript" := JStr(""), "confidence" := JReal(0.0), "words" := JList([]),
               "alternatives" := JList([])])
    case Recognized(text, confidence, words, alternatives) =>
      JObj(map["transcript" := JStr(text), "confidence" := JReal(confidence),
               "words" := JList(seq(|words|, i requires 0 <= i < |words| => WordJson(words[i]))),
               "alternatives" := JList(seq(|alternatives|, i requires 0 <= i < |alternatives| =>
                                   JObj(map["transcript" := JStr(alternatives[i].0),
                                            "confidence" := JReal(alternatives[i].1)]))),
               "language_code" := JStr(AP.LANGUAGE_CODE)])
    case Failed(error) =>
      JObj(map["error" := JStr(error), "transcript" := JStr(""), "confidence" := JReal(0.0),
               "words" := JList([])])
  }

  /** `processing_result['transcription']`: `None` when no segment was transcribed. */
  function TranscriptionField(t: Option<AP.Transcription>): Json
  {
    if t.Some? then TranscriptionJson(t.value) else JNull
  }

  /** Every transcription dictionary has entries, so it is sent whenever there
      is one, the empty and the failed ones included. */
  lemma TranscriptionSentWhenPresent(t: Option<AP.Transcription>)
    ensures IsTruthy(TranscriptionField(t)) <==> t.Some?
  {
    if t.Some? {
      assert "transcript" in TranscriptionJson(t.value).fields;
    }
  }

  const LOUDER: string := "Please speak louder or move closer to the microphone"
  const SOFTER: string := "Please speak softer or move away from the microphone"
  const LESS_NOISE: string := "Please reduce background noise"
  const LESS_CLIPPING: string := "Audio is clipping, please reduce input volume"
  const QUALITY_ACCEPTABLE: string := "Audio quality is acceptable"

  /** The advice `_get_quality_suggestion` collects, in order: about the
      volume (too quiet or too loud, never both), the noise and clipping. */
  function Suggestions(q: AP.QualityMetrics): (r: seq<string>)
    ensures LOUDER in r <==> q.volumeDb < -30.0
    ensures SOFTER in r <==> q.volumeDb > -5.0
    ensures LESS_NOISE in r <==> q.snrDb < 10.0
    ensures LESS_CLIPPING in r <==> q.clippingRatio > 0.1
    ensures r == [] <==> -30.0 <= q.volumeDb <= -5.0 && q.snrDb >= 10.0 && q.clippingRatio <= 0.1
  {
    assert LOUDER[13] != SOFTER[13];
    (if q.volumeDb < -30.0 then [LOUDER] else if q.volumeDb > -5.0 then [SOFTER] else [])
    + (if q.snrDb < 10.0 then [LESS_NOISE] else [])
    + (if q.clippingRatio > 0.1 then [LESS_CLIPPING] else [])
  }

  /** `_get_quality_suggestion`: the advice joined with "; ", or a note that
      the quality is acceptable when there is none. */
  function QualitySuggestion(q: AP.QualityMetrics): (s: string)
    ensures Suggestions(q) == [] ==> s == QUALITY_ACCEPTABLE
    ensures |Suggestions(q)| == 1 ==> s == Suggestions(q)[0]
    ensures |Suggestions(q)| > 1 ==> s == Suggestions(q)[0] + "; " + Text.Join(Suggestions(q)[1..], "; ")
  {
    var parts := Suggestions(q);
    if parts == [] then QUALITY_ACCEPTABLE else Text.Join(parts, "; ")
  }

  datatype StreamInfo = StreamInfo(userId: Option<string>, sessionId: string, startedAt: int,
                                   sampleRate: int, channels: int, chunkCount: nat)

  const DEFAULT_SAMPLE_RATE: int := 16000
  const DEFAULT_CHANNELS: int := 1

  const NOT_IN_SESSION: string := "Not in a session"
  const MISSING_IDS: string := "Missing session_id or user_id"
  const STREAM_NOT_STARTED: string := "Audio stream not started"
  const NO_AUDIO_DATA: string := "No audio data provided"

  function OptStr(s: Option<string>): Json
  {
    if s.Some? then JStr(s.value) else JNull
  }

  /** A message tagged with its type, sender, session and time, as the handlers build them. */
  function Tagged(t: MessageType, userId: Option<string>, sessionId: string, now: int, extra: map<string, Json>): (p: MQ.Payload)
    ensures TypeField(p) == JStr(EventName(t))
    ensures "session_id" in p && p["session_id"] == JStr(sessionId)
  {
    extra + map["type" := JStr(EventName(t)), "user_id" := OptStr(userId),
                "session_id" := JStr(sessionId), "timestamp" := JInt(now)]
  }

  class ConnectionManager {
    /** user id to the session the user last joined. */
    var userSessions: map<string, string>
    /** session id to the users in it, in joining order. */
    var sessionUsers: Rooms
    /** socket id to its audio stream. */
    var audioStreams: map<string, StreamInfo>
    /** `session:{id}` hashes: the last recorded action of each user. */
    var sessionLog: map<string, map<string, SessionInfo>>
    /** `fallback_queue:{key}` lists, newest first. */
    var fallback: map<string, seq<MQ.Payload>>
    /** Everything sent so far, in order. */
    var outbox: seq<Emission>
    /** The message queue used for delivery. */
    const mq: MQ.MessageQueue

    ghost predicate Valid()
      reads this, mq
    {
      mq.Valid() && RoomsValid(sessionUsers)
    }

    constructor (queue: MQ.MessageQueue)
      requires queue.Valid()
      ensures Valid() && mq == queue
      ensures userSessions == map[] && sessionUsers == map[] && audioStreams == map[]
      ensures sessionLog == map[] && fallback == map[] && outbox == []
    {
      userSessions := map[];
      sessionUsers := map[];
      audioStreams := map[];
      sessionLog := map[];
      fallback := map[];
      outbox := [];
      mq := queue;
    }

    /** What `LRANGE queue:{session_id} 0 50` gives. The only writer of that key is
        the message queue, which keeps a sorted set there: the read fails with a
        wrong-type error when the session has ready messages and finds nothing
        otherwise. */
    function StateRead(sessionId: string): (read: Option<seq<Entry>>)
      reads mq`ready
      ensures read.Some? ==> read.value == []
    {
      if sessionId in mq.ready then None else Some([])
    }

    /** `_get_session_state`: under this store a joining user never receives
        canvas updates, and when the session has ready messages the active
        users are lost to the failed read too. */
    function SessionStateOf(sessionId: string, now: int): (st: SessionState)
      reads this`sessionUsers, mq`ready
      ensures st.canvasUpdates == []
      ensures st.activeUsers == if sessionId in mq.ready then [] else UsersIn(sessionUsers, sessionId)
      ensures st.timestamp == if sessionId in mq.ready then None else Some(now)
    {
      StateFor(sessionId, StateRead(sessionId), UsersIn(sessionUsers, sessionId), now)
    }

    /** The `session_state` payload: the session, its users and the canvas
        updates, plus the `timestamp` entry when the state has one. */
    function StateBody(st: SessionState): (body: Json)
      ensures body.JObj? && ("timestamp" in body.fields <==> st.timestamp.Some?)
      ensures st.timestamp.Some? ==> body.fields["timestamp"] == JInt(st.timestamp.value)
    {
      var fields := map["session_id" := JStr(st.sessionId),
                        "active_users" := JList(seq(|st.activeUsers|, i requires 0 <= i < |st.activeUsers| => JStr(st.activeUsers[i]))),
                        "canvas_updates" := JList(st.canvasUpdates)];
      JObj(if st.timestamp.Some? then fields["timestamp" := JInt(st.timestamp.value)] else fields)
    }

    /** `join_session` with the ids it was given: a missing or empty id is refused
        with an error; otherwise `_join_session` adds the user to the session,
        points the user at it, records the join, tells the others in the
        session and sends the joining socket the session state. */
    method JoinSession(sid: string, sessionId: Option<string>, userId: Option<string>, now: int)
      requires RoomsValid(sessionUsers)
      modifies this`sessionUsers, this`userSessions, this`sessionLog, this`outbox
      ensures RoomsValid(sessionUsers)
      ensures !Truthy(sessionId) || !Truthy(userId) ==>
        && outbox == old(outbox) + [SendError(sid, MISSING_IDS)]
        && sessionUsers == old(sessionUsers) && userSessions == old(userSessions) && sessionLog == old(sessionLog)
      ensures Truthy(sessionId) && Truthy(userId) ==>
        var s, u := sessionId.value, userId.value;
        && sessionUsers == Joined(old(sessionUsers), s, u)
        && userSessions == old(userSessions)[u := s]
        && sessionLog == Logged(old(sessionLog), s, u, "joined", now)
        && outbox == old(outbox) + [Send(EventName(SessionJoin), s, Some(sid), Presence(s, u, now)),
                                    Send("session_state", sid, None, StateBody(SessionStateOf(s, now)))]
    {
      if !Truthy(sessionId) || !Truthy(userId) {
        outbox := outbox + [SendError(sid, MISSING_IDS)];
        return;
      }
      var s, u := sessionId.value, userId.value;
      JoinedMembership(sessionUsers, s, u);
      sessionUsers := Joined(sessionUsers, s, u);
      userSessions := userSessions[u := s];
      sessionLog := Logged(sessionLog, s, u, "joined", now);
      var announce := Send(EventName(SessionJoin), s, Some(sid), Presence(s, u, now));
      outbox := outbox + [announce, Send("session_state", sid, None, StateBody(SessionStateOf(s, now)))];
    }

    /** `_leave_session`: nothing happens without a session id and a user id.
        Otherwise the user leaves the session's list, loses its current
        session whichever it was, and the leave is recorded and announced. */
    method LeaveSession(sessionId: Option<string>, userId: Option<string>, now: int)
      requires RoomsValid(sessionUsers)
      modifies this`sessionUsers, this`userSessions, this`sessionLog, this`outbox
      ensures RoomsValid(sessionUsers)
      ensures !Truthy(sessionId) || !Truthy(userId) ==>
        && outbox == old(outbox) && sessionUsers == old(sessionUsers)
        && userSessions == old(userSessions) && sessionLog == old(sessionLog)
      ensures Truthy(sessionId) && Truthy(userId) ==>
        var s, u := sessionId.value, userId.value;
        && sessionUsers == Left(old(sessionUsers), s, u)
        && userSessions == old(userSessions) - {u}
        && sessionLog == Logged(old(sessionLog), s, u, "left", now)
        && outbox == old(outbox) + [Send(EventName(SessionLeave), s, None, Presence(s, u, now))]
    {
      if !Truthy(sessionId) || !Truthy(userId) {
        return;
      }
      var s, u := sessionId.value, userId.value;
      LeftValid(sessionUsers, s, u);
      sessionUsers := Left(sessionUsers, s, u);
      // Deleting a user who has no current session changes nothing.
      userSessions := userSessions - {u};
      sessionLog := Logged(sessionLog, s, u, "left", now);
      outbox := outbox + [Send(EventName(SessionLeave), s, None, Presence(s, u, now))];
    }

    /** The state change of `_queue_message(key, message)`: the message goes to
        the message queue with the priority of its type and three retries;
        when that raises it is pushed on the fallback list instead (unless
        that push fails too). */
    twostate predicate Queued(new key: string, new message: MQ.Payload, now: int, identity: nat,
                              new fault: MQ.Fault, fallbackFails: bool)
      reads this`fallback, mq
    {
      exists r: Result<string> ::
        && mq.Enqueued(key, message, PriorityFor(TypeField(message)), QUEUE_MAX_RETRIES, 0, None, now, identity, fault, r)
        && fallback == (if r.Err? && !fallbackFails
                        then old(fallback)[key := [message] + old(if key in fallback then fallback[key] else [])]
                        else old(fallback))
    }

    /** `_queue_message` */
    method QueueMessage(key: string, message: MQ.Payload, now: int, identity: nat,
                        fault: MQ.Fault, fallbackFails: bool)
      requires Valid()
      modifies this`fallback, mq`messages, mq`ready, mq`delayed
      ensures Valid()
      ensures Queued(key, message, now, identity, fault, fallbackFails)
    {
      var r := mq.Enqueue(key, message, PriorityFor(TypeField(message)), QUEUE_MAX_RETRIES, 0, None, now, identity, fault);
      if r.Err? && !fallbackFails {
        var list := if key in fallback then fallback[key] else [];
        fallback := fallback[key := [message] + list];
      }
    }

    /** `_handle_canvas_update`: outside a session the sender gets an error and
        nothing is queued or sent; inside, the update is queued under the
        session and sent to everybody else in it. */
    method HandleCanvasUpdate(sid: string, sessionId: Option<string>, userId: Option<string>,
                              data: Json, now: int, identity: nat, fault: MQ.Fault, fallbackFails: bool)
      requires Valid()
      modifies this`fallback, this`outbox, mq`messages, mq`ready, mq`delayed
      ensures Valid()
      ensures !Truthy(sessionId) ==>
        && outbox == old(outbox) + [SendError(sid, NOT_IN_SESSION)] && fallback == old(fallback)
        && unchanged(mq)
      ensures Truthy(sessionId) ==>
        var update := Tagged(CanvasUpdate, userId, sessionId.value, now, map["data" := data]);
        && Queued(sessionId.value, update, now, identity, fault, fallbackFails)
        && outbox == old(outbox) + [Send(EventName(CanvasUpdate), sessionId.value, Some(sid), JObj(update))]
    {
      if !Truthy(sessionId) {
        outbox := outbox + [SendError(sid, NOT_IN_SESSION)];
        return;
      }
      var update := Tagged(CanvasUpdate, userId, sessionId.value, now, map["data" := data]);
      QueueMessage(sessionId.value, update, now, identity, fault, fallbackFails);
      outbox := outbox + [Send(EventName(CanvasUpdate), sessionId.value, Some(sid), JObj(update))];
    }

    /** `_handle_chat_message`: like a canvas update, but sent to the whole
        session, the sender included. */
    method HandleChatMessage(sid: string, sessionId: Option<string>, userId: Option<string>,
                             message: Option<Json>, messageId: Option<Json>, now: int,
                             identity: nat, fault: MQ.Fault, fallbackFails: bool)
      requires Valid()
      modifies this`fallback, this`outbox, mq`messages, mq`ready, mq`delayed
      ensures Valid()
      ensures !Truthy(sessionId) ==>
        && outbox == old(outbox) + [SendError(sid, NOT_IN_SESSION)] && fallback == old(fallback)
        && unchanged(mq)
      ensures Truthy(sessionId) ==>
        var chat := Tagged(ChatMessage, userId, sessionId.value, now,
                           map["message" := message.GetOr(JStr("")), "message_id" := messageId.GetOr(JNull)]);
        && Queued(sessionId.value, chat, now, identity, fault, fallbackFails)
        && outbox == old(outbox) + [Send(EventName(ChatMessage), sessionId.value, None, JObj(chat))]
    {
      if !Truthy(sessionId) {
        outbox := outbox + [SendError(sid, NOT_IN_SESSION)];
        return;
      }
      var chat := Tagged(ChatMessage, userId, sessionId.value, now,
                         map["message" := message.GetOr(JStr("")), "message_id" := messageId.GetOr(JNull)]);
      QueueMessage(sessionId.value, chat, now, identity, fault, fallbackFails);
      outbox := outbox + [Send(EventName(ChatMessage), sessionId.value, None, JObj(chat))];
    }

    /** `_handle_cursor_update`: dropped silently outside a session, never
        queued, sent to everybody else in the session. */
    method HandleCursorUpdate(sid: string, sessionId: Option<string>, userId: Option<string>,
                              x: Json, y: Json, now: int)
      requires Valid()
      modifies this`outbox
      ensures Valid()
      ensures !Truthy(sessionId) ==> outbox == old(outbox)
      ensures Truthy(sessionId) ==>
        outbox == old(outbox) + [Send(EventName(UserCursor), sessionId.value, Some(sid),
          JObj(map["type" := JStr(EventName(UserCursor)), "user_id" := OptStr(userId),
                   "x" := x, "y" := y, "timestamp" := JInt(now)]))]
    {
      if !Truthy(sessionId) {
        return;
      }
      outbox := outbox + [Send(EventName(UserCursor), sessionId.value, Some(sid),
        JObj(map["type" := JStr(EventName(UserCursor)), "user_id" := OptStr(userId),
                 "x" := x, "y" := y, "timestamp" := JInt(now)]))];
    }

    /** `_start_audio_stream`: outside a session the sender gets an error. Inside,
        the stream is recorded with no chunks yet (16 kHz mono unless the
        request says otherwise) before the audio set-up is checked, so a stream
        whose set-up is not ready stays recorded while its socket is told so. */
    method StartAudioStream(sid: string, sessionId: Option<string>, userId: Option<string>,
                            sampleRate: Option<int>, channels: Option<int>, now: int,
                            setupReady: bool, setupErrors: string)
      requires Valid()
      modifies this`audioStreams, this`outbox
      ensures Valid()
      ensures !Truthy(sessionId) ==>
        outbox == old(outbox) + [SendError(sid, NOT_IN_SESSION)] && audioStreams == old(audioStreams)
      ensures Truthy(sessionId) ==>
        var info := StreamInfo(userId, sessionId.value, now, sampleRate.GetOr(DEFAULT_SAMPLE_RATE),
                               channels.GetOr(DEFAULT_CHANNELS), 0);
        && audioStreams == old(audioStreams)[sid := info]
        && outbox == old(outbox) + [
             if setupReady then
               Send("audio_stream_started", sid, None,
                    JObj(map["status" := JStr("started"), "session_id" := JStr(sessionId.value),
                             "audio_config" := JObj(map["sample_rate" := JInt(info.sampleRate),
                                                        "channels" := JInt(info.channels)])]))
             else SendError(sid, "Audio processing not ready: " + setupErrors)]
    {
      if !Truthy(sessionId) {
        outbox := outbox + [SendError(sid, NOT_IN_SESSION)];
        return;
      }
      var info := StreamInfo(userId, sessionId.value, now, sampleRate.GetOr(DEFAULT_SAMPLE_RATE),
                             channels.GetOr(DEFAULT_CHANNELS), 0);
      audioStreams := audioStreams[sid := info];
      if !setupReady {
        outbox := outbox + [SendError(sid, "Audio processing not ready: " + setupErrors)];
        return;
      }
      outbox := outbox + [Send("audio_stream_started", sid, None,
        JObj(map["status" := JStr("started"), "session_id" := JStr(sessionId.value),
                 "audio_config" := JObj(map["sample_rate" := JInt(info.sampleRate),
                                            "channels" := JInt(info.channels)])]))];
    }

    /** `_stop_audio_stream`: a recorded stream is removed and its socket told
        how long it ran and how many chunks were processed; an unknown socket
        is ignored. */
    method StopAudioStream(sid: string, now: int)
      requires Valid()
      modifies this`audioStreams, this`outbox
      ensures Valid()
      ensures audioStreams == old(audioStreams) - {sid}
      ensures sid !in old(audioStreams) ==> outbox == old(outbox)
      ensures sid in old(audioStreams) ==>
        var info := old(audioStreams)[sid];
        outbox == old(outbox) + [Send("audio_stream_stopped", sid, None,
          JObj(map["status" := JStr("stopped"), "duration_seconds" := JInt(now - info.startedAt),
                   "chunks_processed" := JInt(info.chunkCount)]))]
    {
      if sid !in audioStreams {
        return;
      }
      var info := audioStreams[sid];
      audioStreams := audioStreams - {sid};
      outbox := outbox + [Send("audio_stream_stopped", sid, None,
        JObj(map["status" := JStr("stopped"), "duration_seconds" := JInt(now - info.startedAt),
                 "chunks_processed" := JInt(info.chunkCount)]))];
    }

    /** The messages `_handle_audio_chunk` sends after a chunk was processed:
        quality advice to the sender when the grade is poor, the transcription
        to the session when there is one, and the acknowledgement. */
    function ChunkEmissions(sid: string, sessionId: string, userId: Option<string>, chunkId: Json,
                            report: AP.ChunkReport, now: int): seq<Emission>
    {
      // `processing_result['quality']['quality_level'] == 'poor'` is the grade
      // being poor (`QualityJson`), and `processing_result['transcription']` is
      // true exactly when there is one (`TranscriptionSentWhenPresent`).
      (if report.quality.level == AP.Poor then [QualityUpdate(sid, report.quality)] else [])
      + (if report.transcription.Some?
         then [TranscriptionUpdate(sessionId, userId, report.transcription.value, now)]
         else [])
      + [ChunkProcessed(sid, chunkId, report)]
    }

    /** A chunk earns its sender quality advice exactly when the grade is poor,
        the session the transcription exactly when there is one, and the sender
        the acknowledgement last. */
    lemma ChunkEmissionsOrder(sid: string, sessionId: string, userId: Option<string>, chunkId: Json,
                              report: AP.ChunkReport, now: int)
      ensures var es, poor, heard := ChunkEmissions(sid, sessionId, userId, chunkId, report, now),
                                     report.quality.level == AP.Poor, report.transcription.Some?;
        && |es| == 1 + (if poor then 1 else 0) + (if heard then 1 else 0)
        && (poor ==> es[0] == QualityUpdate(sid, report.quality))
        && (heard ==> es[|es| - 2] == TranscriptionUpdate(sessionId, userId, report.transcription.value, now))
        && es[|es| - 1] == ChunkProcessed(sid, chunkId, report)
    {
    }

    /** The transcription, broadcast to the session. */
    function TranscriptionUpdate(sessionId: string, userId: Option<string>, t: AP.Transcription, now: int): Emission
    {
      Send(EventName(AudioTranscription), sessionId, None, JObj(TranscriptionMessage(sessionId, userId, t, now)))
    }

    /** The acknowledgement sent back to the socket. */
    function ChunkProcessed(sid: string, chunkId: Json, report: AP.ChunkReport): Emission
    {
      Send("audio_chunk_processed", sid, None,
           JObj(map["status" := JStr("processed"), "chunk_id" := chunkId,
                    "voice_activity" := VoiceActivityJson(report.voiceActivity),
                    "buffer_size" := JInt(report.bufferSize)]))
    }

    function QualityUpdate(sid: string, q: AP.QualityMetrics): Emission
    {
      Send(EventName(AudioQualityUpdate), sid, None,
           JObj(map["quality" := QualityJson(q), "suggestion" := JStr(QualitySuggestion(q))]))
    }

    function TranscriptionMessage(sessionId: string, userId: Option<string>, t: AP.Transcription, now: int): MQ.Payload
    {
      Tagged(AudioTranscription, userId, sessionId, now, map["transcription" := TranscriptionJson(t)])
    }

    /** Why `_handle_audio_chunk` refuses a chunk, checked in this order: the
        socket is in no session, has no stream, sent no audio data, or
        decoding or processing the audio raised. */
    function ChunkRefusal(sessionId: Option<string>, streaming: bool, audioData: Option<string>,
                          processed: Result<AP.ChunkReport>): Option<string>
    {
      if !Truthy(sessionId) then Some(NOT_IN_SESSION)
      else if !streaming then Some(STREAM_NOT_STARTED)
      else if !Truthy(audioData) then Some(NO_AUDIO_DATA)
      else if processed.Err? then Some("Audio processing failed: " + processed.msg)
      else None
    }

    /** `_handle_audio_chunk`: a refused chunk only earns its sender an error.
        A processed chunk adds exactly one to the stream's count; a
        transcription is queued under `{session}:transcription` and sent to
        the session. */
    method HandleAudioChunk(sid: string, sessionId: Option<string>, userId: Option<string>,
                            audioData: Option<string>, chunkId: Json, processed: Result<AP.ChunkReport>,
                            now: int, identity: nat, fault: MQ.Fault, fallbackFails: bool)
      requires Valid()
      modifies this`audioStreams, this`fallback, this`outbox, mq`messages, mq`ready, mq`delayed
      ensures Valid()
      ensures var refusal := ChunkRefusal(sessionId, sid in old(audioStreams), audioData, processed);
        refusal.Some? ==>
          && outbox == old(outbox) + [SendError(sid, refusal.value)]
          && audioStreams == old(audioStreams) && fallback == old(fallback) && unchanged(mq)
      ensures ChunkRefusal(sessionId, sid in old(audioStreams), audioData, processed).None? ==>
        var s, report, info := sessionId.value, processed.value, old(audioStreams)[sid];
        && audioStreams == old(audioStreams)[sid := info.(chunkCount := info.chunkCount + 1)]
        && outbox == old(outbox) + ChunkEmissions(sid, s, userId, chunkId, report, now)
        && (report.transcription.None? ==> fallback == old(fallback) && unchanged(mq))
        && (report.transcription.Some? ==>
              Queued(s + ":transcription", TranscriptionMessage(s, userId, report.transcription.value, now),
                     now, identity, fault, fallbackFails))
    {
      var refusal := ChunkRefusal(sessionId, sid in audioStreams, audioData, processed);
      if refusal.Some? {
        outbox := outbox + [SendError(sid, refusal.value)];
        return;
      }
      AcceptChunk(sid, sessionId.value, userId, chunkId, processed.value, now, identity, fault, fallbackFails);
    }

    /** The part of `_handle_audio_chunk` after a chunk was processed. */
    method AcceptChunk(sid: string, s: string, userId: Option<string>, chunkId: Json, report: AP.ChunkReport,
                       now: int, identity: nat, fault: MQ.Fault, fallbackFails: bool)
      requires Valid() && sid in audioStreams
      modifies this`audioStreams, this`fallback, this`outbox, mq`messages, mq`ready, mq`delayed
      ensures Valid()
      ensures var info := old(audioStreams)[sid];
        audioStreams == old(audioStreams)[sid := info.(chunkCount := info.chunkCount + 1)]
      ensures outbox == old(outbox) + ChunkEmissions(sid, s, userId, chunkId, report, now)
      ensures report.transcription.None? ==> fallback == old(fallback) && unchanged(mq)
      ensures report.transcription.Some? ==>
        Queued(s + ":transcription", TranscriptionMessage(s, userId, report.transcription.value, now),
               now, identity, fault, fallbackFails)
    {
      if report.transcription.Some? {
        // The queue write touches neither the stream's count nor the outbox, so
        // making it first leaves the same state as the source's order.
        QueueMessage(s + ":transcription", TranscriptionMessage(s, userId, report.transcription.value, now),
                     now, identity, fault, fallbackFails);
      }
      CountChunk(sid, ChunkEmissions(sid, s, userId, chunkId, report, now));
    }

    /** The stream's chunk count goes up by one and the chunk's messages are sent. */
    method CountChunk(sid: string, es: seq<Emission>)
      requires sid in audioStreams
      modifies this`audioStreams, this`outbox
      ensures var info := old(audioStreams)[sid];
        audioStreams == old(audioStreams)[sid := info.(chunkCount := info.chunkCount + 1)]
      ensures outbox == old(outbox) + es
    {
      var info := audioStreams[sid];
      audioStreams := audioStreams[sid := info.(chunkCount := info.chunkCount + 1)];
      outbox := outbox + es;
    }
  }
}

=== FILE: skill_assessment.dfy ===
/** Skill assessment and progress tracking
    (backend/app/services/skill_assessment.py): interactions are grouped by
    skill tag, each skill with enough evidence gets a proficiency, a level
    and a trend, and a learner's progress is summed up with a day streak.

    The database queries are replaced by the lists they return; the weight
    of an interaction in the proficiency (type weight, time decay and
    difficulty) is a parameter. */
module SkillAssessment {
  import opened Wrappers
  import opened Ordered
  import opened Sorting

  datatype InteractionType = ProblemSolving | QuestionAsking | Drawing | SpeechInput | DocumentUpload | WhiteboardInteraction

  /** `UserInteraction`, with the fields the assessment and the analytics
      read; `timestamp` is in seconds since the epoch (UTC). */
  datatype Interaction = Interaction(sessionId: string, kind: InteractionType, subject: string, timestamp: int,
                                     skillTags: Option<seq<string>>, successRate: Option<real>, timeSpent: int,
                                     difficulty: real)

  datatype SkillLevel = Beginner | Developing | Proficient | Advanced | Mastery

  datatype TrendDirection = Improving | Stable | Declining | InsufficientData

  /** `SkillAssessment`, without the confidence and the assessment time. */
  datatype Assessment = Assessment(skillName: string, proficiency: real, level: SkillLevel, trend: TrendDirection,
                                   evidenceCount: nat)

  const MIN_INTERACTIONS_FOR_ASSESSMENT := 5

  /** `interaction.skill_tags or []` */
  function Tags(x: Interaction): seq<string>
  {
    x.skillTags.GetOr([])
  }

  // ---------------------------------------------------------------------
  // Grouping by skill
  // ---------------------------------------------------------------------

  /** How often `s` occurs in `tags`. */
  function Occurrences(tags: seq<string>, s: string): nat
  {
    if tags == [] then 0
    else Occurrences(tags[..|tags| - 1], s) + (if tags[|tags| - 1] == s then 1 else 0)
  }

  function Repeat(x: Interaction, n: nat): (r: seq<Interaction>)
    ensures |r| == n && forall i :: 0 <= i < n ==> r[i] == x
  {
    seq(n, _ => x)
  }

  /** The group of skill `s`: the interactions in input order, each as
      often as it carries the tag. */
  function GroupOf(xs: seq<Interaction>, s: string): seq<Interaction>
  {
    if xs == [] then []
    else
      var x := xs[|xs| - 1];
      GroupOf(xs[..|xs| - 1], s) + Repeat(x, Occurrences(Tags(x), s))
  }

  /** With no tag repeated within an interaction, the group of `s` is the
      interactions carrying `s`, in input order. */
  lemma {:induction false} GroupOfDistinctTags(xs: seq<Interaction>, s: string)
    requires forall i :: 0 <= i < |xs| ==> Occurrences(Tags(xs[i]), s) <= 1
    ensures GroupOf(xs, s) == Carrying(xs, s)
  {
    if xs != [] {
      GroupOfDistinctTags(xs[..|xs| - 1], s);
      OccurrencesIn(Tags(xs[|xs| - 1]), s);
    }
  }

  function Carrying(xs: seq<Interaction>, s: string): seq<Interaction>
  {
    if xs == [] then []
    else Carrying(xs[..|xs| - 1], s) + (if s in Tags(xs[|xs| - 1]) then [xs[|xs| - 1]] else [])
  }

  lemma {:induction false} OccurrencesIn(tags: seq<string>, s: string)
    ensures Occurrences(tags, s) > 0 <==> s in tags
  {
    if tags != [] {
      var init := tags[..|tags| - 1];
      OccurrencesIn(init, s);
      assert tags == init + [tags[|tags| - 1]];
    }
  }

  /** `tags` added to the keys `ks` one at a time: a tag not seen before
      goes last, one already there keeps its place. */
  function AddNew(ks: seq<string>, tags: seq<string>): seq<string>
  {
    if tags == [] then ks
    else
      var before := AddNew(ks, tags[..|tags| - 1]);
      var t := tags[|tags| - 1];
      before + (if t in before then [] else [t])
  }

  /** The skill tags of `xs` in the order they are first seen. */
  function SeenTags(xs: seq<Interaction>): seq<string>
  {
    if xs == [] then [] else AddNew(SeenTags(xs[..|xs| - 1]), Tags(xs[|xs| - 1]))
  }

  /** The groups as a dictionary: its keys are the skills in first-seen
      order, a skill is a key iff its group is not empty, and then it maps to
      its group. */
  ghost predicate GroupsOf(groups: seq<(string, seq<Interaction>)>, xs: seq<Interaction>)
  {
    && DistinctKeys(groups)
    && Keys(groups) == SeenTags(xs)
    && (forall s :: Get(groups, s).GetOr([]) == GroupOf(xs, s))
    && (forall s :: s in Keys(groups) <==> GroupOf(xs, s) != [])
  }

  /** `_group_interactions_by_skill` */
  method GroupInteractionsBySkill(xs: seq<Interaction>) returns (groups: seq<(string, seq<Interaction>)>)
    ensures GroupsOf(groups, xs)
  {
    groups := [];
    var i := 0;
    while i < |xs|
      invariant 0 <= i <= |xs|
      invariant GroupsOf(groups, xs[..i])
    {
      groups := AddToGroups(groups, xs[..i], xs[i]);
      assert GroupsOf(groups, xs[..i + 1]) by {
        assert xs[..i] + [xs[i]] == xs[..i + 1];
      }
      i := i + 1;
    }
    assert xs[..i] == xs;
  }

  /** The inner loop: `x` joins the group of each of its tags. */
  method AddToGroups(before: seq<(string, seq<Interaction>)>, done: seq<Interaction>, x: Interaction)
    returns (groups: seq<(string, seq<Interaction>)>)
    requires GroupsOf(before, done)
    ensures GroupsOf(groups, done + [x])
  {
    var tags := Tags(x);
    groups := before;
    var j := 0;
    assert tags[..0] == [];
    while j < |tags|
      invariant 0 <= j <= |tags|
      invariant AddedUpTo(groups, done, x, tags, j)
    {
      var skill := tags[j];
      AddTagStep(groups, done, x, tags, j);
      groups := Put(groups, skill, Get(groups, skill).GetOr([]) + [x]);
      j := j + 1;
    }
    AddedAll(groups, done, x);
  }

  /** The state of the inner loop after the first `j` tags of `x`. */
  ghost predicate AddedUpTo(groups: seq<(string, seq<Interaction>)>, done: seq<Interaction>, x: Interaction,
                            tags: seq<string>, j: nat)
    requires j <= |tags|
  {
    && DistinctKeys(groups)
    && Keys(groups) == AddNew(SeenTags(done), tags[..j])
    && (forall s :: AddedAt(groups, done, x, tags, j, s))
  }

  /** One pass of the inner loop keeps its invariant. */
  lemma AddTagStep(groups: seq<(string, seq<Interaction>)>, done: seq<Interaction>, x: Interaction,
                   tags: seq<string>, j: nat)
    requires j < |tags| && AddedUpTo(groups, done, x, tags, j)
    ensures AddedUpTo(Put(groups, tags[j], Get(groups, tags[j]).GetOr([]) + [x]), done, x, tags, j + 1)
  {
    var after := Put(groups, tags[j], Get(groups, tags[j]).GetOr([]) + [x]);
    var next := j + 1;
    assert tags[..next][..j] == tags[..j];
    forall s ensures AddedAt(after, done, x, tags, next, s) {
      AddTagStepAt(groups, done, x, tags, j, s);
    }
  }

  /** The part of the loop state that concerns skill `s`. */
  ghost predicate AddedAt(groups: seq<(string, seq<Interaction>)>, done: seq<Interaction>, x: Interaction,
                          tags: seq<string>, j: nat, s: string)
    requires j <= |tags|
  {
    && Get(groups, s).GetOr([]) == GroupOf(done, s) + Repeat(x, Occurrences(tags[..j], s))
    && (s in Keys(groups) <==> Get(groups, s).GetOr([]) != [])
  }

  lemma AddTagStepAt(groups: seq<(string, seq<Interaction>)>, done: seq<Interaction>, x: Interaction,
                     tags: seq<string>, j: nat, s: string)
    requires j < |tags| && AddedAt(groups, done, x, tags, j, s)
    ensures AddedAt(Put(groups, tags[j], Get(groups, tags[j]).GetOr([]) + [x]), done, x, tags, j + 1, s)
  {
    OccurrencesSnoc(tags, j, s);
    AddTagAt(groups, GroupOf(done, s), Occurrences(tags[..j], s), tags[j], x, s);
  }

  lemma OccurrencesSnoc(tags: seq<string>, j: nat, s: string)
    requires j < |tags|
    ensures Occurrences(tags[..j + 1], s) == Occurrences(tags[..j], s) + (if tags[j] == s then 1 else 0)
  {
    assert tags[..j + 1][..j] == tags[..j];
  }

  /** Appending `x` to the group of `skill` lengthens that group by one
      copy of `x` and leaves every other group as it was. */
  lemma AddTagAt(groups: seq<(string, seq<Interaction>)>, base: seq<Interaction>, n: nat,
                 skill: string, x: Interaction, s: string)
    requires Get(groups, s).GetOr([]) == base + Repeat(x, n)
    requires s in Keys(groups) <==> Get(groups, s).GetOr([]) != []
    ensures var after := Put(groups, skill, Get(groups, skill).GetOr([]) + [x]);
            && Get(after, s).GetOr([]) == base + Repeat(x, n + (if skill == s then 1 else 0))
            && (s in Keys(after) <==> Get(after, s).GetOr([]) != [])
  {
    var v := Get(groups, skill).GetOr([]) + [x];
    var after := Put(groups, skill, v);
    GetPut(groups, skill, v, s);
    if skill == s {
      assert Get(after, s) == Some(v);
      RepeatSnoc(base, x, n);
    } else {
      assert Get(after, s) == Get(groups, s);
    }
  }

  lemma RepeatSnoc(base: seq<Interaction>, x: Interaction, n: nat)
    ensures base + Repeat(x, n) + [x] == base + Repeat(x, n + 1)
  {
  }

  /** After every tag the groups are those of `done + [x]`. */
  lemma AddedAll(groups: seq<(string, seq<Interaction>)>, done: seq<Interaction>, x: Interaction)
    requires AddedUpTo(groups, done, x, Tags(x), |Tags(x)|)
    ensures GroupsOf(groups, done + [x])
  {
    var tags := Tags(x);
    assert tags[..|tags|] == tags;
    var all := done + [x];
    assert all[..|all| - 1] == done;
    assert SeenTags(all) == AddNew(SeenTags(done), tags);
    forall s ensures Get(groups, s).GetOr([]) == GroupOf(all, s) && (s in Keys(groups) <==> GroupOf(all, s) != []) {
      assert AddedAt(groups, done, x, tags, |tags|, s);
      assert GroupOf(all, s) == GroupOf(done, s) + Repeat(x, Occurrences(tags, s));
    }
  }

  // ---------------------------------------------------------------------
  // Proficiency, level and trend
  // ---------------------------------------------------------------------

  /** `interaction.success_rate or 0.0` */
  function Score(x: Interaction): real
  {
    x.successRate.GetOr(0.0)
  }

  function WeightedScore(xs: seq<Interaction>, weight: Interaction -> real): real
  {
    if xs == [] then 0.0
    else WeightedScore(xs[..|xs| - 1], weight) + Score(xs[|xs| - 1]) * weight(xs[|xs| - 1])
  }

  function TotalWeight(xs: seq<Interaction>, weight: Interaction -> real): real
  {
    if xs == [] then 0.0 else TotalWeight(xs[..|xs| - 1], weight) + weight(xs[|xs| - 1])
  }

  /** `min(1.0, max(0.0, x))` */
  function Clamp01(x: real): (r: real)
    ensures 0.0 <= r <= 1.0
    ensures 0.0 <= x <= 1.0 ==> r == x
  {
    if x < 0.0 then 0.0 else if x > 1.0 then 1.0 else x
  }

  /** The proficiency of a list of interactions: the weighted average score,
      clamped to [0, 1], or 0.0 when the weights add up to zero. */
  function ProficiencyOf(xs: seq<Interaction>, weight: Interaction -> real): real
  {
    var total := TotalWeight(xs, weight);
    if total == 0.0 then 0.0 else Clamp01(WeightedScore(xs, weight) / total)
  }

  /** `_calculate_proficiency`: the weighted average score, clamped to
      [0, 1], and 0.0 when the weights add up to zero (an empty list). */
  method CalculateProficiency(xs: seq<Interaction>, weight: Interaction -> real) returns (p: real)
    ensures 0.0 <= p <= 1.0
    ensures xs == [] ==> p == 0.0
    ensures TotalWeight(xs, weight) == 0.0 ==> p == 0.0
    ensures TotalWeight(xs, weight) != 0.0 ==> p == Clamp01(WeightedScore(xs, weight) / TotalWeight(xs, weight))
    ensures p == ProficiencyOf(xs, weight)
  {
    var total := 0.0;
    var weighted := 0.0;
    var i := 0;
    while i < |xs|
      invariant 0 <= i <= |xs|
      invariant total == TotalWeight(xs[..i], weight) && weighted == WeightedScore(xs[..i], weight)
    {
      assert xs[..i + 1][..i] == xs[..i];
      weighted := weighted + Score(xs[i]) * weight(xs[i]);
      total := total + weight(xs[i]);
      i := i + 1;
    }
    assert xs[..i] == xs;
    if total == 0.0 {
      return 0.0;
    }
    p := Clamp01(weighted / total);
  }

  /** With scores in [0, 1] and positive weights, the clamp never bites. */
  lemma {:induction false} WeightedScoreBounded(xs: seq<Interaction>, weight: Interaction -> real)
    requires forall i :: 0 <= i < |xs| ==> 0.0 <= Score(xs[i]) <= 1.0 && weight(xs[i]) > 0.0
    ensures 0.0 <= WeightedScore(xs, weight) <= TotalWeight(xs, weight)
  {
    if xs != [] {
      var x := xs[|xs| - 1];
      WeightedScoreBounded(xs[..|xs| - 1], weight);
      assert 0.0 <= Score(x) * weight(x) <= weight(x) by {
        assert 0.0 <= Score(x) <= 1.0 && weight(x) > 0.0;
      }
    }
  }

  function LevelRank(l: SkillLevel): nat
  {
    match l
    case Beginner => 0
    case Developing => 1
    case Proficient => 2
    case Advanced => 3
    case Mastery => 4
  }

  /** `_determine_skill_level` */
  function DetermineSkillLevel(p: real): (l: SkillLevel)
    ensures l == Mastery <==> p >= 0.9
    ensures l == Advanced <==> 0.75 <= p < 0.9
    ensures l == Proficient <==> 0.6 <= p < 0.75
    ensures l == Developing <==> 0.4 <= p < 0.6
    ensures l == Beginner <==> p < 0.4
  {
    if p >= 0.9 then Mastery
    else if p >= 0.75 then Advanced
    else if p >= 0.6 then Proficient
    else if p >= 0.4 then Developing
    else Beginner
  }

  /** A higher proficiency never gives a lower level. */
  lemma LevelMonotone(p: real, q: real)
    requires p <= q
    ensures LevelRank(DetermineSkillLevel(p)) <= LevelRank(DetermineSkillLevel(q))
  {
  }

  function SumScores(xs: seq<Interaction>): real
  {
    if xs == [] then 0.0 else SumScores(xs[..|xs| - 1]) + Score(xs[|xs| - 1])
  }

  function Average(xs: seq<Interaction>): real
    requires xs != []
  {
    SumScores(xs) / |xs| as real
  }

  function ByTime(x: Interaction): real
  {
    x.timestamp as real
  }

  /** `_calculate_trend`: the change of the average score from the older
      half to the newer half (the newer half has the extra interaction). */
  function CalculateTrend(xs: seq<Interaction>): (t: TrendDirection)
    ensures t == InsufficientData <==> |xs| < 6
  {
    if |xs| < 6 then InsufficientData
    else
      var sorted := SortBy(xs, ByTime);
      var mid := |sorted| / 2;
      var improvement := Average(sorted[mid..]) - Average(sorted[..mid]);
      if improvement > 0.1 then Improving
      else if improvement < -0.1 then Declining
      else Stable
  }

  lemma {:induction false} SumOfConstant(xs: seq<Interaction>, c: real)
    requires forall i :: 0 <= i < |xs| ==> Score(xs[i]) == c
    ensures SumScores(xs) == |xs| as real * c
  {
    if xs != [] {
      SumOfConstant(xs[..|xs| - 1], c);
    }
  }

  lemma {:induction false} AverageOfConstant(xs: seq<Interaction>, c: real)
    requires xs != []
    requires forall i :: 0 <= i < |xs| ==> Score(xs[i]) == c
    ensures Average(xs) == c
  {
    SumOfConstant(xs, c);
    var n := |xs| as real;
    assert n > 0.0;
    assert (n * c) / n == c;
  }

  /** Sorting keeps the scores. */
  lemma SortedScores(xs: seq<Interaction>, c: real)
    requires forall i :: 0 <= i < |xs| ==> Score(xs[i]) == c
    ensures forall i :: 0 <= i < |SortBy(xs, ByTime)| ==> Score(SortBy(xs, ByTime)[i]) == c
  {
    var sorted := SortBy(xs, ByTime);
    forall i | 0 <= i < |sorted| ensures Score(sorted[i]) == c {
      assert sorted[i] in multiset(sorted);
      assert sorted[i] in multiset(xs);
      var k :| 0 <= k < |xs| && xs[k] == sorted[i];
    }
  }

  /** A learner who scores the same every time is stable. */
  lemma ConstantScoreIsStable(xs: seq<Interaction>, c: real)
    requires |xs| >= 6
    requires forall i :: 0 <= i < |xs| ==> Score(xs[i]) == c
    ensures CalculateTrend(xs) == Stable
  {
    var sorted := SortBy(xs, ByTime);
    SortedScores(xs, c);
    var mid := |sorted| / 2;
    AverageOfConstant(sorted[..mid], c);
    AverageOfConstant(sorted[mid..], c);
  }

  /** What `_assess_single_skill` gives for a skill and its interactions. */
  function Assess(skill: string, xs: seq<Interaction>, weight: Interaction -> real): Option<Assessment>
  {
    if |xs| < MIN_INTERACTIONS_FOR_ASSESSMENT then None
    else
      var p := ProficiencyOf(xs, weight);
      Some(Assessment(skill, p, DetermineSkillLevel(p), CalculateTrend(xs), |xs|))
  }

  /** `_assess_single_skill`: no assessment below five interactions;
      otherwise the proficiency `_calculate_proficiency` computes, the level
      `_determine_skill_level` gives for it, and the trend. */
  method AssessSingleSkill(skill: string, xs: seq<Interaction>, weight: Interaction -> real) returns (r: Option<Assessment>)
    ensures r.None? <==> |xs| < MIN_INTERACTIONS_FOR_ASSESSMENT
    ensures r.Some? ==> && r.value.skillName == skill && r.value.evidenceCount == |xs|
                        && r.value.proficiency == ProficiencyOf(xs, weight)
                        && r.value.level == DetermineSkillLevel(r.value.proficiency)
                        && r.value.trend == CalculateTrend(xs)
    ensures r == Assess(skill, xs, weight)
  {
    if |xs| < MIN_INTERACTIONS_FOR_ASSESSMENT {
      return None;
    }
    var p := CalculateProficiency(xs, weight);
    r := Some(Assessment(skill, p, DetermineSkillLevel(p), CalculateTrend(xs), |xs|));
  }

  /** The assessments `assess_user_skills` collects from the groups, in
      the groups' order. */
  function AssessAll(groups: seq<(string, seq<Interaction>)>, weight: Interaction -> real): seq<(string, Assessment)>
  {
    if groups == [] then []
    else
      var a := Assess(groups[0].0, groups[0].1, weight);
      (if a.Some? then [(groups[0].0, a.value)] else []) + AssessAll(groups[1..], weight)
  }

  /** The skills among `skills` with at least five interactions in `xs`, in order. */
  function WellEvidenced(skills: seq<string>, xs: seq<Interaction>): seq<string>
  {
    if skills == [] then []
    else (if |GroupOf(xs, skills[0])| >= MIN_INTERACTIONS_FOR_ASSESSMENT then [skills[0]] else [])
         + WellEvidenced(skills[1..], xs)
  }

  /** The assessed skills are the grouped skills with enough evidence, in
      the groups' order. */
  lemma {:induction false} AssessAllKeys(groups: seq<(string, seq<Interaction>)>, xs: seq<Interaction>,
                                         weight: Interaction -> real)
    requires forall i :: 0 <= i < |groups| ==> groups[i].1 == GroupOf(xs, groups[i].0)
    ensures Keys(AssessAll(groups, weight)) == WellEvidenced(Keys(groups), xs)
  {
    if groups != [] {
      var a := Assess(groups[0].0, groups[0].1, weight);
      var head: seq<(string, Assessment)> := if a.Some? then [(groups[0].0, a.value)] else [];
      var rest := AssessAll(groups[1..], weight);
      AssessAllKeys(groups[1..], xs, weight);
      assert Keys(groups)[1..] == Keys(groups[1..]);
      assert Keys(head + rest) == Keys(head) + Keys(rest);
    }
  }

  /** A skill's assessment is the one its group gives, and a skill that was
      not grouped has none. */
  lemma {:induction false} AssessAllGet(groups: seq<(string, seq<Interaction>)>, weight: Interaction -> real, s: string)
    requires DistinctKeys(groups)
    ensures Get(groups, s).None? ==> Get(AssessAll(groups, weight), s).None?
    ensures Get(groups, s).Some? ==> Get(AssessAll(groups, weight), s) == Assess(s, Get(groups, s).value, weight)
  {
    if groups != [] {
      var tail := groups[1..];
      assert DistinctKeys(tail) by {
        forall i, j | 0 <= i < j < |tail| ensures tail[i].0 != tail[j].0 {
          assert tail[i] == groups[i + 1] && tail[j] == groups[j + 1];
        }
      }
      AssessAllGet(tail, weight, s);
      var a := Assess(groups[0].0, groups[0].1, weight);
      var head: seq<(string, Assessment)> := if a.Some? then [(groups[0].0, a.value)] else [];
      GetAppend(head, AssessAll(tail, weight), s);
      if groups[0].0 == s {
        assert Get(groups, s) == Some(groups[0].1);
        assert s !in Keys(tail) by {
          forall i | 0 <= i < |tail| ensures Keys(tail)[i] != s {
            assert tail[i] == groups[i + 1];
          }
        }
      } else {
        assert Get(groups, s) == Get(tail, s);
      }
    }
  }

  /** Looking up a key in an entry of at most one pair followed by more pairs. */
  lemma GetAppend<V>(head: seq<(string, V)>, rest: seq<(string, V)>, s: string)
    requires |head| <= 1
    ensures Get(head + rest, s) == if head != [] && head[0].0 == s then Some(head[0].1) else Get(rest, s)
  {
    if head != [] {
      assert (head + rest)[1..] == rest;
    } else {
      assert head + rest == rest;
    }
  }

  /** `assess_user_skills` over the interactions already selected: the
      skills in first-seen order, each one that has at least five
      interactions with the assessment of its group. */
  method AssessUserSkills(xs: seq<Interaction>, weight: Interaction -> real) returns (r: seq<(string, Assessment)>)
    ensures Keys(r) == WellEvidenced(SeenTags(xs), xs)
    ensures forall s :: Get(r, s) == Assess(s, GroupOf(xs, s), weight)
    ensures forall s :: Get(r, s).Some? <==> |GroupOf(xs, s)| >= MIN_INTERACTIONS_FOR_ASSESSMENT
  {
    r := [];
    if xs == [] {
      return;
    }
    var groups := GroupInteractionsBySkill(xs);
    r := AssessGroups(groups, weight);
    forall i | 0 <= i < |groups| ensures groups[i].1 == GroupOf(xs, groups[i].0) {
      GetAt(groups, i);
    }
    AssessAllKeys(groups, xs, weight);
    forall s ensures Get(r, s) == Assess(s, GroupOf(xs, s), weight) {
      AssessAllGet(groups, weight, s);
    }
  }

  /** The loop of `assess_user_skills` over the groups. */
  method AssessGroups(groups: seq<(string, seq<Interaction>)>, weight: Interaction -> real)
    returns (r: seq<(string, Assessment)>)
    requires DistinctKeys(groups)
    ensures r == AssessAll(groups, weight)
  {
    r := [];
    var k := 0;
    while k < |groups|
      invariant 0 <= k <= |groups|
      invariant r + AssessAll(groups[k..], weight) == AssessAll(groups, weight)
    {
      var (skill, members) := groups[k];
      var a := AssessSingleSkill(skill, members, weight);
      assert groups[k..][1..] == groups[k + 1..];
      if a.Some? {
        // The skills are a dictionary's keys and so distinct:
        // `assessments[skill_name] = assessment` adds a new last entry.
        r := r + [(skill, a.value)];
      }
      k := k + 1;
    }
  }

  lemma {:induction false} GetAt<V>(m: seq<(string, V)>, k: nat)
    requires DistinctKeys(m) && k < |m|
    ensures Get(m, m[k].0) == Some(m[k].1)
  {
    if k > 0 {
      assert DistinctKeys(m[1..]) by {
        forall i, j | 0 <= i < j < |m[1..]| ensures m[1..][i].0 != m[1..][j].0 {
          assert m[1..][i] == m[i + 1] && m[1..][j] == m[j + 1];
        }
      }
      assert m[0].0 != m[k].0;
      GetAt(m[1..], k - 1);
    }
  }

  // ---------------------------------------------------------------------
  // Progress metrics
  // ---------------------------------------------------------------------

  datatype ProgressMetrics = ProgressMetrics(totalTimeSpent: int, sessionsCompleted: nat, problemsSolved: nat,
                                             successRate: real, averageSessionDuration: int, streakDays: nat,
                                             subjectsStudied: set<string>, improvementRate: real)

  /** `_empty_progress_metrics` */
  const EMPTY_PROGRESS_METRICS := ProgressMetrics(0, 0, 0, 0.0, 0, 0, {}, 0.0)

  function TotalTime(xs: seq<Interaction>): int
  {
    if xs == [] then 0 else TotalTime(xs[..|xs| - 1]) + xs[|xs| - 1].timeSpent
  }

  function SessionIds(xs: seq<Interaction>): set<string>
  {
    set i | 0 <= i < |xs| :: xs[i].sessionId
  }

  function ProblemsSolved(xs: seq<Interaction>): nat
  {
    if xs == [] then 0
    else ProblemsSolved(xs[..|xs| - 1]) + (if xs[|xs| - 1].kind == ProblemSolving then 1 else 0)
  }

  /** The success rates that are present. */
  function Rates(xs: seq<Interaction>): seq<real>
  {
    if xs == [] then []
    else Rates(xs[..|xs| - 1]) + (if xs[|xs| - 1].successRate.Some? then [xs[|xs| - 1].successRate.value] else [])
  }

  function Sum(rs: seq<real>): real
  {
    if rs == [] then 0.0 else Sum(rs[..|rs| - 1]) + rs[|rs| - 1]
  }

  /** `calculate_progress_metrics` over the selected interactions; the streak
      and the improvement rate come from their own queries. */
  function CalculateProgressMetrics(xs: seq<Interaction>, streak: nat, improvement: real): (m: ProgressMetrics)
    ensures xs == [] ==> m == EMPTY_PROGRESS_METRICS
    ensures xs != [] ==>
      && 1 <= m.sessionsCompleted <= |xs|
      && m.averageSessionDuration * m.sessionsCompleted <= m.totalTimeSpent
      && m.totalTimeSpent < (m.averageSessionDuration + 1) * m.sessionsCompleted
      && m.problemsSolved <= |xs|
      && m.subjectsStudied == (set i | 0 <= i < |xs| :: xs[i].subject)
  {
    if xs == [] then EMPTY_PROGRESS_METRICS
    else
      var total := TotalTime(xs);
      var sessions := |SessionIds(xs)|;
      SessionIdsBounds(xs);
      ProblemsSolvedBound(xs);
      var rates := Rates(xs);
      var success := if rates != [] then Sum(rates) / |rates| as real else 0.0;
      ProgressMetrics(total, sessions, ProblemsSolved(xs), success, total / sessions, streak,
                      set i | 0 <= i < |xs| :: xs[i].subject, improvement)
  }

  lemma {:induction false} SessionIdsBounds(xs: seq<Interaction>)
    requires xs != []
    ensures 1 <= |SessionIds(xs)| <= |xs|
  {
    assert xs[0].sessionId in SessionIds(xs);
    var n := |xs| - 1;
    if n > 0 {
      SessionIdsBounds(xs[..n]);
      assert SessionIds(xs) == SessionIds(xs[..n]) + {xs[n].sessionId} by {
        forall i | 0 <= i < n ensures xs[..n][i] == xs[i] {
        }
      }
    } else {
      assert SessionIds(xs) == {xs[0].sessionId};
    }
  }

  lemma {:induction false} ProblemsSolvedBound(xs: seq<Interaction>)
    ensures ProblemsSolved(xs) <= |xs|
  {
    if xs != [] {
      ProblemsSolvedBound(xs[..|xs| - 1]);
    }
  }

  /** With success rates in [0, 1], so is the reported success rate. */
  lemma SuccessRateBounded(xs: seq<Interaction>, streak: nat, improvement: real)
    requires forall i :: 0 <= i < |xs| ==> 0.0 <= Score(xs[i]) <= 1.0
    ensures 0.0 <= CalculateProgressMetrics(xs, streak, improvement).successRate <= 1.0
  {
    if xs != [] {
      RatesBounded(xs);
      var rates := Rates(xs);
      if rates != [] {
        SumBounded(rates);
        RatioBounded(Sum(rates), |rates| as real);
      }
    }
  }

  lemma RatioBounded(s: real, n: real)
    requires 0.0 <= s <= n && 0.0 < n
    ensures 0.0 <= s / n <= 1.0
  {
  }

  lemma {:induction false} RatesBounded(xs: seq<Interaction>)
    requires forall i :: 0 <= i < |xs| ==> 0.0 <= Score(xs[i]) <= 1.0
    ensures forall i :: 0 <= i < |Rates(xs)| ==> 0.0 <= Rates(xs)[i] <= 1.0
  {
    if xs != [] {
      RatesBounded(xs[..|xs| - 1]);
    }
  }

  lemma {:induction false} SumBounded(rs: seq<real>)
    requires forall i :: 0 <= i < |rs| ==> 0.0 <= rs[i] <= 1.0
    ensures 0.0 <= Sum(rs) <= |rs| as real
  {
    if rs != [] {
      SumBounded(rs[..|rs| - 1]);
    }
  }

  // ---------------------------------------------------------------------
  // Streak
  // ---------------------------------------------------------------------

  /** The rule of the `_calculate_streak` loop from a given state: a date
      continues the streak if it equals the current date or lies `streak`
      days before it, and then becomes the current date. */
  function StreakFrom(dates: seq<int>, current: int, streak: nat): nat
  {
    if dates == [] then streak
    else if dates[0] == current || dates[0] == current - streak then StreakFrom(dates[1..], dates[0], streak + 1)
    else streak
  }

  /** `_calculate_streak` over the distinct study days, newest first
      (days are numbered; `today` is the current day). */
  method CalculateStreak(dates: seq<int>, today: int) returns (streak: nat)
    ensures streak == StreakFrom(dates, today, 0)
    ensures streak <= |dates|
    ensures dates == [] || dates[0] != today ==> streak == 0
  {
    streak := 0;
    var current := today;
    var i := 0;
    while i < |dates|
      invariant 0 <= i <= |dates| && streak == i
      invariant StreakFrom(dates, today, 0) == StreakFrom(dates[i..], current, streak)
    {
      var date := dates[i];
      if date == current || date == current - streak {
        streak := streak + 1;
        current := date;
        assert dates[i..][1..] == dates[i + 1..];
      } else {
        break;
      }
      i := i + 1;
    }
  }

  /** As written, consecutive study days ending today count as a streak of
      two, however many there are: the third day is compared against the
      day two before the second, not the day before it. */
  lemma ConsecutiveDaysGiveTwo(dates: seq<int>, today: int)
    requires |dates| >= 2
    requires forall i :: 0 <= i < |dates| ==> dates[i] == today - i
    ensures StreakFrom(dates, today, 0) == 2
  {
    var rest := dates[2..];
    assert StreakFrom(dates, today, 0) == StreakFrom(dates[1..], today, 1);
    assert dates[1..][0] == today - 1 && dates[1..][1..] == rest;
    assert StreakFrom(dates[1..], today, 1) == StreakFrom(rest, today - 1, 2);
    if rest != [] {
      assert rest[0] == today - 2;
    }
  }
}

=== FILE: sorting.dfy ===
/** Python's `sorted(xs, key=...)`: a stable sort by a numeric key. The
    descending sorts of the services (`reverse=True`) are ascending sorts by
    the negated key, which keeps equal elements in input order as Python does. */
module Sorting {
  predicate SortedBy<T>(s: seq<T>, key: T -> real)
  {
    forall i, j :: 0 <= i < j < |s| ==> key(s[i]) <= key(s[j])
  }

  /** Places `x` after every element whose key is not larger than its own. */
  function Insert<T(==)>(x: T, s: seq<T>, key: T -> real): (r: seq<T>)
    ensures |r| == |s| + 1
    ensures multiset(r) == multiset(s) + multiset{x}
  {
    if s == [] then [x]
    else if key(s[0]) <= key(x) then
      assert s == [s[0]] + s[1..];
      [s[0]] + Insert(x, s[1..], key)
    else
      [x] + s
  }

  /** Every key of the insertion is at least the smaller of `x`'s key and the first key of `s`. */
  lemma {:induction false} InsertLowerBound<T>(x: T, s: seq<T>, key: T -> real, b: real)
    requires SortedBy(s, key)
    requires b <= key(x) && (s != [] ==> b <= key(s[0]))
    ensures forall i :: 0 <= i < |Insert(x, s, key)| ==> b <= key(Insert(x, s, key)[i])
  {
    if s != [] && key(s[0]) <= key(x) {
      InsertLowerBound(x, s[1..], key, b);
    }
  }

  lemma {:induction false} InsertSorted<T>(x: T, s: seq<T>, key: T -> real)
    requires SortedBy(s, key)
    ensures SortedBy(Insert(x, s, key), key)
  {
    if s != [] && key(s[0]) <= key(x) {
      InsertSorted(x, s[1..], key);
      InsertLowerBound(x, s[1..], key, key(s[0]));
    }
  }

  /** Cutting a sorted sequence after `n` elements: the two parts make up
      the whole, and no key of the front exceeds a key of the back. */
  lemma SortedCut<T>(s: seq<T>, key: T -> real, n: nat)
    requires n <= |s| && SortedBy(s, key)
    ensures s == s[..n] + s[n..]
    ensures multiset(s[..n]) + multiset(s[n..]) == multiset(s)
    ensures SortedBy(s[..n], key)
    ensures forall i, j :: 0 <= i < n && 0 <= j < |s| - n ==> key(s[..n][i]) <= key(s[n..][j])
  {
    assert s == s[..n] + s[n..];
    forall i, j | 0 <= i < n && 0 <= j < |s| - n ensures key(s[..n][i]) <= key(s[n..][j]) {
      assert s[..n][i] == s[i] && s[n..][j] == s[n + j];
    }
  }

  function SortBy<T(==)>(s: seq<T>, key: T -> real): (r: seq<T>)
    ensures |r| == |s|
    ensures SortedBy(r, key)
    ensures multiset(r) == multiset(s)
  {
    if s == [] then []
    else
      var n := |s| - 1;
      assert s == s[..n] + [s[n]];
      var sorted := SortBy(s[..n], key);
      InsertSorted(s[n], sorted, key);
      Insert(s[n], sorted, key)
  }
}

=== FILE: text.dfy ===
/** The string operations of Python's `str` that the services rely on:
    `in`, `startswith`, `lower`, `strip`, `split`, `join` and `str(int)`.
    Case mapping and whitespace are the ASCII ones. */
module Text {
  import opened Wrappers

  // ---------------------------------------------------------------------
  // Prefixes and substrings
  // ---------------------------------------------------------------------

  /** `s.startswith(p)` */
  predicate StartsWith(s: string, p: string)
  {
    |p| <= |s| && s[..|p|] == p
  }

  /** `p in s`: `p` occurs in `s` at some offset (the empty string occurs everywhere). */
  predicate Contains(s: string, p: string)
    decreases |s|
  {
    StartsWith(s, p) || (|s| > 0 && Contains(s[1..], p))
  }

  /** Any of the words occurs in `s` (Python's `any(w in s for w in words)`). */
  predicate ContainsAny(s: string, words: seq<string>)
  {
    exists i :: 0 <= i < |words| && Contains(s, words[i])
  }

  /** A match found at offset `i` is a witness for `Contains`. */
  lemma {:induction false} ContainsAt(s: string, p: string, i: nat)
    requires i + |p| <= |s| && s[i..i + |p|] == p
    ensures Contains(s, p)
    decreases i
  {
    if i > 0 {
      assert s[1..][i - 1..i - 1 + |p|] == s[i..i + |p|];
      ContainsAt(s[1..], p, i - 1);
    }
  }

  /** `p` occurs in `s` at offset `j`. */
  predicate MatchAt(s: string, p: string, j: nat)
  {
    j + |p| <= |s| && s[j..j + |p|] == p
  }

  /** The smallest offset from `k` on at which `p` occurs in `s`. */
  function FindFrom(s: string, p: string, k: nat): (r: Option<nat>)
    requires k <= |s|
    decreases |s| - k
    ensures r.Some? ==> k <= r.value && MatchAt(s, p, r.value)
    ensures r.Some? ==> forall j :: k <= j < r.value ==> !MatchAt(s, p, j)
    ensures r.None? ==> forall j :: k <= j <= |s| ==> !MatchAt(s, p, j)
  {
    if MatchAt(s, p, k) then Some(k)
    else if k == |s| then None
    else FindFrom(s, p, k + 1)
  }

  /** `s.find(p)`: the smallest offset at which `p` occurs, or `None` for -1. */
  function Find(s: string, p: string): (r: Option<nat>)
    ensures r.Some? ==> MatchAt(s, p, r.value) && forall j :: 0 <= j < r.value ==> !MatchAt(s, p, j)
    ensures r.None? ==> forall j :: 0 <= j <= |s| ==> !MatchAt(s, p, j)
  {
    FindFrom(s, p, 0)
  }

  // ---------------------------------------------------------------------
  // Case mapping and whitespace
  // ---------------------------------------------------------------------

  function LowerChar(c: char): char
  {
    if 'A' <= c <= 'Z' then (c as int + 32) as char else c
  }

  /** `s.lower()` on the ASCII letters. */
  function Lower(s: string): (r: string)
    ensures |r| == |s|
    ensures forall i :: 0 <= i < |s| ==> r[i] == LowerChar(s[i])
  {
    if s == [] then [] else [LowerChar(s[0])] + Lower(s[1..])
  }

  /** The ASCII whitespace that `str.strip()` removes. */
  predicate IsSpace(c: char)
  {
    c == ' ' || c == '\t' || c == '\n' || c == '\r' || c as int == 11 || c as int == 12
  }

  function StripLeft(s: string): (r: string)
    ensures |r| <= |s|
    ensures r == [] || !IsSpace(r[0])
  {
    if s != [] && IsSpace(s[0]) then StripLeft(s[1..]) else s
  }

  function StripRight(s: string): (r: string)
    ensures |r| <= |s|
    ensures r == [] || !IsSpace(r[|r| - 1])
  {
    if s != [] && IsSpace(s[|s| - 1]) then StripRight(s[..|s| - 1]) else s
  }

  /** `StripLeft` drops a prefix. */
  lemma {:induction false} StripLeftSuffix(s: string)
    ensures StripLeft(s) == s[|s| - |StripLeft(s)|..]
  {
    if s != [] && IsSpace(s[0]) {
      StripLeftSuffix(s[1..]);
    }
  }

  /** `StripRight` drops a suffix. */
  lemma {:induction false} StripRightPrefix(s: string)
    ensures StripRight(s) == s[..|StripRight(s)|]
  {
    if s != [] && IsSpace(s[|s| - 1]) {
      StripRightPrefix(s[..|s| - 1]);
    }
  }

  /** `s.strip()`: the longest slice of `s` with no whitespace at either end. */
  function Strip(s: string): (r: string)
    ensures |r| <= |s|
    ensures r == [] || (!IsSpace(r[0]) && !IsSpace(r[|r| - 1]))
  {
    var t := StripLeft(s);
    StripRightPrefix(t);
    StripRight(t)
  }

  /** A string without whitespace at its ends is its own strip. */
  lemma StripTrimmed(s: string)
    requires s == [] || (!IsSpace(s[0]) && !IsSpace(s[|s| - 1]))
    ensures Strip(s) == s
  {
  }

  // ---------------------------------------------------------------------
  // Splitting and joining
  // ---------------------------------------------------------------------

  /** `s.split(sep)` for a non-empty separator. */
  function Split(s: string, sep: string): (r: seq<string>)
    requires sep != []
    decreases |s|
    ensures |r| >= 1
  {
    match Find(s, sep)
    case None => [s]
    case Some(i) => [s[..i]] + Split(s[i + |sep|..], sep)
  }

  /** `sep.join(parts)` */
  function Join(parts: seq<string>, sep: string): string
  {
    if |parts| == 0 then ""
    else if |parts| == 1 then parts[0]
    else parts[0] + sep + Join(parts[1..], sep)
  }

  /** Splitting on a separator and joining with it again gives back the text. */
  lemma {:induction false} JoinSplit(s: string, sep: string)
    requires sep != []
    ensures Join(Split(s, sep), sep) == s
    decreases |s|
  {
    var f := Find(s, sep);
    if f.Some? {
      var i := f.value;
      var rest := s[i + |sep|..];
      assert Split(s, sep) == [s[..i]] + Split(rest, sep);
      JoinSplit(rest, sep);
      JoinCons(s[..i], Split(rest, sep), sep);
      FoundSplits(s, sep, i);
    }
  }

  /** Text around an occurrence of the separator is the part before it, the separator and the rest. */
  lemma FoundSplits(s: string, sep: string, i: nat)
    requires i + |sep| <= |s| && s[i..i + |sep|] == sep
    ensures s[..i] + sep + s[i + |sep|..] == s
  {
    assert s == s[..i] + s[i..i + |sep|] + s[i + |sep|..];
  }

  /** Joining one more part in front adds the part and one separator. */
  lemma JoinCons(p: string, parts: seq<string>, sep: string)
    requires parts != []
    ensures Join([p] + parts, sep) == p + sep + Join(parts, sep)
  {
    assert ([p] + parts)[1..] == parts;
  }

  /** The concatenation of a sequence of strings (`"".join(parts)`). */
  function Concat(parts: seq<string>): (r: string)
    ensures parts == [] ==> r == []
  {
    if parts == [] then [] else parts[0] + Concat(parts[1..])
  }

  lemma {:induction false} ConcatAppend(a: seq<string>, b: seq<string>)
    ensures Concat(a + b) == Concat(a) + Concat(b)
    decreases |a|
  {
    if a != [] {
      ConcatAppend(a[1..], b);
      assert (a + b)[1..] == a[1..] + b;
    } else {
      assert a + b == b;
    }
  }

  // ---------------------------------------------------------------------
  // Decimal rendering (`str(n)`, f-string interpolation of an int)
  // ---------------------------------------------------------------------

  predicate IsDigit(c: char)
  {
    '0' <= c <= '9'
  }

  function DigitChar(d: nat): (c: char)
    requires d < 10
    ensures IsDigit(c) && c as int - '0' as int == d
  {
    (d + '0' as int) as char
  }

  /** The decimal digits of `n`, most significant first, without leading zeros. */
  function NatToString(n: nat): (r: string)
    ensures 1 <= |r|
    ensures forall i :: 0 <= i < |r| ==> IsDigit(r[i])
    ensures n >= 10 <==> |r| >= 2
    decreases n
  {
    if n < 10 then [DigitChar(n)] else NatToString(n / 10) + [DigitChar(n % 10)]
  }

  /** Different numbers have different renderings. */
  lemma {:induction false} NatToStringInjective(a: nat, b: nat)
    requires NatToString(a) == NatToString(b)
    ensures a == b
    decreases a
  {
    var s := NatToString(a);
    if a >= 10 && b >= 10 {
      assert s[|s| - 1] == DigitChar(a % 10) == DigitChar(b % 10);
      assert NatToString(a / 10) == s[..|s| - 1] == NatToString(b / 10);
      NatToStringInjective(a / 10, b / 10);
    } else if a < 10 && b < 10 {
      assert s[0] == DigitChar(a) == DigitChar(b);
    }
  }

  /** `str(i)` for any integer. */
  function IntToString(i: int): (r: string)
    ensures |r| >= 1
    ensures i >= 0 ==> r == NatToString(i)
    ensures i < 0 ==> r[0] == '-'
  {
    if i >= 0 then NatToString(i) else "-" + NatToString(-i)
  }

  /** A fixed prefix followed by a number names the number uniquely. */
  lemma PrefixedNumberInjective(prefix: string, a: nat, b: nat)
    requires prefix + NatToString(a) == prefix + NatToString(b)
    ensures a == b
  {
    assert NatToString(a) == (prefix + NatToString(a))[|prefix|..];
    assert NatToString(b) == (prefix + NatToString(b))[|prefix|..];
    NatToStringInjective(a, b);
  }

  /** Concatenation is associative; stated on its own so that a proof can
      use it without unfolding what the parts are. */
  lemma AppendAssoc<T>(x: seq<T>, y: seq<T>, z: seq<T>)
    ensures x + (y + z) == x + y + z
  {
  }
}

=== FILE: text_to_speech.dfy ===
/** Speech synthesis (backend/app/services/text_to_speech.py): voice
    settings kept within the ranges the synthesiser accepts, named voice
    presets, the stand-in audio produced when no synthesiser is configured,
    a first-in first-out cache of results, and the data URLs (RFC 2397,
    section 3) used to play audio in the browser.

    The cloud synthesiser is a parameter: `synthesised` is what it returns,
    or the error it raises. */
module TextToSpeech {
  import opened Wrappers
  import opened Text
  import opened Bytes
  import opened Ordered

  datatype VoiceGender = Male | Female | Neutral

  datatype AudioFormat = Mp3 | Wav | Ogg

  datatype VoiceSettings = VoiceSettings(languageCode: string, voiceName: Option<string>, gender: VoiceGender,
                                         speakingRate: real, pitch: real, volumeGainDb: real, format: AudioFormat)

  /** `max(lo, min(hi, x))` */
  function Clamp(x: real, lo: real, hi: real): real
  {
    if x > hi then (if hi > lo then hi else lo) else if x > lo then x else lo
  }

  /** `VoiceSettings(...)` with `__post_init__`: the speaking rate is kept
      within [0.25, 4], the pitch within [-20, 20] and the volume gain
      within [-96, 16]; a value inside its range is kept as given, one
      outside it becomes the nearer bound. */
  function NewVoiceSettings(languageCode: string, voiceName: Option<string>, gender: VoiceGender,
                            speakingRate: real, pitch: real, volumeGainDb: real, format: AudioFormat): (v: VoiceSettings)
    ensures 0.25 <= v.speakingRate <= 4.0 && -20.0 <= v.pitch <= 20.0 && -96.0 <= v.volumeGainDb <= 16.0
    ensures 0.25 <= speakingRate <= 4.0 ==> v.speakingRate == speakingRate
    ensures speakingRate < 0.25 ==> v.speakingRate == 0.25
    ensures speakingRate > 4.0 ==> v.speakingRate == 4.0
    ensures -20.0 <= pitch <= 20.0 ==> v.pitch == pitch
    ensures pitch < -20.0 ==> v.pitch == -20.0
    ensures pitch > 20.0 ==> v.pitch == 20.0
    ensures -96.0 <= volumeGainDb <= 16.0 ==> v.volumeGainDb == volumeGainDb
    ensures volumeGainDb < -96.0 ==> v.volumeGainDb == -96.0
    ensures volumeGainDb > 16.0 ==> v.volumeGainDb == 16.0
    ensures v.languageCode == languageCode && v.voiceName == voiceName && v.gender == gender && v.format == format
  {
    VoiceSettings(languageCode, voiceName, gender, Clamp(speakingRate, 0.25, 4.0), Clamp(pitch, -20.0, 20.0),
                  Clamp(volumeGainDb, -96.0, 16.0), format)
  }

  /** Building settings again from settings already built changes nothing. */
  lemma VoiceSettingsStable(languageCode: string, voiceName: Option<string>, gender: VoiceGender,
                            speakingRate: real, pitch: real, volumeGainDb: real, format: AudioFormat)
    ensures var v := NewVoiceSettings(languageCode, voiceName, gender, speakingRate, pitch, volumeGainDb, format);
      NewVoiceSettings(v.languageCode, v.voiceName, v.gender, v.speakingRate, v.pitch, v.volumeGainDb, v.format) == v
  {
  }

  /** `VoiceSettings()` */
  function DefaultVoiceSettings(): VoiceSettings
  {
    NewVoiceSettings("en-US", None, Female, 1.0, 0.0, 0.0, Mp3)
  }

  function Preset(voiceName: string, gender: VoiceGender, rate: real, pitch: real, gain: real): VoiceSettings
  {
    NewVoiceSettings("en-US", Some(voiceName), gender, rate, pitch, gain, Mp3)
  }

  const TUTOR_FEMALE := "tutor_female"

  /** `voice_presets`, in insertion order. */
  function Presets(): (p: seq<(string, VoiceSettings)>)
    ensures DistinctKeys(p) && TUTOR_FEMALE in Keys(p)
  {
    var p := [(TUTOR_FEMALE, Preset("en-US-Journey-F", Female, 0.9, 2.0, 0.0)),
              ("tutor_male", Preset("en-US-Journey-D", Male, 0.9, -2.0, 0.0)),
              ("explanation", Preset("en-US-Neural2-F", Female, 0.8, 1.0, 0.0)),
              ("encouragement", Preset("en-US-Neural2-A", Female, 1.1, 3.0, 2.0)),
              ("correction", Preset("en-US-Neural2-C", Female, 0.85, 0.0, 0.0))];
    assert Keys(p)[0] == TUTOR_FEMALE;
    p
  }

  /** The settings `synthesize_speech` uses: an existing named preset wins
      over explicit settings, and with neither the female tutor voice is used. */
  function ChooseSettings(given: Option<VoiceSettings>, preset: Option<string>): (s: VoiceSettings)
    ensures Truthy(preset) && preset.value in Keys(Presets()) ==> Some(s) == Get(Presets(), preset.value)
    ensures !(Truthy(preset) && preset.value in Keys(Presets())) && given.Some? ==> s == given.value
    ensures !(Truthy(preset) && preset.value in Keys(Presets())) && given.None? ==> Some(s) == Get(Presets(), TUTOR_FEMALE)
  {
    if Truthy(preset) && preset.value in Keys(Presets()) then Get(Presets(), preset.value).value
    else if given.Some? then given.value
    else Get(Presets(), TUTOR_FEMALE).value
  }

  /** The preset `synthesize_educational_response` picks for a kind of feedback. */
  function EducationalPreset(feedbackType: string): (p: string)
    ensures p in Keys(Presets())
    ensures feedbackType !in ["encouragement", "correction", "explanation", "hint", "question", "validation"]
      ==> p == TUTOR_FEMALE
  {
    assert Keys(Presets()) == [TUTOR_FEMALE, "tutor_male", "explanation", "encouragement", "correction"];
    if feedbackType == "encouragement" then "encouragement"
    else if feedbackType == "correction" then "correction"
    else if feedbackType == "explanation" then "explanation"
    else if feedbackType == "hint" then TUTOR_FEMALE
    else if feedbackType == "question" then TUTOR_FEMALE
    else if feedbackType == "validation" then "encouragement"
    else TUTOR_FEMALE
  }

  /** `f"edu_{feedback_type}_{hash(text_response)}"`; the hash of the text is a parameter. */
  function EducationalCacheKey(feedbackType: string, textHash: int): string
  {
    "edu_" + feedbackType + "_" + IntToString(textHash)
  }

  // ---------------------------------------------------------------------
  // Results
  // ---------------------------------------------------------------------

  datatype TtsResult = TtsResult(audio: Bytes, format: AudioFormat, textLength: int, settings: Option<VoiceSettings>)

  const MOCK_PREFIX := "MOCK_AUDIO_DATA_"

  /** The stand-in audio: a marker followed by the first 100 bytes of the
      UTF-8 encoded text. */
  function MockAudio(text: string): (b: Bytes)
    ensures |b| == 16 + (if |Utf8(text)| < 100 then |Utf8(text)| else 100)
    ensures b[..16] == Ascii(MOCK_PREFIX) && b[16..] == Utf8(text)[..|b| - 16]
  {
    Ascii(MOCK_PREFIX) + Take(Utf8(text), 100)
  }

  /** For ASCII text of at most 100 characters the stand-in audio carries
      the whole text, one byte per character. */
  lemma MockAudioShortAscii(text: string)
    requires IsAscii(text) && |text| <= 100
    ensures MockAudio(text) == Ascii(MOCK_PREFIX) + Utf8(text)
    ensures |MockAudio(text)| == 16 + |text|
  {
    Utf8Length(text);
  }

  /** `_synthesize_with_fallback`, without the duration estimate. */
  function Fallback(text: string, s: VoiceSettings): (r: TtsResult)
    ensures r.textLength == |text| && r.audio == MockAudio(text) && r.format == s.format
  {
    TtsResult(MockAudio(text), s.format, |text|, Some(s))
  }

  /** What synthesis produces once the settings are chosen: the cloud's
      audio, or the stand-in when no client is configured; an error from
      the cloud gives empty MP3 audio. */
  function Synthesis(text: string, s: VoiceSettings, hasClient: bool, synthesised: Result<Bytes>): (r: TtsResult)
    ensures r.textLength == |text| && r.settings == Some(s)
    ensures hasClient && synthesised.Err? ==> r.audio == [] && r.format == Mp3
    ensures !hasClient ==> r == Fallback(text, s)
  {
    if !hasClient then Fallback(text, s)
    else if synthesised.Ok? then TtsResult(synthesised.value, s.format, |text|, Some(s))
    else TtsResult([], Mp3, |text|, Some(s))
  }

  // ---------------------------------------------------------------------
  // Cache
  // ---------------------------------------------------------------------

  const MAX_CACHE_SIZE := 100

  /** `_cache_result`: when full, the oldest entry is dropped first. */
  function Cached(c: seq<(string, TtsResult)>, key: string, r: TtsResult): seq<(string, TtsResult)>
  {
    Put(if |c| >= MAX_CACHE_SIZE then c[1..] else c, key, r)
  }

  lemma KeysTail<V>(c: seq<(string, V)>)
    requires c != []
    ensures Keys(c[1..]) == Keys(c)[1..]
  {
  }

  /** Caching keeps the keys distinct and the size within the limit, and
      the new result is found under its key afterwards. */
  lemma CachedValid(c: seq<(string, TtsResult)>, key: string, r: TtsResult)
    requires DistinctKeys(c) && |c| <= MAX_CACHE_SIZE
    ensures DistinctKeys(Cached(c, key, r)) && |Cached(c, key, r)| <= MAX_CACHE_SIZE
    ensures Get(Cached(c, key, r), key) == Some(r)
  {
    var base := if |c| >= MAX_CACHE_SIZE then c[1..] else c;
    assert DistinctKeys(base);
    assert |Keys(Put(base, key, r))| <= |Keys(base)| + 1;
    GetPut(base, key, r, key);
  }

  /** A full cache forgets its oldest key and remembers the new one last:
      eviction is first in, first out, whatever was read in between. */
  lemma CachedEvictsOldest(c: seq<(string, TtsResult)>, key: string, r: TtsResult)
    requires DistinctKeys(c) && |c| >= MAX_CACHE_SIZE && key !in Keys(c)
    ensures Keys(Cached(c, key, r)) == Keys(c)[1..] + [key]
  {
    KeysTail(c);
  }

  datatype Outcome = Outcome(result: TtsResult, cache: seq<(string, TtsResult)>)

  /** `synthesize_speech` on a cache: a hit returns the stored result and
      changes nothing; otherwise the result is synthesised with the chosen
      settings and, when a key is given and synthesis did not raise,
      cached under it. */
  function Speech(c: seq<(string, TtsResult)>, text: string, given: Option<VoiceSettings>, preset: Option<string>,
                  key: Option<string>, hasClient: bool, synthesised: Result<Bytes>): Outcome
  {
    if Truthy(key) && key.value in Keys(c) then Outcome(Get(c, key.value).value, c)
    else
      var r := Synthesis(text, ChooseSettings(given, preset), hasClient, synthesised);
      if Truthy(key) && !(hasClient && synthesised.Err?) then Outcome(r, Cached(c, key.value, r))
      else Outcome(r, c)
  }

  /** A hit returns exactly what was stored, without synthesis. */
  lemma SpeechHit(c: seq<(string, TtsResult)>, text: string, given: Option<VoiceSettings>, preset: Option<string>,
                  key: string, hasClient: bool, synthesised: Result<Bytes>, stored: TtsResult)
    requires key != "" && Get(c, key) == Some(stored)
    ensures Speech(c, text, given, preset, Some(key), hasClient, synthesised) == Outcome(stored, c)
  {
  }

  /** After a successful miss the same request is a hit that returns the
      same result, whatever the synthesiser would do the second time. */
  lemma SpeechThenHit(c: seq<(string, TtsResult)>, text: string, given: Option<VoiceSettings>, preset: Option<string>,
                      key: string, hasClient: bool, synthesised: Result<Bytes>, again: Result<Bytes>)
    requires DistinctKeys(c) && |c| <= MAX_CACHE_SIZE && key != "" && !(hasClient && synthesised.Err?)
    ensures var first := Speech(c, text, given, preset, Some(key), hasClient, synthesised);
      Speech(first.cache, text, given, preset, Some(key), hasClient, again) == Outcome(first.result, first.cache)
  {
    if key !in Keys(c) {
      var r := Synthesis(text, ChooseSettings(given, preset), hasClient, synthesised);
      CachedValid(c, key, r);
    }
  }

  /** The cache never holds a key twice nor more than 100 entries. */
  lemma SpeechValid(c: seq<(string, TtsResult)>, text: string, given: Option<VoiceSettings>, preset: Option<string>,
                    key: Option<string>, hasClient: bool, synthesised: Result<Bytes>)
    requires DistinctKeys(c) && |c| <= MAX_CACHE_SIZE
    ensures var o := Speech(c, text, given, preset, key, hasClient, synthesised);
      DistinctKeys(o.cache) && |o.cache| <= MAX_CACHE_SIZE
  {
    if Truthy(key) && key.value !in Keys(c) {
      CachedValid(c, key.value, Synthesis(text, ChooseSettings(given, preset), hasClient, synthesised));
    }
  }

  class TextToSpeechService {
    /** `audio_cache`, in insertion order. */
    var cache: seq<(string, TtsResult)>
    /** Whether a cloud client was configured when the service started. */
    const hasClient: bool

    predicate Valid()
      reads this
    {
      DistinctKeys(cache) && |cache| <= MAX_CACHE_SIZE
    }

    constructor (hasClient: bool)
      ensures this.hasClient == hasClient && cache == [] && Valid()
    {
      this.hasClient := hasClient;
      cache := [];
    }

    /** `_cache_result` */
    method CacheResult(key: string, r: TtsResult)
      modifies this
      ensures cache == Cached(old(cache), key, r)
    {
      if |cache| >= MAX_CACHE_SIZE {
        cache := cache[1..];
      }
      cache := Put(cache, key, r);
    }

    /** `synthesize_speech` */
    method SynthesizeSpeech(text: string, given: Option<VoiceSettings>, preset: Option<string>, key: Option<string>,
                            synthesised: Result<Bytes>)
      returns (r: TtsResult)
      requires Valid()
      modifies this
      ensures Valid()
      ensures Outcome(r, cache) == Speech(old(cache), text, given, preset, key, hasClient, synthesised)
    {
      SpeechValid(cache, text, given, preset, key, hasClient, synthesised);
      if Truthy(key) && key.value in Keys(cache) {
        return Get(cache, key.value).value;
      }
      var settings := ChooseSettings(given, preset);
      if hasClient {
        if synthesised.Err? {
          return TtsResult([], Mp3, |text|, Some(settings));
        }
        r := TtsResult(synthesised.value, settings.format, |text|, Some(settings));
      } else {
        r := Fallback(text, settings);
      }
      if Truthy(key) {
        CacheResult(key.value, r);
      }
    }

    /** `synthesize_educational_response`: the preset for the kind of
        feedback and a cache key made of the kind and the text's hash. */
    method SynthesizeEducationalResponse(text: string, feedbackType: string, textHash: int, synthesised: Result<Bytes>)
      returns (r: TtsResult)
      requires Valid()
      modifies this
      ensures Valid()
      ensures Outcome(r, cache) == Speech(old(cache), text, None, Some(EducationalPreset(feedbackType)),
                                          Some(EducationalCacheKey(feedbackType, textHash)), hasClient, synthesised)
    {
      r := SynthesizeSpeech(text, None, Some(EducationalPreset(feedbackType)),
                            Some(EducationalCacheKey(feedbackType, textHash)), synthesised);
    }
  }

  // ---------------------------------------------------------------------
  // Data URLs
  // ---------------------------------------------------------------------

  function MimeType(f: AudioFormat): (m: string)
    ensures forall i :: 0 <= i < |m| ==> m[i] != ';'
  {
    match f
    case Mp3 => "audio/mpeg"
    case Wav => "audio/wav"
    case Ogg => "audio/ogg"
  }

  function FormatOfMime(m: string): (f: Option<AudioFormat>)
    ensures f.Some? ==> MimeType(f.value) == m
  {
    if m == "audio/mpeg" then Some(Mp3)
    else if m == "audio/wav" then Some(Wav)
    else if m == "audio/ogg" then Some(Ogg)
    else None
  }

  const BASE64_MARK := ";base64,"

  /** `create_audio_url`, given the base64 text of the audio (the encoder
      is a library routine). */
  function CreateAudioUrl(f: AudioFormat, encoded: string): string
  {
    "data:" + MimeType(f) + BASE64_MARK + encoded
  }

  /** Reading a data URL back: the media type up to the first ";base64,"
      and the payload after it. */
  function ParseAudioUrl(url: string): Option<(AudioFormat, string)>
  {
    if !StartsWith(url, "data:") then None
    else
      var rest := url[5..];
      match Find(rest, BASE64_MARK)
      case None => None
      case Some(i) =>
        match FormatOfMime(rest[..i])
        case None => None
        case Some(f) => Some((f, rest[i + |BASE64_MARK|..]))
  }

  /** The URL names the format's media type and carries the payload unchanged. */
  lemma {:induction false} AudioUrlRoundTrip(f: AudioFormat, encoded: string)
    ensures ParseAudioUrl(CreateAudioUrl(f, encoded)) == Some((f, encoded))
  {
    var url := CreateAudioUrl(f, encoded);
    var m := MimeType(f);
    var rest := url[5..];
    assert rest == m + BASE64_MARK + encoded;
    assert MatchAt(rest, BASE64_MARK, |m|) by {
      assert rest[|m|..|m| + |BASE64_MARK|] == BASE64_MARK;
    }
    forall j | 0 <= j < |m| ensures !MatchAt(rest, BASE64_MARK, j) {
      assert j + |BASE64_MARK| <= |rest|;
      assert rest[j..j + |BASE64_MARK|][0] == m[j] != BASE64_MARK[0];
    }
    var found := Find(rest, BASE64_MARK);
    assert found == Some(|m|);
    assert rest[..|m|] == m;
    assert FormatOfMime(m) == Some(f);
    assert rest[|m| + |BASE64_MARK|..] == encoded;
  }
}

=== FILE: user_schema.dfy ===
/** The account schemas: the password rule shared by sign-up and password
    reset, and the defaults of the user records. */
module UserSchema {
  import opened Wrappers

  datatype UserRole = Student | Teacher | Parent

  /** `UserBase.role` when none is given. */
  const DEFAULT_ROLE: UserRole := Student

  const TOO_SHORT: string := "Password must be at least 8 characters long"
  const NO_UPPER: string := "Password must contain at least one uppercase letter"
  const NO_LOWER: string := "Password must contain at least one lowercase letter"
  const NO_DIGIT: string := "Password must contain at least one digit"
  const MIN_PASSWORD_LENGTH: nat := 8

  predicate IsUpper(c: char) { 'A' <= c <= 'Z' }
  predicate IsLower(c: char) { 'a' <= c <= 'z' }
  predicate IsDigit(c: char) { '0' <= c <= '9' }

  /** `any(c.isupper() for c in v)` */
  predicate HasUpper(v: string) { exists i :: 0 <= i < |v| && IsUpper(v[i]) }
  /** `any(c.islower() for c in v)` */
  predicate HasLower(v: string) { exists i :: 0 <= i < |v| && IsLower(v[i]) }
  /** `any(c.isdigit() for c in v)` */
  predicate HasDigit(v: string) { exists i :: 0 <= i < |v| && IsDigit(v[i]) }

  /** `validate_password`: the checks run in the order length, uppercase,
      lowercase, digit, and the first that fails names the error. */
  function ValidatePassword(v: string): (r: Result<string>)
    ensures r.Ok? <==> |v| >= MIN_PASSWORD_LENGTH && HasUpper(v) && HasLower(v) && HasDigit(v)
    ensures r.Ok? ==> r.value == v
    ensures |v| < MIN_PASSWORD_LENGTH ==> r == Err(TOO_SHORT)
    ensures |v| >= MIN_PASSWORD_LENGTH && !HasUpper(v) ==> r == Err(NO_UPPER)
    ensures |v| >= MIN_PASSWORD_LENGTH && HasUpper(v) && !HasLower(v) ==> r == Err(NO_LOWER)
    ensures |v| >= MIN_PASSWORD_LENGTH && HasUpper(v) && HasLower(v) && !HasDigit(v) ==> r == Err(NO_DIGIT)
  {
    if |v| < MIN_PASSWORD_LENGTH then Err(TOO_SHORT)
    else if !HasUpper(v) then Err(NO_UPPER)
    else if !HasLower(v) then Err(NO_LOWER)
    else if !HasDigit(v) then Err(NO_DIGIT)
    else Ok(v)
  }

  /** The message tells exactly which check failed first and that all the
      earlier ones passed. */
  lemma ErrorNamesFirstFailure(v: string)
    ensures ValidatePassword(v) == Err(TOO_SHORT) <==> |v| < MIN_PASSWORD_LENGTH
    ensures ValidatePassword(v) == Err(NO_UPPER) <==> |v| >= MIN_PASSWORD_LENGTH && !HasUpper(v)
    ensures ValidatePassword(v) == Err(NO_LOWER) <==> |v| >= MIN_PASSWORD_LENGTH && HasUpper(v) && !HasLower(v)
    ensures ValidatePassword(v) == Err(NO_DIGIT) <==>
              |v| >= MIN_PASSWORD_LENGTH && HasUpper(v) && HasLower(v) && !HasDigit(v)
  {
    assert TOO_SHORT != NO_UPPER && TOO_SHORT != NO_LOWER && TOO_SHORT != NO_DIGIT;
    assert NO_UPPER[22..] != NO_LOWER[22..] && NO_UPPER != NO_DIGIT && NO_LOWER != NO_DIGIT;
  }

  /** An accepted password holds three different characters at three
      different positions, whatever its length beyond eight. */
  lemma AcceptedHasThreeKinds(v: string)
    requires ValidatePassword(v).Ok?
    ensures exists i, j, k :: 0 <= i < |v| && 0 <= j < |v| && 0 <= k < |v|
                              && v[i] != v[j] && v[j] != v[k] && v[i] != v[k]
  {
    var i :| 0 <= i < |v| && IsUpper(v[i]);
    var j :| 0 <= j < |v| && IsLower(v[j]);
    var k :| 0 <= k < |v| && IsDigit(v[k]);
    assert v[i] != v[j] && v[j] != v[k] && v[i] != v[k];
  }

  /** A password made only of letters of one case and digits is refused. */
  lemma SingleCaseRefused(v: string)
    requires forall i :: 0 <= i < |v| ==> IsLower(v[i]) || IsDigit(v[i])
    ensures ValidatePassword(v).Err?
  {
    if |v| >= MIN_PASSWORD_LENGTH {
      assert !HasUpper(v) by {
        forall i | 0 <= i < |v| ensures !IsUpper(v[i]) {
        }
      }
    }
  }

  // ---------------------------------------------------------------------
  // Schemas
  // ---------------------------------------------------------------------

  datatype UserBase = UserBase(email: string, firstName: string, lastName: string, role: UserRole)

  datatype UserCreate = UserCreate(base: UserBase, password: string)

  datatype UserUpdate = UserUpdate(firstName: Option<string>, lastName: Option<string>, email: Option<string>)

  datatype PasswordReset = PasswordReset(token: string, newPassword: string)

  /** `UserBase(...)`: the role defaults to a student. */
  function MakeUserBase(email: string, firstName: string, lastName: string, role: Option<UserRole>): (u: UserBase)
    ensures u.role == if role.Some? then role.value else Student
    ensures u.email == email && u.firstName == firstName && u.lastName == lastName
  {
    UserBase(email, firstName, lastName, role.GetOr(DEFAULT_ROLE))
  }

  /** `UserCreate(...)`: built only when the password passes. */
  function MakeUserCreate(email: string, firstName: string, lastName: string, role: Option<UserRole>, password: string)
    : (r: Result<UserCreate>)
    ensures r.Ok? <==> ValidatePassword(password).Ok?
    ensures r.Err? ==> r.msg == ValidatePassword(password).msg
    ensures r.Ok? ==> r.value.password == password && r.value.base == MakeUserBase(email, firstName, lastName, role)
  {
    match ValidatePassword(password)
    case Err(e) => Err(e)
    case Ok(p) => Ok(UserCreate(MakeUserBase(email, firstName, lastName, role), p))
  }

  /** `PasswordReset(...)`: the new password passes the sign-up rule. */
  function MakePasswordReset(token: string, newPassword: string): (r: Result<PasswordReset>)
    ensures r.Ok? <==> ValidatePassword(newPassword).Ok?
    ensures r.Err? ==> r.msg == ValidatePassword(newPassword).msg
    ensures r.Ok? ==> r.value == PasswordReset(token, newPassword)
  {
    match ValidatePassword(newPassword)
    case Err(e) => Err(e)
    case Ok(p) => Ok(PasswordReset(token, p))
  }

  /** A password a reset accepts is one sign-up accepts, with the same
      message when refused. */
  lemma ResetMatchesSignUp(token: string, email: string, firstName: string, lastName: string,
                           role: Option<UserRole>, password: string)
    ensures MakePasswordReset(token, password).Ok? <==> MakeUserCreate(email, firstName, lastName, role, password).Ok?
    ensures MakePasswordReset(token, password).Err? ==>
              MakePasswordReset(token, password).msg == MakeUserCreate(email, firstName, lastName, role, password).msg
  {
  }

  /** `UserUpdate(...)` from the fields a request supplied (`first_name`,
      `last_name`, `email`); an absent field stays `None`. */
  function MakeUserUpdate(fields: map<string, string>): (u: UserUpdate)
    ensures u.firstName.Some? <==> "first_name" in fields
    ensures u.lastName.Some? <==> "last_name" in fields
    ensures u.email.Some? <==> "email" in fields
    ensures fields == map[] ==> u == UserUpdate(None, None, None)
  {
    UserUpdate(if "first_name" in fields then Some(fields["first_name"]) else None,
               if "last_name" in fields then Some(fields["last_name"]) else None,
               if "email" in fields then Some(fields["email"]) else None)
  }
}

=== FILE: whiteboard.dfy ===
/** AI drawing on the shared whiteboard
    (backend/app/services/whiteboard_interaction.py): the actions built for
    a demonstration, their millisecond timing, the narration synchronised
    with them, the stored demonstrations and the format sent to the browser.

    Fresh identifiers (`uuid4`) are a parameter: `ids(k)` is the k-th
    identifier drawn by a builder. */
module Whiteboard {
  import opened Wrappers
  import opened Text
  import opened Json

  datatype DrawingAction =
    | DrawLine | DrawCircle | DrawRectangle | DrawArrow | AddText
    | Highlight | Annotate | Erase | ClearArea | MoveObject
  {
    function Value(): string
    {
      match this
      case DrawLine => "draw_line"
      case DrawCircle => "draw_circle"
      case DrawRectangle => "draw_rectangle"
      case DrawArrow => "draw_arrow"
      case AddText => "add_text"
      case Highlight => "highlight"
      case Annotate => "annotate"
      case Erase => "erase"
      case ClearArea => "clear_area"
      case MoveObject => "move_object"
    }
  }

  /** `DrawingAction(value)`: the action with that value, if any. */
  function DrawingActionOf(v: string): (k: Option<DrawingAction>)
    ensures k.Some? ==> k.value.Value() == v
  {
    if v == "draw_line" then Some(DrawLine)
    else if v == "draw_circle" then Some(DrawCircle)
    else if v == "draw_rectangle" then Some(DrawRectangle)
    else if v == "draw_arrow" then Some(DrawArrow)
    else if v == "add_text" then Some(AddText)
    else if v == "highlight" then Some(Highlight)
    else if v == "annotate" then Some(Annotate)
    else if v == "erase" then Some(Erase)
    else if v == "clear_area" then Some(ClearArea)
    else if v == "move_object" then Some(MoveObject)
    else None
  }

  datatype AnimationStyle = Instant | Smooth | StepByStep | FadeIn | DrawOn
  {
    function Value(): string
    {
      match this
      case Instant => "instant"
      case Smooth => "smooth"
      case StepByStep => "step_by_step"
      case FadeIn => "fade_in"
      case DrawOn => "draw_on"
    }
  }

  function AnimationStyleOf(v: string): (s: Option<AnimationStyle>)
    ensures s.Some? ==> s.value.Value() == v
  {
    if v == "instant" then Some(Instant)
    else if v == "smooth" then Some(Smooth)
    else if v == "step_by_step" then Some(StepByStep)
    else if v == "fade_in" then Some(FadeIn)
    else if v == "draw_on" then Some(DrawOn)
    else None
  }

  /** Every value names its own member. */
  lemma ValuesRoundTrip(k: DrawingAction, s: AnimationStyle)
    ensures DrawingActionOf(k.Value()) == Some(k)
    ensures AnimationStyleOf(s.Value()) == Some(s)
  {
    match k
    case DrawLine => assert k.Value()[5] == 'l';
    case DrawCircle => assert k.Value()[5] == 'c';
    case DrawRectangle => assert k.Value()[5] == 'r';
    case DrawArrow => assert k.Value()[5] == 'a';
    case AddText => assert k.Value()[0] == 'a';
    case Highlight => assert k.Value()[0] == 'h';
    case Annotate => assert k.Value()[1] == 'n';
    case Erase => assert k.Value()[0] == 'e';
    case ClearArea => assert k.Value()[0] == 'c';
    case MoveObject => assert k.Value()[0] == 'm';
  }

  datatype Style = Style(color: string, strokeWidth: int, fillColor: Option<string>, opacity: real,
                         dashPattern: Option<seq<int>>, fontSize: int, fontFamily: string)

  /** `DrawingStyle()` with its defaults. */
  const DEFAULT_STYLE: Style := Style("#000000", 2, None, 1.0, None, 16, "Arial")

  datatype Action = Action(id: string, kind: DrawingAction, coords: seq<real>, style: Style,
                           text: Option<string>, animation: AnimationStyle, durationMs: int, delayMs: int,
                           metadata: map<string, Json>)

  /** `WhiteboardAction(...)` with `__post_init__`: an empty id is replaced by
      a freshly generated one and missing metadata becomes `{}`. */
  function NewAction(id: string, generated: string, kind: DrawingAction, coords: seq<real>, style: Style,
                     text: Option<string>, animation: AnimationStyle, durationMs: int, delayMs: int,
                     metadata: Option<map<string, Json>>): (a: Action)
    ensures id != "" ==> a.id == id
    ensures id == "" ==> a.id == generated
    ensures metadata.None? ==> a.metadata == map[]
    ensures a.kind == kind && a.text == text && a.durationMs == durationMs && a.delayMs == delayMs
  {
    Action(if id == "" then generated else id, kind, coords, style, text, animation, durationMs, delayMs,
           if metadata.Some? then metadata.value else map[])
  }

  /** An action as the builders create it: a fresh id and no metadata. */
  function Act(id: string, kind: DrawingAction, coords: seq<real>, style: Style, text: Option<string>,
               animation: AnimationStyle, durationMs: int, delayMs: int): Action
  {
    Action(id, kind, coords, style, text, animation, durationMs, delayMs, map[])
  }

  // ---------------------------------------------------------------------
  // Timing
  // ---------------------------------------------------------------------

  /** What an action adds to a duration total: its duration plus its delay. */
  function Span(a: Action): int
  {
    a.durationMs + a.delayMs
  }

  /** `sum(action.duration_ms + action.delay_ms for action in actions)` */
  function TotalSpan(actions: seq<Action>): int
  {
    if actions == [] then 0 else TotalSpan(actions[..|actions| - 1]) + Span(actions[|actions| - 1])
  }

  lemma {:induction false} TotalSpanAppend(a: seq<Action>, b: seq<Action>)
    ensures TotalSpan(a + b) == TotalSpan(a) + TotalSpan(b)
    decreases |b|
  {
    if b == [] {
      assert a + b == a;
    } else {
      var p := b[..|b| - 1];
      TotalSpanAppend(a, p);
      assert (a + b)[..|a + b| - 1] == a + p;
    }
  }

  // ---------------------------------------------------------------------
  // Setups and steps
  // ---------------------------------------------------------------------

  type Canvas = (int, int)

  function CenterX(c: Canvas): int { c.0 / 2 }
  function CenterY(c: Canvas): int { c.1 / 2 }

  /** `_create_equation_setup`: one heading. */
  function EquationSetup(c: Canvas, start: int, ids: nat -> string): (actions: seq<Action>)
    ensures |actions| == 1 && actions[0].kind == AddText && actions[0].delayMs == start
  {
    [Act(ids(0), AddText, [(CenterX(c) - 100) as real, (CenterY(c) - 100) as real],
         DEFAULT_STYLE.(color := "#333", fontSize := 18), Some("Let's solve this step by step:"), FadeIn, 800, start)]
  }

  /** `_create_coordinate_system`: two axes, then their two labels. */
  function CoordinateSystem(c: Canvas, start: int, ids: nat -> string): (actions: seq<Action>)
    ensures |actions| == 4
    ensures actions[0].kind == DrawLine && actions[1].kind == DrawLine
    ensures actions[2].kind == AddText && actions[3].kind == AddText
    ensures actions[2].text == Some("x") && actions[3].text == Some("y")
    ensures actions[0].text.None? && actions[1].text.None?
  {
    var lineStyle := DEFAULT_STYLE.(color := "#333", strokeWidth := 2);
    var textStyle := DEFAULT_STYLE.(color := "#333", fontSize := 16);
    [Act(ids(0), DrawLine, [CenterX(c) as real, 50.0, CenterX(c) as real, (c.1 - 50) as real], lineStyle, None, DrawOn, 800, start),
     Act(ids(1), DrawLine, [50.0, CenterY(c) as real, (c.0 - 50) as real, CenterY(c) as real], lineStyle, None, DrawOn, 800, start + 400),
     Act(ids(2), AddText, [(c.0 - 30) as real, (CenterY(c) + 20) as real], textStyle, Some("x"), FadeIn, 400, start + 1200),
     Act(ids(3), AddText, [(CenterX(c) + 10) as real, 40.0], textStyle, Some("y"), FadeIn, 400, start + 1400)]
  }

  /** The corners of the example triangle: bottom left, bottom right, top. */
  function TrianglePoint(c: Canvas, i: nat): (real, real)
    requires i < 3
  {
    if i == 0 then ((CenterX(c) - 100) as real, (CenterY(c) + 80) as real)
    else if i == 1 then ((CenterX(c) + 100) as real, (CenterY(c) + 80) as real)
    else (CenterX(c) as real, (CenterY(c) - 80) as real)
  }

  /** The coordinates of a line from `p` to `q`. */
  function Segment(p: (real, real), q: (real, real)): seq<real>
  {
    [p.0, p.1, q.0, q.1]
  }

  /** `_create_geometry_setup`: three sides, each from a corner to the next,
      so that the last one closes the triangle; each starts 300 ms after
      the previous one. */
  function GeometrySetup(c: Canvas, start: int, ids: nat -> string): (actions: seq<Action>)
    ensures |actions| == 3
    ensures forall i :: 0 <= i < 3 ==>
      && actions[i].kind == DrawLine && actions[i].delayMs == start + 300 * i && actions[i].text.None?
      && actions[i].coords == Segment(TrianglePoint(c, i), TrianglePoint(c, (i + 1) % 3))
  {
    var style := DEFAULT_STYLE.(color := "#333", strokeWidth := 2);
    [Act(ids(0), DrawLine, Segment(TrianglePoint(c, 0), TrianglePoint(c, 1)), style, None, DrawOn, 600, start),
     Act(ids(1), DrawLine, Segment(TrianglePoint(c, 1), TrianglePoint(c, 2)), style, None, DrawOn, 600, start + 300),
     Act(ids(2), DrawLine, Segment(TrianglePoint(c, 2), TrianglePoint(c, 0)), style, None, DrawOn, 600, start + 600)]
  }

  const DRAWING_WORDS: seq<string> := ["draw", "plot", "graph"]

  /** `f"Step {i + 1}"` */
  function StepLabel(i: nat): string
  {
    "Step " + NatToString(i + 1)
  }

  /** `_create_step_actions`: the numbered step text, then a highlight when
      the step has an "=", then an arrow when it speaks of drawing. */
  function StepActions(step: string, index: nat, c: Canvas, start: int, ids: nat -> string): (actions: seq<Action>)
    ensures |actions| == 1 + (if Contains(step, "=") then 1 else 0)
                           + (if ContainsAny(Lower(step), DRAWING_WORDS) then 1 else 0)
    ensures actions[0].kind == AddText && actions[0].delayMs == start
    ensures actions[0].text == Some(StepLabel(index) + ": " + step)
    ensures actions[0].coords == [50.0, (150 + 40 * index) as real]
    ensures Contains(step, "=") ==> actions[1].kind == Highlight && actions[1].text.None?
    ensures ContainsAny(Lower(step), DRAWING_WORDS) ==>
      actions[|actions| - 1].kind == DrawArrow && actions[|actions| - 1].text.None?
  {
    var y := 150 + index * 40;
    var text := Act(ids(0), AddText, [50.0, y as real], DEFAULT_STYLE.(color := "#2563eb", fontSize := 16),
                    Some(StepLabel(index) + ": " + step), FadeIn, 800, start);
    var highlight := if Contains(step, "=") then
      [Act(ids(1), Highlight, [(CenterX(c) - 50) as real, (y + 50) as real, 100.0, 30.0],
           DEFAULT_STYLE.(color := "#fbbf24", opacity := 0.3), None, FadeIn, 500, start + 400)]
      else [];
    var arrow := if ContainsAny(Lower(step), DRAWING_WORDS) then
      [Act(ids(1 + |highlight|), DrawArrow, [(CenterX(c) - 100) as real, (y + 20) as real, CenterX(c) as real, (y + 60) as real],
           DEFAULT_STYLE.(color := "#dc2626", strokeWidth := 2), None, DrawOn, 600, start + 600)]
      else [];
    [text] + highlight + arrow
  }

  /** The kinds of problem that get a setup, judged on the lower-cased text. */
  predicate AsksToSolve(low: string) { Contains(low, "equation") || Contains(low, "solve") }
  predicate AsksForGraph(low: string) { Contains(low, "graph") || Contains(low, "plot") }
  predicate AsksForGeometry(low: string) { Contains(low, "geometry") || Contains(low, "triangle") }

  /** The setup a problem gets and how far it moves the clock: equations
      first, then graphs, then geometry. */
  function Setup(problem: string, c: Canvas, ids: nat -> string): (r: (seq<Action>, int))
    ensures AsksToSolve(Lower(problem)) ==> r == (EquationSetup(c, 0, ids), 1000)
    ensures !AsksToSolve(Lower(problem)) && AsksForGraph(Lower(problem)) ==> r == (CoordinateSystem(c, 0, ids), 2000)
    ensures !AsksToSolve(Lower(problem)) && !AsksForGraph(Lower(problem)) && AsksForGeometry(Lower(problem))
      ==> r == (GeometrySetup(c, 0, ids), 1500)
    ensures !AsksToSolve(Lower(problem)) && !AsksForGraph(Lower(problem)) && !AsksForGeometry(Lower(problem))
      ==> r == ([], 0)
  {
    var low := Lower(problem);
    if AsksToSolve(low) then (EquationSetup(c, 0, ids), 1000)
    else if AsksForGraph(low) then (CoordinateSystem(c, 0, ids), 2000)
    else if AsksForGeometry(low) then (GeometrySetup(c, 0, ids), 1500)
    else ([], 0)
  }

  // ---------------------------------------------------------------------
  // Generating a demonstration's actions
  // ---------------------------------------------------------------------

  /** The actions so far and the clock. */
  datatype Timeline = Timeline(actions: seq<Action>, current: int)

  /** One step of the loop of `_generate_demonstration_actions`: the step's
      actions are appended and the clock moves on by their total span. */
  function Advance(t: Timeline, sa: seq<Action>): Timeline
  {
    Timeline(t.actions + sa, t.current + TotalSpan(sa))
  }

  /** How the loop makes a step's actions: they start at the clock, and
      their ids continue after the actions so far. */
  function StepMaker(c: Canvas, ids: nat -> string): (Timeline, string, nat) -> seq<Action>
  {
    (t: Timeline, step: string, i: nat) => var n := |t.actions|; StepActions(step, i, c, t.current, (k: nat) => ids(n + k))
  }

  /** The loop of `_generate_demonstration_actions` for any way `make` of
      turning step `i` into actions at a timeline. */
  function Unroll(steps: seq<string>, init: Timeline, make: (Timeline, string, nat) -> seq<Action>): (t: Timeline)
    ensures |t.actions| >= |init.actions|
  {
    if steps == [] then init
    else
      var n := |steps| - 1;
      var before := Unroll(steps[..n], init, make);
      Advance(before, make(before, steps[n], n))
  }

  function GenFold(steps: seq<string>, c: Canvas, ids: nat -> string, init: Timeline): (t: Timeline)
    ensures |t.actions| >= |init.actions| + |steps|
  {
    UnrollGrows(steps, init, StepMaker(c, ids));
    Unroll(steps, init, StepMaker(c, ids))
  }

  function InitialTimeline(problem: string, c: Canvas, ids: nat -> string): Timeline
  {
    var s := Setup(problem, c, ids);
    Timeline(s.0, s.1)
  }

  /** A maker that gives every step an action adds at least one per step. */
  lemma {:induction false} UnrollGrows(steps: seq<string>, init: Timeline, make: (Timeline, string, nat) -> seq<Action>)
    requires forall t, step, i :: |make(t, step, i)| >= 1
    ensures |Unroll(steps, init, make).actions| >= |init.actions| + |steps|
  {
    if steps != [] {
      UnrollGrows(steps[..|steps| - 1], init, make);
    }
  }

  /** Whatever the maker, the clock after the steps is where it started
      plus the total span of the actions added, which follow the initial
      ones. */
  lemma {:induction false} UnrollClock(steps: seq<string>, init: Timeline, make: (Timeline, string, nat) -> seq<Action>)
    ensures var t := Unroll(steps, init, make);
      && t.actions[..|init.actions|] == init.actions
      && t.current == init.current + TotalSpan(t.actions[|init.actions|..])
  {
    if steps == [] {
      assert init.actions[|init.actions|..] == [];
    } else {
      var n := |steps| - 1;
      UnrollClock(steps[..n], init, make);
      var before := Unroll(steps[..n], init, make);
      var sa := make(before, steps[n], n);
      var after := before.actions + sa;
      var m := |init.actions|;
      assert after[m..] == before.actions[m..] + sa;
      assert after[..m] == before.actions[..m];
      TotalSpanAppend(before.actions[m..], sa);
    }
  }

  /** Whatever the maker, the actions of the first steps come first. */
  lemma {:induction false} UnrollPrefix(steps: seq<string>, init: Timeline, make: (Timeline, string, nat) -> seq<Action>, j: nat)
    requires j <= |steps|
    ensures var before, t := Unroll(steps[..j], init, make), Unroll(steps, init, make);
      |before.actions| <= |t.actions| && t.actions[..|before.actions|] == before.actions
  {
    if j == |steps| {
      assert steps[..j] == steps;
    } else {
      var n := |steps| - 1;
      UnrollPrefix(steps[..n], init, make, j);
      assert steps[..n][..j] == steps[..j];
      var mid := Unroll(steps[..n], init, make);
      var k := |Unroll(steps[..j], init, make).actions|;
      var t := mid.actions + make(mid, steps[n], n);
      assert t[..k] == mid.actions[..k];
    }
  }

  /** The clock after the steps is where the setup left it plus the total
      span of the steps' actions. */
  lemma GenFoldClock(steps: seq<string>, c: Canvas, ids: nat -> string, init: Timeline)
    ensures var t := GenFold(steps, c, ids, init);
      && t.actions[..|init.actions|] == init.actions
      && t.current == init.current + TotalSpan(t.actions[|init.actions|..])
  {
    UnrollClock(steps, init, StepMaker(c, ids));
  }

  /** The actions of the first steps come first, unchanged. */
  lemma GenFoldPrefix(steps: seq<string>, c: Canvas, ids: nat -> string, init: Timeline, j: nat)
    requires j <= |steps|
    ensures var before, t := GenFold(steps[..j], c, ids, init), GenFold(steps, c, ids, init);
      |before.actions| <= |t.actions| && t.actions[..|before.actions|] == before.actions
  {
    UnrollPrefix(steps, init, StepMaker(c, ids), j);
  }

  /** Every action has a text. */
  predicate AllTexted(actions: seq<Action>)
  {
    forall i :: 0 <= i < |actions| ==> actions[i].text.Some?
  }

  /** A step with an "=" puts a highlight, which has no text, among the
      demonstration's actions. */
  lemma EqualsStepHasUntexted(problem: string, steps: seq<string>, c: Canvas, ids: nat -> string, i: nat)
    requires i < |steps| && Contains(steps[i], "=")
    ensures !AllTexted(GenFold(steps, c, ids, InitialTimeline(problem, c, ids)).actions)
  {
    var init := InitialTimeline(problem, c, ids);
    var before := GenFold(steps[..i], c, ids, init);
    assert steps[..i + 1][..i] == steps[..i];
    var after := GenFold(steps[..i + 1], c, ids, init);
    var n := |before.actions|;
    var sa := StepMaker(c, ids)(before, steps[i], i);
    assert sa == StepActions(steps[i], i, c, before.current, (k: nat) => ids(n + k));
    assert after.actions == before.actions + sa;
    assert after.actions[n + 1] == sa[1];
    GenFoldPrefix(steps, c, ids, init, i + 1);
    var all := GenFold(steps, c, ids, init).actions;
    assert all[n + 1] == after.actions[n + 1];
  }

  /** `_generate_demonstration_actions`: the setup the problem calls for,
      then the actions of each step, each step starting where the clock
      stands after the previous one. */
  method GenerateDemonstrationActions(problem: string, steps: seq<string>, c: Canvas, ids: nat -> string)
    returns (actions: seq<Action>)
    ensures actions == GenFold(steps, c, ids, InitialTimeline(problem, c, ids)).actions
  {
    var setup := Setup(problem, c, ids);
    actions := setup.0;
    var current := setup.1;
    var i := 0;
    while i < |steps|
      invariant 0 <= i <= |steps|
      invariant Timeline(actions, current) == GenFold(steps[..i], c, ids, InitialTimeline(problem, c, ids))
    {
      assert steps[..i + 1][..i] == steps[..i];
      var n := |actions|;
      var stepActions := StepActions(steps[i], i, c, current, (k: nat) => ids(n + k));
      actions := actions + stepActions;
      current := current + TotalSpan(stepActions);
      i := i + 1;
    }
    assert steps[..i] == steps;
  }

  // ---------------------------------------------------------------------
  // Synchronised narration
  // ---------------------------------------------------------------------

  datatype SyncEntry = SyncEntry(text: string, startMs: int, endMs: int, stepIndex: int, emphasis: string)

  /** The actions whose text contains the tag (as a substring, so that
      "Step 1" also matches "Step 10"). */
  function MatchingActions(actions: seq<Action>, tag: string): (m: seq<Action>)
    ensures forall i :: 0 <= i < |m| ==> m[i] in actions && m[i].text.Some? && Contains(m[i].text.value, tag)
  {
    if actions == [] then []
    else
      var a := actions[|actions| - 1];
      MatchingActions(actions[..|actions| - 1], tag) + (if a.text.Some? && Contains(a.text.value, tag) then [a] else [])
  }

  /** `min(action.delay_ms ...)` */
  function MinDelay(m: seq<Action>): (d: int)
    requires m != []
    ensures exists i :: 0 <= i < |m| && d == m[i].delayMs
    ensures forall i :: 0 <= i < |m| ==> d <= m[i].delayMs
  {
    if |m| == 1 then m[0].delayMs
    else
      var rest := MinDelay(m[1..]);
      assert forall i :: 1 <= i < |m| ==> m[i] == m[1..][i - 1];
      if m[0].delayMs <= rest then m[0].delayMs else rest
  }

  /** `max(action.delay_ms + action.duration_ms ...)` */
  function MaxEnd(m: seq<Action>): (e: int)
    requires m != []
    ensures exists i :: 0 <= i < |m| && e == Span(m[i])
    ensures forall i :: 0 <= i < |m| ==> Span(m[i]) <= e
  {
    if |m| == 1 then Span(m[0])
    else
      var rest := MaxEnd(m[1..]);
      assert forall i :: 1 <= i < |m| ==> m[i] == m[1..][i - 1];
      if Span(m[0]) >= rest then Span(m[0]) else rest
  }

  datatype SyncState = SyncState(entries: seq<SyncEntry>, current: int)

  /** One step of `_create_synchronized_text`: the step spans the actions
      whose text holds `tag`, or 2000 ms from the clock when none do; the
      next one starts 500 ms after it ends. */
  function SyncStep(st: SyncState, step: string, i: nat, tag: string, actions: seq<Action>): SyncState
  {
    var m := MatchingActions(actions, tag);
    var start := if m != [] then MinDelay(m) else st.current;
    var end := if m != [] then MaxEnd(m) else st.current + 2000;
    SyncState(st.entries + [SyncEntry(step, start, end, i, "normal")], end + 500)
  }

  /** The loop of `_create_synchronized_text` with step `i` looked up by
      `tagOf(i)`; the code's own labels are `StepLabel`. */
  function SyncFoldBy(steps: seq<string>, actions: seq<Action>, tagOf: nat -> string): (st: SyncState)
    ensures |st.entries| == |steps|
  {
    if steps == [] then SyncState([], 0)
    else
      var n := |steps| - 1;
      SyncStep(SyncFoldBy(steps[..n], actions, tagOf), steps[n], n, tagOf(n), actions)
  }

  function SyncFold(steps: seq<string>, actions: seq<Action>): (st: SyncState)
    ensures |st.entries| == |steps|
  {
    SyncFoldBy(steps, actions, StepLabel)
  }

  /** Entry `i` of `e` narrates step `i`, and it covers the actions whose
      text holds `tag`, or, when there are none, the 2000 ms after the
      previous entry's end plus a 500 ms gap (from 0 for the first). */
  predicate EntryTimed(e: seq<SyncEntry>, steps: seq<string>, actions: seq<Action>, tag: string, i: nat)
    requires i < |e| && i < |steps|
  {
    var m := MatchingActions(actions, tag);
    && e[i].text == steps[i] && e[i].stepIndex == i
    && (m != [] ==> e[i].startMs == MinDelay(m) && e[i].endMs == MaxEnd(m))
    && (m == [] ==> e[i].startMs == (if i == 0 then 0 else e[i - 1].endMs + 500) && e[i].endMs == e[i].startMs + 2000)
  }

  /** Entry `i` narrates step `i`, and it covers the actions labelled with
      its number, or, when there are none, the 2000 ms after the previous
      entry's end plus a 500 ms gap (from 0 for the first). */
  lemma SyncEntryTimes(steps: seq<string>, actions: seq<Action>, i: nat)
    requires i < |steps|
    ensures EntryTimed(SyncFold(steps, actions).entries, steps, actions, StepLabel(i), i)
  {
    SyncEntryTimesBy(steps, actions, StepLabel, i);
  }

  /** `SyncEntryTimes` for any labelling of the steps. */
  lemma {:induction false} SyncEntryTimesBy(steps: seq<string>, actions: seq<Action>, tagOf: nat -> string, i: nat)
    requires i < |steps|
    ensures EntryTimed(SyncFoldBy(steps, actions, tagOf).entries, steps, actions, tagOf(i), i)
    decreases |steps|
  {
    var p := steps[..|steps| - 1];
    if i < |p| {
      SyncEntryTimesBy(p, actions, tagOf, i);
      SyncPrefix(steps, actions, tagOf);
      TimedInPrefix(SyncFoldBy(p, actions, tagOf).entries, SyncFoldBy(steps, actions, tagOf).entries,
                    p, steps, actions, tagOf(i), i);
    } else {
      SyncLastTimed(steps, actions, tagOf);
    }
  }

  /** The newest entry is timed as `EntryTimed` says. */
  lemma SyncLastTimed(steps: seq<string>, actions: seq<Action>, tagOf: nat -> string)
    requires steps != []
    ensures EntryTimed(SyncFoldBy(steps, actions, tagOf).entries, steps, actions, tagOf(|steps| - 1), |steps| - 1)
  {
    var n := |steps| - 1;
    var e := SyncFoldBy(steps, actions, tagOf).entries;
    var before := SyncFoldBy(steps[..n], actions, tagOf);
    SyncSnoc(steps, actions, tagOf);
    if n > 0 {
      SyncLastEnd(steps[..n], actions, tagOf);
      assert e[n - 1] == before.entries[n - 1];
    }
  }

  /** Being timed depends only on the entry, its predecessor and its step. */
  lemma TimedInPrefix(short: seq<SyncEntry>, e: seq<SyncEntry>, p: seq<string>, steps: seq<string>,
                      actions: seq<Action>, tag: string, i: nat)
    requires i < |short| <= |e| && i < |p| <= |steps| && e[..|short|] == short && p == steps[..|p|]
    requires EntryTimed(short, p, actions, tag, i)
    ensures EntryTimed(e, steps, actions, tag, i)
  {
    assert e[i] == short[i] && p[i] == steps[i];
    if i > 0 {
      assert e[i - 1] == short[i - 1];
    }
  }

  /** The entries after one more step: the earlier ones unchanged, then the
      new step's entry, started from the clock the earlier steps left. */
  lemma SyncSnoc(steps: seq<string>, actions: seq<Action>, tagOf: nat -> string)
    requires steps != []
    ensures var n := |steps| - 1; var before := SyncFoldBy(steps[..n], actions, tagOf);
      var e := SyncFoldBy(steps, actions, tagOf).entries; var m := MatchingActions(actions, tagOf(n));
      && e[..n] == before.entries
      && e[n] == SyncEntry(steps[n], if m != [] then MinDelay(m) else before.current,
                           if m != [] then MaxEnd(m) else before.current + 2000, n, "normal")
  {
  }

  /** A step leaves the earlier entries as they were. */
  lemma SyncPrefix(steps: seq<string>, actions: seq<Action>, tagOf: nat -> string)
    requires steps != []
    ensures SyncFoldBy(steps, actions, tagOf).entries[..|steps| - 1] == SyncFoldBy(steps[..|steps| - 1], actions, tagOf).entries
  {
  }

  /** The clock after some steps is 500 ms past the last entry's end. */
  lemma SyncLastEnd(steps: seq<string>, actions: seq<Action>, tagOf: nat -> string)
    requires steps != []
    ensures var st := SyncFoldBy(steps, actions, tagOf); st.current == st.entries[|steps| - 1].endMs + 500
  {
  }

  /** The lookup of matching actions inside the loop: `tag in action.text`
      raises on the first action without a text. */
  method StepMatches(actions: seq<Action>, tag: string) returns (m: Option<seq<Action>>)
    ensures m.None? <==> !AllTexted(actions)
    ensures m.Some? ==> m.value == MatchingActions(actions, tag)
  {
    var found: seq<Action> := [];
    var j := 0;
    while j < |actions|
      invariant 0 <= j <= |actions|
      invariant AllTexted(actions[..j]) && found == MatchingActions(actions[..j], tag)
    {
      assert actions[..j + 1][..j] == actions[..j];
      var text := actions[j].text;
      if text.None? {
        return None;
      }
      if Contains(text.value, tag) {
        found := found + [actions[j]];
      }
      j := j + 1;
    }
    assert actions[..j] == actions;
    return Some(found);
  }

  /** `_create_synchronized_text`: one entry per step, in order; it raises
      (`None`) when there is a step and some action has no text. */
  method CreateSynchronizedText(steps: seq<string>, actions: seq<Action>) returns (r: Option<seq<SyncEntry>>)
    ensures r.None? <==> steps != [] && !AllTexted(actions)
    ensures r.Some? ==> r.value == SyncFold(steps, actions).entries
  {
    var entries: seq<SyncEntry> := [];
    var current := 0;
    var i := 0;
    while i < |steps|
      invariant 0 <= i <= |steps|
      invariant i > 0 ==> AllTexted(actions)
      invariant SyncState(entries, current) == SyncFold(steps[..i], actions)
    {
      assert steps[..i + 1][..i] == steps[..i];
      var m := StepMatches(actions, StepLabel(i));
      if m.None? {
        return None;
      }
      var start, end;
      if m.value != [] {
        start, end := MinDelay(m.value), MaxEnd(m.value);
      } else {
        start, end := current, current + 2000;
      }
      entries := entries + [SyncEntry(steps[i], start, end, i, "normal")];
      current := end + 500;
      i := i + 1;
    }
    assert steps[..i] == steps;
    return Some(entries);
  }

  // ---------------------------------------------------------------------
  // Demonstrations
  // ---------------------------------------------------------------------

  datatype Demonstration = Demonstration(id: string, title: string, description: string, actions: seq<Action>,
                                         totalDurationMs: int, sync: seq<SyncEntry>, canvas: Canvas)

  /** Python's `s[:n]` for `n >= 0`. */
  function Prefix(s: string, n: nat): (r: string)
    ensures |r| == if n < |s| then n else |s|
    ensures r == s[..|r|]
  {
    if n < |s| then s[..n] else s
  }

  /** `create_error_correction_actions`: a highlight on the error, the
      correction below it and an arrow up to it, 400 ms apart. */
  function ErrorCorrectionActions(at: (real, real), correction: string, ids: nat -> string): (actions: seq<Action>)
    ensures |actions| == 3
    ensures actions[0].kind == Highlight && actions[1].kind == AddText && actions[2].kind == DrawArrow
    ensures actions[0].delayMs == 0 && actions[1].delayMs == 400 && actions[2].delayMs == 800
    ensures actions[1].text == Some(correction)
    ensures forall i :: 0 <= i < 3 ==> Span(actions[i]) <= 1400
  {
    [Act(ids(0), Highlight, [at.0 - 20.0, at.1 - 10.0, 40.0, 20.0], DEFAULT_STYLE.(color := "#ef4444", opacity := 0.3),
         None, FadeIn, 800, 0),
     Act(ids(1), AddText, [at.0, at.1 + 40.0], DEFAULT_STYLE.(color := "#dc2626", fontSize := 12),
         Some(correction), FadeIn, 1000, 400),
     Act(ids(2), DrawArrow, [at.0, at.1 + 30.0, at.0, at.1 + 5.0], DEFAULT_STYLE.(color := "#dc2626", strokeWidth := 2),
         None, DrawOn, 600, 800)]
  }

  /** One step of a step-by-step solution: the equation to show, and the
      explanation and narration when given. */
  datatype SolutionStep = SolutionStep(equation: Option<string>, explanation: Option<string>, narration: Option<string>)

  /** Every step has an equation and an explanation. The explanation is
      needed even when a narration is given, because the default of the
      narration lookup is built before the lookup. */
  predicate Complete(steps: seq<SolutionStep>)
  {
    forall i :: 0 <= i < |steps| ==> steps[i].equation.Some? && steps[i].explanation.Some?
  }

  /** The `KeyError` raised for the first incomplete step. */
  function MissingKey(steps: seq<SolutionStep>): (msg: Option<string>)
    ensures msg.None? <==> Complete(steps)
  {
    if steps == [] then None
    else if steps[0].equation.None? then Some("'equation'")
    else if steps[0].explanation.None? then Some("'explanation'")
    else
      var rest := MissingKey(steps[1..]);
      assert forall i :: 1 <= i < |steps| ==> steps[i] == steps[1..][i - 1];
      rest
  }

  lemma {:induction false} MissingKeyPrefix(steps: seq<SolutionStep>, i: nat)
    requires i < |steps| && Complete(steps[..i])
    ensures steps[i].equation.None? ==> MissingKey(steps) == Some("'equation'")
    ensures steps[i].equation.Some? && steps[i].explanation.None? ==> MissingKey(steps) == Some("'explanation'")
  {
    if i > 0 {
      assert steps[0] == steps[..i][0];
      assert steps[1..][..i - 1] == steps[..i][1..];
      MissingKeyPrefix(steps[1..], i - 1);
    }
  }

  /** The narrated text of a step: its narration, or "Step n: " and its explanation. */
  function Narration(step: SolutionStep, i: nat): string
    requires step.explanation.Some?
  {
    if step.narration.Some? then step.narration.value else StepLabel(i) + ": " + step.explanation.value
  }

  /** The first `n` steps are shown: after the opening equation, two text
      actions and one narrated entry per step, 2000 ms apart. */
  predicate Shown(actions: seq<Action>, sync: seq<SyncEntry>, steps: seq<SolutionStep>, n: nat)
  {
    && n <= |steps| && |actions| == 1 + 2 * n && |sync| == 1 + n
    && forall j :: 0 <= j < n ==>
         && steps[j].explanation.Some?
         && actions[1 + 2 * j].text == steps[j].equation && actions[1 + 2 * j].delayMs == 1500 + 2000 * j
         && actions[2 + 2 * j].text == steps[j].explanation && actions[2 + 2 * j].delayMs == 1900 + 2000 * j
         && sync[j + 1] == SyncEntry(Narration(steps[j], j), 1500 + 2000 * j, 2700 + 2000 * j, j + 1, "normal")
  }

  /** Showing one more step keeps what was shown and adds that step. */
  lemma ShownStep(actions: seq<Action>, sync: seq<SyncEntry>, steps: seq<SolutionStep>, i: nat,
                  shown: Action, explained: Action)
    requires Shown(actions, sync, steps, i) && i < |steps| && steps[i].explanation.Some?
    requires shown.text == steps[i].equation && shown.delayMs == 1500 + 2000 * i
    requires explained.text == steps[i].explanation && explained.delayMs == 1900 + 2000 * i
    ensures Shown(actions + [shown, explained],
                  sync + [SyncEntry(Narration(steps[i], i), 1500 + 2000 * i, 2700 + 2000 * i, i + 1, "normal")],
                  steps, i + 1)
  {
  }

  class WhiteboardService {
    /** `active_demonstrations` */
    var demos: map<string, Demonstration>

    constructor ()
      ensures demos == map[]
    {
      demos := map[];
    }

    /** `create_visual_demonstration`: on success the demonstration, whose
        total duration is the total span of its actions, is stored under
        its id; when building it raises, an empty demonstration is returned
        and nothing is stored. */
    method CreateVisualDemonstration(problem: string, steps: seq<string>, c: Canvas,
                                     demoId: string, fallbackId: string, ids: nat -> string)
      returns (d: Demonstration)
      modifies this
      ensures var actions := GenFold(steps, c, ids, InitialTimeline(problem, c, ids)).actions;
        if steps != [] && !AllTexted(actions) then
          && d == Demonstration(fallbackId, "Error in demonstration", problem, [], 0, [], c)
          && demos == old(demos)
        else
          && d == Demonstration(demoId, "Solution: " + Prefix(problem, 50) + "...", problem, actions,
                                TotalSpan(actions), SyncFold(steps, actions).entries, c)
          && demos == old(demos)[demoId := d]
    {
      var actions := GenerateDemonstrationActions(problem, steps, c, ids);
      var sync := CreateSynchronizedText(steps, actions);
      if sync.None? {
        return Demonstration(fallbackId, "Error in demonstration", problem, [], 0, [], c);
      }
      d := Demonstration(demoId, "Solution: " + Prefix(problem, 50) + "...", problem, actions,
                         TotalSpan(actions), sync.value, c);
      demos := demos[demoId := d];
    }

    /** `get_demonstration` */
    method GetDemonstration(id: string) returns (d: Option<Demonstration>)
      ensures d.Some? <==> id in demos
      ensures d.Some? ==> d.value == demos[id]
    {
      if id in demos {
        return Some(demos[id]);
      }
      return None;
    }

    /** `clear_demonstration`: true exactly when there was one to remove. */
    method ClearDemonstration(id: string) returns (ok: bool)
      modifies this
      ensures ok <==> id in old(demos)
      ensures demos == old(demos) - {id}
    {
      ok := id in demos;
      demos := demos - {id};
    }

    /** `create_step_by_step_solution`: the equation for one second, then
        every 2000 ms a step's equation and its explanation 400 ms later.
        The demonstration is not stored. */
    method CreateStepByStepSolution(equation: string, steps: seq<SolutionStep>, c: Canvas,
                                    demoId: string, ids: nat -> string)
      returns (r: Result<Demonstration>)
      ensures r.Err? <==> !Complete(steps)
      ensures r.Err? ==> Some(r.msg) == MissingKey(steps)
      ensures r.Ok? ==>
        var d := r.value;
        && d.id == demoId && d.canvas == c
        && d.title == "Solving: " + equation && d.description == "Step-by-step solution for " + equation
        && Shown(d.actions, d.sync, steps, |steps|)
        && d.totalDurationMs == 1500 + 2000 * |steps|
        && d.actions[0].text == Some(equation) && d.actions[0].delayMs == 0
        && d.sync[0] == SyncEntry("Let's solve the equation: " + equation, 0, 1000, 0, "strong")
    {
      var x := c.0 / 2 - |equation| * 5;
      var actions := [Act(ids(0), AddText, [x as real, 100.0], DEFAULT_STYLE.(color := "#1f2937", fontSize := 20),
                          Some(equation), FadeIn, 1000, 0)];
      var sync := [SyncEntry("Let's solve the equation: " + equation, 0, 1000, 0, "strong")];
      var current := 1500;
      var i := 0;
      while i < |steps|
        invariant 0 <= i <= |steps|
        invariant Complete(steps[..i])
        invariant current == 1500 + 2000 * i
        invariant Shown(actions, sync, steps, i)
        invariant actions[0].text == Some(equation) && actions[0].delayMs == 0
        invariant sync[0] == SyncEntry("Let's solve the equation: " + equation, 0, 1000, 0, "strong")
      {
        var step := steps[i];
        MissingKeyPrefix(steps, i);
        if step.equation.None? {
          return Err("'equation'");
        }
        var y := 100 + (i + 1) * 60;
        var shown := Act(ids(|actions|), AddText, [(c.0 / 2 - |step.equation.value| * 5) as real, y as real],
                         DEFAULT_STYLE.(color := "#2563eb", fontSize := 18), step.equation, FadeIn, 800, current);
        if step.explanation.None? {
          return Err("'explanation'");
        }
        var explained := Act(ids(|actions| + 1), AddText, [50.0, (y + 25) as real],
                             DEFAULT_STYLE.(color := "#6b7280", fontSize := 14), step.explanation, FadeIn, 600, current + 400);
        var narration := if step.narration.Some? then step.narration.value
                         else StepLabel(i) + ": " + step.explanation.value;
        assert narration == Narration(step, i);
        ShownStep(actions, sync, steps, i, shown, explained);
        actions := actions + [shown, explained];
        sync := sync + [SyncEntry(narration, current, current + 1200, i + 1, "normal")];
        current := current + 2000;
        assert steps[..i + 1] == steps[..i] + [step];
        i := i + 1;
      }
      assert steps[..i] == steps;
      r := Ok(Demonstration(demoId, "Solving: " + equation, "Step-by-step solution for " + equation,
                            actions, current, sync, c));
    }
  }

  // ---------------------------------------------------------------------
  // Browser format
  // ---------------------------------------------------------------------

  datatype FrontendStyle = FrontendStyle(color: string, strokeWidth: int, fillColor: Option<string>,
                                         opacity: real, fontSize: int, fontFamily: string)

  datatype FrontendAction = FrontendAction(id: string, kind: string, coords: seq<real>, style: FrontendStyle,
                                           text: Option<string>, animationStyle: string, duration: int, delay: int,
                                           metadata: map<string, Json>)

  function ToFrontend(a: Action): FrontendAction
  {
    FrontendAction(a.id, a.kind.Value(), a.coords,
                   FrontendStyle(a.style.color, a.style.strokeWidth, a.style.fillColor, a.style.opacity,
                                 a.style.fontSize, a.style.fontFamily),
                   a.text, a.animation.Value(), a.durationMs, a.delayMs, a.metadata)
  }

  /** Reading an action back from the browser format; unknown kinds or
      animation styles are refused. */
  function FromFrontend(f: FrontendAction): Option<Action>
  {
    match (DrawingActionOf(f.kind), AnimationStyleOf(f.animationStyle))
    case (Some(k), Some(s)) =>
      Some(Action(f.id, k, f.coords, Style(f.style.color, f.style.strokeWidth, f.style.fillColor, f.style.opacity,
                                           None, f.style.fontSize, f.style.fontFamily),
                  f.text, s, f.duration, f.delay, f.metadata))
    case _ => None
  }

  /** The browser format keeps everything about an action except its dash pattern. */
  lemma FrontendRoundTrip(a: Action)
    ensures FromFrontend(ToFrontend(a)) == Some(a.(style := a.style.(dashPattern := None)))
  {
    ValuesRoundTrip(a.kind, a.animation);
  }

  /** `convert_actions_to_frontend_format`: one entry per action, in order. */
  function ConvertActionsToFrontendFormat(actions: seq<Action>): (out: seq<FrontendAction>)
    ensures |out| == |actions|
    ensures forall i :: 0 <= i < |actions| ==>
      && out[i].id == actions[i].id && out[i].kind == actions[i].kind.Value()
      && out[i].coords == actions[i].coords && FromFrontend(out[i]).Some?
  {
    seq(|actions|, i requires 0 <= i < |actions| => ToFrontend(actions[i]))
  }
}

=== FILE: wrappers.dfy ===
/** Optional values and results with an error text, the shapes used for
    Python's `None` returns and raised exceptions throughout the model. */
module Wrappers {
  datatype Option<T> = None | Some(value: T)
  {
    function GetOr(default: T): T
    {
      if Some? then value else default
    }
  }

  /** `Err(msg)` stands for a raised exception whose message is `msg`. */
  datatype Result<T> = Ok(value: T) | Err(msg: string)

  /** Python truthiness of an optional string: `None` and `""` are falsy. */
  predicate Truthy(s: Option<string>)
  {
    s.Some? && s.value != ""
  }
}
